=== FILE: README.md ===
# Orion long-term memory, modelled in Dafny

This project models the deterministic core of the `custom_ltm` package of the
Orion assistant. The package gives a local chat model a long-term memory held
in ChromaDB collections. The model covers five parts of it:

- **The memory-point sentencer.** This is `memory_sentencer.py` and its inlined
  copy in `orion_ltm_integration.py`. It splits a turn into sentences and
  condenses each to at most 220 characters. It picks the top keywords and
  labels each point's sentiment and emotion. It scores importance and builds
  up to `max_points` points.
- **Prefer-sentenced retrieval.** This is `orion_memory.py`,
  `orion_ltm_integration.py` and `auto_memory.py`. It queries the sentenced
  tier first, then tops up from the raw tier with hits whose ids are new. It
  sorts by (query, distance). The integration version also drops repeated
  texts and cuts the result to `n_results`. The model also covers the context
  block that `get_relevant_ltm` builds from these hits.
- **Turn ingestion.** This is `add_turn` / `_add_turn`. A raw record and its
  sentenced points are upserted into a two-tier store.
- **The web crawler.** This is the URL filter and bounded breadth-first crawl
  of `subcommands/orion_net_ingest.py`, plus its older variant in
  `policy_loader.py`.
- **The seeding scripts.** These are the persona and episodic seeders:
  `orion_ctl.py`, `seed_orion_persona.py`, `seed_episodic_memory.py` and their
  `subcommands/` versions. The transcript merger `chat_2ltm.py` is also here.

Everything outside the program's own logic is a parameter: ChromaDB, HTTP,
HTML parsing, URL parsing, regular-expression matching of user-supplied
patterns, SHA-1/SHA-256 and the clock. For example, a collection is a
`map<string, Record>` and a query result is a given matrix of hits. A hash is
a function that returns a hex string of the right length. The crawler's
fetch, link extraction and time budget come in an `Env` record.

## Layout

| file | module | models |
|---|---|---|
| `wrappers.dfy` | `Wrappers` | `Option` and Python's `x or fallback` |
| `seqs.dfy` | `Seqs` | filter, slice, order-preserving dedup, subsequences |
| `text.dfy` | `Text` | `strip`, `lower`, `split`, `splitlines`, `str(n)`, `{:06d}` |
| `lexicon.dfy` | `Lexicon` | `\b(w1\|w2…)\b` regex search and `findall` counting |
| `sorting.dfy` | `Sorting` | Python's stable `list.sort` on (query, distance) keys |
| `hashing.dfy` | `Hashing` | the id formats built from SHA-1 digests |
| `memory_sentencer.dfy` | `MemorySentencer` | `memory_sentencer.py` and the inlined copy |
| `retrieval.dfy` | `Retrieval` | `_flatten_query` and `prefer_sentenced` |
| `ltm_integration.dfy` | `LtmIntegration` | `_prefer_sentenced` with text dedup, `get_relevant_ltm` |
| `auto_memory.dfy` | `AutoMemory` | `retrieve` |
| `turn_store.dfy` | `TurnStore` | `add_turn` and `_add_turn` |
| `web_common.dfy` | `WebCommon` | policy records, `normalize`, `same_reg_domain`, the hard denylist, link extraction, `_fetch`, `_summarize_canonical` |
| `crawl.dfy` | `Crawl` | crawl state, page/depth clamping, failure counters |
| `net_ingest.dfy` | `NetIngest` | `OrionNetIngest`: `_url_allowed`, `_detect_injection`, `ingest_web` |
| `policy_loader.dfy` | `PolicyLoader` | `url_allowed` and `WebIngestor.crawl_and_ingest` |
| `chat_2ltm.dfy` | `Chat2Ltm` | `parse_log_file`, `deduplicate_memories` |
| `seed_common.dfy` | `SeedCommon` | the shared persona line filter, turn shaping, `collection.add` |
| `orion_ctl.dfy` | `OrionCtl` | `seed-persona`, `seed-episodic`, `make-episodic-sentences` |
| `seed_orion_persona.dfy` | `SeedOrionPersona` | the older `seed_orion_persona.py` |
| `seed_episodic_memory.dfy` | `SeedEpisodicMemory` | the older `seed_episodic_memory.py` |
| `persona_subcommand.dfy` | `PersonaSubcommand` | `subcommands/seed_orion_persona.py` |
| `episodic_subcommand.dfy` | `EpisodicSubcommand` | `subcommands/seed_episodic_memory.py` |

## Model

| member | source | states |
|---|---|---|
| `Wrappers.OrElse` | custom_ltm/chat_2ltm.py:29 | `x or fallback` on an optional string gives the value exactly when it is present and non-empty, and the fallback otherwise |
| `Seqs.Take` | custom_ltm/orion_ltm_integration.py:116 | Python's `s[:n]` is a prefix of `s`: of length `min(n, len(s))` for `n >= 0`, and `n` short of the end for negative `n` |
| `Seqs.Filter` | custom_ltm/memory_sentencer.py:13 | a list comprehension keeps exactly the elements that pass, in their original order |
| `Seqs.FilterConcat` | custom_ltm/orion_memory.py:78 | filtering a concatenation filters each part |
| `Seqs.Dedup` | custom_ltm/policy_loader.py:231-236 | the seen-set loop yields a subsequence with no repeated key and the same key set; each element kept is the first one with its key |
| `Seqs.DedupAppend` | custom_ltm/policy_loader.py:233-235 | one step of the seen-set loop: an element is appended exactly when its key is new |
| `Seqs.DedupOfDistinct` | custom_ltm/chat_2ltm.py:53-61 | dedup leaves a list with distinct keys unchanged |
| `Seqs.DedupIdempotent` | custom_ltm/chat_2ltm.py:53-61 | deduplicating twice gives the same as deduplicating once |
| `Seqs.DedupPrefix` | custom_ltm/orion_ltm_integration.py:116 | any prefix of a dedup still has distinct keys, and each element is the first with its key |
| `Seqs.DedupFilterPrefix` | custom_ltm/orion_ltm_integration.py:106-116 | a prefix of dedup-after-filter holds only elements that pass the filter and that are first with their key |
| `Seqs.DedupById` | custom_ltm/orion_ctl.py:185-186 | `list(dict.fromkeys(xs))` has no duplicates and the same members as `xs` |
| `Seqs.NumberedShape` | custom_ltm/seed_episodic_memory.py:41-58 | numbering the kept elements with a running counter gives the `k`-th kept element the number `k` |
| `Seqs.SubseqTrans` | custom_ltm/orion_ltm_integration.py:100-116 | a subsequence of a subsequence is a subsequence |
| `Seqs.FlattenMembers` | custom_ltm/orion_ctl.py:228-251 | concatenating per-file lists keeps every element of every file and adds none |
| `Text.Lower` | custom_ltm/memory_sentencer.py:12 | `str.lower()` maps each character to its lower-case form and keeps the length |
| `Text.Strip` | custom_ltm/memory_sentencer.py:9 | `str.strip()` has no outer whitespace, is empty exactly for an all-whitespace string, and leaves a stripped string unchanged |
| `Text.LStrip` | custom_ltm/memory_sentencer.py:8 | `str.lstrip()` drops exactly the leading whitespace |
| `Text.RStrip` | custom_ltm/memory_sentencer.py:9 | `str.rstrip()` drops exactly the trailing whitespace |
| `Text.CollapseSpaces` | custom_ltm/orion_ltm_integration.py:110 | `re.sub(r"\s+", " ", s)` keeps the non-whitespace characters of `s` in order, leaves `' '` as its only whitespace, never two whitespace characters in a row, starts with whitespace iff `s` does, and is no longer than `s` |
| `Text.CollapsedIsFixed` | custom_ltm/orion_ltm_integration.py:110 | a text already holding only single `' '` runs is left unchanged |
| `Text.CollapseSpacesIdempotent` | custom_ltm/orion_ltm_integration.py:110 | collapsing twice equals collapsing once |
| `Text.Before` | custom_ltm/seed_orion_persona.py:31 | `s.split(sep)[0]` is the part of `s` before the first occurrence of `sep`, or all of `s` when there is none |
| `Text.After` | custom_ltm/seed_orion_persona.py:29 | the text after the first occurrence of `sep` ends `s`, and `sep` occurs nowhere earlier |
| `Text.SplitAtFirst` | custom_ltm/seed_orion_persona.py:29-42 | splitting `a + sep + b`, where `a` has no `sep`, at the first `sep` gives back `a` and `b` |
| `Text.Split` | custom_ltm/policy_loader.py:71 | `str.split(c)` has at least one part |
| `Text.SplitPartsFree` | custom_ltm/policy_loader.py:71 | no part of `str.split(c)` contains `c` |
| `Text.SplitJoins` | custom_ltm/policy_loader.py:71 | joining the parts of `str.split(c)` with `c` gives back the string |
| `Text.SplitPartsFreeOf` | custom_ltm/orion_ltm_integration.py:250 | a character absent from the string is absent from every part of `str.split(c)` |
| `Text.JoinSplits` | custom_ltm/orion_ltm_integration.py:250-251 | the other round trip: splitting `c.join(parts)` at `c` gives back any non-empty list of `c`-free parts |
| `Text.SplitLines` | custom_ltm/orion_ctl.py:52 | `str.splitlines()` yields lines without line breaks, none at all for the empty string, and the text itself as the one line when it has no break |
| `Text.SplitLinesAtBreak` | custom_ltm/orion_ctl.py:52 | a break-free `a` ended by a one-character boundary (not the `\r` of `\r\n`) is the first line, and the rest are the lines of what follows |
| `Text.SplitLinesAtCrLf` | custom_ltm/orion_ctl.py:52 | `\r\n` ends a line as a single boundary: `a + "\r\n" + b` gives `a`, then the lines of `b` |
| `Text.NatToString` | custom_ltm/seed_episodic_memory.py:30 | `str(n)` is a non-empty digit string, one digit long exactly when `n < 10` |
| `Text.NatToStringInjective` | custom_ltm/seed_episodic_memory.py:30 | different counters print differently |
| `Text.Pad6` | custom_ltm/orion_ctl.py:246 | `f"{i:06d}"` is `str(i)` behind zeros up to six characters: length `max(6, len(str(i)))`, all digits |
| `Text.Pad6Injective` | custom_ltm/orion_ctl.py:246 | different indices pad to different strings |
| `Lexicon.FirstAlternative` | custom_ltm/memory_sentencer.py:17 | at a word start, the regex alternation takes the first lexicon word that is spelled there and ends at a word boundary, or none if no word does |
| `Lexicon.MatchAtStart` | custom_ltm/memory_sentencer.py:17 | the pattern matches at the start of a text exactly when no word character precedes it and some lexicon word is spelled there up to a word boundary |
| `Lexicon.FindAllCountIsTokenCount` | custom_ltm/memory_sentencer.py:17-18 | the number of `re.findall` matches of `\b(w1\|…)\b` equals the number of whole word-character runs that are lexicon words |
| `Lexicon.FindAllPositiveIffMatch` | custom_ltm/memory_sentencer.py:24 | `findall` finds something exactly when the pattern matches at some position |
| `Lexicon.TokenCountPositive` | custom_ltm/memory_sentencer.py:17 | the lexicon count is positive exactly when some word of the text is in the lexicon |
| `Lexicon.SearchIffMentions` | custom_ltm/memory_sentencer.py:24-27 | `re.search` of a word-bounded alternation succeeds exactly when some word of the text is in the lexicon |
| `Sorting.Insert` | custom_ltm/orion_memory.py:82 | inserting into a sorted list adds exactly one element and keeps the others |
| `Sorting.InsertSorted` | custom_ltm/orion_memory.py:82 | insertion keeps a list sorted by key |
| `Sorting.StableSort` | custom_ltm/orion_memory.py:82 | `list.sort(key=…)` returns a permutation of its input, sorted by the key |
| `Sorting.StableSortIsStable` | custom_ltm/orion_memory.py:82 | elements with equal keys keep their relative order, as Python's sort guarantees |
| `Hashing.EpisodicIdOfKey` | custom_ltm/orion_ctl.py:68-69 | `episodic_id(key)` is "episodic_" followed by the first 16 hex digits of the key's SHA-1 |
| `Hashing.EpisodicId` | custom_ltm/auto_memory.py:36-37 | the raw turn id is the episodic id of the key `session\|role\|text\|when` |
| `Hashing.SentenceId` | custom_ltm/memory_sentencer.py:64-66 | `sentence_id(key, text)` is "sent_" followed by 16 hex digits of the SHA-1 of `key\|text` |
| `Hashing.SentenceIdJoinIsAmbiguous` | custom_ltm/auto_memory.py:39-40 | the bare `\|` join makes the key ambiguous: parent `a\|b` with text `c` and parent `a` with text `b\|c` get the same sentence id |
| `Hashing.SentenceIdIsNotEpisodicId` | custom_ltm/orion_ltm_integration.py:259-263 | a sentence id never equals a raw turn id, whatever the digests are |
| `Hashing.Sha12` | custom_ltm/orion_ctl.py:71-72 | `sha12` is the first 12 hex digits of the SHA-1 |
| `Hashing.StableId` | custom_ltm/subcommands/seed_orion_persona.py:50-52 | `stable_id(prefix, text)` is `prefix + "_"` followed by 12 hex digits of the text's SHA-1 |
| `MemorySentencer.FirstBreak` | custom_ltm/memory_sentencer.py:8 | the split point of `(?<=[.!?])\s+` is the first place where a terminator is followed by whitespace |
| `MemorySentencer.SplitAtBreaks` | custom_ltm/memory_sentencer.py:8 | `re.split` always yields at least one part |
| `MemorySentencer.SplitAtBreaksParts` | custom_ltm/memory_sentencer.py:8 | splitting stripped text gives clean parts, each ending in a terminator except possibly the last |
| `MemorySentencer.SplitAtBreaksKeepsVisible` | custom_ltm/memory_sentencer.py:8 | splitting loses no non-whitespace character |
| `MemorySentencer.StripNonBlank` | custom_ltm/memory_sentencer.py:9 | the kept parts are non-empty and stripped |
| `MemorySentencer.SplitSentences` | custom_ltm/memory_sentencer.py:7-9 | every sentence is non-empty and stripped, all but the last end in `.`, `!` or `?`, and the result is empty exactly for blank text |
| `MemorySentencer.SplitSentencesKeepsVisible` | custom_ltm/memory_sentencer.py:7-9 | the sentences hold exactly the text's non-whitespace characters, in order |
| `MemorySentencer.SplitSentencesOfSentence` | custom_ltm/memory_sentencer.py:47-48 | re-splitting one sentence gives that sentence back, so `condense(sent)` sees a single sentence |
| `MemorySentencer.KeywordTokens` | custom_ltm/memory_sentencer.py:12 | each `[A-Za-z][A-Za-z0-9_-]+` match starts with a letter, is at least two characters long and holds only keyword characters |
| `MemorySentencer.Candidates` | custom_ltm/memory_sentencer.py:12-13 | each candidate word is lower-case, longer than two characters and not a stop word |
| `MemorySentencer.RankedFacts` | custom_ltm/memory_sentencer.py:14 | `Counter.most_common` lists each distinct word once, by descending count |
| `MemorySentencer.TopKeywords` | custom_ltm/memory_sentencer.py:11-14 | at most `k` keywords, pairwise distinct |
| `MemorySentencer.TopKeywordsRanked` | custom_ltm/memory_sentencer.py:11-14 | the keywords are `min(k, #distinct)` candidate words, by descending count, and no left-out candidate is more frequent than a chosen one |
| `MemorySentencer.TopFacts` | custom_ltm/memory_sentencer.py:14 | the first `k` of the ranking are distinct, ordered by count, and beat every word left out |
| `MemorySentencer.TopKeywordsTies` | custom_ltm/memory_sentencer.py:14 | among words with equal counts, the chosen ones are the first seen in the text, in order of first appearance |
| `MemorySentencer.SentimentLabel` | custom_ltm/memory_sentencer.py:16-21 | "positive" iff positive hits exceed negative hits by 2 or more, "negative" iff the reverse, "neutral" otherwise |
| `MemorySentencer.EmotionLabel` | custom_ltm/memory_sentencer.py:23-28 | anxiety before anger before joy before sadness; "neutral" iff no lexicon matches |
| `MemorySentencer.PronounAtAgrees` | custom_ltm/memory_sentencer.py:33 | the anchored pronoun test at one position is a case-sensitive whole-word match |
| `MemorySentencer.PronounRulesAgree` | custom_ltm/orion_ltm_integration.py:149 | the anchored pronoun regex of the sentencer and the `\b` one of the inlined copy accept the same texts |
| `MemorySentencer.AnchoredIsBounded` | custom_ltm/memory_sentencer.py:33 | a match of `(^\|\W)(I\|we\|you)($\|\W)` is a `\b`-bounded pronoun |
| `MemorySentencer.BoundedIsAnchored` | custom_ltm/orion_ltm_integration.py:149 | a `\bI\b\|\bwe\b\|\byou\b` match is an anchored pronoun |
| `MemorySentencer.BoundedAtIsAnchored` | custom_ltm/orion_ltm_integration.py:149 | a word-bounded pronoun at one position is an anchored match |
| `MemorySentencer.Importance` | custom_ltm/memory_sentencer.py:30-36 | the score is the nearest hundredth to `min(1.0, 0.6·task + 0.4·pronoun + 0.3·number + 0.3·min(len, 400)/400)`, with "task" meaning some word of the text is a task word; so at most 1.00, at least 0.60 with a task word, 1.00 with a task word and a pronoun, at most 0.30 with no cue |
| `MemorySentencer.ImportanceRuleIndependent` | custom_ltm/orion_ltm_integration.py:146-152 | the inlined `_importance` scores every text as `importance_score` does |
| `MemorySentencer.FirstSalient` | custom_ltm/memory_sentencer.py:41-42 | the first sentence that mentions a salience word, with none before it |
| `MemorySentencer.PickSentence` | custom_ltm/memory_sentencer.py:41-42 | the picked sentence is the first salient one, or the first sentence when none is salient |
| `MemorySentencer.Truncate` | custom_ltm/memory_sentencer.py:43 | `s[:n]` is the prefix of length `min(n, len(s))` |
| `MemorySentencer.Condense` | custom_ltm/memory_sentencer.py:38-43 | `None` iff the text is blank; otherwise a stripped string of at most `max_chars` characters, non-empty when `max_chars > 0` |
| `MemorySentencer.CondensePicksFirstSalient` | custom_ltm/memory_sentencer.py:38-43 | the condensed text is the stripped 220-character cut of the first salient sentence, or of the first sentence when none is salient |
| `MemorySentencer.CondensedNotBlank` | custom_ltm/memory_sentencer.py:43 | cutting and stripping a clean sentence leaves a non-empty, stripped string within the limit |
| `MemorySentencer.CondenseOfSentence` | custom_ltm/memory_sentencer.py:48-49 | condensing one sentence gives its stripped cut, which is never empty, so the `if not short` branch never fires |
| `MemorySentencer.PointOf` | custom_ltm/memory_sentencer.py:51-61 | a point copies role, session and timestamp, carries the top-5 keywords, and its tags are the role plus the keywords |
| `MemorySentencer.PointFor` | custom_ltm/memory_sentencer.py:48-61 | every point built from a sentence is well formed: text 1–220 chars, keywords at most 5 and distinct, tags = {role} ∪ keywords, importance ≤ 1.00 |
| `MemorySentencer.PointsOfWellFormed` | custom_ltm/memory_sentencer.py:47-61 | the loop yields at most one well-formed point per sentence |
| `MemorySentencer.MakeMemoryPoints` | custom_ltm/memory_sentencer.py:45-62 | at most `max_points` points, or for a negative `max_points` at most the sentence count minus \|`max_points`\|, as Python's `[:max_points]` slice keeps; each well formed for the given role, session and timestamp, and none for blank text |
| `MemorySentencer.OnePointPerSentence` | custom_ltm/memory_sentencer.py:47-49 | the point texts are exactly the condensed sentences of `split_sentences(raw)[:max_points]`, a negative `max_points` included, one per sentence |
| `MemorySentencer.PointsOfSentences` | custom_ltm/memory_sentencer.py:47-51 | over clean sentences, the point texts are the condensed sentences |
| `MemorySentencer.PointsOfRuleIndependent` | custom_ltm/orion_ltm_integration.py:161-176 | the points do not depend on which pronoun regex scores them |
| `MemorySentencer.InlinedCopyAgrees` | custom_ltm/orion_ltm_integration.py:161-176 | `_make_points` returns the same points as `make_memory_points` |
| `Retrieval.RowHits` | custom_ltm/orion_memory.py:38-46 | one hit per id of query row `q`, in rank order |
| `Retrieval.FlattenResultFrom` | custom_ltm/orion_ltm_integration.py:61-71 | flattening from row `q` gives one faithful hit per cell, in row-major order |
| `Retrieval.FlattenResult` | custom_ltm/orion_memory.py:31-47 | `_flatten_query` emits one hit per (query, rank) cell, each equal to its cell, in row-major order |
| `Retrieval.FlattenResultComplete` | custom_ltm/orion_ltm_integration.py:54-72 | every cell of the result matrix appears among the flattened hits |
| `Retrieval.Unseen` | custom_ltm/orion_memory.py:78 | the pool keeps, in order, exactly the raw hits whose id is not a sentenced id |
| `Retrieval.TopUp` | custom_ltm/orion_memory.py:69-79 | the top-up is a prefix of the unseen pool of length `min(max(0, n − #sentenced), #unseen)`, and never shares an id with a sentenced hit |
| `Retrieval.Merge` | custom_ltm/orion_memory.py:57-83 | the raw tier is queried iff fallback is on and there are fewer than `n_results` sentenced hits; the result is a permutation of sentenced ++ top-up, sorted by (query, distance) with missing distances last, and stable |
| `Retrieval.MergeKeepsSentenced` | custom_ltm/orion_memory.py:79-83 | every sentenced hit is returned; every other hit comes from the raw tier and has a new id; there are at most `max(n, #sentenced)` |
| `AutoMemory.Retrieve` | custom_ltm/auto_memory.py:89-100 | `retrieve` returns all sentenced hits; with enough of them, exactly those; otherwise plus as many unseen raw hits as are missing and available; sorted |
| `LtmIntegration.HasTextIffNotBlank` | custom_ltm/orion_ltm_integration.py:109-111 | a hit's dedup key is non-empty exactly when its document is not blank |
| `LtmIntegration.PreferSentenced` | custom_ltm/orion_ltm_integration.py:74-116 | at most `n_results` hits, in the merged order, each non-blank and first with its normalised text, no two sharing one, and still sorted |
| `LtmIntegration.DedupByText` | custom_ltm/orion_ltm_integration.py:106-114 | the loop keeps the first hit of each non-empty whitespace-collapsed lower-cased text |
| `LtmIntegration.DedupStep` | custom_ltm/orion_ltm_integration.py:108-114 | one loop step appends a hit exactly when its key is non-empty and unseen |
| `LtmIntegration.TakeKeepsOrder` | custom_ltm/orion_ltm_integration.py:116 | the truncated list is a subsequence of the sorted hits and so is itself sorted |
| `LtmIntegration.TakeKeepsFirsts` | custom_ltm/orion_ltm_integration.py:116 | truncation keeps only first occurrences with distinct keys |
| `LtmIntegration.TagPreview` | custom_ltm/orion_ltm_integration.py:250-251 | the preview has no `\|`, is the whole `tags_csv` when that has none, and when `tags_csv` has no comma its comma-separated parts are exactly the first three `\|`-separated tags |
| `LtmIntegration.PreviewSplits` | custom_ltm/orion_ltm_integration.py:250-251 | for comma-free tags the comma join of the first three `\|`-parts splits back into those parts |
| `LtmIntegration.HitLine` | custom_ltm/orion_ltm_integration.py:246-252 | a line starts "[SENTENCE " iff the metadata type is "episodic_sentence", else "[EPISODIC ", ends with "] " + the document, and between the two holds `imp=` + the rendered importance + ` tags=` + the tag preview |
| `LtmIntegration.PersonaLines` | custom_ltm/orion_ltm_integration.py:229-231 | the lines are exactly `"[PERSONA] " + doc` for the non-empty documents, in order, against the comprehension `Map(Filter(docs, Truthy), PersonaLine)` |
| `LtmIntegration.HitLines` | custom_ltm/orion_ltm_integration.py:245-252 | one line per hit, in order |
| `LtmIntegration.ContextLines` | custom_ltm/orion_ltm_integration.py:219-252 | persona lines first, then one line per episodic hit, in order |
| `LtmIntegration.GetRelevantLtm` | custom_ltm/orion_ltm_integration.py:211-255 | returns at most `max(1, topk_episodic)` hits with distinct normalised texts, and the context is the stripped newline join of the persona lines followed by the hit lines |
| `TurnStore.UpsertAll` | custom_ltm/auto_memory.py:86 | the stored ids become the old ids plus the batch ids; ids outside the batch keep their records; the last id of the batch holds the last record |
| `TurnStore.UpsertAllIsOverlay` | custom_ltm/auto_memory.py:86 | an upsert overlays the batch on the old map |
| `TurnStore.UpsertAllIdempotent` | custom_ltm/auto_memory.py:61-65 | upserting the same batch twice is the same as once |
| `TurnStore.SentenceIds` | custom_ltm/auto_memory.py:73-75 | the `i`-th sentenced id is `_sentence_id(raw_id, points[i].text)` |
| `TurnStore.SentRecords` | custom_ltm/auto_memory.py:76-84 | the `i`-th sentenced record holds the point's text and metadata, `parent_id` = `raw_id`, source "sentencer:v1" |
| `TurnStore.AddTurn` | custom_ltm/auto_memory.py:52-53 | `raw_id` is `None` iff the text is blank, and then the store is untouched and no sentenced ids are returned |
| `TurnStore.Stored` | custom_ltm/auto_memory.py:59-87 | storing a non-blank turn always yields a raw id |
| `TurnStore.AddTurnStores` | custom_ltm/auto_memory.py:55-87 | for non-blank text: `raw_id` = `_episodic_id(session, role, text, when)`, the raw tier gets exactly that record, at most 2 sentenced ids of the form `sent_…` equal to `_sentence_id(raw_id, text)`, all stored, and every new sentenced record points at `raw_id` |
| `TurnStore.SentBatch` | custom_ltm/auto_memory.py:72-86 | the sentenced batch stores every id it returns, and each new record's parent is the raw id |
| `TurnStore.AddTurnScope` | custom_ltm/orion_ltm_integration.py:299-301 | the sentenced tier gains exactly the returned ids and nothing else changes; no points leaves it as it was |
| `TurnStore.NewRecordsPointAt` | custom_ltm/auto_memory.py:79 | every record of a batch built for one raw id points at that raw id |
| `TurnStore.AddTurnIdempotent` | custom_ltm/auto_memory.py:55-87 | repeating a call with the same non-zero timestamp leaves both tiers and the result as after the first call |
| `TurnStore.StoredIdempotent` | custom_ltm/orion_ltm_integration.py:279-301 | storing the same turn at the same time twice is the same as once |
| `TurnStore.AddTurnRuleIndependent` | custom_ltm/orion_ltm_integration.py:271-301 | `_add_turn` with the inlined sentencer and `add_turn` with `make_memory_points` store the same thing |
| `WebCommon.Clamp` | custom_ltm/subcommands/orion_net_ingest.py:188-189 | `min(ceiling, override if given else default)` never exceeds the ceiling and equals the request when that is within it |
| `WebCommon.Normalize` | custom_ltm/subcommands/orion_net_ingest.py:142-151 | a URL normalises iff it resolves against the base to an http or https URL |
| `WebCommon.NormalizeParsesBack` | custom_ltm/subcommands/orion_net_ingest.py:142-151 | the normalised URL parses back to the same scheme kind, host and path, with the fragment dropped when asked (kept in `policy_loader.py`) |
| `WebCommon.LastTwoLabels` | custom_ltm/subcommands/orion_net_ingest.py:156 | `host.split(".")[-2:]` is the last one or two labels |
| `WebCommon.SameRegDomain` | custom_ltm/subcommands/orion_net_ingest.py:153-158 | two URLs share a registered domain iff both parse and their hosts end in the same two labels |
| `WebCommon.SameRegDomainIsEquivalence` | custom_ltm/policy_loader.py:68-73 | the same-domain test is reflexive, symmetric and transitive |
| `WebCommon.TwoLabels` | custom_ltm/policy_loader.py:71 | a two-label host is its own registered domain |
| `WebCommon.SubdomainLabels` | custom_ltm/policy_loader.py:71 | a subdomain keeps the two labels of its parent |
| `WebCommon.SubdomainSharesRegDomain` | custom_ltm/policy_loader.py:68-73 | a subdomain URL is in the same registered domain as its parent |
| `WebCommon.PdfTestIgnoresCase` | custom_ltm/policy_loader.py:75-76 | `is_pdf_url` ignores letter case |
| `WebCommon.PastebinIsHardDenied` | custom_ltm/subcommands/orion_net_ingest.py:61 | a pastebin.com URL matches the code-level denylist |
| `WebCommon.CaptchaIsHardDenied` | custom_ltm/subcommands/orion_net_ingest.py:61 | a www.captcha.net URL matches the `.captcha.` pattern of the code-level denylist |
| `WebCommon.WikipediaIsNotHardDenied` | custom_ltm/subcommands/orion_net_ingest.py:61 | an ordinary Wikipedia article URL does not match the code-level denylist |
| `WebCommon.WikipediaIsNotPdf` | custom_ltm/subcommands/orion_net_ingest.py:310 | an ordinary Wikipedia article URL is not a PDF |
| `WebCommon.WikipediaHostAllowed` | custom_ltm/subcommands/orion_net_ingest.py:302-303 | the "wikipedia.org" allowlist entry admits a language subdomain |
| `WebCommon.TrimSlashes` | custom_ltm/subcommands/orion_net_ingest.py:317 | `path.rstrip("/")` removes exactly the trailing slashes |
| `WebCommon.LinkCandidates` | custom_ltm/subcommands/orion_net_ingest.py:319-329 | a candidate is a normalised href that passes the PDF and same-path tests, and every href that does is a candidate |
| `WebCommon.ExtractLinks` | custom_ltm/subcommands/orion_net_ingest.py:315-334 | the links are pairwise distinct and each passes the PDF and same-path tests |
| `WebCommon.ExtractLinksOrder` | custom_ltm/subcommands/orion_net_ingest.py:330-334 | the links are the candidates in first-occurrence order: a subsequence holding every candidate, each at its first occurrence |
| `WebCommon.SamePathLinks` | custom_ltm/subcommands/orion_net_ingest.py:325-327 | under same-path preference every link's path starts with the seed path without its trailing "/" |
| `WebCommon.Tries` | custom_ltm/subcommands/orion_net_ingest.py:263 | `max(1, retries + 1)` is at least one |
| `WebCommon.FetchFrom` | custom_ltm/subcommands/orion_net_ingest.py:264-271 | the remaining attempts succeed iff one gets a 200 with content, and the body returned is that of the first such attempt |
| `WebCommon.FetchPage` | custom_ltm/subcommands/orion_net_ingest.py:262-271 | `_fetch` returns a page iff one of its tries succeeds, and the page is never empty |
| `WebCommon.Summarize` | custom_ltm/subcommands/orion_net_ingest.py:336-348 | the summary has the first 2000 characters as excerpt, 12 hex digits of SHA-256 of source + excerpt as hash, and empty facts, claims and quotes |
| `WebCommon.SummaryDependsOnExcerpt` | custom_ltm/subcommands/orion_net_ingest.py:337-338 | two texts with the same first 2000 characters give the same summary |
| `Crawl.SettingsFor` | custom_ltm/subcommands/orion_net_ingest.py:188-190 | depth is clamped to 5 and pages to 100, and the same-path flag is the override if given, else the policy's |
| `Crawl.SeedOf` | custom_ltm/subcommands/orion_net_ingest.py:192-194 | the seed is the normalised URL and exists iff that is non-empty |
| `Crawl.QueueStart` | custom_ltm/subcommands/orion_net_ingest.py:197-200 | the queue holding only the seed at depth 0, with the seed enqueued and nothing visited, satisfies the queue invariant |
| `Crawl.VisitNext` | custom_ltm/subcommands/orion_net_ingest.py:215-218 | the dequeued URL has not been visited yet, and marking it visited keeps the queue invariant |
| `Crawl.QueueGrows` | custom_ltm/subcommands/orion_net_ingest.py:253-257 | appending entries with new URLs keeps the queue invariant |
| `Crawl.TrailingFailures` | custom_ltm/subcommands/orion_net_ingest.py:224-233 | `failures` counts the failed fetches since the last success |
| `Crawl.CountOk` | custom_ltm/subcommands/orion_net_ingest.py:232 | `fetched` counts the successful fetches and is zero iff none succeeded |
| `Crawl.BreakerStep` | custom_ltm/subcommands/orion_net_ingest.py:226-229 | while below the breaker, a further fetch keeps every run of failures within the breaker |
| `Crawl.FetchLogGrows` | custom_ltm/subcommands/orion_net_ingest.py:216-218 | fetching a URL not fetched before keeps the fetch log free of repeats |
| `Crawl.CountersStep` | custom_ltm/subcommands/orion_net_ingest.py:225-233 | a success adds one to `fetched` and resets `failures`; a failure adds one to `failures` |
| `Crawl.CountedAtAppend` | custom_ltm/subcommands/orion_net_ingest.py:246-249 | adding a store adds exactly its fetch index to the set of stored fetches |
| `Crawl.UrlSetGrows` | custom_ltm/subcommands/orion_net_ingest.py:253-257 | a queue that extends another holds all of its URLs |
| `Crawl.VisitedQueued` | custom_ltm/subcommands/orion_net_ingest.py:197-218 | every visited URL was enqueued |
| `Crawl.FetchedGrows` | custom_ltm/subcommands/orion_net_ingest.py:224 | logging a fetch keeps every fetched URL and adds the new one |
| `NetIngest.Denied` | custom_ltm/subcommands/orion_net_ingest.py:284-293 | a host is denied iff some entry matches as a `*.` suffix, the exact host or a full regex match |
| `NetIngest.UrlAllowed` | custom_ltm/subcommands/orion_net_ingest.py:273-313 | a URL is allowed iff it is not hard-denied, its host is not denied, the allowlist is empty or admits it, it is in the seed's domain when required, and it is not a PDF unless PDFs are on |
| `NetIngest.HardDenyOverridesAllowlist` | custom_ltm/subcommands/orion_net_ingest.py:274-276 | a pastebin URL is refused even when pastebin.com is allowlisted |
| `NetIngest.StarEntryDeniesSuffix` | custom_ltm/subcommands/orion_net_ingest.py:285-286 | a `*.x` entry denies exactly the hosts ending in `.x` |
| `NetIngest.WikipediaRuleAllows` | custom_ltm/subcommands/orion_net_ingest.py:295-313 | with the allowlist ["wikipedia.org"], a Wikipedia article URL is allowed |
| `NetIngest.InjectionIgnoresCase` | custom_ltm/subcommands/orion_net_ingest.py:350-353 | injection detection ignores letter case |
| `NetIngest.NeedleIsDetected` | custom_ltm/subcommands/orion_net_ingest.py:351-353 | any needle in the lower-cased text is detected |
| `NetIngest.ShoutedNeedleIsDetected` | custom_ltm/subcommands/orion_net_ingest.py:351-353 | "SYSTEM PROMPT" anywhere in a page is detected |
| `NetIngest.FetchNext` | custom_ltm/subcommands/orion_net_ingest.py:215-233 | fetching an allowed, unfetched entry within the depth cap keeps every crawl invariant and adds its URL to the fetched set |
| `NetIngest.FetchKeepsFetches` | custom_ltm/subcommands/orion_net_ingest.py:219-224 | after a fetch, every fetch in the log is still justified |
| `NetIngest.OldFetchJustified` | custom_ltm/subcommands/orion_net_ingest.py:224 | a fetch justified before a new fetch stays justified after it |
| `NetIngest.NewFetchJustified` | custom_ltm/subcommands/orion_net_ingest.py:219-224 | an allowed entry within the depth cap is a justified fetch |
| `NetIngest.FetchKeepsEntries` | custom_ltm/subcommands/orion_net_ingest.py:224 | a fetch keeps every queue entry justified |
| `NetIngest.FetchKeepsStores` | custom_ltm/subcommands/orion_net_ingest.py:224 | a fetch keeps every store justified |
| `NetIngest.StoreNext` | custom_ltm/subcommands/orion_net_ingest.py:246-249 | a justified store of the latest page keeps the store log justified |
| `NetIngest.EnqueueNext` | custom_ltm/subcommands/orion_net_ingest.py:253-257 | new entries that are allowed links of an accepted page below the depth cap, at depth + 1, keep every queue entry justified |
| `NetIngest.NewEntryLinked` | custom_ltm/subcommands/orion_net_ingest.py:253-257 | an allowed link of an accepted page below the depth cap is a justified entry |
| `NetIngest.EntryKept` | custom_ltm/subcommands/orion_net_ingest.py:256 | growing the queue keeps the old entries justified |
| `NetIngest.EntryDepth` | custom_ltm/subcommands/orion_net_ingest.py:199 | every queue entry has a non-negative depth |
| `NetIngest.CrawlStart` | custom_ltm/subcommands/orion_net_ingest.py:196-204 | the initial crawl state (the seed queued at depth 0, no fetches, no stores) satisfies the crawl invariant |
| `NetIngest.EnqueueLinks` | custom_ltm/subcommands/orion_net_ingest.py:253-257 | the queue only grows, by allowed, unvisited links at the given depth, never twice the same URL; every allowed unvisited link ends up enqueued |
| `NetIngest.CrawlVisit` | custom_ltm/subcommands/orion_net_ingest.py:215-218 | the next entry is unvisited and unfetched, and marking it visited keeps the crawl invariant |
| `NetIngest.CrawlFetch` | custom_ltm/subcommands/orion_net_ingest.py:224-233 | recording a fetch keeps the crawl invariant and moves the counters as the source does |
| `NetIngest.ProgressSkip` | custom_ltm/subcommands/orion_net_ingest.py:219-222 | an entry that is too deep or not allowed is settled without a fetch |
| `NetIngest.ProgressFetch` | custom_ltm/subcommands/orion_net_ingest.py:224-230 | fetching entry `v` settles it, keeps what earlier fetches owed, and a failed fetch owes nothing |
| `NetIngest.StoresDoneExtend` | custom_ltm/subcommands/orion_net_ingest.py:224-230 | logging a fetch keeps every owed store; a failed fetch owes none |
| `NetIngest.LinksDoneExtend` | custom_ltm/subcommands/orion_net_ingest.py:224-230 | logging a fetch keeps every owed link; a failed fetch owes none |
| `NetIngest.ProgressPage` | custom_ltm/subcommands/orion_net_ingest.py:235-257 | once the latest page's store is made when owed and its allowed links are queued when it is followed, the work covers that page too |
| `NetIngest.StoresDoneStep` | custom_ltm/subcommands/orion_net_ingest.py:246-249 | stores owed by earlier pages stay made, and the latest page's owed store is made |
| `NetIngest.LinksDoneStep` | custom_ltm/subcommands/orion_net_ingest.py:253-257 | links owed by earlier pages stay queued, and the latest followed page's allowed links are queued |
| `NetIngest.EntriesDoneKept` | custom_ltm/subcommands/orion_net_ingest.py:256 | growing the queue keeps the settled entries settled |
| `NetIngest.ProgressDone` | custom_ltm/subcommands/orion_net_ingest.py:206 | when the queue runs dry, the seed (if allowed and within the cap) and every allowed link of every followed page have been fetched |
| `NetIngest.ProcessPage` | custom_ltm/subcommands/orion_net_ingest.py:235-257 | the stores grow by exactly the page's summary when the page is long, injection-free, storing is on and the callback took it, and by nothing otherwise; below the depth cap every allowed link of an accepted page that is not visited ends up enqueued; otherwise the queue is untouched |
| `NetIngest.CrawlStep` | custom_ltm/subcommands/orion_net_ingest.py:215-257 | the dequeued URL was unvisited and becomes visited; an entry is skipped iff it is too deep or not allowed; a skip or failure leaves the queue and stores alone; the counters move as the source's; the work done covers every fetch and every dequeued entry |
| `NetIngest.FetchEntry` | custom_ltm/subcommands/orion_net_ingest.py:224-257 | fetching an admitted entry logs exactly that URL and never skips; a failure changes only the fetch log; a success resets the failure count; afterwards the entry counts as settled and the new page's store and links are done |
| `NetIngest.IngestWeb` | custom_ltm/subcommands/orion_net_ingest.py:173-260 | "disabled" and "bad_seed" before any fetch; otherwise caps clamped, `stored` ≤ `fetched` ≤ `max_pages`, each URL fetched at most once, only allowed URLs within the depth cap, the breaker respected, every store a summary of an accepted page and every page owed a store stored; the crawl stopped because the queue ran dry with every allowed link of every followed page fetched, or the runtime was spent, or a page cap was reached, or `fail_breaker` fetches in a row failed |
| `PolicyLoader.DenyEntryAsWritten` | custom_ltm/policy_loader.py:96 | as written, any `*.` entry refuses the URL whatever its host |
| `PolicyLoader.DenyEntry` | custom_ltm/policy_loader.py:87-91 | corrected, a `*.x` entry refuses exactly hosts ending in `.x`, and other entries behave as written |
| `PolicyLoader.DenyLoop` | custom_ltm/policy_loader.py:95-97 | the loop passes iff every entry passes; otherwise the first entry that denies or raises decides |
| `PolicyLoader.UrlAllowed` | custom_ltm/policy_loader.py:78-116 | hard-denied URLs are refused; a bad user regex raises; otherwise allowed iff the deny loop passes, the allowlist admits, same domain when required, and no unwanted PDF |
| `PolicyLoader.StarEntryRefusesAnyHost` | custom_ltm/policy_loader.py:95-97 | with deny ["*.gov"], as written refuses en.wikipedia.org while the corrected filter allows it |
| `PolicyLoader.LeadingStarEntryRefusesAll` | custom_ltm/policy_loader.py:95-97 | as written, a denylist starting with a `*.` entry refuses every URL |
| `PolicyLoader.LeadingStarRefusesEveryUrl` | custom_ltm/policy_loader.py:95-97 | as written, a denylist starting with a `*.` entry refuses every URL at once |
| `PolicyLoader.StarEntryIsSuffixWildcard` | custom_ltm/policy_loader.py:87-91 | corrected, a single `*.x` entry refuses exactly the hosts ending in `.x`, and the other checks decide the rest |
| `PolicyLoader.WildcardFilterAgreesWithNewer` | custom_ltm/policy_loader.py:78-116 | when no user regex raises, the corrected filter agrees with `_url_allowed` of the newer crawler |
| `PolicyLoader.CrawlStart` | custom_ltm/policy_loader.py:157-172 | the initial crawl state (the seed queued at depth 0, no fetches, no stores) satisfies the crawl invariant |
| `PolicyLoader.EntryDepth` | custom_ltm/policy_loader.py:168 | every queue entry has a non-negative depth |
| `PolicyLoader.CrawlVisit` | custom_ltm/policy_loader.py:177-180 | the next entry is unvisited and unfetched, and marking it visited keeps the crawl invariant |
| `PolicyLoader.FetchKeepsFetches` | custom_ltm/policy_loader.py:182-185 | after a fetch, every fetch in the log is still justified |
| `PolicyLoader.OldFetchJustified` | custom_ltm/policy_loader.py:185 | a fetch justified before a new fetch stays justified after it |
| `PolicyLoader.NewFetchJustified` | custom_ltm/policy_loader.py:182-185 | an admitted entry within the depth cap is a justified fetch |
| `PolicyLoader.FetchKeepsEntries` | custom_ltm/policy_loader.py:185 | a fetch keeps every queue entry justified |
| `PolicyLoader.FetchKeepsStores` | custom_ltm/policy_loader.py:185-189 | a fetch keeps the stores justified, and a failed one also justifies its own slot |
| `PolicyLoader.CrawlFetch` | custom_ltm/policy_loader.py:185-191 | recording a fetch keeps the crawl invariant up to the new page and moves the failure count as the source does |
| `PolicyLoader.StoreNext` | custom_ltm/policy_loader.py:202-204 | storing a summary of the latest long page keeps the store log justified |
| `PolicyLoader.ShortPageNeedsNone` | custom_ltm/policy_loader.py:193-195 | a page with less than 400 characters of text needs no store |
| `PolicyLoader.EnqueueNext` | custom_ltm/policy_loader.py:207-213 | new entries that are admitted links of a long page below the depth cap keep every entry justified |
| `PolicyLoader.NewEntryLinked` | custom_ltm/policy_loader.py:207-213 | an admitted link of a long page below the depth cap is a justified entry |
| `PolicyLoader.EntryKept` | custom_ltm/policy_loader.py:212 | growing the queue keeps the old entries justified |
| `PolicyLoader.ProgressFetch` | custom_ltm/policy_loader.py:182-189 | fetching entry `v` settles it, keeps the links earlier pages owed, and a failed fetch owes none |
| `PolicyLoader.LinksDoneExtend` | custom_ltm/policy_loader.py:185-189 | logging a fetch keeps every owed link; a failed fetch owes none |
| `PolicyLoader.ProgressPage` | custom_ltm/policy_loader.py:193-213 | once the latest long page's admitted links are queued when it is followed, the work covers that page too |
| `PolicyLoader.LinksDoneStep` | custom_ltm/policy_loader.py:207-213 | links owed by earlier pages stay queued, and the latest followed page's admitted links are queued |
| `PolicyLoader.EntriesDoneKept` | custom_ltm/policy_loader.py:212 | growing the queue keeps the settled entries settled |
| `PolicyLoader.ProgressDone` | custom_ltm/policy_loader.py:174 | when the queue runs dry, the seed (if admitted and within the cap) and every admitted link of every followed page have been fetched |
| `PolicyLoader.FirstFetchAdmitted` | custom_ltm/policy_loader.py:182-185 | the first fetch, if any, is of a URL the filter admits |
| `PolicyLoader.FirstStoreFetched` | custom_ltm/policy_loader.py:202-204 | the first counted summary, if any, is of a page in the fetch log |
| `PolicyLoader.LinkNeedsFetch` | custom_ltm/policy_loader.py:207-213 | every queued link past the seed came from a page already fetched |
| `PolicyLoader.EnqueueLinks` | custom_ltm/policy_loader.py:209-213 | over the filter chosen by `asWritten`, the queue only grows, by admitted unvisited links, never twice the same URL; a raise names a link whose pattern raised; otherwise every admitted unvisited link is enqueued |
| `PolicyLoader.ProcessPage` | custom_ltm/policy_loader.py:193-213 | the stores grow by exactly the page's summary when it has at least 400 characters of text and by nothing otherwise; below the depth cap, unless a link's pattern raised, every admitted unvisited link of a long page is enqueued; a short page or one at the cap leaves the queue alone |
| `PolicyLoader.FetchEntry` | custom_ltm/policy_loader.py:185-213 | the URL is appended to the fetch log; it failed iff no page came back; a success resets the failure count and adds exactly the summary of a long page; a short page leaves the queue alone; afterwards the entry counts as settled |
| `PolicyLoader.CrawlStep` | custom_ltm/policy_loader.py:177-213 | the dequeued URL was unvisited and becomes visited; an entry is skipped iff it is too deep or the filter refuses it; the failure count moves as the source's; `Halted` only when some URL's pattern raised |
| `PolicyLoader.CrawlLoop` | custom_ltm/policy_loader.py:168-213 | the loop from the seed: a raise names a URL whose pattern raised; otherwise the crawl invariant holds, at most `max_pages` pages counted, only the seed visited if nothing was fetched, and the exit reason holds: queue dry with nothing admitted left unfetched, runtime spent, page cap reached, or `fail_breaker` failures in a row |
| `PolicyLoader.RunCrawl` | custom_ltm/policy_loader.py:152-215 | "disabled" and "bad_seed" before any fetch; otherwise the crawl ends normally or with a user pattern raising; when it ends normally, depth clamped to 5, `stored` ≤ `max_pages`, fetches justified and unrepeated, breaker respected, exactly the long pages counted, and `CrawlLoop`'s exit reason |
| `PolicyLoader.CrawlAndIngest` | custom_ltm/policy_loader.py:152-215 | the program's crawl, whose filter reads a `*.` entry as the loop does: everything `RunCrawl` promises, and with a denylist whose first entry starts with `*.` it never raises, fetches and counts nothing, and visits at most the seed |
| `PolicyLoader.CrawlAndIngestWildcard` | custom_ltm/policy_loader.py:87-91 | the crawl with `*.` read as a host-suffix wildcard: everything `RunCrawl` promises over that filter |
| `Chat2Ltm.FileStamp` | custom_ltm/chat_2ltm.py:42-44 | a timestamp is read off the file name iff it starts `YYYYMMDD-HH-MM-SS`, and then has 17 characters |
| `Chat2Ltm.FileStampOf` | custom_ltm/chat_2ltm.py:42-44 | the name `YYYYMMDD-HH-MM-SS…` gives the timestamp `YYYYMMDD HH:MM:SS` |
| `Chat2Ltm.UnstampedName` | custom_ltm/chat_2ltm.py:42-43 | a name that does not start with a digit gives no timestamp |
| `Chat2Ltm.InternalStamp` | custom_ltm/chat_2ltm.py:42-46 | the file-name timestamp if there is one, else `metadata.start` if truthy, else "" |
| `Chat2Ltm.Expand` | custom_ltm/chat_2ltm.py:36-49 | each two-element pair yields a user entry then an assistant entry with the same timestamp; other pairs are skipped |
| `Chat2Ltm.ExpandShape` | custom_ltm/chat_2ltm.py:36-49 | the expansion of the pairs is two entries per kept pair, in order |
| `Chat2Ltm.ParseLogFile` | custom_ltm/chat_2ltm.py:16-51 | "messages" wins over "internal": one entry per message with its timestamp or `metadata.start`; else two entries per pair; else nothing |
| `Chat2Ltm.DeduplicateMemories` | custom_ltm/chat_2ltm.py:53-61 | fails iff some entry has no content; otherwise keeps exactly the first entry per (role, stripped content, timestamp), in order |
| `Chat2Ltm.DedupLoop` | custom_ltm/chat_2ltm.py:54-61 | the seen-set loop computes the first-occurrence dedup |
| `Chat2Ltm.DedupStep` | custom_ltm/chat_2ltm.py:57-60 | an entry is appended exactly when its key is not yet seen, and its key joins the seen set |
| `Chat2Ltm.DeduplicateTwice` | custom_ltm/chat_2ltm.py:53-61 | deduplicating twice equals deduplicating once |
| `SeedCommon.PersonaCandidate` | custom_ltm/orion_ctl.py:53-61 | blank, "#" and "[…]" lines are dropped; a kept line is stripped and longer than 10 characters |
| `SeedCommon.PlainLineKept` | custom_ltm/orion_ctl.py:53-61 | a stripped line of more than 10 characters with no marker is kept as it is |
| `SeedCommon.BulletLineKept` | custom_ltm/orion_ctl.py:58-59 | one leading "-" and the space after it are stripped |
| `SeedCommon.Kept` | custom_ltm/orion_ctl.py:52-61 | the kept lines are exactly the accepted ones |
| `SeedCommon.PersonaFileLines` | custom_ltm/orion_ctl.py:47-66 | a missing file gives []; otherwise exactly the accepted lines, each > 10 chars and stripped, distinct, in first-occurrence order |
| `SeedCommon.PersonaLinesFacts` | custom_ltm/orion_ctl.py:62-65 | the dedup of the accepted lines is distinct and holds exactly the accepted lines |
| `SeedCommon.InsertAbsent` | custom_ltm/orion_ctl.py:143 | adding a batch of distinct ids stores each new id with its record and keeps every old record |
| `SeedCommon.Add` | custom_ltm/orion_ctl.py:143 | `collection.add` refuses a batch with a repeated id; otherwise it adds the new ids and keeps the old records |
| `SeedCommon.AddTwice` | custom_ltm/orion_ctl.py:143 | adding the same batch twice is the same as once |
| `SeedCommon.TurnRole` | custom_ltm/orion_ctl.py:241 | the role is lower-cased |
| `SeedCommon.TurnContent` | custom_ltm/orion_ctl.py:242 | the content is stripped |
| `SeedCommon.TurnId` | custom_ltm/orion_ctl.py:246 | the turn id hashes `session\|{i:06d}\|role\|text\|when` into an "episodic_" id |
| `SeedCommon.TurnKeysDiffer` | custom_ltm/orion_ctl.py:246 | two turns of one session at different indices hash different keys, whatever their role, text and time |
| `OrionCtl.PersonaId` | custom_ltm/orion_ctl.py:136 | a persona id is "persona_" + `sha12(line)`, so equal lines give equal ids |
| `OrionCtl.PersonaIds` | custom_ltm/orion_ctl.py:136 | one id per line, in order |
| `OrionCtl.PersonaRecord` | custom_ltm/orion_ctl.py:137 | a persona record comes from source "Orion_Data.txt" |
| `OrionCtl.PersonaRecords` | custom_ltm/orion_ctl.py:137 | one record per line, in order |
| `OrionCtl.WithoutPersona` | custom_ltm/orion_ctl.py:124-133 | the delete removes exactly the items whose source is "Orion_Data.txt" and keeps all others unchanged |
| `OrionCtl.SeedPersona` | custom_ltm/orion_ctl.py:119-144 | a dry run changes nothing; otherwise it fails only on an id clash; items of other sources are kept; every file line is stored under its id; nothing else is added |
| `OrionCtl.SeedPersonaTwice` | custom_ltm/orion_ctl.py:119-144 | seeding the persona twice gives the same collection as once |
| `OrionCtl.ReseedDeletesTheSame` | custom_ltm/orion_ctl.py:124-133 | after a seed, the items of other sources are the same as before |
| `OrionCtl.AddedPersonaGoes` | custom_ltm/orion_ctl.py:124-143 | what a seed adds is exactly what the next seed deletes |
| `OrionCtl.TurnRow` | custom_ltm/orion_ctl.py:240-251 | a turn gives no row iff its stripped text is empty; otherwise its id, document and metadata are as the source builds them |
| `OrionCtl.FreshRow` | custom_ltm/orion_ctl.py:244-248 | a turn yields a row iff it has text and its id is not in the collection |
| `OrionCtl.NewRows` | custom_ltm/orion_ctl.py:240-251 | the new rows of a file are exactly the rows of its turns with text whose ids are not yet stored |
| `OrionCtl.NewRowsFacts` | custom_ltm/orion_ctl.py:240-251 | the numbered filter keeps exactly the new rows |
| `OrionCtl.ChatRows` | custom_ltm/orion_ctl.py:229-251 | the chat rows hold every file's new rows and no stored id |
| `OrionCtl.PerFile` | custom_ltm/orion_ctl.py:230 | one row list per file, in file order |
| `OrionCtl.FileRows` | custom_ltm/orion_ctl.py:236-251 | no row of a file has an id already stored |
| `OrionCtl.EpisodicRows` | custom_ltm/orion_ctl.py:228-272 | no row, from chats or the LTM file, has an id already stored |
| `SeedCommon.RowIds` | custom_ltm/orion_ctl.py:249 | the `ids=` list of an add batch: one id per row, in order (also the list at `subcommands/seed_episodic_memory.py:92`) |
| `SeedCommon.RowRecords` | custom_ltm/orion_ctl.py:250-251 | the documents and metadatas of an add batch: one record per row, in order (also `subcommands/seed_episodic_memory.py:93-98`) |
| `OrionCtl.SeedEpisodic` | custom_ltm/orion_ctl.py:221-279 | a dry run changes nothing; otherwise it fails only on an id clash within the run; every old item is kept; every new row is stored; nothing else is added |
| `OrionCtl.FlagsCard` | custom_ltm/orion_ctl.py:207-210 | there are at most as many flags as entries, and exactly as many for distinct entries |
| `OrionCtl.PointRow` | custom_ltm/orion_ctl.py:179-212 | the row id is `sentence_id(parent, text)`; `tags_csv`/`keywords_csv` are "\|"-joined order-preserving dedups; at most 10 `tag_` and 10 `kw_` flags |
| `OrionCtl.FlagCapsNeverCut` | custom_ltm/orion_ctl.py:207-210 | for a sentencer point the 10-flag caps never cut anything: every tag and keyword gets a flag |
| `OrionCtl.TagListShort` | custom_ltm/orion_ctl.py:185 | a point's tag list has at most 6 entries |
| `OrionCtl.KeywordListWhole` | custom_ltm/orion_ctl.py:186 | the keyword list of a point is unchanged by dedup and the cap |
| `OrionCtl.PointLists` | custom_ltm/orion_ctl.py:185-186 | a point's keywords are distinct, at most 5, and its tags at most 6 |
| `OrionCtl.ItemRows` | custom_ltm/orion_ctl.py:170-212 | an item with an empty document gives no rows; otherwise at most `max_points` (for a negative `--max-points`, at most the sentence count minus its magnitude), each pointing at the item |
| `OrionCtl.PointRows` | custom_ltm/orion_ctl.py:179-212 | one row per point, with the point's text as document |
| `OrionCtl.ItemsRows` | custom_ltm/orion_ctl.py:170-212 | every row of a batch points at one of the batch's items and is bounded |
| `OrionCtl.PerItem` | custom_ltm/orion_ctl.py:170 | one row list per item, in order |
| `OrionCtl.ItemsRowsConcat` | custom_ltm/orion_ctl.py:163-217 | the rows of two consecutive batches are the rows of their concatenation |
| `OrionCtl.MakeEpisodicSentences` | custom_ltm/orion_ctl.py:146-219 | with consistent paging it plans exactly the rows of all items; every planned row is bounded; a dry run writes nothing, a real run writes what it planned |
| `OrionCtl.WindowStep` | custom_ltm/orion_ctl.py:163-166 | a page read below the total is non-empty and continues the items read so far |
| `SeedOrionPersona.Section` | custom_ltm/seed_orion_persona.py:28-43 | a section is "" when its start marker is absent, and always stripped |
| `SeedOrionPersona.SectionBetween` | custom_ltm/seed_orion_persona.py:31-38 | the section is the stripped text between the first start marker and the next end marker |
| `SeedOrionPersona.SectionToEnd` | custom_ltm/seed_orion_persona.py:29-30 | a section without end marker runs to the end of the file |
| `SeedOrionPersona.Sections` | custom_ltm/seed_orion_persona.py:28-43 | seven sections, each stripped |
| `SeedOrionPersona.Statement` | custom_ltm/seed_orion_persona.py:48-54 | a kept statement is non-empty, stripped and not excluded; blank and excluded lines give none |
| `SeedOrionPersona.BulletStatement` | custom_ltm/seed_orion_persona.py:50-51 | a leading "-" is stripped with the space after it |
| `SeedOrionPersona.LoadPersona` | custom_ltm/seed_orion_persona.py:19-58 | a missing file gives []; otherwise the statements longer than 10 characters, distinct, in first-occurrence order |
| `SeedOrionPersona.LoadFacts` | custom_ltm/seed_orion_persona.py:57 | `dict.fromkeys` over the long statements keeps exactly them, once each |
| `SeedOrionPersona.CandidatesShape` | custom_ltm/seed_orion_persona.py:45-54 | every candidate statement is stripped and not excluded |
| `SeedOrionPersona.PositionIdsDiffer` | custom_ltm/seed_orion_persona.py:87 | "persona_i" and "persona_j" differ for i ≠ j |
| `SeedOrionPersona.PositionIds` | custom_ltm/seed_orion_persona.py:87 | the ids "persona_0" … "persona_{n−1}" are pairwise distinct |
| `SeedOrionPersona.StatementRecords` | custom_ltm/seed_orion_persona.py:90 | one record per statement, in order |
| `SeedOrionPersona.Reseed` | custom_ltm/seed_orion_persona.py:61-92 | the recreated collection holds exactly one item per statement, under "persona_i" |
| `SeedOrionPersona.ReseedSize` | custom_ltm/seed_orion_persona.py:87-92 | the collection has as many items as statements |
| `SeedOrionPersona.ReseedContents` | custom_ltm/seed_orion_persona.py:87-92 | item "persona_i" holds the `i`-th statement and no other id is present |
| `SeedEpisodicMemory.TrailingDigitsOf` | custom_ltm/seed_episodic_memory.py:30 | the digits after the last "_" of an id are the counter |
| `SeedEpisodicMemory.MakeIdCounter` | custom_ltm/seed_episodic_memory.py:28-30 | the counter can be read back off the end of a `make_id` id |
| `SeedEpisodicMemory.LoadShape` | custom_ltm/seed_episodic_memory.py:41-58 | `push` adds one item per entry with content, numbered by the counter; an empty entry leaves no trace, not even on the counter |
| `SeedEpisodicMemory.Ids` | custom_ltm/seed_episodic_memory.py:49 | one id per item, in order |
| `SeedEpisodicMemory.LoadedIdsDistinct` | custom_ltm/seed_episodic_memory.py:28-30 | all ids of one load are pairwise distinct, because each ends in a different counter |
| `SeedEpisodicMemory.ItemRecords` | custom_ltm/seed_episodic_memory.py:48-57 | one record per item, with its document and metadata |
| `SeedEpisodicMemory.Reseed` | custom_ltm/seed_episodic_memory.py:99-124 | with no items the collection is untouched; otherwise it is rebuilt with exactly the loaded items |
| `SeedEpisodicMemory.Rebuild` | custom_ltm/seed_episodic_memory.py:112-124 | the new collection has one entry per item |
| `SeedEpisodicMemory.RebuiltFacts` | custom_ltm/seed_episodic_memory.py:112-124 | adding the loaded items to an empty collection gives one entry per item, each under its id with its document and metadata |
| `SeedEpisodicMemory.RebuiltKeys` | custom_ltm/seed_episodic_memory.py:124 | the new collection's ids are exactly the loaded ids |
| `SeedEpisodicMemory.RebuiltValues` | custom_ltm/seed_episodic_memory.py:124 | each loaded id holds its item's document and metadata |
| `PersonaSubcommand.StableIds` | custom_ltm/subcommands/seed_orion_persona.py:87 | one `stable_id("persona", doc)` per document |
| `PersonaSubcommand.SourceRecords` | custom_ltm/subcommands/seed_orion_persona.py:88 | each record has type "persona" and source "Orion_Data.txt" |
| `PersonaSubcommand.Replace` | custom_ltm/subcommands/seed_orion_persona.py:54-97 | fails iff two lines share an id; otherwise gives the same collection as `orion_ctl.py seed-persona` |
| `PersonaSubcommand.ReplaceScope` | custom_ltm/subcommands/seed_orion_persona.py:75-91 | only items of source "Orion_Data.txt" are removed, and every line of the file is stored |
| `PersonaSubcommand.SameIds` | custom_ltm/subcommands/seed_orion_persona.py:87-88 | the ids and records are those of `orion_ctl.py` |
| `PersonaSubcommand.ReplaceTwice` | custom_ltm/subcommands/seed_orion_persona.py:54-97 | running the seeder twice gives the same collection as once |
| `EpisodicSubcommand.TupleAt` | custom_ltm/subcommands/seed_episodic_memory.py:42-48 | a turn yields a tuple iff its stripped content is non-empty, and the tuple keeps the turn's index |
| `EpisodicSubcommand.ListTuples` | custom_ltm/subcommands/seed_episodic_memory.py:42-48 | the tuples are exactly those of the turns with content |
| `EpisodicSubcommand.ListTuplesFacts` | custom_ltm/subcommands/seed_episodic_memory.py:42-48 | the numbered filter keeps exactly the turns with content |
| `EpisodicSubcommand.MakeId` | custom_ltm/subcommands/seed_episodic_memory.py:21-23 | `make_id` is an "episodic_" id with 16 hex digits |
| `EpisodicSubcommand.ItemsOf` | custom_ltm/subcommands/seed_episodic_memory.py:92-98 | one item per tuple, in order |
| `EpisodicSubcommand.Merge` | custom_ltm/subcommands/seed_episodic_memory.py:84-98 | never appends an existing id or the same id twice, and every tuple's id ends up existing or appended |
| `EpisodicSubcommand.MergeStep` | custom_ltm/subcommands/seed_episodic_memory.py:88-91 | one step appends a tuple exactly when its id is neither existing nor seen in the run |
| `EpisodicSubcommand.FreshSound` | custom_ltm/subcommands/seed_episodic_memory.py:87-91 | every appended item is new and comes from some tuple |
| `EpisodicSubcommand.FreshComplete` | custom_ltm/subcommands/seed_episodic_memory.py:87-91 | every tuple's id is existing or appended |
| `EpisodicSubcommand.Seed` | custom_ltm/subcommands/seed_episodic_memory.py:67-107 | the collection gains exactly the new items and keeps every old record; the count is the number added |
| `EpisodicSubcommand.AddItems` | custom_ltm/subcommands/seed_episodic_memory.py:100-101 | adding new distinct items stores each and keeps every old record |
| `EpisodicSubcommand.MergeAgainFindsNothing` | custom_ltm/subcommands/seed_episodic_memory.py:87-91 | a second run over the same turns adds nothing |

## Left out

- ChromaDB. A collection is a `map<string, Record>` and a query is a function
  parameter returning a result matrix. Embeddings, similarity search,
  persistence, client creation and `get_or_create` are not modelled.
- `collection.add` is taken to refuse a batch that repeats an id. It is also
  taken to keep the record of an id already stored. Chroma's own behaviour on
  an existing id is not part of this model; `SeedCommon.Add` states the
  assumption.
- A batch upsert that repeats an id keeps the later record. Chroma's handling
  of duplicate ids in one upsert is not part of this model.
- SHA-1 and SHA-256 are parameters: any function returning hex digits of the
  right length. No collision-freedom is assumed. Where distinct ids matter
  (`collection.add`), a clash is modelled as a failure.
- urllib's `urljoin`, `urlparse` and `urlunparse`, BeautifulSoup's text and
  anchor extraction, `re.fullmatch` on user-supplied denylist patterns, and the
  PII scrubber are oracles in `WebCommon.Oracles` and `Crawl.Env`.
- HTTP. One fetch attempt is an oracle from (url, attempt number) to an
  optional response. Timeouts, headers and sessions are not modelled.
- The runtime budget and the clock are a `timeUp` flag per loop iteration.
  The date stamp and the UTC timestamp format are parameters.
- Floating point. Importance is in integer hundredths, rounded half up.
  Python's round-half-even and float error are not modelled. Distances are
  reals, and a missing distance sorts as the source's `9e9`.
- MemorySentencer.Importance: states the nearest hundredth of the exact sum,
  halves up; Python's `round` on the float sum can land one hundredth away
  where the sum is an exact half or a float error shifts it.
- Text is ASCII-only: `lower()`, `\w` and `\s` follow ASCII, with Python's
  whitespace set. Unicode case mapping is not modelled.
- File and YAML I/O are not modelled. Files are given as strings or decoded
  JSON. `load_policy`, the mtime-based reload and the dead module-level
  `_from_yaml` of `orion_net_ingest.py` are left out. So are directory
  listing, `sorted(glob)` and JSON values of the wrong type.
- `orion_ctl.py` imports `enforce_on_pairs` from `policy_loader`, which
  defines no such function. The import therefore always fails and the
  fallback runs; the model uses that identity fallback.
- `chat_2ltm.py`'s `main` is left out: it globs files, prints, sorts by
  timestamp and writes the output file. `deduplicate_memories` raises on an
  entry without content; the model returns `None` for that case.
- The sets that `list({role, *kw})` builds have no defined order in Python.
  The model keeps the tags as a set and takes the listing order as a
  parameter.
- The source keeps ids, documents and metadata in three parallel lists; the
  model keeps one list of items. The lists' equal length is then built in.
- The CLI commands `inspect`, `backup-fs`, `export`, `list-by-topic` and
  `seed-all` are left out: they are printing and file plumbing.
  `initialize_chromadb_for_ltm`, `on_user_turn` and `on_assistant_turn` are
  one-line wrappers and are left out too.
- `orion_store_callback_factory`'s JSON serialisation is left out. The store
  callback is a parameter that reports success or failure.
- The debug dictionary of `get_relevant_ltm` is left out. The persona query is
  a parameter; which documents it returns is not modelled.

## Findings

| source | as written | input that shows it | evidently intended | confidence | as-written member | corrected member |
|---|---|---|---|---|---|---|
| custom_ltm/policy_loader.py:95-97 | The deny loop rejects a URL as soon as an entry merely starts with `*.`, so a wildcard entry refuses every host, and a crawl under a denylist that starts with one fetches nothing. | denylist `["*.gov"]`, URL `https://en.wikipedia.org/wiki/Dafny` is refused. | Refuse only hosts ending in the suffix, as the unused `matches` helper at lines 87-91 and `orion_net_ingest.py:285` do. | not executed | `PolicyLoader.StarEntryRefusesAnyHost`, `PolicyLoader.CrawlAndIngest` | `PolicyLoader.StarEntryIsSuffixWildcard`, `PolicyLoader.CrawlAndIngestWildcard` |

=== FILE: auto_memory.dfy ===
/**
 The public retrieval entry point of `auto_memory.py`. Recording a turn
 (`add_turn`) is `TurnStore.AddTurn` with the sentencer module's pronoun
 pattern.
 */
module AutoMemory {
  import opened Seqs
  import opened Sorting
  import opened Retrieval

  const DefaultResults := 8
  const DefaultThreshold := 0.6

  /**
   `retrieve(query_texts, n_results=..., importance_threshold=...)`:
   prefer-sentenced retrieval that always tops up from the raw tier. Every
   sentenced hit is returned; when there are fewer than `n` of them, unseen
   raw hits are added until there are `n` or the raw hits run out.
   */
  function Retrieve(db: Collections, queries: seq<string>, n: int, threshold: real): (hits: seq<Hit>)
    requires WellShaped(db, queries, n, threshold, true)
    ensures var sent := SentHits(db, queries, n, threshold);
      && (forall i | 0 <= i < |sent| :: sent[i] in hits)
      && (|sent| >= n ==> multiset(hits) == multiset(sent))
      && (|sent| < n ==>
            |hits| == |sent| + Min(n - |sent|, |Unseen(FlattenResult(db.rawQuery(queries, n * 2)), Ids(sent))|))
    ensures SortedBy(hits, SortKey)
  {
    MergeKeepsSentenced(db, queries, n, threshold, true);
    var m := Merge(db, queries, n, threshold, true);
    assert |m.hits| == |multiset(m.hits)| == |Unsorted(db, queries, n, threshold, true)|;
    m.hits
  }
}

=== FILE: chat_2ltm.dfy ===
/**
 `chat_2ltm.py`: turning one decoded chat-log JSON document into memory
 entries, and de-duplicating the merged entries of all logs. Logs come in
 two formats: a `messages` list of role/content/timestamp records, or an
 `internal` list of [user, assistant] pairs whose timestamp is read off the
 file name.
 */
module Chat2Ltm {
  import opened Wrappers
  import opened Text
  import opened Seqs

  /** One record of a `messages` list; every field may be missing. */
  datatype Message = Message(role: Option<string>, content: Option<string>, timestamp: Option<string>)

  /**
   The parts of a decoded log the parser reads: the `messages` list when
   the key is present, the `internal` list when the key is present and
   holds a list, and `metadata.start`.
   */
  datatype ChatLog = ChatLog(messages: Option<seq<Message>>, internal: Option<seq<seq<string>>>,
                             start: Option<string>)

  /** An entry `{'role': ..., 'content': ..., 'timestamp': ...}`. */
  datatype Memory = Memory(role: Option<string>, content: Option<string>, timestamp: Option<string>)

  /** `re.match(r"(\d{8})-(\d{2})-(\d{2})-(\d{2})", name)` succeeds: the pattern matches a prefix. */
  predicate StampedName(name: string) {
    && |name| >= 17
    && AllDigits(name[..8]) && name[8] == '-'
    && AllDigits(name[9..11]) && name[11] == '-'
    && AllDigits(name[12..14]) && name[14] == '-'
    && AllDigits(name[15..17])
  }

  /** The timestamp a file name carries: "YYYYMMDD-HH-MM-SS..." gives "YYYYMMDD HH:MM:SS". */
  function FileStamp(name: string): (t: Option<string>)
    ensures t.Some? <==> StampedName(name)
    ensures t.Some? ==> |t.value| == 17 && AllDigits(t.value[..8])
  {
    if StampedName(name) then
      Some(name[..8] + " " + name[9..11] + ":" + name[12..14] + ":" + name[15..17])
    else None
  }

  /** The date and time fields of a stamped file name come back in order, whatever follows them. */
  lemma FileStampOf(date: string, hh: string, mm: string, ss: string, rest: string)
    requires |date| == 8 && |hh| == 2 && |mm| == 2 && |ss| == 2
    requires AllDigits(date) && AllDigits(hh) && AllDigits(mm) && AllDigits(ss)
    ensures FileStamp(date + "-" + hh + "-" + mm + "-" + ss + rest) == Some(date + " " + hh + ":" + mm + ":" + ss)
  {
    var name := date + "-" + hh + "-" + mm + "-" + ss + rest;
    assert name[..8] == date;
    assert name[9..11] == hh;
    assert name[12..14] == mm;
    assert name[15..17] == ss;
  }

  /** A file name whose first character is not a digit carries no timestamp. */
  lemma UnstampedName(name: string)
    requires 0 < |name| && !IsDigit(name[0])
    ensures FileStamp(name) == None
  {
    if |name| >= 17 {
      assert name[..8][0] == name[0];
    }
  }

  /** The timestamp of every entry of an `internal` log: the file name's, else `metadata.start`, else "". */
  function InternalStamp(log: ChatLog, name: string): (ts: string)
    ensures StampedName(name) ==> Some(ts) == FileStamp(name)
    ensures !StampedName(name) && Truthy(log.start) ==> ts == log.start.value
    ensures !StampedName(name) && !Truthy(log.start) ==> ts == ""
  {
    match FileStamp(name)
    case Some(t) => t
    case None => if Truthy(log.start) then log.start.value else ""
  }

  /** The pairs that are expanded: those of exactly two elements. */
  predicate IsPair(p: seq<string>) { |p| == 2 }

  function UserEntry(p: seq<string>, ts: string): Memory
    requires IsPair(p)
  {
    Memory(Some("user"), Some(p[0]), Some(ts))
  }

  function AssistantEntry(p: seq<string>, ts: string): Memory
    requires IsPair(p)
  {
    Memory(Some("assistant"), Some(p[1]), Some(ts))
  }

  /**
   The `internal` loop: each two-element pair gives a user entry and then
   an assistant entry, both with timestamp `ts`; other pairs give nothing.
   */
  function Expand(pairs: seq<seq<string>>, ts: string): (r: seq<Memory>)
    ensures ExpandsTo(Filter(pairs, IsPair), ts, r)
  {
    ExpandShape(pairs, ts);
    ExpandFrom(pairs, ts)
  }

  /** `r` holds a user and an assistant entry for each of `kept`, in order. */
  predicate ExpandsTo(kept: seq<seq<string>>, ts: string, r: seq<Memory>)
    requires forall k | 0 <= k < |kept| :: IsPair(kept[k])
  {
    && |r| == 2 * |kept|
    && forall k | 0 <= k < |kept| :: r[2 * k] == UserEntry(kept[k], ts) && r[2 * k + 1] == AssistantEntry(kept[k], ts)
  }

  function ExpandFrom(pairs: seq<seq<string>>, ts: string): seq<Memory>
    decreases |pairs|
  {
    if |pairs| == 0 then []
    else
      var p := pairs[|pairs| - 1];
      ExpandFrom(pairs[..|pairs| - 1], ts) + if IsPair(p) then [UserEntry(p, ts), AssistantEntry(p, ts)] else []
  }

  lemma {:induction false} ExpandShape(pairs: seq<seq<string>>, ts: string)
    ensures ExpandsTo(Filter(pairs, IsPair), ts, ExpandFrom(pairs, ts))
    decreases |pairs|
  {
    if |pairs| > 0 {
      var pre, p := pairs[..|pairs| - 1], pairs[|pairs| - 1];
      assert pairs == pre + [p];
      FilterAppend(pre, p, IsPair);
      ExpandShape(pre, ts);
      if IsPair(p) {
        var kept, r := Filter(pre, IsPair), ExpandFrom(pre, ts);
        var r' := r + [UserEntry(p, ts), AssistantEntry(p, ts)];
        forall k | 0 <= k < |kept| + 1
          ensures r'[2 * k] == UserEntry((kept + [p])[k], ts) && r'[2 * k + 1] == AssistantEntry((kept + [p])[k], ts)
        {
          if k < |kept| { assert (kept + [p])[k] == kept[k]; }
        }
      }
    }
  }

  /**
   `parse_log_file` on the decoded document of the file called `name`.
   A `messages` list wins over `internal`; each message keeps its role and
   content, and its own timestamp unless that is missing or empty, when
   `metadata.start` stands in. An `internal` list is expanded pair by
   pair; a log with neither gives nothing.
   */
  function ParseLogFile(log: ChatLog, name: string): (r: seq<Memory>)
    ensures log.messages.Some? ==>
      var ms := log.messages.value;
      && |r| == |ms|
      && forall i | 0 <= i < |ms| ::
           && r[i].role == ms[i].role && r[i].content == ms[i].content
           && (Truthy(ms[i].timestamp) ==> r[i].timestamp == ms[i].timestamp)
           && (!Truthy(ms[i].timestamp) ==> r[i].timestamp == log.start)
    ensures log.messages.None? && log.internal.Some? ==>
      var kept := Filter(log.internal.value, IsPair);
      var ts := InternalStamp(log, name);
      && |r| == 2 * |kept|
      && forall k | 0 <= k < |kept| ::
           && r[2 * k] == Memory(Some("user"), Some(kept[k][0]), Some(ts))
           && r[2 * k + 1] == Memory(Some("assistant"), Some(kept[k][1]), Some(ts))
    ensures log.messages.None? && log.internal.None? ==> r == []
  {
    if log.messages.Some? then
      var ms := log.messages.value;
      seq(|ms|, i requires 0 <= i < |ms| =>
        Memory(ms[i].role, ms[i].content, if Truthy(ms[i].timestamp) then ms[i].timestamp else log.start))
    else if log.internal.Some? then
      Expand(log.internal.value, InternalStamp(log, name))
    else []
  }

  /** The de-duplication key `(role, content.strip(), timestamp)`. */
  datatype MemoryKey = MemoryKey(role: Option<string>, content: string, timestamp: Option<string>)

  function KeyOf(m: Memory): MemoryKey {
    MemoryKey(m.role, Strip(m.content.GetOr("")), m.timestamp)
  }

  /** Every entry has content; `.strip()` on a missing one raises. */
  predicate HasContent(ms: seq<Memory>) {
    forall i | 0 <= i < |ms| :: ms[i].content.Some?
  }

  /**
   `deduplicate_memories`: `None` when some entry has no content (the
   source raises on it); otherwise the entries whose key was not seen
   earlier, in order. That is exactly the first entry of every key: no two
   results share a key, every key of the input is kept, each result is the
   first entry with its key, and the order is the input's.
   */
  method DeduplicateMemories(memories: seq<Memory>) returns (r: Option<seq<Memory>>)
    ensures r.Some? <==> HasContent(memories)
    ensures r.Some? ==> r.value == Dedup(memories, KeyOf)
    ensures r.Some? ==> DistinctKeys(r.value, KeyOf) && IsSubseq(r.value, memories)
    ensures r.Some? ==> KeySet(r.value, KeyOf) == KeySet(memories, KeyOf)
    ensures r.Some? ==> forall j | 0 <= j < |r.value| :: IsFirstWithKey(memories, r.value[j], KeyOf)
  {
    // The source raises at the first entry without content; no result either way.
    if !HasContent(memories) {
      return None;
    }
    var deduped := DedupLoop(memories);
    r := Some(deduped);
  }

  /** The seen-set loop itself: an entry is kept iff its key was not seen before. */
  method DedupLoop(memories: seq<Memory>) returns (deduped: seq<Memory>)
    ensures deduped == Dedup(memories, KeyOf)
  {
    var seen: set<MemoryKey> := {};
    deduped := [];
    for i := 0 to |memories|
      invariant deduped == Dedup(memories[..i], KeyOf)
      invariant seen == KeySet(deduped, KeyOf)
    {
      var mem := memories[i];
      DedupStep(memories, i, deduped);
      if KeyOf(mem) !in seen {
        deduped := deduped + [mem];
        seen := seen + {KeyOf(mem)};
      }
    }
    assert memories[..|memories|] == memories;
  }

  /** One turn of the seen-set loop. */
  lemma DedupStep(ms: seq<Memory>, i: nat, deduped: seq<Memory>)
    requires i < |ms| && deduped == Dedup(ms[..i], KeyOf)
    ensures Dedup(ms[..i + 1], KeyOf) == if KeyOf(ms[i]) in KeySet(deduped, KeyOf) then deduped else deduped + [ms[i]]
    ensures KeySet(deduped + [ms[i]], KeyOf) == KeySet(deduped, KeyOf) + {KeyOf(ms[i])}
  {
    DedupPrefixStep(ms, i, KeyOf);
    KeySetAppend(deduped, ms[i], KeyOf);
  }

  /**
   Running `deduplicate_memories` on its own output succeeds again and
   changes nothing.
   */
  lemma DeduplicateTwice(ms: seq<Memory>)
    requires HasContent(ms)
    ensures HasContent(Dedup(ms, KeyOf))
    ensures Dedup(Dedup(ms, KeyOf), KeyOf) == Dedup(ms, KeyOf)
  {
    var d := Dedup(ms, KeyOf);
    SubseqElements(d, ms);
    forall i | 0 <= i < |d| ensures d[i].content.Some? {
      assert d[i] in ms;
    }
    DedupIdempotent(ms, KeyOf);
  }
}

=== FILE: crawl.dfy ===
/**
 The state both breadth-first crawlers keep: a FIFO queue of (URL, depth)
 entries read through a head index, the sets of visited and enqueued URLs,
 and a log of every fetch made, from which the consecutive-failure counter
 and the count of fetched pages are read off.
 */
module Crawl {
  import opened Wrappers
  import opened Seqs
  import opened Hashing
  import opened WebCommon

  /**
   The crawler's view of the outside world: URL handling, the HTTP GET
   attempts, the HTML-to-text and anchor extraction of BeautifulSoup, the
   PII scrubber of the newer crawler, the hash, today's date and the
   runtime budget.
   */
  datatype Env = Env(
    o: Oracles,
    attempt: (string, nat) -> Option<Response>, // the j-th GET of a URL; None is a RequestException
    readability: string -> string,              // visible text of a page, script/style/noscript removed
    hrefs: string -> seq<string>,               // the href of every <a href=...>, in document order
    scrub: string -> string,                    // the e-mail / phone redaction of the newer crawler
    sha256: Sha256,
    today: string,                              // time.strftime("%Y-%m-%d")
    timeUp: nat -> bool)                        // the runtime budget is spent when iteration k starts

  /** The parameters of one run, after clamping. */
  datatype Settings = Settings(seed: string, maxDepth: int, maxPages: int, samePathPref: bool)

  /**
   `max_depth = min(5, ...)`, `max_pages = min(100, ...)`, and the
   same-path preference of the call or else of the policy.
   */
  function SettingsFor(policy: Policy, seed: string, depthOverride: Option<int>, pagesOverride: Option<int>,
                       samePath: Option<bool>): (s: Settings)
    ensures s.seed == seed
    ensures s.maxDepth == Clamp(DepthCeiling, depthOverride, policy.crawl.maxDepth) <= DepthCeiling
    ensures s.maxPages == Clamp(PageCeiling, pagesOverride, policy.crawl.maxPages) <= PageCeiling
    ensures s.samePathPref == if samePath.Some? then samePath.value else policy.crawl.samePathPreferred
  {
    Settings(seed, Clamp(DepthCeiling, depthOverride, policy.crawl.maxDepth),
             Clamp(PageCeiling, pagesOverride, policy.crawl.maxPages), samePath.GetOr(policy.crawl.samePathPreferred))
  }

  /** `normalize(url, url)`, refused when it fails or yields the empty string. */
  function SeedOf(o: Oracles, url: string, dropFragment: bool): (seed: Option<string>)
    ensures seed.Some? <==> Normalize(o, url, url, dropFragment).Some? && Normalize(o, url, url, dropFragment).value != ""
    ensures seed.Some? ==> seed == Normalize(o, url, url, dropFragment)
  {
    match Normalize(o, url, url, dropFragment)
    case None => None
    case Some(u) => if u == "" then None else Some(u)
  }

  /** A queue entry; `from` is the index in the fetch log of the page the link was found on. */
  datatype Entry = Entry(url: string, depth: int, from: nat)

  /** One fetch: the URL, its depth, where its link was found, and the page (`None` when every attempt failed). */
  datatype FetchEvent = FetchEvent(url: string, depth: int, from: nat, html: Option<string>)

  /** A page summary handed to storage, with the index of the fetch it summarises. */
  datatype Stored = Stored(at: nat, summary: Summary)

  /** Every fetch made and every summary stored (or, in the older crawler, produced), in order. */
  datatype Log = Log(fetches: seq<FetchEvent>, stores: seq<Stored>)

  /** The fetch indices that have a summary. */
  function CountedAt(stores: seq<Stored>): set<nat> {
    set j | 0 <= j < |stores| :: stores[j].at
  }

  lemma CountedAtAppend(stores: seq<Stored>, x: Stored)
    ensures CountedAt(stores + [x]) == CountedAt(stores) + {x.at}
  {
    var t := stores + [x];
    forall a | a in CountedAt(t) ensures a in CountedAt(stores) + {x.at} {
      var j :| 0 <= j < |t| && t[j].at == a;
      if j < |stores| { assert t[j] == stores[j]; }
    }
    forall a | a in CountedAt(stores) ensures a in CountedAt(t) {
      var j :| 0 <= j < |stores| && stores[j].at == a;
      assert t[j] == stores[j];
    }
    assert t[|stores|] == x;
  }

  /**
   Why the crawl loop stopped: the queue ran empty, the runtime budget was
   spent, the page cap was reached, or the consecutive-failure breaker
   tripped.
   */
  datatype Exit = Exhausted | OutOfTime | PageCap | Breaker

  /** The crawler's state between iterations. */
  datatype CrawlState = CrawlState(queue: seq<Entry>, head: nat, visited: set<string>, enqueued: set<string>,
                                   fetches: seq<FetchEvent>, stores: seq<Stored>)

  /** The URLs of a sequence of entries. */
  function UrlSet(q: seq<Entry>): set<string> {
    set i | 0 <= i < |q| :: q[i].url
  }

  lemma UrlSetAppend(q: seq<Entry>, e: Entry)
    ensures UrlSet(q + [e]) == UrlSet(q) + {e.url}
  {
    var t := q + [e];
    forall u | u in UrlSet(t) ensures u in UrlSet(q) + {e.url} {
      var i :| 0 <= i < |t| && t[i].url == u;
      if i < |q| { assert t[i] == q[i]; }
    }
    forall u | u in UrlSet(q) ensures u in UrlSet(t) {
      var i :| 0 <= i < |q| && q[i].url == u;
      assert t[i] == q[i];
    }
    assert t[|q|] == e;
  }

  /** No URL is in the queue twice. */
  ghost predicate DistinctUrls(q: seq<Entry>) {
    forall i, j | 0 <= i < j < |q| :: q[i].url != q[j].url
  }

  /**
   The queue discipline: the seed first, every URL in the queue once,
   `enqueued` the URLs ever queued and `visited` those already taken off.
   */
  ghost predicate QueueOk(seed: string, queue: seq<Entry>, head: nat, visited: set<string>, enqueued: set<string>) {
    && 0 < |queue| && head <= |queue| && queue[0] == Entry(seed, 0, 0)
    && enqueued == UrlSet(queue) && DistinctUrls(queue)
    && visited == UrlSet(queue[..head])
  }

  lemma QueueStart(seed: string)
    ensures QueueOk(seed, [Entry(seed, 0, 0)], 0, {}, {seed})
  {
    assert UrlSet([Entry(seed, 0, 0)]) == {seed} by { assert [Entry(seed, 0, 0)][0].url == seed; }
  }

  /** Taking the next entry off: its URL was not visited before (so the source's visited test never fires). */
  lemma VisitNext(seed: string, queue: seq<Entry>, head: nat, visited: set<string>, enqueued: set<string>)
    requires QueueOk(seed, queue, head, visited, enqueued) && head < |queue|
    ensures queue[head].url !in visited
    ensures QueueOk(seed, queue, head + 1, visited + {queue[head].url}, enqueued)
  {
    assert forall i | 0 <= i < head :: queue[..head][i] == queue[i];
    assert queue[..head + 1] == queue[..head] + [queue[head]];
    UrlSetAppend(queue[..head], queue[head]);
  }

  /** A queue that extends another holds all of its URLs. */
  lemma UrlSetGrows(q: seq<Entry>, q': seq<Entry>)
    requires |q| <= |q'| && q'[..|q|] == q
    ensures UrlSet(q) <= UrlSet(q')
  {
    forall u | u in UrlSet(q) ensures u in UrlSet(q') {
      var i :| 0 <= i < |q| && q[i].url == u;
      assert q'[i] == q'[..|q|][i];
    }
  }

  /** Every visited URL was enqueued. */
  lemma VisitedQueued(seed: string, queue: seq<Entry>, head: nat, visited: set<string>, enqueued: set<string>)
    requires QueueOk(seed, queue, head, visited, enqueued)
    ensures visited <= enqueued
  {
    UrlSetGrows(queue[..head], queue);
  }

  /** Appending fresh entries keeps the discipline. */
  lemma QueueGrows(seed: string, queue: seq<Entry>, queue': seq<Entry>, head: nat, visited: set<string>,
                   enqueued: set<string>, enqueued': set<string>)
    requires QueueOk(seed, queue, head, visited, enqueued)
    requires |queue| <= |queue'| && queue'[..|queue|] == queue
    requires enqueued' == UrlSet(queue') && DistinctUrls(queue')
    ensures QueueOk(seed, queue', head, visited, enqueued')
  {
    assert queue'[..head] == queue[..head];
    assert queue'[0] == queue[0];
  }

  /** The URLs fetched so far. */
  function FetchedUrls(fs: seq<FetchEvent>): set<string> {
    set i | 0 <= i < |fs| :: fs[i].url
  }

  /** The URLs fetched grow with the log. */
  lemma FetchedGrows(fs: seq<FetchEvent>, x: FetchEvent)
    ensures FetchedUrls(fs) + {x.url} <= FetchedUrls(fs + [x])
  {
    var t := fs + [x];
    forall u | u in FetchedUrls(fs) ensures u in FetchedUrls(t) {
      var i :| 0 <= i < |fs| && fs[i].url == u;
      assert t[i] == fs[i];
    }
    assert t[|fs|] == x;
  }

  /** No URL was fetched twice. */
  ghost predicate DistinctFetches(fs: seq<FetchEvent>) {
    forall i, j | 0 <= i < j < |fs| :: fs[i].url != fs[j].url
  }

  /**
   The failure counter: the number of fetches at the end of the log that
   failed, which is reset by every successful fetch.
   */
  function TrailingFailures(fs: seq<FetchEvent>): (n: nat)
    ensures n <= |fs|
    ensures forall j | |fs| - n <= j < |fs| :: fs[j].html.None?
    ensures n < |fs| ==> fs[|fs| - 1 - n].html.Some?
    decreases |fs|
  {
    if |fs| == 0 || fs[|fs| - 1].html.Some? then 0
    else
      var n := TrailingFailures(fs[..|fs| - 1]);
      assert forall j | 0 <= j < |fs| - 1 :: fs[..|fs| - 1][j] == fs[j];
      n + 1
  }

  /** The number of successful fetches in the log (`fetched`). */
  function CountOk(fs: seq<FetchEvent>): (n: nat)
    ensures n <= |fs|
    ensures n == 0 <==> forall j | 0 <= j < |fs| :: fs[j].html.None?
    decreases |fs|
  {
    if |fs| == 0 then 0
    else
      var n := CountOk(fs[..|fs| - 1]);
      assert forall j | 0 <= j < |fs| - 1 :: fs[..|fs| - 1][j] == fs[j];
      n + if fs[|fs| - 1].html.Some? then 1 else 0
  }

  /**
   The crawl continued past every prefix of the log: before each fetch the
   run of failures was still below the breaker. A breaker of zero or less
   stops at the first failure.
   */
  ghost predicate BreakerHeld(fs: seq<FetchEvent>, breaker: int) {
    forall k | 0 <= k < |fs| :: TrailingFailures(fs[..k]) < Max(breaker, 1)
  }

  /** Logging one more fetch keeps the breaker when the counter was below it before. */
  lemma BreakerStep(fs: seq<FetchEvent>, x: FetchEvent, breaker: int)
    requires BreakerHeld(fs, breaker) && TrailingFailures(fs) < Max(breaker, 1)
    ensures BreakerHeld(fs + [x], breaker)
  {
    var t := fs + [x];
    forall k | 0 <= k < |t| ensures TrailingFailures(t[..k]) < Max(breaker, 1) {
      assert t[..k] == fs[..k];
      if k == |fs| { assert fs[..k] == fs; }
    }
  }

  /** Logging a fetch of a URL not fetched before keeps the log duplicate-free. */
  lemma FetchLogGrows(fs: seq<FetchEvent>, x: FetchEvent)
    requires DistinctFetches(fs) && x.url !in FetchedUrls(fs)
    ensures DistinctFetches(fs + [x])
    ensures FetchedUrls(fs + [x]) == FetchedUrls(fs) + {x.url}
  {
    var t := fs + [x];
    forall i, j | 0 <= i < j < |t| ensures t[i].url != t[j].url {
      assert t[i] == fs[i];
      if j == |fs| { assert fs[i].url in FetchedUrls(fs); } else { assert t[j] == fs[j]; }
    }
    forall u | u in FetchedUrls(t) ensures u in FetchedUrls(fs) + {x.url} {
      var i :| 0 <= i < |t| && t[i].url == u;
      if i < |fs| { assert t[i] == fs[i]; }
    }
    forall u | u in FetchedUrls(fs) ensures u in FetchedUrls(t) {
      var i :| 0 <= i < |fs| && fs[i].url == u;
      assert t[i] == fs[i];
    }
    assert t[|fs|] == x;
  }

  /** The counters after logging one more fetch. */
  lemma CountersStep(fs: seq<FetchEvent>, x: FetchEvent)
    ensures CountOk(fs + [x]) == CountOk(fs) + if x.html.Some? then 1 else 0
    ensures TrailingFailures(fs + [x]) == if x.html.Some? then 0 else TrailingFailures(fs) + 1
  {
    assert (fs + [x])[..|fs|] == fs;
  }
}

=== FILE: episodic_subcommand.dfy ===
/**
 `subcommands/seed_episodic_memory.py`: the merging episodic seeder. It
 walks every turn with content of the chat transcripts and of
 `long_term_memory.json`, gives each an id from its session, position and
 text, and adds the items whose id is neither stored yet nor already
 taken earlier in the same run. Nothing is deleted.
 */
module EpisodicSubcommand {
  import opened Wrappers
  import opened Text
  import opened Seqs
  import opened Hashing
  import opened SeedCommon

  /** One tuple `(session_id, idx, role, content, when, importance, tags)` of `iter_turns`. */
  datatype Tuple = Tuple(session: string, idx: nat, role: string, content: string, when: string,
                         importance: string, tags: seq<string>)

  /** Where a list of turns comes from: a chat transcript, by its stem, or `long_term_memory.json`. */
  datatype Origin = Chat(stem: string) | LongTerm

  /**
   The tuple of the `i`-th turn of a list, `None` when the turn has no
   content or `i` is out of range. A transcript turn takes its stem as
   session and missing timestamp, importance "normal" and no tags; a
   long-term turn takes "long_term_memory", "n/a" and its own importance
   and tags.
   */
  function TupleAt(o: Origin, turns: seq<Turn>, i: int): (r: Option<Tuple>)
    ensures r.Some? ==> 0 <= i < |turns| && r.value.idx == i && r.value.content != ""
    ensures 0 <= i < |turns| && TurnContent(turns[i]) != "" ==> r.Some?
  {
    if i < 0 || i >= |turns| || TurnContent(turns[i]) == "" then None
    else
      var t := turns[i];
      match o
      case Chat(stem) => Some(Tuple(stem, i, TurnRole(t), TurnContent(t), TurnWhen(t, stem), "normal", []))
      case LongTerm => Some(Tuple("long_term_memory", i, TurnRole(t), TurnContent(t), TurnWhen(t, "n/a"),
                                  t.importance.GetOr("normal"), t.tags.GetOr([])))
  }

  /** The tuples of one list of turns: one per turn with content, none for the others. */
  function ListTuples(o: Origin, turns: seq<Turn>): (ts: seq<Tuple>)
    ensures |ts| <= |turns|
    ensures forall k | 0 <= k < |ts| :: ts[k].idx < |turns| && TupleAt(o, turns, ts[k].idx) == Some(ts[k])
    ensures forall i | 0 <= i < |turns| && TurnContent(turns[i]) != "" :: TupleAt(o, turns, i).value in ts
  {
    var idx := seq(|turns|, i => i);
    var ts := Kept(idx, i => TupleAt(o, turns, i));
    ListTuplesFacts(o, turns, idx, ts);
    ts
  }

  lemma ListTuplesFacts(o: Origin, turns: seq<Turn>, idx: seq<int>, ts: seq<Tuple>)
    requires idx == seq(|turns|, i => i)
    requires ts == Kept(idx, i => TupleAt(o, turns, i))
    ensures forall k | 0 <= k < |ts| :: ts[k].idx < |turns| && TupleAt(o, turns, ts[k].idx) == Some(ts[k])
    ensures forall i | 0 <= i < |turns| && TurnContent(turns[i]) != "" :: TupleAt(o, turns, i).value in ts
  {
    var f := i => TupleAt(o, turns, i);
    forall k | 0 <= k < |ts| ensures ts[k].idx < |turns| && TupleAt(o, turns, ts[k].idx) == Some(ts[k]) {
      assert ts[k] in ts;
      var j :| 0 <= j < |idx| && f(idx[j]) == Some(ts[k]);
      assert TupleAt(o, turns, j) == Some(ts[k]);
    }
    forall i | 0 <= i < |turns| && TurnContent(turns[i]) != "" ensures TupleAt(o, turns, i).value in ts {
      assert f(idx[i]).Some?;
    }
  }

  /** A transcript that did not parse, or holds no list of turns, gives nothing. */
  function FileTuples(f: ChatFile): seq<Tuple> {
    if f.turns.None? then [] else ListTuples(Chat(f.stem), f.turns.value)
  }

  /** `iter_turns`: the transcripts in file-name order, then `long_term_memory.json` when it holds a list. */
  function IterTurns(files: seq<ChatFile>, ltm: Option<seq<Turn>>): seq<Tuple> {
    Flatten(seq(|files|, j requires 0 <= j < |files| => FileTuples(files[j]))) +
      if ltm.None? then [] else ListTuples(LongTerm, ltm.value)
  }

  /** `make_id`: the hashed key `f"{session_id}|{idx:06d}|{role}|{content}|{when}"`. */
  function MakeId(sha1: Sha1, t: Tuple): (id: string)
    ensures IsTag(id, "episodic_", 16)
  {
    TurnId(sha1, t.session, t.idx, t.role, t.content, t.when)
  }

  /** An item to add: its id and record. */
  type Item = Row

  function ItemId(x: Item): string { x.id }

  /** The item of a tuple: `"[role at when]: content"` with the episodic metadata. */
  function ItemOf(sha1: Sha1, t: Tuple): Item {
    Row(MakeId(sha1, t), Record(TurnDocument(t.role, t.when, t.content),
                                 Some(ItemMeta(t.role, t.when, t.session, t.importance, t.tags))))
  }

  function ItemsOf(sha1: Sha1, ts: seq<Tuple>): (items: seq<Item>)
    ensures |items| == |ts| && forall i | 0 <= i < |ts| :: items[i] == ItemOf(sha1, ts[i])
  {
    seq(|ts|, i requires 0 <= i < |ts| => ItemOf(sha1, ts[i]))
  }

  /**
   The reference definition of the merge: of the items whose id is not
   stored, the first of every id, in order.
   */
  function Fresh(sha1: Sha1, existing: set<string>, ts: seq<Tuple>): seq<Item> {
    Dedup(Filter(ItemsOf(sha1, ts), Unstored(existing)), ItemId)
  }

  /** The test "id not stored yet". */
  function Unstored(existing: set<string>): Item -> bool {
    (x: Item) => x.id !in existing
  }

  /**
   The merge loop of `main`, with the stored ids `existing`: a tuple is
   skipped when its id is stored or was taken earlier in the run. The
   items are the reference merge: no stored id, no id twice, each the item
   of some tuple, and every tuple's id either stored or taken.
   */
  method Merge(sha1: Sha1, existing: set<string>, ts: seq<Tuple>) returns (items: seq<Item>)
    ensures items == Fresh(sha1, existing, ts)
    ensures DistinctKeys(items, ItemId)
    ensures forall k | 0 <= k < |items| :: items[k].id !in existing
    ensures forall k | 0 <= k < |items| :: exists i | 0 <= i < |ts| :: items[k] == ItemOf(sha1, ts[i])
    ensures forall i | 0 <= i < |ts| :: MakeId(sha1, ts[i]) in existing || MakeId(sha1, ts[i]) in KeySet(items, ItemId)
  {
    var inrun: set<string> := {};
    items := [];
    for i := 0 to |ts|
      invariant items == Fresh(sha1, existing, ts[..i])
      invariant inrun == KeySet(items, ItemId)
    {
      var x := ItemOf(sha1, ts[i]);
      MergeStep(sha1, existing, ts, i, items);
      if x.id !in existing && x.id !in inrun {
        items := items + [x];
        inrun := inrun + {x.id};
      }
    }
    assert ts[..|ts|] == ts;
    FreshSound(sha1, existing, ts);
    FreshComplete(sha1, existing, ts);
  }

  /** One turn of the merge loop. */
  lemma MergeStep(sha1: Sha1, existing: set<string>, ts: seq<Tuple>, i: nat, items: seq<Item>)
    requires i < |ts| && items == Fresh(sha1, existing, ts[..i])
    ensures var x := ItemOf(sha1, ts[i]);
      Fresh(sha1, existing, ts[..i + 1]) == if x.id in existing || x.id in KeySet(items, ItemId) then items else items + [x]
    ensures KeySet(items + [ItemOf(sha1, ts[i])], ItemId) == KeySet(items, ItemId) + {MakeId(sha1, ts[i])}
  {
    var x := ItemOf(sha1, ts[i]);
    var pre := ItemsOf(sha1, ts[..i]);
    ItemsOfAppend(sha1, ts, i);
    FilterAppend(pre, x, Unstored(existing));
    DedupAppend(Filter(pre, Unstored(existing)), x, ItemId);
    KeySetAppend(items, x, ItemId);
  }

  lemma ItemsOfAppend(sha1: Sha1, ts: seq<Tuple>, i: nat)
    requires i < |ts|
    ensures ItemsOf(sha1, ts[..i + 1]) == ItemsOf(sha1, ts[..i]) + [ItemOf(sha1, ts[i])]
  {
    assert ts[..i + 1] == ts[..i] + [ts[i]];
    ItemsOfSnoc(sha1, ts[..i], ts[i]);
  }

  lemma ItemsOfSnoc(sha1: Sha1, s: seq<Tuple>, t: Tuple)
    ensures ItemsOf(sha1, s + [t]) == ItemsOf(sha1, s) + [ItemOf(sha1, t)]
  {
    var a, b := ItemsOf(sha1, s + [t]), ItemsOf(sha1, s) + [ItemOf(sha1, t)];
    forall k | 0 <= k < |a| ensures a[k] == b[k] {
      if k < |s| { assert (s + [t])[k] == s[k]; }
    }
  }

  /** No merged item is stored already, and each is the item of some tuple. */
  lemma FreshSound(sha1: Sha1, existing: set<string>, ts: seq<Tuple>)
    ensures var items := Fresh(sha1, existing, ts);
      forall k | 0 <= k < |items| :: items[k].id !in existing && exists i | 0 <= i < |ts| :: items[k] == ItemOf(sha1, ts[i])
  {
    var all := ItemsOf(sha1, ts);
    var kept := Filter(all, Unstored(existing));
    var items := Dedup(kept, ItemId);
    SubseqElements(items, kept);
    forall k | 0 <= k < |items| ensures items[k].id !in existing && exists i | 0 <= i < |ts| :: items[k] == ItemOf(sha1, ts[i]) {
      assert items[k] in kept;
      var j :| 0 <= j < |kept| && kept[j] == items[k];
      assert Unstored(existing)(kept[j]);
      assert kept[j] in all;
    }
  }

  /** Every tuple's id is stored or taken by the merge. */
  lemma FreshComplete(sha1: Sha1, existing: set<string>, ts: seq<Tuple>)
    ensures forall i | 0 <= i < |ts| ::
      MakeId(sha1, ts[i]) in existing || MakeId(sha1, ts[i]) in KeySet(Fresh(sha1, existing, ts), ItemId)
  {
    var all := ItemsOf(sha1, ts);
    var kept := Filter(all, Unstored(existing));
    forall i | 0 <= i < |ts| ensures MakeId(sha1, ts[i]) in existing || MakeId(sha1, ts[i]) in KeySet(kept, ItemId) {
      if MakeId(sha1, ts[i]) !in existing {
        assert Unstored(existing)(all[i]);
        assert all[i] in kept;
        var j :| 0 <= j < |kept| && kept[j] == all[i];
        assert ItemId(kept[j]) in KeySet(kept, ItemId);
      }
    }
  }

  /**
   `main`: the merged items are added when there are any. The stored
   items keep their records, every merged item is stored with its record,
   and nothing else is added; the count reported is the number of merged
   items.
   */
  method Seed(col: Collection, sha1: Sha1, files: seq<ChatFile>, ltm: Option<seq<Turn>>)
    returns (r: Collection, added: nat)
    ensures var items := Fresh(sha1, col.Keys, IterTurns(files, ltm));
      && added == |items|
      && r.Keys == col.Keys + KeySet(items, ItemId)
      && (forall id | id in col :: r[id] == col[id])
      && forall k | 0 <= k < |items| :: r[items[k].id] == items[k].record
  {
    var items := Merge(sha1, col.Keys, IterTurns(files, ltm));
    added := |items|;
    if items == [] {
      r := col;
    } else {
      r := AddItems(col, items);
    }
  }

  /** `episodic.add` of a batch of new items with distinct ids. */
  function AddItems(col: Collection, items: seq<Item>): (r: Collection)
    requires DistinctKeys(items, ItemId) && forall k | 0 <= k < |items| :: items[k].id !in col
    ensures r.Keys == col.Keys + KeySet(items, ItemId)
    ensures forall id | id in col :: r[id] == col[id]
    ensures forall k | 0 <= k < |items| :: r[items[k].id] == items[k].record
  {
    var ids := RowIds(items);
    assert !HasDuplicates(ids) by {
      forall i, j | 0 <= i < j < |ids| ensures ids[i] != ids[j] { assert ItemId(items[i]) != ItemId(items[j]); }
    }
    assert (set i | 0 <= i < |ids| :: ids[i]) == KeySet(items, ItemId);
    InsertAbsent(col, ids, RowRecords(items))
  }

  /**
   After a merge has been added, merging the same turns again finds
   nothing new: every id is stored by then.
   */
  lemma MergeAgainFindsNothing(sha1: Sha1, existing: set<string>, ts: seq<Tuple>)
    ensures Fresh(sha1, existing + KeySet(Fresh(sha1, existing, ts), ItemId), ts) == []
  {
    var stored := existing + KeySet(Fresh(sha1, existing, ts), ItemId);
    FreshComplete(sha1, existing, ts);
    var all := ItemsOf(sha1, ts);
    assert forall i | 0 <= i < |all| :: !Unstored(stored)(all[i]);
  }
}

=== FILE: hashing.dfy ===
/**
 Content-derived identifiers. SHA-1 and SHA-256 are not modelled: a digest
 function is a parameter of every member that needs one, constrained only
 to return a lowercase hex digest of the right length (what
 `hashlib.sha1(...).hexdigest()` returns). Equal inputs therefore give
 equal ids; nothing assumes that different inputs give different ids.
 */
module Hashing {
  import opened Text

  predicate IsHexDigit(c: char) { IsDigit(c) || 'a' <= c <= 'f' }

  predicate IsHex(s: string) { forall i | 0 <= i < |s| :: IsHexDigit(s[i]) }

  type Sha1Hex = s: string | |s| == 40 && IsHex(s)
    witness seq(40, _ => '0')

  type Sha256Hex = s: string | |s| == 64 && IsHex(s)
    witness seq(64, _ => '0')

  /** `hashlib.sha1(x.encode("utf-8")).hexdigest()`. */
  type Sha1 = string -> Sha1Hex

  /** `hashlib.sha256(x.encode("utf-8")).hexdigest()`. */
  type Sha256 = string -> Sha256Hex

  /** `prefix + digest[:n]`: a prefixed hex tag of exactly `n` digits. */
  predicate IsTag(id: string, prefix: string, n: nat) {
    |id| == |prefix| + n && StartsWith(id, prefix) && IsHex(id[|prefix|..])
  }

  function HexPrefix(d: string, n: nat): (r: string)
    requires n <= |d| && IsHex(d)
    ensures |r| == n && IsHex(r) && r == d[..n]
  {
    d[..n]
  }

  /** `"episodic_" + sha1(key)[:16]`, the id of a raw episodic turn. */
  function EpisodicIdOfKey(sha1: Sha1, key: string): (id: string)
    ensures IsTag(id, "episodic_", 16)
    ensures id[9..] == sha1(key)[..16]
  {
    "episodic_" + HexPrefix(sha1(key), 16)
  }

  /** `_episodic_id(session_id, role, text, when)`. */
  function EpisodicId(sha1: Sha1, sessionId: string, role: string, text: string, when: string): (id: string)
    ensures IsTag(id, "episodic_", 16)
    ensures id == EpisodicIdOfKey(sha1, sessionId + "|" + role + "|" + text + "|" + when)
  {
    EpisodicIdOfKey(sha1, sessionId + "|" + role + "|" + text + "|" + when)
  }

  /** `sentence_id(urlish_key, text)` / `_sentence_id(parent_id, text)`. */
  function SentenceId(sha1: Sha1, parent: string, text: string): (id: string)
    ensures IsTag(id, "sent_", 16)
    ensures id[5..] == sha1(parent + "|" + text)[..16]
  {
    "sent_" + HexPrefix(sha1(parent + "|" + text), 16)
  }

  /** `sha12(text)`: the first twelve hex digits of the SHA-1 digest. */
  function Sha12(sha1: Sha1, text: string): (h: string)
    ensures |h| == 12 && IsHex(h)
    ensures h == sha1(text)[..12]
  {
    HexPrefix(sha1(text), 12)
  }

  /** `stable_id(prefix, text)` = `prefix + "_" + sha12(text)`. */
  function StableId(sha1: Sha1, prefix: string, text: string): (id: string)
    ensures IsTag(id, prefix + "_", 12)
    ensures id[|prefix| + 1..] == sha1(text)[..12]
  {
    prefix + "_" + Sha12(sha1, text)
  }

  /**
   The key joins parent and text with a bare `|`, so a `|` moving from the
   end of the parent to the start of the text leaves the id unchanged:
   parent `a|b` with text `c` and parent `a` with text `b|c` share an id.
   */
  lemma SentenceIdJoinIsAmbiguous(sha1: Sha1, a: string, b: string, c: string)
    ensures SentenceId(sha1, a + "|" + b, c) == SentenceId(sha1, a, b + "|" + c)
  {
    assert (a + "|" + b) + "|" + c == a + "|" + (b + "|" + c);
  }

  /**
   A sentence id never collides with an episodic id, whatever the digests:
   the two families have different prefixes.
   */
  lemma SentenceIdIsNotEpisodicId(sha1: Sha1, p: string, t: string, s: string, r: string, x: string, w: string)
    ensures SentenceId(sha1, p, t) != EpisodicId(sha1, s, r, x, w)
  {
    var a, b := SentenceId(sha1, p, t), EpisodicId(sha1, s, r, x, w);
    assert a[0] == 's' && b[0] == 'e';
  }
}

=== FILE: lexicon.dfy ===
/**
 Word-lexicon regular expressions of the form `\b(w1|w2|...)\b`, as used by
 the sentencer's sentiment, emotion, importance and salience tests.

 Two readings are defined and proved to agree:
 - the regex reading: `re.search` succeeds iff the pattern matches at some
   position (`Search`), and `re.findall` scans left to right, resuming
   after each match (`FindAllCount`);
 - the token reading: split the text into maximal runs of word characters
   and look each run up in the lexicon (`Runs`, `TokenCount`).
 */
module Lexicon {
  import opened Text
  import opened Wrappers

  /** Every alternative is a non-empty run of word characters. */
  predicate ValidLexicon(lex: seq<string>) {
    forall k | 0 <= k < |lex| :: |lex[k]| > 0 && forall m | 0 <= m < |lex[k]| :: IsWordChar(lex[k][m])
  }

  /** The text at `i` spells `w` (ignoring ASCII case when `ci`, as with `re.I`). */
  predicate SpellsAt(s: string, i: nat, w: string, ci: bool) {
    i + |w| <= |s| && (if ci then Lower(s[i..i + |w|]) == w else s[i..i + |w|] == w)
  }

  /**
   `\b` at position `i`, where `prev` says whether the character before
   position 0 is a word character (false at the start of the text).
   */
  predicate BoundaryAt(s: string, i: nat, prev: bool)
    requires i <= |s|
  {
    (if i == 0 then prev else IsWordChar(s[i - 1])) != (i < |s| && IsWordChar(s[i]))
  }

  /** `\b(lex)\b` matches at position `i`. */
  predicate MatchAt(s: string, i: nat, lex: seq<string>, ci: bool, prev: bool) {
    i <= |s| &&
    exists k | 0 <= k < |lex| ::
      SpellsAt(s, i, lex[k], ci) && BoundaryAt(s, i, prev) && BoundaryAt(s, i + |lex[k]|, prev)
  }

  /** `re.search(r"\b(lex)\b", s)` succeeds. */
  predicate Search(s: string, lex: seq<string>, ci: bool) {
    exists i | 0 <= i <= |s| :: MatchAt(s, i, lex, ci, false)
  }

  /** The first alternative (in pattern order) that matches at position 0 and ends at a boundary. */
  function FirstAlternative(s: string, lex: seq<string>, ci: bool): (r: Option<string>)
    ensures r.Some? ==>
      r.value in lex && SpellsAt(s, 0, r.value, ci) && (|r.value| == |s| || !IsWordChar(s[|r.value|]))
    ensures r.None? ==> forall k | 0 <= k < |lex| ::
      !(SpellsAt(s, 0, lex[k], ci) && (|lex[k]| == |s| || !IsWordChar(s[|lex[k]|])))
  {
    if |lex| == 0 then None
    else if SpellsAt(s, 0, lex[0], ci) && (|lex[0]| == |s| || !IsWordChar(s[|lex[0]|])) then Some(lex[0])
    else FirstAlternative(s, lex[1..], ci)
  }

  /**
   `len(re.findall(r"\b(lex)\b", s))`: the scanner tries each position in
   turn and, after a match, resumes where the match ended.
   */
  function FindAllCount(s: string, lex: seq<string>, ci: bool, prev: bool): nat
    requires ValidLexicon(lex)
    decreases |s|
  {
    if |s| == 0 then 0
    else
      var alt := if prev then None else FirstAlternative(s, lex, ci);
      if alt.Some? then 1 + FindAllCount(s[|alt.value|..], lex, ci, true)
      else FindAllCount(s[1..], lex, ci, IsWordChar(s[0]))
  }

  // ------------------------------------------------------------ token view

  /** Length of the leading run of word characters. */
  function RunLen(s: string): (n: nat)
    ensures n <= |s|
    ensures forall i | 0 <= i < n :: IsWordChar(s[i])
    ensures n == |s| || !IsWordChar(s[n])
  {
    if |s| > 0 && IsWordChar(s[0]) then 1 + RunLen(s[1..]) else 0
  }

  /** The maximal runs of word characters, left to right (the text's "tokens"). */
  function Runs(s: string): (toks: seq<string>)
    ensures forall k | 0 <= k < |toks| :: |toks[k]| > 0
    decreases |s|
  {
    if |s| == 0 then []
    else if !IsWordChar(s[0]) then Runs(s[1..])
    else
      var n := RunLen(s);
      [s[..n]] + Runs(s[n..])
  }

  predicate InLexicon(tok: string, lex: seq<string>, ci: bool) {
    (if ci then Lower(tok) else tok) in lex
  }

  /** Number of tokens that are lexicon words. */
  function TokenCount(toks: seq<string>, lex: seq<string>, ci: bool): nat
  {
    if |toks| == 0 then 0
    else (if InLexicon(toks[0], lex, ci) then 1 else 0) + TokenCount(toks[1..], lex, ci)
  }

  lemma LowerKeepsWordChars(x: string, w: string)
    requires Lower(x) == w
    requires forall m | 0 <= m < |w| :: IsWordChar(w[m])
    ensures forall m | 0 <= m < |x| :: IsWordChar(x[m])
  {
    forall m | 0 <= m < |x| ensures IsWordChar(x[m]) {
      assert LowerChar(x[m]) == w[m];
    }
  }

  /**
   At the start of a token, an alternative that matches with an end
   boundary is exactly the token itself.
   */
  lemma AlternativeIsToken(s: string, w: string, ci: bool)
    requires |w| > 0 && forall m | 0 <= m < |w| :: IsWordChar(w[m])
    requires SpellsAt(s, 0, w, ci) && (|w| == |s| || !IsWordChar(s[|w|]))
    ensures RunLen(s) == |w|
    ensures InLexicon(s[..RunLen(s)], [w], ci)
  {
    var x := s[..|w|];
    if ci {
      LowerKeepsWordChars(x, w);
    }
    assert forall m | 0 <= m < |w| :: IsWordChar(s[m]) by {
      forall m | 0 <= m < |w| ensures IsWordChar(s[m]) { assert s[m] == x[m]; }
    }
    RunLenExact(s, |w|);
  }

  lemma {:induction false} RunLenExact(s: string, n: nat)
    requires n <= |s|
    requires forall i | 0 <= i < n :: IsWordChar(s[i])
    requires n == |s| || !IsWordChar(s[n])
    ensures RunLen(s) == n
    decreases n
  {
    if n > 0 {
      RunLenExact(s[1..], n - 1);
    }
  }

  /** Dropping the rest of the current token from `s[1..]` lands where it lands from `s`. */
  lemma DropTokenStep(s: string)
    requires |s| > 0 && IsWordChar(s[0])
    ensures RunLen(s) == 1 + RunLen(s[1..])
    ensures s[RunLen(s)..] == s[1..][RunLen(s[1..])..]
  {
  }

  /**
   The findall scanner and the token view count the same matches:
   from a non-word context the count is the number of lexicon tokens;
   from inside a word the scanner first skips the rest of that word.
   */
  lemma {:induction false} FindAllCountIsTokenCount(s: string, lex: seq<string>, ci: bool, prev: bool)
    requires ValidLexicon(lex)
    ensures !prev ==> FindAllCount(s, lex, ci, prev) == TokenCount(Runs(s), lex, ci)
    ensures prev ==> FindAllCount(s, lex, ci, prev) == TokenCount(Runs(s[RunLen(s)..]), lex, ci)
    decreases |s|
  {
    if |s| == 0 {
    } else if !IsWordChar(s[0]) {
      FindAllCountIsTokenCount(s[1..], lex, ci, false);
      SkippedNonWord(s, lex, ci, prev);
    } else if prev {
      DropTokenStep(s);
      FindAllCountIsTokenCount(s[1..], lex, ci, true);
    } else {
      var alt := FirstAlternative(s, lex, ci);
      if alt.Some? {
        FindAllCountIsTokenCount(s[|alt.value|..], lex, ci, true);
        MatchedToken(s, lex, ci);
      } else {
        FindAllCountIsTokenCount(s[1..], lex, ci, true);
        UnmatchedToken(s, lex, ci);
      }
    }
  }

  /** A character outside words is skipped, whatever came before it. */
  lemma SkippedNonWord(s: string, lex: seq<string>, ci: bool, prev: bool)
    requires ValidLexicon(lex) && |s| > 0 && !IsWordChar(s[0])
    requires FindAllCount(s[1..], lex, ci, false) == TokenCount(Runs(s[1..]), lex, ci)
    ensures FindAllCount(s, lex, ci, prev) == TokenCount(Runs(s), lex, ci)
    ensures RunLen(s) == 0
  {
    assert FirstAlternative(s, lex, ci).None? by {
      if FirstAlternative(s, lex, ci).Some? {
        var w := FirstAlternative(s, lex, ci).value;
        AlternativeIsToken(s, w, ci);
      }
    }
  }

  /** A token the lexicon matches counts once, and the scan resumes after it. */
  lemma MatchedToken(s: string, lex: seq<string>, ci: bool)
    requires ValidLexicon(lex) && |s| > 0 && IsWordChar(s[0]) && FirstAlternative(s, lex, ci).Some?
    requires var m := |FirstAlternative(s, lex, ci).value|;
      FindAllCount(s[m..], lex, ci, true) == TokenCount(Runs(s[m..][RunLen(s[m..])..]), lex, ci)
    ensures FindAllCount(s, lex, ci, false) == TokenCount(Runs(s), lex, ci)
  {
    var n := RunLen(s);
    var tok := s[..n];
    assert Runs(s) == [tok] + Runs(s[n..]);
    var alt := FirstAlternative(s, lex, ci);
    AlternativeIsToken(s, alt.value, ci);
    assert InLexicon(tok, lex, ci);
    assert RunLen(s[n..]) == 0;
    assert s[n..][0..] == s[n..];
  }

  /** A token the lexicon does not match counts nothing, and the scan skips it. */
  lemma UnmatchedToken(s: string, lex: seq<string>, ci: bool)
    requires ValidLexicon(lex) && |s| > 0 && IsWordChar(s[0]) && FirstAlternative(s, lex, ci).None?
    requires FindAllCount(s[1..], lex, ci, true) == TokenCount(Runs(s[1..][RunLen(s[1..])..]), lex, ci)
    ensures FindAllCount(s, lex, ci, false) == TokenCount(Runs(s), lex, ci)
  {
    var n := RunLen(s);
    var tok := s[..n];
    assert Runs(s) == [tok] + Runs(s[n..]);
    assert !InLexicon(tok, lex, ci) by {
      if InLexicon(tok, lex, ci) {
        var w := if ci then Lower(tok) else tok;
        var k :| 0 <= k < |lex| && lex[k] == w;
        assert SpellsAt(s, 0, lex[k], ci);
      }
    }
    DropTokenStep(s);
  }

  /** Shifting the match position by one character. */
  lemma MatchShift(s: string, i: nat, lex: seq<string>, ci: bool, prev: bool)
    requires |s| > 0
    ensures MatchAt(s, i + 1, lex, ci, prev) <==> MatchAt(s[1..], i, lex, ci, IsWordChar(s[0]))
  {
    if i + 1 <= |s| {
      forall k | 0 <= k < |lex|
        ensures (SpellsAt(s, i + 1, lex[k], ci) && BoundaryAt(s, i + 1, prev) && BoundaryAt(s, i + 1 + |lex[k]|, prev))
            <==> (SpellsAt(s[1..], i, lex[k], ci) && BoundaryAt(s[1..], i, IsWordChar(s[0])) && BoundaryAt(s[1..], i + |lex[k]|, IsWordChar(s[0])))
      {
        if i + 1 + |lex[k]| <= |s| {
          assert s[i + 1..i + 1 + |lex[k]|] == s[1..][i..i + |lex[k]|];
        }
      }
    }
  }

  /** A match at position 0 is exactly what the scanner looks for there. */
  lemma MatchAtStart(s: string, lex: seq<string>, ci: bool, prev: bool)
    requires ValidLexicon(lex) && |s| > 0
    ensures MatchAt(s, 0, lex, ci, prev) <==> (!prev && FirstAlternative(s, lex, ci).Some?)
  {
    if MatchAt(s, 0, lex, ci, prev) {
      var k :| 0 <= k < |lex| && SpellsAt(s, 0, lex[k], ci) && BoundaryAt(s, 0, prev) && BoundaryAt(s, |lex[k]|, prev);
      AlternativeIsToken(s, lex[k], ci) by {
        assert IsWordChar(s[|lex[k]| - 1]) by {
          if ci { LowerKeepsWordChars(s[..|lex[k]|], lex[k]); assert s[|lex[k]| - 1] == s[..|lex[k]|][|lex[k]| - 1]; }
          else { assert s[|lex[k]| - 1] == s[..|lex[k]|][|lex[k]| - 1]; }
        }
      }
      assert IsWordChar(s[0]);
    }
    if !prev && FirstAlternative(s, lex, ci).Some? {
      var w := FirstAlternative(s, lex, ci).value;
      var k :| 0 <= k < |lex| && lex[k] == w;
      AlternativeIsToken(s, w, ci);
      assert BoundaryAt(s, 0, prev) && BoundaryAt(s, |w|, prev);
    }
  }

  /** The scanner finds something iff the pattern matches somewhere. */
  lemma {:induction false} FindAllPositiveIffMatch(s: string, lex: seq<string>, ci: bool, prev: bool)
    requires ValidLexicon(lex)
    ensures FindAllCount(s, lex, ci, prev) > 0 <==> exists i | 0 <= i <= |s| :: MatchAt(s, i, lex, ci, prev)
    decreases |s|
  {
    if |s| == 0 {
      assert !MatchAt(s, 0, lex, ci, prev);
    } else {
      MatchAtStart(s, lex, ci, prev);
      if !(!prev && FirstAlternative(s, lex, ci).Some?) {
        FindAllPositiveIffMatch(s[1..], lex, ci, IsWordChar(s[0]));
        forall i | 0 <= i < |s| ensures MatchAt(s, i + 1, lex, ci, prev) <==> MatchAt(s[1..], i, lex, ci, IsWordChar(s[0])) {
          MatchShift(s, i, lex, ci, prev);
        }
        if exists i | 0 <= i <= |s| :: MatchAt(s, i, lex, ci, prev) {
          var i :| 0 <= i <= |s| && MatchAt(s, i, lex, ci, prev);
          assert i > 0;
          assert MatchAt(s[1..], i - 1, lex, ci, IsWordChar(s[0]));
        }
      }
    }
  }

  /** Some token of the text is a lexicon word. */
  predicate Mentions(s: string, lex: seq<string>, ci: bool) {
    exists k | 0 <= k < |Runs(s)| :: InLexicon(Runs(s)[k], lex, ci)
  }

  lemma {:induction false} TokenCountPositive(toks: seq<string>, lex: seq<string>, ci: bool)
    ensures TokenCount(toks, lex, ci) > 0 <==> exists k | 0 <= k < |toks| :: InLexicon(toks[k], lex, ci)
    decreases |toks|
  {
    if |toks| > 0 {
      TokenCountPositive(toks[1..], lex, ci);
      if exists k | 0 <= k < |toks| :: InLexicon(toks[k], lex, ci) {
        var k :| 0 <= k < |toks| && InLexicon(toks[k], lex, ci);
        if k > 0 { assert InLexicon(toks[1..][k - 1], lex, ci); }
      }
    }
  }

  /** `re.search` succeeds iff some token of the text is a lexicon word. */
  lemma SearchIffMentions(s: string, lex: seq<string>, ci: bool)
    requires ValidLexicon(lex)
    ensures Search(s, lex, ci) <==> Mentions(s, lex, ci)
  {
    FindAllPositiveIffMatch(s, lex, ci, false);
    FindAllCountIsTokenCount(s, lex, ci, false);
    TokenCountPositive(Runs(s), lex, ci);
  }
}

=== FILE: ltm_integration.dfy ===
/**
 The retrieval side of `orion_ltm_integration.py`: prefer-sentenced
 retrieval followed by de-duplication on normalised document text, and
 the context block handed to the prompt (persona lines, then one line per
 episodic hit).
 */
module LtmIntegration {
  import opened Wrappers
  import opened Text
  import opened Seqs
  import opened Sorting
  import opened Retrieval

  /** `re.sub(r"\s+", " ", (doc or "").strip().lower())`. */
  function TextKey(h: Hit): string {
    CollapseSpaces(Lower(Strip(h.document.GetOr(""))))
  }

  /** A hit whose document is not blank; only these survive de-duplication. */
  predicate HasText(h: Hit) {
    TextKey(h) != ""
  }

  /** The key is empty exactly when the document is missing or blank. */
  lemma HasTextIffNotBlank(h: Hit)
    ensures HasText(h) <==> !IsBlank(h.document.GetOr(""))
  {
    var d := h.document.GetOr("");
    StripEmptyIffBlank(d, LStrip(d));
  }

  /**
   `_prefer_sentenced(...)`: the merged hits with every hit whose
   normalised text is empty or already seen dropped, cut to `n_results`.
   */
  method PreferSentenced(db: Collections, queries: seq<string>, n: int, threshold: real, fallback: bool)
    returns (hits: seq<Hit>, consultedRaw: bool)
    requires WellShaped(db, queries, n, threshold, fallback)
    ensures var m := Merge(db, queries, n, threshold, fallback);
      && consultedRaw == m.consultedRaw
      && hits == Take(Dedup(Filter(m.hits, HasText), TextKey), n)
      && IsSubseq(hits, m.hits)
      && (forall i | 0 <= i < |hits| :: HasText(hits[i]) && IsFirstWithKey(Filter(m.hits, HasText), hits[i], TextKey))
    ensures n >= 0 ==> |hits| <= n
    ensures DistinctKeys(hits, TextKey)
    ensures SortedBy(hits, SortKey)
  {
    var m := Merge(db, queries, n, threshold, fallback);
    consultedRaw := m.consultedRaw;
    var unique := DedupByText(m.hits);
    hits := Take(unique, n);
    TakeKeepsOrder(m.hits, unique, hits);
    TakeKeepsFirsts(m.hits, unique, hits);
  }

  /**
   The de-duplication loop of `_prefer_sentenced`: keep a hit iff its
   normalised text is non-empty and not kept before.
   */
  method DedupByText(all: seq<Hit>) returns (unique: seq<Hit>)
    ensures unique == Dedup(Filter(all, HasText), TextKey)
  {
    unique := [];
    var seenDocs: set<string> := {};
    for i := 0 to |all|
      invariant unique == Dedup(Filter(all[..i], HasText), TextKey)
      invariant seenDocs == KeySet(unique, TextKey)
    {
      var h := all[i];
      DedupStep(all, i, unique);
      var key := TextKey(h);
      if key == "" || key in seenDocs {
        continue;
      }
      KeySetAppend(unique, h, TextKey);
      seenDocs := seenDocs + {key};
      unique := unique + [h];
    }
    assert all[..|all|] == all;
  }

  /** One iteration of the seen-set loop. */
  lemma DedupStep(all: seq<Hit>, i: nat, unique: seq<Hit>)
    requires i < |all| && unique == Dedup(Filter(all[..i], HasText), TextKey)
    ensures Dedup(Filter(all[..i + 1], HasText), TextKey) ==
      if HasText(all[i]) && TextKey(all[i]) !in KeySet(unique, TextKey) then unique + [all[i]] else unique
  {
    DedupFilterStep(all, i, HasText, TextKey);
  }

  /** The cut keeps a sorted subsequence of the merged hits. */
  lemma TakeKeepsOrder(all: seq<Hit>, unique: seq<Hit>, hits: seq<Hit>)
    requires unique == Dedup(Filter(all, HasText), TextKey)
    requires SortedBy(all, SortKey)
    requires |hits| <= |unique| && hits == unique[..|hits|]
    ensures IsSubseq(hits, all)
    ensures SortedBy(hits, SortKey)
  {
    var f := Filter(all, HasText);
    SubseqPrefix(unique, |hits|);
    SubseqTrans(hits, unique, f);
    SubseqTrans(hits, f, all);
    SubseqSorted(hits, all);
  }

  /** Every kept hit has text, is the first of its key, and no two kept hits share a key. */
  lemma TakeKeepsFirsts(all: seq<Hit>, unique: seq<Hit>, hits: seq<Hit>)
    requires unique == Dedup(Filter(all, HasText), TextKey)
    requires |hits| <= |unique| && hits == unique[..|hits|]
    ensures forall i | 0 <= i < |hits| :: HasText(hits[i]) && IsFirstWithKey(Filter(all, HasText), hits[i], TextKey)
    ensures DistinctKeys(hits, TextKey)
  {
    DedupFilterPrefix(all, HasText, TextKey, |hits|);
  }

  /** A subsequence of a sorted sequence is sorted. */
  lemma {:induction false} SubseqSorted(a: seq<Hit>, b: seq<Hit>)
    requires IsSubseq(a, b) && SortedBy(b, SortKey)
    ensures SortedBy(a, SortKey)
    decreases |b|
  {
    if |a| > 0 {
      var b' := b[..|b| - 1];
      assert SortedBy(b', SortKey);
      if IsSubseq(a, b') {
        SubseqSorted(a, b');
      } else {
        var a' := a[..|a| - 1];
        SubseqSorted(a', b');
        SubseqElements(a', b');
        forall i | 0 <= i < |a'| ensures KeyLe(SortKey(a'[i]), SortKey(b[|b| - 1])) {
          assert a'[i] in b';
          var j :| 0 <= j < |b'| && b'[j] == a'[i];
          assert b[j] == b'[j];
        }
        assert a == a' + [b[|b| - 1]];
      }
    }
  }

  // ------------------------------------------------------------- context

  /** `meta.get(key)` when the hit has metadata, else `None`. */
  function MetaGet(h: Hit, key: string): Option<MetaValue> {
    if h.metadata.Some? && key in h.metadata.value then Some(h.metadata.value[key]) else None
  }

  /** A hit produced by the sentencer (`metadata["type"] == "episodic_sentence"`). */
  predicate IsSentenceHit(h: Hit) {
    MetaGet(h, "type") == Some(MStr("episodic_sentence"))
  }

  /** `(meta.get("tags_csv") or "")` for a string value. */
  function TagsCsv(h: Hit): string {
    var v := MetaGet(h, "tags_csv");
    if v.Some? && v.value.MStr? then v.value.s else ""
  }

  /**
   `",".join(tags_csv.split("|")[:3])`: at most the first three tags,
   comma-separated. A list without `|` is shown whole, and no `|` is left
   in the preview. When the tags hold no comma, splitting the preview at
   its commas gives back exactly the first three `|`-separated tags.
   */
  function TagPreview(h: Hit): (p: string)
    ensures !HasChar(TagsCsv(h), '|') ==> p == TagsCsv(h)
    ensures !HasChar(p, '|')
    ensures !HasChar(TagsCsv(h), ',') ==> Split(p, ',') == Take(Split(TagsCsv(h), '|'), 3)
  {
    var all := Split(TagsCsv(h), '|');
    var parts := Take(all, 3);
    SplitPartsFree(TagsCsv(h), '|');
    assert !HasChar(",", '|');
    assert forall i | 0 <= i < |parts| :: parts[i] == all[i];
    JoinFree(parts, ",", '|');
    PreviewSplits(TagsCsv(h));
    Join(parts, ",")
  }

  /** Comma-free tags: the comma-joined first three parts split back into those parts. */
  lemma PreviewSplits(csv: string)
    ensures var parts := Take(Split(csv, '|'), 3);
      !HasChar(csv, ',') ==> Split(Join(parts, ","), ',') == parts
  {
    if !HasChar(csv, ',') {
      var all := Split(csv, '|');
      var parts := Take(all, 3);
      SplitPartsFreeOf(csv, '|', ',');
      assert forall i | 0 <= i < |parts| :: parts[i] == all[i];
      JoinSplits(parts, ',');
    }
  }

  /** `f"[{tag} imp={imp} tags={tag_preview}] {doc}"`; `show` renders the importance value as Python's `str`. */
  function HitLine(h: Hit, show: Option<MetaValue> -> string): (line: string)
    ensures StartsWith(line, "[SENTENCE ") <==> IsSentenceHit(h)
    ensures StartsWith(line, "[EPISODIC ") <==> !IsSentenceHit(h)
    ensures EndsWith(line, "] " + h.document.GetOr(""))
    ensures |line| >= 10 + |"] " + h.document.GetOr("")|
    ensures line[10..|line| - |"] " + h.document.GetOr("")|]
         == "imp=" + show(MetaGet(h, "importance")) + " tags=" + TagPreview(h)
  {
    var head := if IsSentenceHit(h) then "[SENTENCE " else "[EPISODIC ";
    var tail := "] " + h.document.GetOr("");
    var line := head + ("imp=" + show(MetaGet(h, "importance")) + " tags=" + TagPreview(h)) + tail;
    Affixes(head, "imp=" + show(MetaGet(h, "importance")) + " tags=" + TagPreview(h), tail);
    assert "[SENTENCE "[1] != "[EPISODIC "[1];
    line
  }

  /** `f"[PERSONA] {doc}"`. */
  function PersonaLine(doc: Option<string>): string {
    "[PERSONA] " + doc.GetOr("")
  }

  /**
   The persona part of the context: `"[PERSONA] " + doc` for every
   non-empty persona document, in order, and nothing else.
   */
  function PersonaLines(docs: seq<Option<string>>): (lines: seq<string>)
    ensures lines == Map(Filter(docs, Truthy), PersonaLine)
    ensures |lines| <= |docs|
    ensures forall i | 0 <= i < |lines| :: StartsWith(lines[i], "[PERSONA] ")
    ensures forall i | 0 <= i < |docs| :: Truthy(docs[i]) ==> "[PERSONA] " + docs[i].value in lines
    decreases |docs|
  {
    if |docs| == 0 then []
    else
      var pre, d := docs[..|docs| - 1], docs[|docs| - 1];
      var rest := PersonaLines(pre);
      assert docs == pre + [d];
      FilterAppend(pre, d, Truthy);
      assert forall i | 0 <= i < |docs| - 1 :: docs[i] == pre[i];
      if Truthy(d) then
        var line := PersonaLine(d);
        assert line[..10] == "[PERSONA] ";
        MapConcat(Filter(pre, Truthy), [d], PersonaLine);
        rest + [line]
      else rest
  }

  function HitLines(hits: seq<Hit>, show: Option<MetaValue> -> string): (lines: seq<string>)
    ensures |lines| == |hits|
    ensures forall i | 0 <= i < |hits| :: lines[i] == HitLine(hits[i], show)
  {
    seq(|hits|, i requires 0 <= i < |hits| => HitLine(hits[i], show))
  }

  /** The persona query result (first row of documents) and its own query. */
  datatype PersonaStore = PersonaStore(query: (string, int) -> seq<Option<string>>)

  /** The context lines: persona lines first, then one line per hit. */
  function ContextLines(personaDocs: seq<Option<string>>, hits: seq<Hit>, show: Option<MetaValue> -> string): (lines: seq<string>)
    ensures var pl := PersonaLines(personaDocs);
      && |lines| == |pl| + |hits|
      && lines[..|pl|] == pl
      && (forall i | 0 <= i < |hits| :: lines[|pl| + i] == HitLine(hits[i], show))
  {
    var pl, hl := PersonaLines(personaDocs), HitLines(hits, show);
    assert (pl + hl)[..|pl|] == pl;
    assert forall i | 0 <= i < |hits| :: (pl + hl)[|pl| + i] == hl[i];
    pl + hl
  }

  /**
   `get_relevant_ltm(user_input, ...)`: persona lines, then one line per
   retrieved hit, joined by newlines and stripped. Sentenced retrieval
   always falls back to the raw tier and asks for at least one hit.
   */
  method GetRelevantLtm(persona: PersonaStore, db: Collections, userInput: string,
                        topkPersona: int, topkEpisodic: int, threshold: real, show: Option<MetaValue> -> string)
    returns (ctx: string, hits: seq<Hit>)
    requires WellShaped(db, [userInput], Max(1, topkEpisodic), threshold, true)
    ensures hits == Take(Dedup(Filter(Merge(db, [userInput], Max(1, topkEpisodic), threshold, true).hits, HasText), TextKey),
                         Max(1, topkEpisodic))
    ensures |hits| <= Max(1, topkEpisodic)
    ensures DistinctKeys(hits, TextKey)
    ensures ctx == Strip(Join(ContextLines(persona.query(userInput, Max(1, topkPersona)), hits, show), "\n"))
  {
    var n := if topkEpisodic < 1 then 1 else topkEpisodic;
    assert n == Max(1, topkEpisodic) && n >= 0;
    var consultedRaw;
    hits, consultedRaw := PreferSentenced(db, [userInput], n, threshold, true);
    var docs := persona.query(userInput, Max(1, topkPersona));
    ctx := Strip(Join(ContextLines(docs, hits, show), "\n"));
  }
}

=== FILE: memory_sentencer.dfy ===
/**
 The memory-point sentencer: it turns one chat turn into at most
 `max_points` condensed "memory points", each with keywords, a sentiment
 and an emotion label and an importance score.

 The same helpers exist twice in the program, as a module of their own and
 inlined into the LTM integration; the only textual difference that can
 change a result is the pronoun pattern of the importance score, which is a
 parameter here (`PronounRule`). `PronounRulesAgree` shows the two
 patterns accept the same texts.
 */
module MemorySentencer {
  import opened Wrappers
  import opened Text
  import opened Seqs
  import opened Lexicon
  import opened Sorting

  /** Words never used as keywords. */
  const Stop: set<string> := {
    "the", "a", "an", "and", "or", "but", "if", "is", "are", "was", "were", "be", "been",
    "you", "your", "yours", "me", "my", "mine", "we", "our", "ours", "they", "them", "their",
    "to", "of", "in", "on", "for", "with", "as", "at", "by", "from", "it", "this", "that",
    "these", "those", "not", "no"}

  const PositiveWords: seq<string> := ["amazing", "great", "good", "love", "perfect", "win", "success"]
  const NegativeWords: seq<string> := ["bad", "worse", "hate", "fail", "problem", "bug", "issue"]
  const AnxietyWords: seq<string> := ["worried", "anxious", "stressed", "nervous"]
  const AngerWords: seq<string> := ["angry", "furious", "mad"]
  const JoyWords: seq<string> := ["happy", "glad", "excited", "joy"]
  const SadnessWords: seq<string> := ["sad", "upset", "down"]
  const TaskWords: seq<string> := ["todo", "task", "deadline", "remind", "remember", "fix", "bug"]
  const SalientWords: seq<string> := ["todo", "fix", "remember", "key", "important", "note"]
  const Pronouns: seq<string> := ["I", "we", "you"]

  /** Longest condensed text. */
  const MaxChars: nat := 220

  /** Keywords kept per point. */
  const KeywordCount: nat := 5

  // -------------------------------------------------------------- sentences

  predicate IsTerminator(c: char) { c == '.' || c == '!' || c == '?' }

  /** The split pattern `(?<=[.!?])\s+` can start at `i`. */
  predicate BreakAt(s: string, i: int) {
    0 < i < |s| && IsTerminator(s[i - 1]) && IsSpace(s[i])
  }

  predicate HasBreak(s: string) { exists i | 0 < i < |s| :: BreakAt(s, i) }

  predicate EndsWithTerminator(s: string) { |s| > 0 && IsTerminator(s[|s| - 1]) }

  function FirstBreakFrom(s: string, from: nat): (i: nat)
    requires 0 < from && exists i | from <= i < |s| :: BreakAt(s, i)
    ensures from <= i < |s| && BreakAt(s, i)
    ensures forall j | from <= j < i :: !BreakAt(s, j)
    decreases |s| - from
  {
    if BreakAt(s, from) then from else FirstBreakFrom(s, from + 1)
  }

  function FirstBreak(s: string): (i: nat)
    requires HasBreak(s)
    ensures BreakAt(s, i)
    ensures forall j | 0 < j < i :: !BreakAt(s, j)
  {
    FirstBreakFrom(s, 1)
  }

  /**
   `re.split(r"(?<=[.!?])\s+", s)`: the text is cut at every maximal
   whitespace run that follows a sentence terminator.
   */
  function SplitAtBreaks(s: string): (parts: seq<string>)
    ensures |parts| >= 1
    decreases |s|
  {
    if !HasBreak(s) then [s]
    else
      var i := FirstBreak(s);
      [s[..i]] + SplitAtBreaks(LStrip(s[i..]))
  }

  /** `[p.strip() for p in parts if p and p.strip()]`. */
  function StripNonBlank(parts: seq<string>): (r: seq<string>)
    ensures forall k | 0 <= k < |r| :: r[k] != "" && Stripped(r[k])
  {
    if |parts| == 0 then []
    else (if IsBlank(parts[0]) then [] else [Strip(parts[0])]) + StripNonBlank(parts[1..])
  }

  /** A sentence as the splitter produces it. */
  predicate CleanSentence(s: string) {
    s != "" && Stripped(s) && !HasBreak(s)
  }

  /**
   `split_sentences(text)`: the sentences of the text, each non-empty,
   stripped and free of further breaks; every sentence but the last ends
   with a terminator; blank text has none.
   */
  function SplitSentences(text: string): (sents: seq<string>)
    ensures forall k | 0 <= k < |sents| :: CleanSentence(sents[k])
    ensures forall k | 0 <= k < |sents| - 1 :: EndsWithTerminator(sents[k])
    ensures sents == [] <==> IsBlank(text)
  {
    var t := Strip(text);
    SplitAtBreaksParts(t);
    if t == "" then
      assert SplitAtBreaks(t) == [t];
      []
    else
      StripNonBlankOfStripped(SplitAtBreaks(t));
      StripNonBlank(SplitAtBreaks(t))
  }

  lemma SplitAtBreaksStep(s: string)
    requires HasBreak(s)
    ensures SplitAtBreaks(s) == [s[..FirstBreak(s)]] + SplitAtBreaks(LStrip(s[FirstBreak(s)..]))
  {
  }

  /** The text before the first break is a clean sentence ending in a terminator. */
  lemma HeadIsSentence(s: string)
    requires Stripped(s) && HasBreak(s)
    ensures CleanSentence(s[..FirstBreak(s)]) && EndsWithTerminator(s[..FirstBreak(s)])
  {
    var i := FirstBreak(s);
    var head := s[..i];
    assert !HasBreak(head) by {
      forall j | 0 < j < |head| ensures !BreakAt(head, j) {
        assert !BreakAt(s, j);
        assert head[j - 1] == s[j - 1] && head[j] == s[j];
      }
    }
    assert head[0] == s[0] && head[|head| - 1] == s[i - 1];
  }

  /** What follows the whitespace after a break is stripped and non-empty. */
  lemma RestIsStripped(s: string, i: nat)
    requires Stripped(s) && 0 < i < |s|
    ensures Stripped(LStrip(s[i..])) && LStrip(s[i..]) != ""
    ensures |LStrip(s[i..])| < |s|
  {
    var tail := s[i..];
    assert tail[|tail| - 1] == s[|s| - 1];
    LStripKeepsLast(tail);
  }

  predicate AllClean(parts: seq<string>) {
    forall k | 0 <= k < |parts| :: CleanSentence(parts[k])
  }

  predicate Terminated(parts: seq<string>) {
    forall k | 0 <= k < |parts| - 1 :: EndsWithTerminator(parts[k])
  }

  lemma ConsParts(head: string, more: seq<string>)
    requires CleanSentence(head) && EndsWithTerminator(head)
    requires AllClean(more) && Terminated(more)
    ensures AllClean([head] + more) && Terminated([head] + more)
  {
    var parts := [head] + more;
    forall k | 1 <= k < |parts| ensures parts[k] == more[k - 1] {
    }
  }

  lemma {:induction false} SplitAtBreaksParts(s: string)
    requires Stripped(s)
    ensures s == "" ==> SplitAtBreaks(s) == [s]
    ensures s != "" ==> AllClean(SplitAtBreaks(s))
    ensures Terminated(SplitAtBreaks(s))
    decreases |s|
  {
    if HasBreak(s) {
      var i := FirstBreak(s);
      SplitAtBreaksStep(s);
      HeadIsSentence(s);
      RestIsStripped(s, i);
      var rest := LStrip(s[i..]);
      SplitAtBreaksParts(rest);
      ConsParts(s[..i], SplitAtBreaks(rest));
    } else {
      assert SplitAtBreaks(s) == [s];
    }
  }

  lemma {:induction false} StripNonBlankOfStripped(parts: seq<string>)
    requires forall k | 0 <= k < |parts| :: parts[k] != "" && Stripped(parts[k])
    ensures StripNonBlank(parts) == parts
    decreases |parts|
  {
    if |parts| > 0 {
      assert !AllSpace(parts[0]);
      StripNonBlankOfStripped(parts[1..]);
    }
  }

  /** A clean sentence splits into itself. */
  lemma SplitSentencesOfSentence(s: string)
    requires CleanSentence(s)
    ensures SplitSentences(s) == [s]
  {
    assert !AllSpace(s);
    assert StripNonBlank([s]) == [s];
  }

  /** Concatenation of a list of strings (`"".join(parts)`). */
  function Concat(parts: seq<string>): string
  {
    if |parts| == 0 then "" else parts[0] + Concat(parts[1..])
  }

  lemma ConcatCons(h: string, more: seq<string>)
    ensures Concat([h] + more) == h + Concat(more)
  {
    assert ([h] + more)[1..] == more;
  }

  lemma {:induction false} SplitAtBreaksKeepsVisible(s: string)
    ensures Visible(Concat(SplitAtBreaks(s))) == Visible(s)
    decreases |s|
  {
    if HasBreak(s) {
      var i := FirstBreak(s);
      var t := LStrip(s[i..]);
      SplitAtBreaksStep(s);
      SplitAtBreaksKeepsVisible(t);
      KeepsVisibleStep(s, i, SplitAtBreaks(t));
    } else {
      SplitAtBreaksUnbroken(s);
    }
  }

  lemma KeepsVisibleStep(s: string, i: nat, rest: seq<string>)
    requires i <= |s| && Visible(Concat(rest)) == Visible(LStrip(s[i..]))
    ensures Visible(Concat([s[..i]] + rest)) == Visible(s)
  {
    ConcatCons(s[..i], rest);
    VisibleConcat(s[..i], Concat(rest));
    LStripKeepsVisible(s[i..]);
    VisibleSplitAt(s, i);
  }

  lemma VisibleSplitAt(s: string, i: nat)
    requires i <= |s|
    ensures Visible(s) == Visible(s[..i]) + Visible(s[i..])
  {
    TakeDrop(s, i);
    VisibleConcat(s[..i], s[i..]);
  }

  lemma SplitAtBreaksUnbroken(s: string)
    requires !HasBreak(s)
    ensures Concat(SplitAtBreaks(s)) == s
  {
    assert SplitAtBreaks(s) == [s];
    ConcatCons(s, []);
    assert s + "" == s;
  }

  lemma StripKeepsVisible(s: string)
    ensures Visible(Strip(s)) == Visible(s)
  {
    var l := LStrip(s);
    var r := RStrip(l);
    LStripKeepsVisible(s);
    VisibleSplitAt(l, |r|);
    VisibleOfSpace(l[|r|..]);
  }

  /** Splitting into sentences loses nothing but whitespace. */
  lemma SplitSentencesKeepsVisible(text: string)
    ensures Visible(Concat(SplitSentences(text))) == Visible(text)
  {
    var t := Strip(text);
    StripKeepsVisible(text);
    SplitAtBreaksParts(t);
    if t == "" {
      assert Visible(t) == "";
    } else {
      StripNonBlankOfStripped(SplitAtBreaks(t));
      SplitAtBreaksKeepsVisible(t);
    }
  }

  // --------------------------------------------------------------- keywords

  /** The character class `[A-Za-z0-9_-]`. */
  predicate IsKeywordChar(c: char) { IsAsciiLetter(c) || IsDigit(c) || c == '_' || c == '-' }

  function KeywordRunLen(s: string): (n: nat)
    ensures n <= |s|
    ensures forall i | 0 <= i < n :: IsKeywordChar(s[i])
  {
    if |s| > 0 && IsKeywordChar(s[0]) then 1 + KeywordRunLen(s[1..]) else 0
  }

  /** `re.findall(r"[A-Za-z][A-Za-z0-9_-]+", text)`, scanning left to right without overlap. */
  function KeywordTokens(s: string): (toks: seq<string>)
    ensures forall k | 0 <= k < |toks| ::
      |toks[k]| >= 2 && IsAsciiLetter(toks[k][0]) && forall m | 0 <= m < |toks[k]| :: IsKeywordChar(toks[k][m])
    decreases |s|
  {
    if |s| == 0 then []
    else if IsAsciiLetter(s[0]) && |s| >= 2 && IsKeywordChar(s[1]) then
      var n := 1 + KeywordRunLen(s[1..]);
      [s[..n]] + KeywordTokens(s[n..])
    else KeywordTokens(s[1..])
  }

  /** Lowercased tokens that are not stop words and are longer than two characters. */
  function Candidates(toks: seq<string>): (words: seq<string>)
    ensures forall k | 0 <= k < |words| :: NoUpper(words[k]) && |words[k]| > 2 && words[k] !in Stop
  {
    if |toks| == 0 then []
    else
      var w := Lower(toks[0]);
      LowerHasNoUpper(toks[0]);
      (if w !in Stop && |w| > 2 then [w] else []) + Candidates(toks[1..])
  }

  /** `Counter(words)[w]`. */
  function Occurrences(words: seq<string>, w: string): nat
  {
    if |words| == 0 then 0 else (if words[0] == w then 1 else 0) + Occurrences(words[1..], w)
  }

  /** The sort key of `Counter.most_common`: higher counts first. */
  function ByCount(words: seq<string>): string -> Key {
    w => Key(-(Occurrences(words, w) as int), 0.0)
  }

  /** The distinct candidates, most frequent first, ties in first-occurrence order. */
  function Ranked(words: seq<string>): seq<string> {
    StableSort(Dedup(words, Id), ByCount(words))
  }

  lemma RankedFacts(words: seq<string>)
    ensures |Ranked(words)| == |Dedup(words, Id)|
    ensures Distinct(Ranked(words))
    ensures SortedBy(Ranked(words), ByCount(words))
    ensures forall i | 0 <= i < |Ranked(words)| :: Ranked(words)[i] in words
    ensures forall w | w in words :: w in Ranked(words)
  {
    var d := Dedup(words, Id);
    var r := Ranked(words);
    DedupById(words);
    DistinctPermutation(d, r);
    SameElements(d, r);
  }

  /** Sorted by count: counts never increase along the ranking. */
  lemma ByCountDescending(words: seq<string>, r: seq<string>)
    requires SortedBy(r, ByCount(words))
    ensures forall i, j | 0 <= i < j < |r| :: Occurrences(words, r[i]) >= Occurrences(words, r[j])
  {
    forall i, j | 0 <= i < j < |r| ensures Occurrences(words, r[i]) >= Occurrences(words, r[j]) {
      assert KeyLe(ByCount(words)(r[i]), ByCount(words)(r[j]));
    }
  }

  /** A word of `r` that is not among its first `m` comes at or after position `m`. */
  lemma NotInPrefix(r: seq<string>, m: nat, w: string)
    requires m <= |r| && w in r && w !in r[..m]
    ensures exists j | m <= j < |r| :: r[j] == w
  {
    var j :| 0 <= j < |r| && r[j] == w;
  }

  /**
   `top_keywords(text, k)`: at most `k` distinct candidate words, most
   frequent first, and no candidate left out occurs more often than any
   word kept.
   */
  function TopKeywords(text: string, k: nat): (kws: seq<string>)
    ensures |kws| <= k && Distinct(kws)
  {
    var words := Candidates(KeywordTokens(text));
    TopFacts(words, k);
    Ranked(words)[..Min(k, |Ranked(words)|)]
  }

  /**
   The keywords are the `k` most frequent candidate words (all of them when
   there are fewer), in descending order of count, none left out counting
   more than one taken.
   */
  lemma TopKeywordsRanked(text: string, k: nat)
    ensures var kws := TopKeywords(text, k); var words := Candidates(KeywordTokens(text));
      && |kws| == Min(k, |Dedup(words, Id)|)
      && (forall i | 0 <= i < |kws| :: kws[i] in words)
      && (forall i | 0 <= i < |kws| :: NoUpper(kws[i]) && |kws[i]| > 2 && kws[i] !in Stop)
      && (forall i, j | 0 <= i < j < |kws| :: Occurrences(words, kws[i]) >= Occurrences(words, kws[j]))
      && forall i, w | 0 <= i < |kws| && w in words && w !in kws :: Occurrences(words, w) <= Occurrences(words, kws[i])
  {
    var words := Candidates(KeywordTokens(text));
    TopFacts(words, k);
    var kws := TopKeywords(text, k);
    assert forall i | 0 <= i < |kws| :: kws[i] in words;
  }

  /** The first `k` of the ranking: distinct words of `words`, by count, none left out counting more. */
  lemma TopFacts(words: seq<string>, k: nat)
    ensures var kws := Ranked(words)[..Min(k, |Ranked(words)|)];
      && |kws| == Min(k, |Dedup(words, Id)|)
      && Distinct(kws)
      && (forall i | 0 <= i < |kws| :: kws[i] in words)
      && (forall i, j | 0 <= i < j < |kws| :: Occurrences(words, kws[i]) >= Occurrences(words, kws[j]))
      && forall i, w | 0 <= i < |kws| && w in words && w !in kws :: Occurrences(words, w) <= Occurrences(words, kws[i])
  {
    var r := Ranked(words);
    RankedFacts(words);
    ByCountDescending(words, r);
    PrefixOfRanking(words, r, Min(k, |r|));
  }

  /** A prefix of a ranking of the words by descending count. */
  lemma PrefixOfRanking(words: seq<string>, r: seq<string>, m: nat)
    requires m <= |r| && Distinct(r)
    requires forall i | 0 <= i < |r| :: r[i] in words
    requires forall w | w in words :: w in r
    requires forall i, j | 0 <= i < j < |r| :: Occurrences(words, r[i]) >= Occurrences(words, r[j])
    ensures var kws := r[..m];
      && Distinct(kws)
      && (forall i | 0 <= i < |kws| :: kws[i] in words)
      && (forall i, j | 0 <= i < j < |kws| :: Occurrences(words, kws[i]) >= Occurrences(words, kws[j]))
      && forall i, w | 0 <= i < |kws| && w in words && w !in kws :: Occurrences(words, w) <= Occurrences(words, kws[i])
  {
    forall i, w | 0 <= i < m && w in words && w !in r[..m]
      ensures Occurrences(words, w) <= Occurrences(words, r[..m][i])
    {
      NotInPrefix(r, m, w);
      assert r[..m][i] == r[i];
    }
  }

  /**
   Ties keep first-occurrence order: the kept keywords with any one count
   are the first candidates with that count, in the order they first occur.
   */
  lemma TopKeywordsTies(text: string, k: nat, c: Key)
    ensures
      var words := Candidates(KeywordTokens(text));
      var kws := TopKeywords(text, k);
      var same := WithKey(Dedup(words, Id), ByCount(words), c);
      |WithKey(kws, ByCount(words), c)| <= |same|
      && WithKey(kws, ByCount(words), c) == same[..|WithKey(kws, ByCount(words), c)|]
  {
    var words := Candidates(KeywordTokens(text));
    var r := Ranked(words);
    var m := Min(k, |r|);
    var key := ByCount(words);
    assert TopKeywords(text, k) == r[..m];
    assert r == r[..m] + r[m..];
    WithKeyConcat(r[..m], r[m..], key, c);
    StableSortIsStable(Dedup(words, Id), key, c);
  }

  // ------------------------------------------------- sentiment and emotion

  datatype Sentiment = Positive | Negative | NeutralSentiment {
    function Name(): string {
      match this
      case Positive => "positive"
      case Negative => "negative"
      case NeutralSentiment => "neutral"
    }
  }

  datatype Emotion = Anxiety | Anger | Joy | Sadness | NeutralEmotion {
    function Name(): string {
      match this
      case Anxiety => "anxiety"
      case Anger => "anger"
      case Joy => "joy"
      case Sadness => "sadness"
      case NeutralEmotion => "neutral"
    }
  }

  lemma PositiveValid() ensures ValidLexicon(PositiveWords) {}
  lemma NegativeValid() ensures ValidLexicon(NegativeWords) {}
  lemma AnxietyValid() ensures ValidLexicon(AnxietyWords) {}
  lemma AngerValid() ensures ValidLexicon(AngerWords) {}
  lemma JoyValid() ensures ValidLexicon(JoyWords) {}
  lemma SadnessValid() ensures ValidLexicon(SadnessWords) {}
  lemma TaskValid() ensures ValidLexicon(TaskWords) {}
  lemma PronounsValid() ensures ValidLexicon(Pronouns) {}

  /** Number of words of the text (any letter case) that are in `lex`. */
  function Hits(text: string, lex: seq<string>): nat {
    TokenCount(Runs(text), lex, true)
  }

  /**
   `sentiment_label(text)`: the `findall` counts of positive and negative
   words decide, with a margin of two.
   */
  function SentimentLabel(text: string): (r: Sentiment)
    ensures r == Positive <==> Hits(text, PositiveWords) - Hits(text, NegativeWords) >= 2
    ensures r == Negative <==> Hits(text, NegativeWords) - Hits(text, PositiveWords) >= 2
    ensures r == NeutralSentiment <==> -2 < Hits(text, PositiveWords) - Hits(text, NegativeWords) < 2
  {
    PositiveValid();
    NegativeValid();
    FindAllCountIsTokenCount(text, PositiveWords, true, false);
    FindAllCountIsTokenCount(text, NegativeWords, true, false);
    var pos := FindAllCount(text, PositiveWords, true, false);
    var neg := FindAllCount(text, NegativeWords, true, false);
    if pos - neg >= 2 then Positive
    else if neg - pos >= 2 then Negative
    else NeutralSentiment
  }

  /** `emotion_label(text)`: the first emotion, in priority order, whose lexicon the text mentions. */
  function EmotionLabel(text: string): (r: Emotion)
    ensures r == Anxiety <==> Mentions(text, AnxietyWords, true)
    ensures r == Anger <==> !Mentions(text, AnxietyWords, true) && Mentions(text, AngerWords, true)
    ensures r == Joy <==>
      !Mentions(text, AnxietyWords, true) && !Mentions(text, AngerWords, true) && Mentions(text, JoyWords, true)
    ensures r == Sadness <==>
      !Mentions(text, AnxietyWords, true) && !Mentions(text, AngerWords, true) && !Mentions(text, JoyWords, true)
      && Mentions(text, SadnessWords, true)
    ensures r == NeutralEmotion <==>
      !Mentions(text, AnxietyWords, true) && !Mentions(text, AngerWords, true) && !Mentions(text, JoyWords, true)
      && !Mentions(text, SadnessWords, true)
  {
    AnxietyValid();
    AngerValid();
    JoyValid();
    SadnessValid();
    SearchIffMentions(text, AnxietyWords, true);
    SearchIffMentions(text, AngerWords, true);
    SearchIffMentions(text, JoyWords, true);
    SearchIffMentions(text, SadnessWords, true);
    if Search(text, AnxietyWords, true) then Anxiety
    else if Search(text, AngerWords, true) then Anger
    else if Search(text, JoyWords, true) then Joy
    else if Search(text, SadnessWords, true) then Sadness
    else NeutralEmotion
  }

  // ------------------------------------------------------------- importance

  /** Which spelling of the pronoun test is used. */
  datatype PronounRule =
    | Anchored     // `(^|\W)(I|we|you)($|\W)`, the sentencer module
    | WordBounded  // `\bI\b|\bwe\b|\byou\b`, the inlined copy

  /** `(^|\W)w($|\W)` matches with `w` starting at `i` (case-sensitive). */
  predicate AnchoredAt(s: string, i: nat, w: string) {
    OccursAt(s, w, i) && (i == 0 || !IsWordChar(s[i - 1])) && (i + |w| == |s| || !IsWordChar(s[i + |w|]))
  }

  predicate AnchoredPronoun(s: string) {
    exists i, k | 0 <= i <= |s| && 0 <= k < |Pronouns| :: AnchoredAt(s, i, Pronouns[k])
  }

  predicate HasPronoun(s: string, rule: PronounRule) {
    match rule
    case Anchored => AnchoredPronoun(s)
    case WordBounded => Search(s, Pronouns, false)
  }

  /** At one position and for one pronoun, the two spellings agree. */
  lemma PronounAtAgrees(s: string, i: nat, w: string)
    requires w in Pronouns
    requires i <= |s|
    ensures AnchoredAt(s, i, w) <==> (SpellsAt(s, i, w, false) && BoundaryAt(s, i, false) && BoundaryAt(s, i + |w|, false))
  {
    assert |w| > 0 && IsWordChar(w[0]) && IsWordChar(w[|w| - 1]);
    if i + |w| <= |s| && s[i..i + |w|] == w {
      assert s[i] == w[0] && s[i + |w| - 1] == w[|w| - 1];
    }
  }

  /** The two spellings of the pronoun test accept exactly the same texts. */
  lemma PronounRulesAgree(s: string)
    ensures HasPronoun(s, Anchored) <==> HasPronoun(s, WordBounded)
  {
    AnchoredIsBounded(s);
    BoundedIsAnchored(s);
  }

  lemma AnchoredIsBounded(s: string)
    ensures AnchoredPronoun(s) ==> Search(s, Pronouns, false)
  {
    if AnchoredPronoun(s) {
      var i, k :| 0 <= i <= |s| && 0 <= k < |Pronouns| && AnchoredAt(s, i, Pronouns[k]);
      PronounAtAgrees(s, i, Pronouns[k]);
      assert MatchAt(s, i, Pronouns, false, false);
    }
  }

  lemma BoundedIsAnchored(s: string)
    ensures Search(s, Pronouns, false) ==> AnchoredPronoun(s)
  {
    if Search(s, Pronouns, false) {
      var i :| 0 <= i <= |s| && MatchAt(s, i, Pronouns, false, false);
      var k :| 0 <= k < |Pronouns| && SpellsAt(s, i, Pronouns[k], false)
        && BoundaryAt(s, i, false) && BoundaryAt(s, i + |Pronouns[k]|, false);
      BoundedAtIsAnchored(s, i, k);
    }
  }

  lemma BoundedAtIsAnchored(s: string, i: nat, k: nat)
    requires i <= |s| && k < |Pronouns|
    requires SpellsAt(s, i, Pronouns[k], false) && BoundaryAt(s, i, false) && BoundaryAt(s, i + |Pronouns[k]|, false)
    ensures AnchoredPronoun(s)
  {
    PronounAtAgrees(s, i, Pronouns[k]);
    assert AnchoredAt(s, i, Pronouns[k]);
  }

  /** `\d{1,4}` with a word boundary on both sides spans `s[i..i + n]`. */
  predicate NumberSpan(s: string, i: nat, n: nat) {
    1 <= n <= 4 && i + n <= |s| && AllDigits(s[i..i + n]) && BoundaryAt(s, i, false) && BoundaryAt(s, i + n, false)
  }

  predicate NumberAt(s: string, i: nat) {
    exists n | 1 <= n <= 4 :: NumberSpan(s, i, n)
  }

  /** `re.search(r"\b\d{1,4}\b", s)` succeeds. */
  predicate HasShortNumber(s: string) {
    exists i | 0 <= i < |s| :: NumberAt(s, i)
  }

  /**
   The unrounded `importance_score(text)` in fortieths of a hundredth:
   0.6 when some word of the text is a task word, 0.4 for a pronoun, 0.3
   for a number of at most four digits, and 0.3 times the length share of
   400 characters, the sum capped at 1.0.
   */
  function ScoreFortieths(text: string, rule: PronounRule): nat {
    Min(4000, (if Mentions(text, TaskWords, true) then 2400 else 0)
            + (if HasPronoun(text, rule) then 1600 else 0)
            + (if HasShortNumber(text) then 1200 else 0)
            + 3 * Min(|text|, 400))
  }

  /**
   `importance_score(text)` in hundredths: the additive score rounded to
   the nearest hundredth (halves up). Hence 60 or more for a task word,
   100 for a task word with a pronoun, at most 30 with none of the three
   cues.
   */
  function Importance(text: string, rule: PronounRule): (r: nat)
    ensures var x := ScoreFortieths(text, rule); x - 20 < 40 * r <= x + 20
    ensures r <= 100
    ensures Mentions(text, TaskWords, true) ==> r >= 60
    ensures Mentions(text, TaskWords, true) && HasPronoun(text, rule) ==> r == 100
    ensures !Mentions(text, TaskWords, true) && !HasPronoun(text, rule) && !HasShortNumber(text) ==> r <= 30
    ensures |text| >= 400 && (Mentions(text, TaskWords, true) || HasPronoun(text, rule)) ==> r >= 70
  {
    TaskValid();
    SearchIffMentions(text, TaskWords, true);
    // Work in fortieths of a hundredth so that the length term is an integer.
    var units := 40 * ((if Search(text, TaskWords, true) then 60 else 0)
                     + (if HasPronoun(text, rule) then 40 else 0)
                     + (if HasShortNumber(text) then 30 else 0))
               + 3 * Min(|text|, 400);
    (Min(units, 4000) + 20) / 40
  }

  /** The importance score does not depend on which pronoun spelling is used. */
  lemma ImportanceRuleIndependent(text: string)
    ensures Importance(text, Anchored) == Importance(text, WordBounded)
  {
    PronounRulesAgree(text);
  }

  // --------------------------------------------------------------- condense

  predicate IsSalient(s: string) { Search(s, SalientWords, true) }

  /** Index of the first salient sentence, or `|sents|` when there is none. */
  function FirstSalient(sents: seq<string>): (i: nat)
    ensures i <= |sents|
    ensures i < |sents| ==> IsSalient(sents[i])
    ensures forall j | 0 <= j < i :: !IsSalient(sents[j])
  {
    if |sents| == 0 then 0
    else if IsSalient(sents[0]) then 0
    else 1 + FirstSalient(sents[1..])
  }

  /** `s[:n]` for a non-negative `n`. */
  function Truncate(s: string, n: nat): (r: string)
    ensures |r| == Min(n, |s|) && r == s[..|r|]
  {
    s[..Min(n, |s|)]
  }

  /**
   `condense(text, max_chars)`: `None` exactly for blank text; otherwise
   the stripped first `max_chars` characters of the first sentence that
   mentions a salience word, or of the first sentence when none does.
   */
  function Condense(text: string, maxChars: nat): (r: Option<string>)
    ensures r.None? <==> IsBlank(text)
    ensures r.Some? ==> |r.value| <= maxChars && Stripped(r.value)
    ensures r.Some? && maxChars > 0 ==> r.value != ""
  {
    var sents := SplitSentences(text);
    if |sents| == 0 then None
    else
      var k := PickSentence(sents);
      CondensedNotBlank(sents[k], maxChars);
      Some(Strip(Truncate(sents[k], maxChars)))
  }

  /**
   The condensed text is the cut of the first sentence mentioning a
   salience word, or of the first sentence when none does.
   */
  lemma CondensePicksFirstSalient(text: string, maxChars: nat)
    requires !IsBlank(text)
    ensures var sents := SplitSentences(text); var r := Condense(text, maxChars);
      exists k | 0 <= k < |sents| ::
        r == Some(Strip(Truncate(sents[k], maxChars)))
        && (forall j | 0 <= j < k :: !IsSalient(sents[j]))
        && (IsSalient(sents[k]) || (k == 0 && forall j | 0 <= j < |sents| :: !IsSalient(sents[j])))
  {
    var sents := SplitSentences(text);
    var k := PickSentence(sents);
    assert Condense(text, maxChars) == Some(Strip(Truncate(sents[k], maxChars)));
  }

  /** The first salient sentence, or the first sentence when none is salient. */
  function PickSentence(sents: seq<string>): (k: nat)
    requires |sents| > 0
    ensures k < |sents|
    ensures forall j | 0 <= j < k :: !IsSalient(sents[j])
    ensures IsSalient(sents[k]) || (k == 0 && forall j | 0 <= j < |sents| :: !IsSalient(sents[j]))
  {
    var i := FirstSalient(sents);
    if i < |sents| then i else 0
  }

  /** A cut sentence is short and stripped, and not empty when the cut keeps anything. */
  lemma CondensedNotBlank(s: string, maxChars: nat)
    requires CleanSentence(s)
    ensures var c := Strip(Truncate(s, maxChars));
      |c| <= maxChars && Stripped(c) && (maxChars > 0 ==> c != "")
  {
    var picked := Truncate(s, maxChars);
    assert maxChars > 0 ==> !IsSpace(picked[0]) by {
      if maxChars > 0 { assert picked[0] == s[0]; }
    }
    assert maxChars > 0 ==> !AllSpace(picked);
  }

  // ----------------------------------------------------------------- points

  datatype Point = Point(
    text: string,
    tags: set<string>,
    keywords: seq<string>,
    sentiment: Sentiment,
    emotion: Emotion,
    importance: nat,
    role: string,
    sessionId: string,
    timestamp: string)

  /** The record built for one condensed sentence. */
  function PointOf(short: string, role: string, sessionId: string, when: string, rule: PronounRule): (p: Point)
    ensures p.text == short && p.role == role && p.sessionId == sessionId && p.timestamp == when
    ensures p.keywords == TopKeywords(short, KeywordCount)
    ensures p.tags == {role} + set i | 0 <= i < |p.keywords| :: p.keywords[i]
    ensures p.importance <= 100
  {
    var kw := TopKeywords(short, KeywordCount);
    Point(short, {role} + set i | 0 <= i < |kw| :: kw[i], kw,
          SentimentLabel(short), EmotionLabel(short), Importance(short, rule), role, sessionId, when)
  }

  /** What every point promises about itself. */
  predicate WellFormedPoint(p: Point, role: string, sessionId: string, when: string) {
    0 < |p.text| <= MaxChars && p.role == role && p.sessionId == sessionId && p.timestamp == when
    && p.keywords == TopKeywords(p.text, KeywordCount)
    && p.tags == {role} + (set j | 0 <= j < |p.keywords| :: p.keywords[j])
    && p.importance <= 100
  }

  /** The point of one sentence, if its condensed text is not empty. */
  function PointFor(sent: string, role: string, sessionId: string, when: string, rule: PronounRule): (r: Option<Point>)
    ensures r.Some? ==> WellFormedPoint(r.value, role, sessionId, when)
  {
    match Condense(sent, MaxChars)
    case None => None
    case Some(short) =>
      if short == "" then None
      else Some(PointOf(short, role, sessionId, when, rule))
  }

  /** The loop body of `make_memory_points` over the chosen sentences. */
  function PointsOf(sents: seq<string>, role: string, sessionId: string, when: string, rule: PronounRule): seq<Point>
  {
    if |sents| == 0 then []
    else
      var rest := PointsOf(sents[1..], role, sessionId, when, rule);
      match PointFor(sents[0], role, sessionId, when, rule)
      case None => rest
      case Some(p) => [p] + rest
  }

  /** At most one point per sentence, each of them well formed. */
  lemma {:induction false} PointsOfWellFormed(sents: seq<string>, role: string, sessionId: string, when: string, rule: PronounRule)
    ensures var pts := PointsOf(sents, role, sessionId, when, rule);
      |pts| <= |sents| && forall i | 0 <= i < |pts| :: WellFormedPoint(pts[i], role, sessionId, when)
    decreases |sents|
  {
    if |sents| > 0 {
      var rest := PointsOf(sents[1..], role, sessionId, when, rule);
      PointsOfWellFormed(sents[1..], role, sessionId, when, rule);
      var h := PointFor(sents[0], role, sessionId, when, rule);
      if h.Some? {
        WellFormedCons(h.value, rest, role, sessionId, when);
      }
    }
  }

  lemma WellFormedCons(p: Point, rest: seq<Point>, role: string, sessionId: string, when: string)
    requires WellFormedPoint(p, role, sessionId, when)
    requires forall i | 0 <= i < |rest| :: WellFormedPoint(rest[i], role, sessionId, when)
    ensures forall i | 0 <= i < |[p] + rest| :: WellFormedPoint(([p] + rest)[i], role, sessionId, when)
  {
    var pts := [p] + rest;
    forall i | 0 <= i < |pts| ensures WellFormedPoint(pts[i], role, sessionId, when) {
      if i > 0 { assert pts[i] == rest[i - 1]; }
    }
  }

  /**
   `make_memory_points(raw_text, role, session_id, when, max_points)`: at
   most `max_points` points (with a negative `max_points`, the slice keeps
   all but the last `-max_points` sentences), each with a non-empty text of at most 220
   characters, the caller's role, session and timestamp, at most five
   distinct keywords, and tags = {role} plus the keywords.
   */
  function MakeMemoryPoints(raw: string, role: string, sessionId: string, when: string, maxPoints: int, rule: PronounRule): (pts: seq<Point>)
    ensures maxPoints >= 0 ==> |pts| <= maxPoints
    ensures maxPoints < 0 ==> |pts| <= Max(0, |SplitSentences(raw)| + maxPoints)
    ensures forall i | 0 <= i < |pts| :: WellFormedPoint(pts[i], role, sessionId, when)
    ensures forall i | 0 <= i < |pts| :: |pts[i].keywords| <= KeywordCount && Distinct(pts[i].keywords)
    ensures IsBlank(raw) ==> pts == []
  {
    var sents := SplitSentences(raw);
    var chosen := Take(sents, maxPoints);
    PointsOfWellFormed(chosen, role, sessionId, when, rule);
    PointsOf(chosen, role, sessionId, when, rule)
  }

  /** A sentence condenses to its own first 220 characters, which are never blank. */
  lemma CondenseOfSentence(s: string)
    requires CleanSentence(s)
    ensures Condense(s, MaxChars) == Some(Strip(Truncate(s, MaxChars)))
    ensures Strip(Truncate(s, MaxChars)) != ""
  {
    SplitSentencesOfSentence(s);
  }

  lemma PointsOfStep(sents: seq<string>, role: string, sessionId: string, when: string, rule: PronounRule)
    requires |sents| > 0 && CleanSentence(sents[0])
    ensures PointsOf(sents, role, sessionId, when, rule)
         == [PointOf(Strip(Truncate(sents[0], MaxChars)), role, sessionId, when, rule)] + PointsOf(sents[1..], role, sessionId, when, rule)
  {
    CondenseOfSentence(sents[0]);
  }

  /** The texts of a list of points. */
  function Texts(pts: seq<Point>): (ts: seq<string>)
    ensures |ts| == |pts|
    ensures forall i | 0 <= i < |pts| :: ts[i] == pts[i].text
  {
    Map(pts, TextOf)
  }

  function TextOf(p: Point): string { p.text }

  /** Each sentence cut to 220 characters and stripped. */
  function Condensed(sents: seq<string>): (cs: seq<string>)
    ensures |cs| == |sents|
    ensures forall i | 0 <= i < |sents| :: cs[i] == Strip(Truncate(sents[i], MaxChars))
  {
    Map(sents, Cut)
  }

  /** One sentence cut to 220 characters and stripped. */
  function Cut(s: string): string {
    Strip(Truncate(s, MaxChars))
  }

  lemma {:induction false} PointsOfSentences(sents: seq<string>, role: string, sessionId: string, when: string, rule: PronounRule)
    requires forall k | 0 <= k < |sents| :: CleanSentence(sents[k])
    ensures Texts(PointsOf(sents, role, sessionId, when, rule)) == Condensed(sents)
    decreases |sents|
  {
    if |sents| == 0 {
      assert PointsOf(sents, role, sessionId, when, rule) == [];
    } else {
      var c0 := Strip(Truncate(sents[0], MaxChars));
      var p := PointOf(c0, role, sessionId, when, rule);
      var rest := PointsOf(sents[1..], role, sessionId, when, rule);
      PointsOfSentences(sents[1..], role, sessionId, when, rule);
      PointsOfStep(sents, role, sessionId, when, rule);
      TextsCons(p, rest);
      CondensedCons(sents);
    }
  }

  lemma CondensedCons(sents: seq<string>)
    requires |sents| > 0
    ensures Condensed(sents) == [Strip(Truncate(sents[0], MaxChars))] + Condensed(sents[1..])
  {
    MapCons(sents, Cut);
  }

  lemma TextsCons(p: Point, pts: seq<Point>)
    ensures Texts([p] + pts) == [p.text] + Texts(pts)
  {
    MapCons([p] + pts, TextOf);
    assert ([p] + pts)[1..] == pts;
  }

  /**
   No sentence is dropped: there is one point for each of the first
   `max_points` sentences, holding that sentence cut to 220 characters.
   */
  lemma OnePointPerSentence(raw: string, role: string, sessionId: string, when: string, maxPoints: int, rule: PronounRule)
    ensures
      var sents := SplitSentences(raw);
      var pts := MakeMemoryPoints(raw, role, sessionId, when, maxPoints, rule);
      Texts(pts) == Condensed(Take(sents, maxPoints))
  {
    var sents := SplitSentences(raw);
    var chosen := Take(sents, maxPoints);
    PrefixClean(sents, |chosen|);
    PointsOfSentences(chosen, role, sessionId, when, rule);
    MakeMemoryPointsOfChosen(raw, role, sessionId, when, maxPoints, rule);
  }

  /** A prefix of clean sentences is clean. */
  lemma PrefixClean(sents: seq<string>, m: nat)
    requires m <= |sents| && forall k | 0 <= k < |sents| :: CleanSentence(sents[k])
    ensures forall k | 0 <= k < |sents[..m]| :: CleanSentence(sents[..m][k])
  {
    forall k | 0 <= k < m ensures CleanSentence(sents[..m][k]) { assert sents[..m][k] == sents[k]; }
  }

  /** The points are those of the first `max_points` sentences. */
  lemma MakeMemoryPointsOfChosen(raw: string, role: string, sessionId: string, when: string, maxPoints: int, rule: PronounRule)
    ensures MakeMemoryPoints(raw, role, sessionId, when, maxPoints, rule)
         == PointsOf(Take(SplitSentences(raw), maxPoints), role, sessionId, when, rule)
  {
  }

  lemma {:induction false} PointsOfRuleIndependent(sents: seq<string>, role: string, sessionId: string, when: string)
    ensures PointsOf(sents, role, sessionId, when, Anchored) == PointsOf(sents, role, sessionId, when, WordBounded)
    decreases |sents|
  {
    if |sents| > 0 {
      PointsOfRuleIndependent(sents[1..], role, sessionId, when);
      var c := Condense(sents[0], MaxChars);
      if c.Some? {
        ImportanceRuleIndependent(c.value);
      }
      assert PointFor(sents[0], role, sessionId, when, Anchored) == PointFor(sents[0], role, sessionId, when, WordBounded);
    }
  }

  /** The sentencer module and its inlined copy produce the same points. */
  lemma InlinedCopyAgrees(raw: string, role: string, sessionId: string, when: string, maxPoints: int)
    ensures MakeMemoryPoints(raw, role, sessionId, when, maxPoints, Anchored)
         == MakeMemoryPoints(raw, role, sessionId, when, maxPoints, WordBounded)
  {
    var sents := SplitSentences(raw);
    PointsOfRuleIndependent(Take(sents, maxPoints), role, sessionId, when);
  }
}

=== FILE: net_ingest.dfy ===
/**
 The newer web ingester (`subcommands/orion_net_ingest.py`): the URL
 filter, the prompt-injection test and the bounded breadth-first crawl of
 `ingest_web`, which fetches each allowed URL at most once, stops on the
 page cap, the runtime budget or a run of failures, and hands a summary of
 every long, injection-free page to the store callback when storing is on.
 */
module NetIngest {
  import opened Wrappers
  import opened Text
  import opened Seqs
  import opened WebCommon
  import opened Crawl

  // ------------------------------------------------------------ URL filter

  /**
   One user denylist entry matches a host: a `*.` suffix, the exact host,
   or the entry as a regular expression (a pattern that does not compile
   matches nothing).
   */
  predicate DenyMatch(o: Oracles, d: string, host: string) {
    (StartsWith(d, "*.") && EndsWith(host, d[1..])) || d == host || o.fullmatch(d, host) == Some(true)
  }

  /** The denylist loop of `_url_allowed`: some entry matches. */
  function Denied(o: Oracles, deny: seq<string>, host: string): (r: bool)
    ensures r <==> exists k | 0 <= k < |deny| :: DenyMatch(o, deny[k], host)
    decreases |deny|
  {
    if |deny| == 0 then false
    else
      assert forall k | 0 <= k < |deny| - 1 :: deny[1..][k] == deny[k + 1];
      DenyMatch(o, deny[0], host) || Denied(o, deny[1..], host)
  }

  /**
   `_url_allowed(url, policy, seed_url)`: the hard denylist, the user
   denylist, a non-empty allowlist, the same-domain rule and the PDF rule,
   each able to refuse the URL.
   */
  function UrlAllowed(o: Oracles, policy: Policy, url: string, seed: string): (ok: bool)
    ensures ok <==>
      && !HardDenied(url)
      && !Denied(o, policy.denylist, HostOf(o, url))
      && AllowedByList(policy.allowlist, HostOf(o, url))
      && (policy.crawl.sameDomainOnly ==> SameRegDomain(o, url, seed))
      && (IsPdfUrl(url) ==> PdfsAllowed(policy))
  {
    var host := HostOf(o, url);
    if HardDenied(url) then false
    else if Denied(o, policy.denylist, host) then false
    else if !AllowedByList(policy.allowlist, host) then false
    else if policy.crawl.sameDomainOnly && !SameRegDomain(o, url, seed) then false
    else if IsPdfUrl(url) && !PdfsAllowed(policy) then false
    else true
  }

  /** The hard denylist wins over the allowlist: a pastebin URL is refused even when pastebin.com is allowlisted. */
  lemma HardDenyOverridesAllowlist(o: Oracles, policy: Policy, seed: string)
    requires "pastebin.com" in policy.allowlist
    ensures !UrlAllowed(o, policy, "https://pastebin.com/raw/x", seed)
  {
    PastebinIsHardDenied();
  }

  /**
   A `*.` entry denies exactly the hosts ending in its suffix (it is not a
   valid regular expression, so only the suffix test can fire).
   */
  lemma StarEntryDeniesSuffix(o: Oracles, d: string, host: string)
    requires StartsWith(d, "*.") && d != host && o.fullmatch(d, host).None?
    ensures DenyMatch(o, d, host) <==> EndsWith(host, d[1..])
  {
  }

  /**
   Under the allowlist `["wikipedia.org"]` with no denylist and no
   same-domain rule, an article on any language edition is allowed.
   */
  lemma WikipediaRuleAllows(o: Oracles, policy: Policy, seed: string)
    requires policy.denylist == [] && policy.allowlist == ["wikipedia.org"] && !policy.crawl.sameDomainOnly
    requires o.parse("https://en.wikipedia.org/wiki/Dafny") == Some(UrlParts("https", "en.wikipedia.org", "/wiki/Dafny", "", ""))
    ensures UrlAllowed(o, policy, "https://en.wikipedia.org/wiki/Dafny", seed)
  {
    var u := "https://en.wikipedia.org/wiki/Dafny";
    WikipediaIsNotHardDenied();
    WikipediaIsNotPdf();
    WikipediaHostAllowed();
    assert HostOf(o, u) == "en.wikipedia.org";
  }

  // ------------------------------------------------------ injection test

  const Needles := ["ignore previous", "disregard your instructions", "system prompt", "delete memory", "exfiltrate"]

  /** `_detect_injection(text)`: some needle occurs in the lower-cased text. */
  predicate DetectInjection(text: string) {
    exists k | 0 <= k < |Needles| :: Contains(Lower(text), Needles[k])
  }

  /** The test ignores case. */
  lemma InjectionIgnoresCase(text: string)
    ensures DetectInjection(text) <==> DetectInjection(Lower(text))
  {
    LowerIdempotent(text);
  }

  /** A needle written verbatim (or in any mix of case) anywhere in the text is caught. */
  lemma NeedleIsDetected(text: string, k: nat, i: nat)
    requires k < |Needles| && OccursAt(Lower(text), Needles[k], i)
    ensures DetectInjection(text)
  {
  }

  /** Upper-case needles are caught too: the test lower-cases the text first. */
  lemma ShoutedNeedleIsDetected(pre: string, post: string)
    ensures DetectInjection(pre + "SYSTEM PROMPT" + post)
  {
    var t := pre + "SYSTEM PROMPT" + post;
    var l := Lower(t);
    assert l[|pre|..|pre| + 13] == Needles[2];
    assert OccursAt(l, Needles[2], |pre|);
  }

  // ----------------------------------------------------------- the crawl

  /** A page is summarised and its links followed only when its text is long and injection-free. */
  predicate Accepted(text: string) {
    LongEnough(text) && !DetectInjection(text)
  }

  /** `self._extract_links(html, base=url, ...)` for a fetched page. */
  function PageLinks(env: Env, policy: Policy, s: Settings, base: string, html: string): seq<string> {
    ExtractLinks(env.o, env.hrefs(html), base, s.samePathPref, s.seed, PdfsAllowed(policy), true)
  }

  /** `callable(store_callback) and store_web_to_ltm and not quarantine_mode`. */
  predicate StoringOn(policy: Policy, callback: Option<(Summary, string) -> bool>) {
    callback.Some? && policy.toggles.storeWebToLtm && !policy.toggles.quarantineMode
  }

  /** `store_callback(summary, topic)` ran without raising: the callback reports `false` for a raise. */
  predicate CallbackTook(callback: Option<(Summary, string) -> bool>, summary: Summary, topic: string) {
    callback.Some? && callback.value(summary, topic)
  }

  /**
   `url` at `depth` was enqueued from the fetched page `parent`: the page
   was accepted, lay above the depth cap, and listed the link, which passed
   the filter.
   */
  ghost predicate LinkedFrom(env: Env, policy: Policy, s: Settings, parent: FetchEvent, url: string, depth: int) {
    && parent.html.Some?
    && Accepted(env.readability(parent.html.value))
    && 0 <= parent.depth < s.maxDepth
    && depth == parent.depth + 1
    && url in PageLinks(env, policy, s, parent.url, parent.html.value)
    && UrlAllowed(env.o, policy, url, s.seed)
  }

  /** Why the `i`-th fetch was made: the seed at depth 0, or a link of an earlier accepted page. */
  ghost predicate FetchJustified(env: Env, policy: Policy, s: Settings, fs: seq<FetchEvent>, i: nat)
    requires i < |fs|
  {
    var e := fs[i];
    && 0 <= e.depth <= s.maxDepth
    && UrlAllowed(env.o, policy, e.url, s.seed)
    && (e.depth == 0 ==> e.url == s.seed)
    && (e.depth > 0 ==> e.from < i && LinkedFrom(env, policy, s, fs[e.from], e.url, e.depth))
  }

  ghost predicate EntryJustified(env: Env, policy: Policy, s: Settings, fs: seq<FetchEvent>, q: seq<Entry>, i: nat)
    requires i < |q|
  {
    if i == 0 then q[0] == Entry(s.seed, 0, 0)
    else q[i].from < |fs| && LinkedFrom(env, policy, s, fs[q[i].from], q[i].url, q[i].depth)
  }

  /** The summary `ingest_web` makes of a page: that of its scrubbed visible text. */
  function PageSummary(env: Env, url: string, html: string): Summary {
    Summarize(env.sha256, env.today, env.scrub(env.readability(html)), url)
  }

  /** A stored summary is that of an accepted page, and the callback took it. */
  ghost predicate StoreJustified(env: Env, policy: Policy, s: Settings, callback: Option<(Summary, string) -> bool>,
                                 topic: string, fs: seq<FetchEvent>, st: Stored) {
    && st.at < |fs|
    && fs[st.at].html.Some?
    && Accepted(env.readability(fs[st.at].html.value))
    && st.summary == PageSummary(env, fs[st.at].url, fs[st.at].html.value)
    && StoringOn(policy, callback)
    && CallbackTook(callback, st.summary, topic)
  }

  /** Every queued link is justified. */
  ghost predicate EntriesOk(env: Env, policy: Policy, s: Settings, fs: seq<FetchEvent>, q: seq<Entry>) {
    forall i | 0 <= i < |q| :: EntryJustified(env, policy, s, fs, q, i)
  }

  /** Every fetch is justified, and no URL was fetched twice. */
  ghost predicate FetchesOk(env: Env, policy: Policy, s: Settings, fs: seq<FetchEvent>) {
    DistinctFetches(fs) && forall i | 0 <= i < |fs| :: FetchJustified(env, policy, s, fs, i)
  }

  /** Every stored summary is justified, at most one per fetch, in fetch order. */
  ghost predicate StoresOk(env: Env, policy: Policy, s: Settings, callback: Option<(Summary, string) -> bool>,
                           topic: string, fs: seq<FetchEvent>, stores: seq<Stored>) {
    && (forall j | 0 <= j < |stores| :: StoreJustified(env, policy, s, callback, topic, fs, stores[j]))
    && (forall i, j | 0 <= i < j < |stores| :: stores[i].at < stores[j].at)
  }

  /**
   Fetching the entry just taken off the queue (within the depth cap and
   allowed, never fetched before) keeps every justification.
   */
  lemma FetchNext(env: Env, policy: Policy, s: Settings, callback: Option<(Summary, string) -> bool>, topic: string,
                  q: seq<Entry>, k: nat, fs: seq<FetchEvent>, stores: seq<Stored>, html: Option<string>)
    requires k < |q| && EntriesOk(env, policy, s, fs, q) && FetchesOk(env, policy, s, fs)
    requires StoresOk(env, policy, s, callback, topic, fs, stores)
    requires q[k].url !in FetchedUrls(fs)
    requires q[k].depth <= s.maxDepth && UrlAllowed(env.o, policy, q[k].url, s.seed)
    ensures var fs' := fs + [FetchEvent(q[k].url, q[k].depth, q[k].from, html)];
      && EntriesOk(env, policy, s, fs', q)
      && FetchesOk(env, policy, s, fs')
      && StoresOk(env, policy, s, callback, topic, fs', stores)
      && FetchedUrls(fs') == FetchedUrls(fs) + {q[k].url}
  {
    var x := FetchEvent(q[k].url, q[k].depth, q[k].from, html);
    FetchLogGrows(fs, x);
    FetchKeepsFetches(env, policy, s, q, k, fs, html);
    FetchKeepsEntries(env, policy, s, q, fs, x);
    FetchKeepsStores(env, policy, s, callback, topic, fs, stores, x);
  }

  lemma FetchKeepsFetches(env: Env, policy: Policy, s: Settings, q: seq<Entry>, k: nat, fs: seq<FetchEvent>,
                          html: Option<string>)
    requires k < |q| && EntriesOk(env, policy, s, fs, q)
    requires forall i | 0 <= i < |fs| :: FetchJustified(env, policy, s, fs, i)
    requires q[k].depth <= s.maxDepth && UrlAllowed(env.o, policy, q[k].url, s.seed)
    ensures var fs' := fs + [FetchEvent(q[k].url, q[k].depth, q[k].from, html)];
      forall i | 0 <= i < |fs'| :: FetchJustified(env, policy, s, fs', i)
  {
    var x := FetchEvent(q[k].url, q[k].depth, q[k].from, html);
    var fs' := fs + [x];
    forall i | 0 <= i < |fs'| ensures FetchJustified(env, policy, s, fs', i) {
      if i < |fs| {
        OldFetchJustified(env, policy, s, fs, x, i);
      } else {
        NewFetchJustified(env, policy, s, q, k, fs, html);
      }
    }
  }

  lemma OldFetchJustified(env: Env, policy: Policy, s: Settings, fs: seq<FetchEvent>, x: FetchEvent, i: nat)
    requires i < |fs| && FetchJustified(env, policy, s, fs, i)
    ensures FetchJustified(env, policy, s, fs + [x], i)
  {
    var fs' := fs + [x];
    assert fs'[i] == fs[i];
    if fs[i].depth > 0 { assert fs'[fs[i].from] == fs[fs[i].from]; }
  }

  lemma NewFetchJustified(env: Env, policy: Policy, s: Settings, q: seq<Entry>, k: nat, fs: seq<FetchEvent>,
                          html: Option<string>)
    requires k < |q| && EntriesOk(env, policy, s, fs, q)
    requires q[k].depth <= s.maxDepth && UrlAllowed(env.o, policy, q[k].url, s.seed)
    ensures FetchJustified(env, policy, s, fs + [FetchEvent(q[k].url, q[k].depth, q[k].from, html)], |fs|)
  {
    var fs' := fs + [FetchEvent(q[k].url, q[k].depth, q[k].from, html)];
    assert EntryJustified(env, policy, s, fs, q, k);
    if k > 0 { assert fs'[q[k].from] == fs[q[k].from]; }
  }

  lemma FetchKeepsEntries(env: Env, policy: Policy, s: Settings, q: seq<Entry>, fs: seq<FetchEvent>, x: FetchEvent)
    requires EntriesOk(env, policy, s, fs, q)
    ensures EntriesOk(env, policy, s, fs + [x], q)
  {
    var fs' := fs + [x];
    assert forall i | 0 <= i < |fs| :: fs'[i] == fs[i];
    forall i | 0 <= i < |q| ensures EntryJustified(env, policy, s, fs', q, i) {
      assert EntryJustified(env, policy, s, fs, q, i);
    }
  }

  lemma FetchKeepsStores(env: Env, policy: Policy, s: Settings, callback: Option<(Summary, string) -> bool>,
                         topic: string, fs: seq<FetchEvent>, stores: seq<Stored>, x: FetchEvent)
    requires StoresOk(env, policy, s, callback, topic, fs, stores)
    ensures StoresOk(env, policy, s, callback, topic, fs + [x], stores)
  {
    var fs' := fs + [x];
    assert forall i | 0 <= i < |fs| :: fs'[i] == fs[i];
    forall j | 0 <= j < |stores| ensures StoreJustified(env, policy, s, callback, topic, fs', stores[j]) {
      assert StoreJustified(env, policy, s, callback, topic, fs, stores[j]);
    }
  }

  /** Storing the summary of the page just fetched. */
  lemma StoreNext(env: Env, policy: Policy, s: Settings, callback: Option<(Summary, string) -> bool>, topic: string,
                  fs: seq<FetchEvent>, stores: seq<Stored>, st: Stored)
    requires StoresOk(env, policy, s, callback, topic, fs, stores)
    requires forall j | 0 <= j < |stores| :: stores[j].at < st.at
    requires StoreJustified(env, policy, s, callback, topic, fs, st)
    ensures StoresOk(env, policy, s, callback, topic, fs, stores + [st])
  {
    var t := stores + [st];
    assert forall j | 0 <= j < |stores| :: t[j] == stores[j];
  }

  /** Queueing the links of the page fetched last, one level deeper. */
  lemma EnqueueNext(env: Env, policy: Policy, s: Settings, fs: seq<FetchEvent>, q: seq<Entry>, q': seq<Entry>,
                    links: seq<string>)
    requires EntriesOk(env, policy, s, fs, q) && 0 < |q| && 0 < |fs|
    requires |q| <= |q'| && q'[..|q|] == q
    requires var p := fs[|fs| - 1];
      && p.html.Some? && Accepted(env.readability(p.html.value)) && 0 <= p.depth < s.maxDepth
      && links == PageLinks(env, policy, s, p.url, p.html.value)
    requires forall i | |q| <= i < |q'| ::
      && q'[i].url in links
      && q'[i].depth == fs[|fs| - 1].depth + 1 && q'[i].from == |fs| - 1
      && UrlAllowed(env.o, policy, q'[i].url, s.seed)
    ensures EntriesOk(env, policy, s, fs, q')
  {
    forall i | 0 <= i < |q'| ensures EntryJustified(env, policy, s, fs, q', i) {
      if i < |q| {
        assert q'[i] == q'[..|q|][i] == q[i];
        EntryKept(env, policy, s, fs, q, q', i);
      } else {
        NewEntryLinked(env, policy, s, fs, q', i, links);
      }
    }
  }

  lemma NewEntryLinked(env: Env, policy: Policy, s: Settings, fs: seq<FetchEvent>, q: seq<Entry>, i: nat,
                       links: seq<string>)
    requires 0 < i < |q| && 0 < |fs|
    requires var p := fs[|fs| - 1];
      && p.html.Some? && Accepted(env.readability(p.html.value)) && 0 <= p.depth < s.maxDepth
      && links == PageLinks(env, policy, s, p.url, p.html.value)
    requires q[i].url in links && q[i].depth == fs[|fs| - 1].depth + 1 && q[i].from == |fs| - 1
    requires UrlAllowed(env.o, policy, q[i].url, s.seed)
    ensures EntryJustified(env, policy, s, fs, q, i)
  {
    var p := fs[q[i].from];
    assert p == fs[|fs| - 1];
    assert LinkedFrom(env, policy, s, p, q[i].url, q[i].depth);
  }

  lemma EntryKept(env: Env, policy: Policy, s: Settings, fs: seq<FetchEvent>, q: seq<Entry>, q': seq<Entry>, i: nat)
    requires EntriesOk(env, policy, s, fs, q) && i < |q| <= |q'| && q'[i] == q[i]
    ensures EntryJustified(env, policy, s, fs, q', i)
  {
    assert EntryJustified(env, policy, s, fs, q, i);
  }

  /** Queued entries are never above the top level. */
  lemma EntryDepth(env: Env, policy: Policy, s: Settings, fs: seq<FetchEvent>, q: seq<Entry>, i: nat)
    requires EntriesOk(env, policy, s, fs, q) && i < |q|
    ensures 0 <= q[i].depth
  {
    assert EntryJustified(env, policy, s, fs, q, i);
  }

  /** The status dictionary `ingest_web` returns. */
  datatype Report =
    | Disabled
    | BadSeed
    | Done(visited: nat, fetched: nat, stored: nat, maxDepth: int, maxPages: int)

  /**
   The link loop of `ingest_web`: every link not yet visited, not yet
   enqueued and allowed is appended at `depth`, once.
   */
  method EnqueueLinks(o: Oracles, policy: Policy, seed: string, queue: seq<Entry>, enqueued: set<string>,
                      visited: set<string>, links: seq<string>, depth: int, from: nat)
    returns (queue': seq<Entry>, enqueued': set<string>)
    requires enqueued == UrlSet(queue) && DistinctUrls(queue)
    ensures enqueued' == UrlSet(queue') && DistinctUrls(queue')
    ensures |queue| <= |queue'| && queue'[..|queue|] == queue
    ensures forall i | |queue| <= i < |queue'| ::
      && queue'[i].url in links && queue'[i].url !in visited
      && queue'[i].depth == depth && queue'[i].from == from
      && UrlAllowed(o, policy, queue'[i].url, seed)
    ensures forall l | l in links && l !in visited && UrlAllowed(o, policy, l, seed) :: l in enqueued'
  {
    queue', enqueued' := queue, enqueued;
    for k := 0 to |links|
      invariant enqueued' == UrlSet(queue') && DistinctUrls(queue')
      invariant |queue| <= |queue'| && queue'[..|queue|] == queue
      invariant forall i | |queue| <= i < |queue'| ::
        && queue'[i].url in links[..k] && queue'[i].url !in visited
        && queue'[i].depth == depth && queue'[i].from == from
        && UrlAllowed(o, policy, queue'[i].url, seed)
      invariant forall l | l in links[..k] && l !in visited && UrlAllowed(o, policy, l, seed) :: l in enqueued'
    {
      var link := links[k];
      assert links[..k + 1] == links[..k] + [link];
      if link !in visited && link !in enqueued' && UrlAllowed(o, policy, link, seed) {
        UrlSetAppend(queue', Entry(link, depth, from));
        queue' := queue' + [Entry(link, depth, from)];
        enqueued' := enqueued' + {link};
      }
    }
    assert links[..|links|] == links;
  }

  /**
   What holds between iterations: the queue discipline, every queued link,
   fetch and stored summary justified, only visited URLs fetched, and the
   breaker never tripped before the last fetch.
   */
  ghost predicate CrawlOk(env: Env, policy: Policy, s: Settings, callback: Option<(Summary, string) -> bool>,
                          topic: string, failBreaker: int, st: CrawlState) {
    && QueueOk(s.seed, st.queue, st.head, st.visited, st.enqueued)
    && EntriesOk(env, policy, s, st.fetches, st.queue)
    && FetchesOk(env, policy, s, st.fetches) && FetchedUrls(st.fetches) <= st.visited
    && StoresOk(env, policy, s, callback, topic, st.fetches, st.stores)
    && (forall j | 0 <= j < |st.stores| :: st.stores[j].at < |st.fetches|)
    && BreakerHeld(st.fetches, failBreaker)
  }

  lemma CrawlStart(env: Env, policy: Policy, s: Settings, callback: Option<(Summary, string) -> bool>,
                   topic: string, failBreaker: int)
    ensures var st := CrawlState([Entry(s.seed, 0, 0)], 0, {}, {s.seed}, [], []);
      CrawlOk(env, policy, s, callback, topic, failBreaker, st) && Progress(env, policy, s, callback, topic, st, 0, 0)
  {
    QueueStart(s.seed);
    assert EntryJustified(env, policy, s, [], [Entry(s.seed, 0, 0)], 0);
  }

  /** Taking the next entry off the queue: it was neither visited nor fetched, and the state stays good. */
  lemma CrawlVisit(env: Env, policy: Policy, s: Settings, callback: Option<(Summary, string) -> bool>,
                   topic: string, failBreaker: int, st: CrawlState)
    requires CrawlOk(env, policy, s, callback, topic, failBreaker, st) && st.head < |st.queue|
    ensures var e := st.queue[st.head];
      && 0 <= e.depth && e.url !in st.visited && e.url !in FetchedUrls(st.fetches)
      && CrawlOk(env, policy, s, callback, topic, failBreaker, st.(head := st.head + 1, visited := st.visited + {e.url}))
  {
    EntryDepth(env, policy, s, st.fetches, st.queue, st.head);
    VisitNext(s.seed, st.queue, st.head, st.visited, st.enqueued);
  }

  /** Logging the fetch of a visited entry that was allowed and within the depth cap. */
  lemma CrawlFetch(env: Env, policy: Policy, s: Settings, callback: Option<(Summary, string) -> bool>,
                   topic: string, failBreaker: int, st: CrawlState, k: nat, html: Option<string>)
    requires CrawlOk(env, policy, s, callback, topic, failBreaker, st) && k < |st.queue|
    requires st.queue[k].url in st.visited && st.queue[k].url !in FetchedUrls(st.fetches)
    requires st.queue[k].depth <= s.maxDepth && UrlAllowed(env.o, policy, st.queue[k].url, s.seed)
    requires TrailingFailures(st.fetches) < Max(failBreaker, 1)
    ensures var e := st.queue[k];
      var fs := st.fetches + [FetchEvent(e.url, e.depth, e.from, html)];
      && CrawlOk(env, policy, s, callback, topic, failBreaker, st.(fetches := fs))
      && (forall j | 0 <= j < |st.stores| :: st.stores[j].at < |fs| - 1)
      && CountOk(fs) == CountOk(st.fetches) + (if html.Some? then 1 else 0)
      && TrailingFailures(fs) == if html.Some? then 0 else TrailingFailures(st.fetches) + 1
  {
    var e := st.queue[k];
    var x := FetchEvent(e.url, e.depth, e.from, html);
    FetchNext(env, policy, s, callback, topic, st.queue, k, st.fetches, st.stores, html);
    CountersStep(st.fetches, x);
    BreakerStep(st.fetches, x, failBreaker);
  }

  // ------------------------------------------------------------- progress

  /** The `i`-th fetch owes a store: its page was accepted, storing is on and the callback took the summary. */
  ghost predicate StoreDue(env: Env, policy: Policy, callback: Option<(Summary, string) -> bool>, topic: string,
                           fs: seq<FetchEvent>, i: nat)
    requires i < |fs|
  {
    && fs[i].html.Some? && Accepted(env.readability(fs[i].html.value))
    && StoringOn(policy, callback) && CallbackTook(callback, PageSummary(env, fs[i].url, fs[i].html.value), topic)
  }

  /** The `i`-th fetch is a page whose links are followed: accepted, and above the depth cap. */
  ghost predicate Expands(env: Env, s: Settings, fs: seq<FetchEvent>, i: nat)
    requires i < |fs|
  {
    fs[i].html.Some? && Accepted(env.readability(fs[i].html.value)) && 0 <= fs[i].depth < s.maxDepth
  }

  /** The links of the page of the `i`-th fetch. */
  function LinksOf(env: Env, policy: Policy, s: Settings, fs: seq<FetchEvent>, i: nat): seq<string>
    requires i < |fs| && fs[i].html.Some?
  {
    PageLinks(env, policy, s, fs[i].url, fs[i].html.value)
  }

  /** Of the first `n` fetches, every page that owes a store was stored. */
  ghost predicate StoresDone(env: Env, policy: Policy, callback: Option<(Summary, string) -> bool>, topic: string,
                             fs: seq<FetchEvent>, stores: seq<Stored>, n: nat) {
    forall i | 0 <= i < n && i < |fs| :: StoreDue(env, policy, callback, topic, fs, i) ==> i in CountedAt(stores)
  }

  /** Of the first `n` fetches, every allowed link of an expanded page was queued. */
  ghost predicate LinksDone(env: Env, policy: Policy, s: Settings, fs: seq<FetchEvent>, enqueued: set<string>, n: nat) {
    forall i, l | 0 <= i < n && i < |fs| && Expands(env, s, fs, i)
      && l in LinksOf(env, policy, s, fs, i) && UrlAllowed(env.o, policy, l, s.seed) :: l in enqueued
  }

  /** Of the first `v` queue entries, every one within the depth cap that the filter allows was fetched. */
  ghost predicate EntriesDone(env: Env, policy: Policy, s: Settings, q: seq<Entry>, fs: seq<FetchEvent>, v: nat) {
    forall j | 0 <= j < v && j < |q| ::
      q[j].depth <= s.maxDepth && UrlAllowed(env.o, policy, q[j].url, s.seed) ==> q[j].url in FetchedUrls(fs)
  }

  /** The work done so far, over the first `n` fetches and the first `v` queue entries. */
  ghost predicate Progress(env: Env, policy: Policy, s: Settings, callback: Option<(Summary, string) -> bool>,
                           topic: string, st: CrawlState, n: nat, v: nat) {
    && StoresDone(env, policy, callback, topic, st.fetches, st.stores, n)
    && LinksDone(env, policy, s, st.fetches, st.enqueued, n)
    && EntriesDone(env, policy, s, st.queue, st.fetches, v)
  }

  /**
   Nothing the crawl would fetch is left: the seed was fetched if it is
   allowed and within the depth cap, and so was every allowed link of
   every expanded page.
   */
  ghost predicate Exhaustive(env: Env, policy: Policy, s: Settings, fs: seq<FetchEvent>) {
    && (0 <= s.maxDepth && UrlAllowed(env.o, policy, s.seed, s.seed) ==> s.seed in FetchedUrls(fs))
    && forall i, l | 0 <= i < |fs| && Expands(env, s, fs, i)
         && l in LinksOf(env, policy, s, fs, i) && UrlAllowed(env.o, policy, l, s.seed) :: l in FetchedUrls(fs)
  }

  /** Skipping an entry past the depth cap or refused by the filter settles it. */
  lemma ProgressSkip(env: Env, policy: Policy, s: Settings, callback: Option<(Summary, string) -> bool>,
                     topic: string, st: CrawlState, n: nat, v: nat)
    requires Progress(env, policy, s, callback, topic, st, n, v) && v < |st.queue|
    requires st.queue[v].depth > s.maxDepth || !UrlAllowed(env.o, policy, st.queue[v].url, s.seed)
    ensures Progress(env, policy, s, callback, topic, st, n, v + 1)
  {
  }

  /** Logging the fetch of entry `v` settles it; a fetch that failed owes nothing. */
  lemma ProgressFetch(env: Env, policy: Policy, s: Settings, callback: Option<(Summary, string) -> bool>,
                      topic: string, st: CrawlState, v: nat, x: FetchEvent)
    requires Progress(env, policy, s, callback, topic, st, |st.fetches|, v) && v < |st.queue|
    requires x.url == st.queue[v].url
    ensures var st' := st.(fetches := st.fetches + [x]);
      && Progress(env, policy, s, callback, topic, st', |st.fetches|, v + 1)
      && (x.html.None? ==> Progress(env, policy, s, callback, topic, st', |st.fetches| + 1, v + 1))
  {
    var fs := st.fetches + [x];
    StoresDoneExtend(env, policy, callback, topic, st.fetches, st.stores, x);
    LinksDoneExtend(env, policy, s, st.fetches, st.enqueued, x);
    FetchedGrows(st.fetches, x);
    assert st.queue[v].url in FetchedUrls(fs);
  }

  /** Logging a fetch keeps the stores owed by earlier fetches; a failed fetch owes none. */
  lemma StoresDoneExtend(env: Env, policy: Policy, callback: Option<(Summary, string) -> bool>, topic: string,
                         fs: seq<FetchEvent>, stores: seq<Stored>, x: FetchEvent)
    requires StoresDone(env, policy, callback, topic, fs, stores, |fs|)
    ensures StoresDone(env, policy, callback, topic, fs + [x], stores, |fs|)
    ensures x.html.None? ==> StoresDone(env, policy, callback, topic, fs + [x], stores, |fs| + 1)
  {
    var t := fs + [x];
    forall i | 0 <= i < |fs| && StoreDue(env, policy, callback, topic, t, i) ensures i in CountedAt(stores) {
      assert t[i] == fs[i];
      assert StoreDue(env, policy, callback, topic, fs, i);
    }
    assert t[|fs|] == x;
  }

  /** Logging a fetch keeps the links owed by earlier fetches; a failed fetch owes none. */
  lemma LinksDoneExtend(env: Env, policy: Policy, s: Settings, fs: seq<FetchEvent>, enqueued: set<string>, x: FetchEvent)
    requires LinksDone(env, policy, s, fs, enqueued, |fs|)
    ensures LinksDone(env, policy, s, fs + [x], enqueued, |fs|)
    ensures x.html.None? ==> LinksDone(env, policy, s, fs + [x], enqueued, |fs| + 1)
  {
    var t := fs + [x];
    forall i, l | 0 <= i < |fs| && Expands(env, s, t, i)
      && l in LinksOf(env, policy, s, t, i) && UrlAllowed(env.o, policy, l, s.seed)
      ensures l in enqueued
    {
      assert t[i] == fs[i];
      assert Expands(env, s, fs, i) && l in LinksOf(env, policy, s, fs, i);
    }
    assert t[|fs|] == x;
  }

  /**
   Processing the page fetched last: with its store made when owed and its
   allowed links queued when it expands, the work covers that fetch too.
   */
  lemma ProgressPage(env: Env, policy: Policy, s: Settings, callback: Option<(Summary, string) -> bool>,
                     topic: string, st: CrawlState, st': CrawlState, v: nat)
    requires 0 < |st.fetches| && Progress(env, policy, s, callback, topic, st, |st.fetches| - 1, v)
    requires v <= |st.queue| <= |st'.queue| && st'.queue[..|st.queue|] == st.queue
    requires st'.fetches == st.fetches && st.enqueued <= st'.enqueued
    requires CountedAt(st.stores) <= CountedAt(st'.stores)
    requires StoreDue(env, policy, callback, topic, st.fetches, |st.fetches| - 1) ==> |st.fetches| - 1 in CountedAt(st'.stores)
    requires Expands(env, s, st.fetches, |st.fetches| - 1) ==>
      forall l | l in LinksOf(env, policy, s, st.fetches, |st.fetches| - 1) && UrlAllowed(env.o, policy, l, s.seed) ::
        l in st'.enqueued
    ensures Progress(env, policy, s, callback, topic, st', |st.fetches|, v)
  {
    StoresDoneStep(env, policy, callback, topic, st.fetches, st.stores, st'.stores);
    LinksDoneStep(env, policy, s, st.fetches, st.enqueued, st'.enqueued);
    EntriesDoneKept(env, policy, s, st.queue, st'.queue, st.fetches, v);
  }

  lemma StoresDoneStep(env: Env, policy: Policy, callback: Option<(Summary, string) -> bool>, topic: string,
                       fs: seq<FetchEvent>, stores: seq<Stored>, stores': seq<Stored>)
    requires 0 < |fs| && StoresDone(env, policy, callback, topic, fs, stores, |fs| - 1)
    requires CountedAt(stores) <= CountedAt(stores')
    requires StoreDue(env, policy, callback, topic, fs, |fs| - 1) ==> |fs| - 1 in CountedAt(stores')
    ensures StoresDone(env, policy, callback, topic, fs, stores', |fs|)
  {
  }

  lemma LinksDoneStep(env: Env, policy: Policy, s: Settings, fs: seq<FetchEvent>, enqueued: set<string>,
                      enqueued': set<string>)
    requires 0 < |fs| && LinksDone(env, policy, s, fs, enqueued, |fs| - 1) && enqueued <= enqueued'
    requires Expands(env, s, fs, |fs| - 1) ==>
      forall l | l in LinksOf(env, policy, s, fs, |fs| - 1) && UrlAllowed(env.o, policy, l, s.seed) :: l in enqueued'
    ensures LinksDone(env, policy, s, fs, enqueued', |fs|)
  {
  }

  lemma EntriesDoneKept(env: Env, policy: Policy, s: Settings, q: seq<Entry>, q': seq<Entry>, fs: seq<FetchEvent>, v: nat)
    requires EntriesDone(env, policy, s, q, fs, v) && v <= |q| <= |q'| && q'[..|q|] == q
    ensures EntriesDone(env, policy, s, q', fs, v)
  {
    forall j | 0 <= j < v ensures q'[j] == q[j] {
      assert q'[j] == q'[..|q|][j];
    }
  }

  /** When the queue has run empty, nothing the crawl would fetch is left. */
  lemma ProgressDone(env: Env, policy: Policy, s: Settings, callback: Option<(Summary, string) -> bool>,
                     topic: string, failBreaker: int, st: CrawlState)
    requires CrawlOk(env, policy, s, callback, topic, failBreaker, st)
    requires Progress(env, policy, s, callback, topic, st, |st.fetches|, st.head) && st.head == |st.queue|
    ensures Exhaustive(env, policy, s, st.fetches)
  {
    var fs, q := st.fetches, st.queue;
    assert q[0] == Entry(s.seed, 0, 0);
    forall i, l | 0 <= i < |fs| && Expands(env, s, fs, i)
      && l in LinksOf(env, policy, s, fs, i) && UrlAllowed(env.o, policy, l, s.seed)
      ensures l in FetchedUrls(fs)
    {
      assert l in UrlSet(q);
      var j :| 0 <= j < |q| && q[j].url == l;
      assert FetchJustified(env, policy, s, fs, i);
      assert EntryJustified(env, policy, s, fs, q, j);
    }
  }

  // ------------------------------------------------------------ the loop

  /**
   What `ingest_web` does with a page it fetched: nothing more when its
   text is short or looks like a prompt injection; otherwise the summary
   of the scrubbed text goes to the callback when storing is on and is
   stored when the callback took it, and, above the depth cap, the page's
   allowed links that are neither visited nor queued are queued one level
   deeper.
   */
  method ProcessPage(env: Env, policy: Policy, s: Settings, callback: Option<(Summary, string) -> bool>, topic: string,
                     failBreaker: int, st: CrawlState, v: nat)
    returns (st': CrawlState)
    requires CrawlOk(env, policy, s, callback, topic, failBreaker, st)
    requires 0 < |st.fetches| && st.fetches[|st.fetches| - 1].html.Some?
    requires 0 <= st.fetches[|st.fetches| - 1].depth <= s.maxDepth
    requires forall j | 0 <= j < |st.stores| :: st.stores[j].at < |st.fetches| - 1
    requires Progress(env, policy, s, callback, topic, st, |st.fetches| - 1, v) && v <= |st.queue|
    ensures CrawlOk(env, policy, s, callback, topic, failBreaker, st')
    ensures Progress(env, policy, s, callback, topic, st', |st.fetches|, v)
    ensures st'.head == st.head && st'.visited == st.visited && st'.fetches == st.fetches
    ensures var fi := |st.fetches| - 1; var page := st.fetches[fi];
      st'.stores == st.stores + if StoreDue(env, policy, callback, topic, st.fetches, fi)
                                then [Stored(fi, PageSummary(env, page.url, page.html.value))] else []
    ensures var fi := |st.fetches| - 1;
      Expands(env, s, st.fetches, fi) ==>
        forall l | l in LinksOf(env, policy, s, st.fetches, fi) && l !in st.visited && UrlAllowed(env.o, policy, l, s.seed) ::
          l in st'.enqueued
    ensures !Expands(env, s, st.fetches, |st.fetches| - 1) ==> st'.queue == st.queue && st'.enqueued == st.enqueued
    ensures |st'.stores| == |st.stores| + 1 ==>
      var page := st.fetches[|st.fetches| - 1];
      Accepted(env.readability(page.html.value)) && StoringOn(policy, callback)
  {
    st' := st;
    var fetches := st.fetches;
    var fi := |fetches| - 1;
    var page := fetches[fi];
    var text := env.readability(page.html.value);
    if !LongEnough(text) {
      ProgressPage(env, policy, s, callback, topic, st, st', v);
      return;
    }
    if DetectInjection(text) {
      ProgressPage(env, policy, s, callback, topic, st, st', v);
      return;
    }
    var summary := Summarize(env.sha256, env.today, env.scrub(text), page.url);
    if StoringOn(policy, callback) && CallbackTook(callback, summary, topic) {
      StoreNext(env, policy, s, callback, topic, fetches, st.stores, Stored(fi, summary));
      st' := st'.(stores := st.stores + [Stored(fi, summary)]);
      CountedAtAppend(st.stores, Stored(fi, summary));
    }
    if page.depth < s.maxDepth {
      var links := PageLinks(env, policy, s, page.url, page.html.value);
      var queue', enqueued' := EnqueueLinks(env.o, policy, s.seed, st.queue, st.enqueued, st.visited, links, page.depth + 1, fi);
      QueueGrows(s.seed, st.queue, queue', st.head, st.visited, st.enqueued, enqueued');
      EnqueueNext(env, policy, s, fetches, st.queue, queue', links);
      st' := st'.(queue := queue', enqueued := enqueued');
      VisitedQueued(s.seed, st.queue, st.head, st.visited, st.enqueued);
      UrlSetGrows(st.queue, queue');
    }
    ProgressPage(env, policy, s, callback, topic, st, st', v);
  }

  /** How one iteration ended. */
  datatype Visit = Skipped | Failed | Fetched

  /**
   One iteration past the loop's budget checks: the next entry is taken off
   the queue and marked visited; unless it lies past the depth cap or the
   filter refuses it, it is fetched, and a page that came back is processed.
   */
  method CrawlStep(env: Env, policy: Policy, s: Settings, callback: Option<(Summary, string) -> bool>, topic: string,
                   failBreaker: int, st: CrawlState)
    returns (st': CrawlState, visit: Visit)
    requires CrawlOk(env, policy, s, callback, topic, failBreaker, st) && st.head < |st.queue|
    requires Progress(env, policy, s, callback, topic, st, |st.fetches|, st.head)
    requires TrailingFailures(st.fetches) < Max(failBreaker, 1)
    ensures CrawlOk(env, policy, s, callback, topic, failBreaker, st')
    ensures Progress(env, policy, s, callback, topic, st', |st'.fetches|, st'.head)
    ensures st'.head == st.head + 1 && st'.visited == st.visited + {st.queue[st.head].url}
    ensures st.queue[st.head].url !in st.visited
    ensures visit == Skipped <==>
      st.queue[st.head].depth > s.maxDepth || !UrlAllowed(env.o, policy, st.queue[st.head].url, s.seed)
    ensures visit != Fetched ==> st'.queue == st.queue && st'.stores == st.stores
    ensures visit == Skipped ==> st'.fetches == st.fetches
    ensures visit == Failed ==>
      CountOk(st'.fetches) == CountOk(st.fetches) && TrailingFailures(st'.fetches) == TrailingFailures(st.fetches) + 1
    ensures visit == Fetched ==>
      && CountOk(st'.fetches) == CountOk(st.fetches) + 1 && TrailingFailures(st'.fetches) == 0
      && |st.stores| <= |st'.stores| <= |st.stores| + 1
  {
    var e := st.queue[st.head];
    // The source's `url_i in visited` test never succeeds: a URL is enqueued at most once.
    CrawlVisit(env, policy, s, callback, topic, failBreaker, st);
    st' := st.(head := st.head + 1, visited := st.visited + {e.url});
    if e.depth > s.maxDepth || !UrlAllowed(env.o, policy, e.url, s.seed) {
      ProgressSkip(env, policy, s, callback, topic, st', |st.fetches|, st.head);
      return st', Skipped;
    }
    st', visit := FetchEntry(env, policy, s, callback, topic, failBreaker, st', st.head);
  }

  /** Fetching the entry just visited, and processing the page when one came back. */
  method FetchEntry(env: Env, policy: Policy, s: Settings, callback: Option<(Summary, string) -> bool>, topic: string,
                    failBreaker: int, st: CrawlState, k: nat)
    returns (st': CrawlState, visit: Visit)
    requires CrawlOk(env, policy, s, callback, topic, failBreaker, st) && k < |st.queue|
    requires st.queue[k].url in st.visited && st.queue[k].url !in FetchedUrls(st.fetches)
    requires 0 <= st.queue[k].depth <= s.maxDepth && UrlAllowed(env.o, policy, st.queue[k].url, s.seed)
    requires TrailingFailures(st.fetches) < Max(failBreaker, 1)
    requires Progress(env, policy, s, callback, topic, st, |st.fetches|, k)
    ensures CrawlOk(env, policy, s, callback, topic, failBreaker, st')
    ensures Progress(env, policy, s, callback, topic, st', |st'.fetches|, k + 1)
    ensures st'.head == st.head && st'.visited == st.visited && visit != Skipped
    ensures |st'.fetches| == |st.fetches| + 1 && st'.fetches[|st.fetches|].url == st.queue[k].url
    ensures visit == Failed ==> st'.queue == st.queue && st'.stores == st.stores
    ensures visit == Failed ==>
      CountOk(st'.fetches) == CountOk(st.fetches) && TrailingFailures(st'.fetches) == TrailingFailures(st.fetches) + 1
    ensures visit == Fetched ==>
      && CountOk(st'.fetches) == CountOk(st.fetches) + 1 && TrailingFailures(st'.fetches) == 0
      && |st.stores| <= |st'.stores| <= |st.stores| + 1
  {
    var e := st.queue[k];
    var html := FetchPage(env.attempt, e.url, policy.fetch.retries);
    var x := FetchEvent(e.url, e.depth, e.from, html);
    CrawlFetch(env, policy, s, callback, topic, failBreaker, st, k, html);
    ProgressFetch(env, policy, s, callback, topic, st, k, x);
    st' := st.(fetches := st.fetches + [x]);
    if html.None? {
      return st', Failed;
    }
    st' := ProcessPage(env, policy, s, callback, topic, failBreaker, st', k + 1);
    visit := Fetched;
  }

  /**
   `ingest_web(url, topic, crawl_depth, crawl_pages_cap,
   same_path_preferred, store_callback)` with the ingester's
   `fail_breaker`. Nothing is fetched when the internet is off or the seed
   does not normalise. Otherwise the crawl fetches each URL at most once,
   only allowed URLs within the depth cap reached through links of accepted
   pages, at most `max_pages` successfully, and stores exactly the
   summaries of the accepted pages the callback took. `exit` says why it
   stopped: with the queue run empty nothing it would fetch is left; the
   other exits are the runtime budget, the page cap and the breaker.
   */
  method IngestWeb(env: Env, policy: Policy, failBreaker: int, url: string, topic: string,
                   crawlDepth: Option<int>, pagesCap: Option<int>, samePath: Option<bool>,
                   callback: Option<(Summary, string) -> bool>)
    returns (report: Report, log: Log, exit: Exit)
    ensures !policy.toggles.internetEnabled ==> report == Disabled
    ensures policy.toggles.internetEnabled && SeedOf(env.o, url, true).None? ==> report == BadSeed
    ensures !report.Done? ==> log == Log([], [])
    ensures report.Done? <==> policy.toggles.internetEnabled && SeedOf(env.o, url, true).Some?
    ensures report.Done? ==>
      var s := SettingsFor(policy, SeedOf(env.o, url, true).value, crawlDepth, pagesCap, samePath);
      && report.maxDepth == s.maxDepth && report.maxPages == s.maxPages
      && report.fetched == CountOk(log.fetches) <= Max(s.maxPages, 0)
      && report.stored == |log.stores| <= report.fetched
      && FetchesOk(env, policy, s, log.fetches)
      && BreakerHeld(log.fetches, failBreaker)
      && StoresOk(env, policy, s, callback, topic, log.fetches, log.stores)
      && (forall i | 0 <= i < |log.fetches| ::
            StoreDue(env, policy, callback, topic, log.fetches, i) ==> i in CountedAt(log.stores))
    ensures report.Done? ==>
      var s := SettingsFor(policy, SeedOf(env.o, url, true).value, crawlDepth, pagesCap, samePath);
      && (exit == Exhausted ==> Exhaustive(env, policy, s, log.fetches))
      && (exit == OutOfTime ==> env.timeUp(report.visited))
      && (exit == PageCap ==> report.stored >= s.maxPages || report.fetched >= s.maxPages)
      && (exit == Breaker ==> TrailingFailures(log.fetches) >= Max(failBreaker, 1))
  {
    exit := Exhausted;
    if !policy.toggles.internetEnabled {
      return Disabled, Log([], []), exit;
    }
    var seedOpt := SeedOf(env.o, url, true);
    if seedOpt.None? {
      return BadSeed, Log([], []), exit;
    }
    var seed := seedOpt.value;
    var s := SettingsFor(policy, seed, crawlDepth, pagesCap, samePath);
    var maxDepth, maxPages := s.maxDepth, s.maxPages;

    var st := CrawlState([Entry(seed, 0, 0)], 0, {}, {seed}, [], []);
    var failures, stored, fetched := 0, 0, 0;
    var iter := 0;
    CrawlStart(env, policy, s, callback, topic, failBreaker);

    while st.head < |st.queue|
      invariant CrawlOk(env, policy, s, callback, topic, failBreaker, st)
      invariant Progress(env, policy, s, callback, topic, st, |st.fetches|, st.head)
      invariant fetched == CountOk(st.fetches) <= Max(maxPages, 0)
      invariant stored == |st.stores| <= fetched
      invariant failures == TrailingFailures(st.fetches) < Max(failBreaker, 1)
      invariant iter == st.head == |st.visited|
      decreases Max(maxPages, 0) - fetched, |st.queue| - st.head
    {
      if env.timeUp(iter) {
        exit := OutOfTime;
        break;
      }
      if stored >= maxPages {
        exit := PageCap;
        break;
      }
      if fetched >= maxPages {
        exit := PageCap;
        break;
      }
      var visit;
      st, visit := CrawlStep(env, policy, s, callback, topic, failBreaker, st);
      iter := iter + 1;
      match visit
      case Skipped =>
      case Failed =>
        failures := failures + 1;
        if failures >= failBreaker {
          exit := Breaker;
          break;
        }
      case Fetched =>
        fetched := fetched + 1;
        failures := 0;
        stored := |st.stores|;
    }
    if exit == Exhausted {
      ProgressDone(env, policy, s, callback, topic, failBreaker, st);
    }
    report := Done(|st.visited|, fetched, stored, maxDepth, maxPages);
    log := Log(st.fetches, st.stores);
  }
}

=== FILE: orion_ctl.dfy ===
/**
 The seeding commands of `orion_ctl.py`: `seed-persona` replaces the
 persona items that came from the persona file, `seed-episodic` adds the
 turns of the chat transcripts and of `long_term_memory.json` that are not
 stored yet, and `make-episodic-sentences` turns every raw episodic item
 into memory points, page by page.

 The optional policy hook falls back to the identity: `policy_loader`
 defines no `enforce_on_pairs`, so the import fails and the fallback is
 used.
 */
module OrionCtl {
  import opened Wrappers
  import opened Text
  import opened Seqs
  import opened Hashing
  import opened MemorySentencer
  import opened SeedCommon

  // ------------------------------------------------------------- seed-persona

  /** The `source` tag of persona items. */
  const PersonaSource := "Orion_Data.txt"

  /** `f"persona_{sha12(s)}"`, which is also the subcommand's `stable_id("persona", s)`. */
  function PersonaId(sha1: Sha1, line: string): (id: string)
    ensures IsTag(id, "persona_", 12)
    ensures id == StableId(sha1, "persona", line)
  {
    "persona_" + Sha12(sha1, line)
  }

  function PersonaIds(sha1: Sha1, lines: seq<string>): (ids: seq<string>)
    ensures |ids| == |lines|
    ensures forall i | 0 <= i < |lines| :: ids[i] == PersonaId(sha1, lines[i])
  {
    seq(|lines|, i requires 0 <= i < |lines| => PersonaId(sha1, lines[i]))
  }

  /** A persona line with the metadata `{"type": "persona", "source": "Orion_Data.txt"}`. */
  function PersonaRecord(line: string): (r: Record)
    ensures FromSource(r, PersonaSource)
  {
    Record(line, Some(map["type" := "persona", "source" := PersonaSource]))
  }

  function PersonaRecords(lines: seq<string>): (recs: seq<Record>)
    ensures |recs| == |lines|
    ensures forall i | 0 <= i < |lines| :: recs[i] == PersonaRecord(lines[i])
  {
    seq(|lines|, i requires 0 <= i < |lines| => PersonaRecord(lines[i]))
  }

  /** The collection afterwards and the count the command reports. */
  datatype PersonaSeed = PersonaSeed(col: Collection, seeded: nat)

  /** Persona items from another source survive the delete; the others go. */
  function WithoutPersona(col: Collection): (kept: Collection)
    ensures forall id :: id in kept <==> id in col && !FromSource(col[id], PersonaSource)
    ensures forall id | id in kept :: kept[id] == col[id]
  {
    col - SourceIds(col, PersonaSource)
  }

  /**
   `cmd_seed_persona` on the persona collection `col` and the persona
   file's content (`None` when missing). A dry run changes nothing.
   Otherwise every item whose metadata source is the persona file is
   deleted, and the file's lines are added under their persona ids; the
   add is refused when two lines share an id.
   */
  function SeedPersona(col: Collection, sha1: Sha1, file: Option<string>, dryRun: bool): (r: Option<PersonaSeed>)
    ensures r.None? <==> !dryRun && HasDuplicates(PersonaIds(sha1, PersonaFileLines(file)))
    ensures dryRun ==> r == Some(PersonaSeed(col, |PersonaFileLines(file)|))
    ensures r.Some? ==> r.value.seeded == |PersonaFileLines(file)|
    ensures r.Some? ==> forall id | id in col && !FromSource(col[id], PersonaSource) ::
      id in r.value.col && r.value.col[id] == col[id]
    ensures !dryRun && r.Some? ==>
      var ids := PersonaIds(sha1, PersonaFileLines(file));
      forall id | id in r.value.col :: (id in col && !FromSource(col[id], PersonaSource)) || id in ids
    ensures !dryRun && r.Some? ==>
      var lines := PersonaFileLines(file);
      var ids := PersonaIds(sha1, lines);
      forall i | 0 <= i < |ids| :: ids[i] in r.value.col &&
        (ids[i] !in col || FromSource(col[ids[i]], PersonaSource) ==> r.value.col[ids[i]] == PersonaRecord(lines[i]))
  {
    var lines := PersonaFileLines(file);
    var ids := PersonaIds(sha1, lines);
    if dryRun then Some(PersonaSeed(col, |ids|))
    else
      var kept := WithoutPersona(col);
      if |ids| == 0 then Some(PersonaSeed(kept, 0))
      else
        match Add(kept, ids, PersonaRecords(lines))
        case None => None
        case Some(c) => Some(PersonaSeed(c, |ids|))
  }

  /** Seeding the persona twice leaves the collection as seeding it once did. */
  lemma SeedPersonaTwice(col: Collection, sha1: Sha1, file: Option<string>)
    requires SeedPersona(col, sha1, file, false).Some?
    ensures SeedPersona(SeedPersona(col, sha1, file, false).value.col, sha1, file, false)
         == SeedPersona(col, sha1, file, false)
  {
    ReseedDeletesTheSame(col, sha1, file);
  }

  /** The delete of a second seeding leaves what the delete of the first one left. */
  lemma ReseedDeletesTheSame(col: Collection, sha1: Sha1, file: Option<string>)
    requires SeedPersona(col, sha1, file, false).Some?
    ensures WithoutPersona(SeedPersona(col, sha1, file, false).value.col) == WithoutPersona(col)
  {
    var lines := PersonaFileLines(file);
    var kept := WithoutPersona(col);
    if |lines| == 0 {
      assert WithoutPersona(kept) == kept;
    } else {
      AddedPersonaGoes(kept, PersonaIds(sha1, lines), PersonaRecords(lines));
    }
  }

  /** Deleting the persona items after adding a batch of them to a collection without any gives that collection back. */
  lemma AddedPersonaGoes(kept: Collection, ids: seq<string>, recs: seq<Record>)
    requires |ids| == |recs| && !HasDuplicates(ids)
    requires forall id | id in kept :: !FromSource(kept[id], PersonaSource)
    requires forall i | 0 <= i < |recs| :: FromSource(recs[i], PersonaSource)
    ensures WithoutPersona(InsertAbsent(kept, ids, recs)) == kept
  {
    var c := InsertAbsent(kept, ids, recs);
    forall id | id in c && id !in kept ensures FromSource(c[id], PersonaSource) {
      var i :| 0 <= i < |ids| && ids[i] == id;
    }
    assert WithoutPersona(c).Keys == kept.Keys;
  }

  // ------------------------------------------------------------ seed-episodic

  /** `{"type": "episodic", "role": role, "timestamp": when, "session_id": session}`. */
  function EpisodicMeta(role: string, when: string, session: string): Meta {
    map["type" := "episodic", "role" := role, "timestamp" := when, "session_id" := session]
  }


  /**
   Where the turns of one list come from: `key` opens the id's key string,
   `fallback` replaces a missing timestamp, `name` is stored as
   `session_id`. A chat transcript uses its file stem for all three.
   */
  datatype Session = Session(key: string, fallback: string, name: string)

  /** The row of the `i`-th turn of a session; a turn without content gives none. */
  function TurnRow(sha1: Sha1, s: Session, t: Turn, i: nat): (r: Option<Row>)
    ensures r.None? <==> TurnContent(t) == ""
    ensures r.Some? ==>
      var role, content, when := TurnRole(t), TurnContent(t), TurnWhen(t, s.fallback);
      && r.value.id == TurnId(sha1, s.key, i, role, content, when)
      && r.value.record == Record(TurnDocument(role, when, content), Some(EpisodicMeta(role, when, s.name)))
  {
    var role, content, when := TurnRole(t), TurnContent(t), TurnWhen(t, s.fallback);
    if content == "" then None
    else Some(Row(TurnId(sha1, s.key, i, role, content, when),
                  Record(TurnDocument(role, when, content), Some(EpisodicMeta(role, when, s.name)))))
  }

  /** The row of the `i`-th turn when it has one and its id is not stored yet. */
  function FreshRow(sha1: Sha1, existing: set<string>, s: Session, turns: seq<Turn>, i: int): (r: Option<Row>)
    ensures r.Some? ==> 0 <= i < |turns| && r == TurnRow(sha1, s, turns[i], i) && r.value.id !in existing
    ensures 0 <= i < |turns| && TurnRow(sha1, s, turns[i], i).Some? && TurnRow(sha1, s, turns[i], i).value.id !in existing
      ==> r.Some?
  {
    if 0 <= i < |turns| then
      match TurnRow(sha1, s, turns[i], i)
      case Some(row) => if row.id in existing then None else Some(row)
      case None => None
    else None
  }

  /**
   The `enumerate(turns)` loop: the rows of the turns with content whose
   id is not stored yet, in turn order. Every row comes from a turn and
   is not stored, and every turn with a row not stored has it there.
   */
  function NewRows(sha1: Sha1, existing: set<string>, s: Session, turns: seq<Turn>): (rows: seq<Row>)
    ensures |rows| <= |turns|
    ensures forall k | 0 <= k < |rows| :: rows[k].id !in existing
    ensures forall k | 0 <= k < |rows| :: exists i | 0 <= i < |turns| :: TurnRow(sha1, s, turns[i], i) == Some(rows[k])
    ensures forall i | 0 <= i < |turns| && TurnRow(sha1, s, turns[i], i).Some? ::
      TurnRow(sha1, s, turns[i], i).value.id !in existing ==> TurnRow(sha1, s, turns[i], i).value in rows
  {
    var idx := seq(|turns|, i => i);
    var rows := Kept(idx, i => FreshRow(sha1, existing, s, turns, i));
    NewRowsFacts(sha1, existing, s, turns, idx, rows);
    rows
  }

  lemma NewRowsFacts(sha1: Sha1, existing: set<string>, s: Session, turns: seq<Turn>, idx: seq<int>, rows: seq<Row>)
    requires idx == seq(|turns|, i => i)
    requires rows == Kept(idx, i => FreshRow(sha1, existing, s, turns, i))
    ensures forall k | 0 <= k < |rows| :: rows[k].id !in existing
    ensures forall k | 0 <= k < |rows| :: exists i | 0 <= i < |turns| :: TurnRow(sha1, s, turns[i], i) == Some(rows[k])
    ensures forall i | 0 <= i < |turns| && TurnRow(sha1, s, turns[i], i).Some? ::
      TurnRow(sha1, s, turns[i], i).value.id !in existing ==> TurnRow(sha1, s, turns[i], i).value in rows
  {
    var f := i => FreshRow(sha1, existing, s, turns, i);
    forall k | 0 <= k < |rows|
      ensures rows[k].id !in existing
      ensures exists i | 0 <= i < |turns| :: TurnRow(sha1, s, turns[i], i) == Some(rows[k])
    {
      assert rows[k] in rows;
      var j :| 0 <= j < |idx| && f(idx[j]) == Some(rows[k]);
      assert TurnRow(sha1, s, turns[j], j) == Some(rows[k]);
    }
    forall i | 0 <= i < |turns| && TurnRow(sha1, s, turns[i], i).Some? && TurnRow(sha1, s, turns[i], i).value.id !in existing
      ensures TurnRow(sha1, s, turns[i], i).value in rows
    {
      assert f(idx[i]).Some?;
    }
  }

  /** The chat transcripts in file-name order; a file without a turn list adds nothing. */
  function ChatRows(sha1: Sha1, existing: set<string>, files: seq<ChatFile>): (rows: seq<Row>)
    ensures forall k | 0 <= k < |rows| :: rows[k].id !in existing
    ensures forall j, k | 0 <= j < |files| && 0 <= k < |FileRows(sha1, existing, files[j])| ::
      FileRows(sha1, existing, files[j])[k] in rows
  {
    var per := PerFile(sha1, existing, files);
    FlattenMembers(per);
    forall k | 0 <= k < |Flatten(per)| ensures Flatten(per)[k].id !in existing {
      assert Flatten(per)[k] in Flatten(per);
    }
    Flatten(per)
  }

  function PerFile(sha1: Sha1, existing: set<string>, files: seq<ChatFile>): (per: seq<seq<Row>>)
    ensures |per| == |files| && forall j | 0 <= j < |files| :: per[j] == FileRows(sha1, existing, files[j])
  {
    seq(|files|, j requires 0 <= j < |files| => FileRows(sha1, existing, files[j]))
  }

  /** The rows of one transcript, whose stem is its session. */
  function FileRows(sha1: Sha1, existing: set<string>, f: ChatFile): (rows: seq<Row>)
    ensures forall k | 0 <= k < |rows| :: rows[k].id !in existing
  {
    if f.turns.Some? then NewRows(sha1, existing, Session(f.stem, f.stem, f.stem), f.turns.value) else []
  }

  /** The session of `long_term_memory.json`. */
  const LtmSession := Session("ltm", "n/a", "long_term_memory")

  /** Transcript rows, then the rows of `long_term_memory.json`. */
  function EpisodicRows(sha1: Sha1, existing: set<string>, files: seq<ChatFile>, ltm: Option<seq<Turn>>): (rows: seq<Row>)
    ensures forall k | 0 <= k < |rows| :: rows[k].id !in existing
  {
    ChatRows(sha1, existing, files) + if ltm.Some? then NewRows(sha1, existing, LtmSession, ltm.value) else []
  }

  /** The collection afterwards and the count the command reports. */
  datatype EpisodicSeed = EpisodicSeed(col: Collection, added: nat)

  /**
   `cmd_seed_episodic` on the raw episodic collection `col`: a stored id
   is never added again nor its record replaced, and unless it is a dry
   run every new row is stored; the add is refused when two new rows share
   an id.
   */
  function SeedEpisodic(col: Collection, sha1: Sha1, files: seq<ChatFile>, ltm: Option<seq<Turn>>, dryRun: bool)
    : (r: Option<EpisodicSeed>)
    ensures var rows := EpisodicRows(sha1, col.Keys, files, ltm);
      r.None? <==> !dryRun && HasDuplicates(RowIds(rows))
    ensures r.Some? ==> r.value.added == |EpisodicRows(sha1, col.Keys, files, ltm)|
    ensures r.Some? ==> forall id | id in col :: id in r.value.col && r.value.col[id] == col[id]
    ensures dryRun ==> r == Some(EpisodicSeed(col, |EpisodicRows(sha1, col.Keys, files, ltm)|))
    ensures !dryRun && r.Some? ==>
      var rows := EpisodicRows(sha1, col.Keys, files, ltm);
      && (forall k | 0 <= k < |rows| :: rows[k].id in r.value.col && r.value.col[rows[k].id] == rows[k].record)
      && (forall id | id in r.value.col :: id in col || id in RowIds(rows))
  {
    var rows := EpisodicRows(sha1, col.Keys, files, ltm);
    if dryRun || |rows| == 0 then Some(EpisodicSeed(col, |rows|))
    else
      match Add(col, RowIds(rows), RowRecords(rows))
      case None => None
      case Some(c) => Some(EpisodicSeed(c, |rows|))
  }

  // ------------------------------------------------ make-episodic-sentences

  /** An item of the raw episodic collection as `get` returns it. */
  datatype SourceItem = SourceItem(id: string, document: Option<string>, meta: Option<Meta>)

  /** `(md or {}).get(key, default)`. */
  function MetaGet(md: Option<Meta>, key: string, default: string): string {
    if md.Some? && key in md.value then md.value[key] else default
  }

  /**
   The metadata of a stored point: the scalar fields, the "|"-joined tag
   and keyword lists, and the keys set to `True` by the flag loops.
   */
  datatype SentenceMeta = SentenceMeta(
    parentId: string, role: string, sessionId: string, timestamp: string,
    tagsCsv: string, keywordsCsv: string, sentiment: Sentiment, emotion: Emotion, importance: nat,
    source: string, tagFlags: set<string>, keywordFlags: set<string>)

  datatype SentenceRow = SentenceRow(id: string, document: string, meta: SentenceMeta)

  /**
   The id hash, and the order in which `list({role, *kw})` lists a tag
   set (Python's set iteration order).
   */
  datatype SentenceEnv = SentenceEnv(sha1: Sha1, listTags: set<string> -> seq<string>)

  /** The flag keys `prefix + x` for the elements of `s`. */
  function Flags(prefix: string, s: seq<string>): set<string> {
    set i | 0 <= i < |s| :: prefix + s[i]
  }

  /** Prefixed keys are as many as the elements they are made from. */
  lemma FlagsCard(prefix: string, s: seq<string>)
    ensures |Flags(prefix, s)| <= |s|
    ensures Distinct(s) ==> |Flags(prefix, s)| == |s|
  {
    var p := seq(|s|, i requires 0 <= i < |s| => prefix + s[i]);
    assert Flags(prefix, s) == Elements(p) by {
      forall x | x in Flags(prefix, s) ensures x in Elements(p) {
        var i :| 0 <= i < |s| && x == prefix + s[i];
        assert p[i] == x;
      }
    }
    ElementsCard(p);
    if Distinct(s) {
      assert forall i | 0 <= i < |s| :: p[i][|prefix|..] == s[i];
      assert Distinct(p);
    }
  }

  /** `list(dict.fromkeys(p["tags"]))`. */
  function TagList(env: SentenceEnv, p: Point): seq<string> {
    Dedup(env.listTags(p.tags), Id)
  }

  /** The row built for one point of the item `parent`. */
  function PointRow(env: SentenceEnv, parent: string, p: Point): (r: SentenceRow)
    ensures r.id == SentenceId(env.sha1, parent, p.text) && r.document == p.text
    ensures r.meta.parentId == parent && r.meta.source == SentSource
    ensures Distinct(TagList(env, p)) && forall x :: x in TagList(env, p) <==> x in env.listTags(p.tags)
    ensures r.meta.tagsCsv == Join(TagList(env, p), "|") && r.meta.keywordsCsv == Join(Dedup(p.keywords, Id), "|")
    ensures r.meta.tagFlags == Flags("tag_", Take(TagList(env, p), 10)) && |r.meta.tagFlags| <= 10
    ensures r.meta.keywordFlags == Flags("kw_", Take(Dedup(p.keywords, Id), 10)) && |r.meta.keywordFlags| <= 10
  {
    var tags := TagList(env, p);
    var kws := Dedup(p.keywords, Id);
    DedupById(env.listTags(p.tags));
    FlagsCard("tag_", Take(tags, 10));
    FlagsCard("kw_", Take(kws, 10));
    SentenceRow(SentenceId(env.sha1, parent, p.text), p.text,
                SentenceMeta(parent, p.role, p.sessionId, p.timestamp, Join(tags, "|"), Join(kws, "|"),
                             p.sentiment, p.emotion, p.importance, SentSource,
                             Flags("tag_", Take(tags, 10)), Flags("kw_", Take(kws, 10))))
  }

  /** The `source` of every stored point. */
  const SentSource := "sentencer:v1"

  /**
   The ten-flag caps never cut anything: a point has at most five distinct
   keywords and so at most six tags, and every tag and keyword gets its flag.
   */
  lemma FlagCapsNeverCut(env: SentenceEnv, parent: string, p: Point, role: string, sessionId: string, when: string)
    requires WellFormedPoint(p, role, sessionId, when)
    requires forall x | x in env.listTags(p.tags) :: x in p.tags
    ensures PointRow(env, parent, p).meta.tagFlags == Flags("tag_", TagList(env, p))
    ensures PointRow(env, parent, p).meta.keywordFlags == Flags("kw_", p.keywords)
    ensures |PointRow(env, parent, p).meta.tagFlags| <= KeywordCount + 1
  {
    PointLists(p, role, sessionId, when);
    TagListShort(env, p);
    KeywordListWhole(p.keywords);
    FlagsCard("tag_", TagList(env, p));
  }

  /** The tag list of a point with at most six tags is not cut by the ten-flag cap. */
  lemma TagListShort(env: SentenceEnv, p: Point)
    requires |p.tags| <= KeywordCount + 1
    requires forall x | x in env.listTags(p.tags) :: x in p.tags
    ensures |TagList(env, p)| <= KeywordCount + 1 && Take(TagList(env, p), 10) == TagList(env, p)
  {
    DedupById(env.listTags(p.tags));
    DistinctWithin(TagList(env, p), p.tags);
  }

  /** The keyword list of a point is its keywords, not cut by the ten-flag cap. */
  lemma KeywordListWhole(kws: seq<string>)
    requires Distinct(kws) && |kws| <= KeywordCount
    ensures Take(Dedup(kws, Id), 10) == kws
  {
    DistinctKeysId(kws);
    DedupOfDistinct(kws, Id);
  }

  /** A point has at most five keywords, all different, and so at most six tags. */
  lemma PointLists(p: Point, role: string, sessionId: string, when: string)
    requires WellFormedPoint(p, role, sessionId, when)
    ensures Distinct(p.keywords) && |p.keywords| <= KeywordCount && |p.tags| <= KeywordCount + 1
  {
    assert p.tags == {role} + Elements(p.keywords);
    ElementsCard(p.keywords);
  }

  /** The rows of one raw item: none when it has no document, else one per memory point. */
  function ItemRows(env: SentenceEnv, item: SourceItem, maxPoints: int): (rows: seq<SentenceRow>)
    ensures maxPoints >= 0 ==> |rows| <= maxPoints
    ensures maxPoints < 0 && Truthy(item.document) ==> |rows| <= Max(0, |SplitSentences(item.document.value)| + maxPoints)
    ensures !Truthy(item.document) ==> rows == []
    ensures forall k | 0 <= k < |rows| :: RowOk(env, item.id, rows[k])
  {
    if !Truthy(item.document) then []
    else
      var role, sid, when := MetaGet(item.meta, "role", "unknown"), MetaGet(item.meta, "session_id", "na"),
                             MetaGet(item.meta, "timestamp", "na");
      var pts := MakeMemoryPoints(item.document.value, role, sid, when, maxPoints, Anchored);
      PointRows(env, item.id, pts)
  }

  /** The rows of the points of one item, in order. */
  function PointRows(env: SentenceEnv, parent: string, pts: seq<Point>): (rows: seq<SentenceRow>)
    requires forall k | 0 <= k < |pts| :: 0 < |pts[k].text| <= MaxChars
    ensures |rows| == |pts|
    ensures forall k | 0 <= k < |rows| :: rows[k].document == pts[k].text && RowOk(env, parent, rows[k])
  {
    var rows := seq(|pts|, k requires 0 <= k < |pts| => PointRow(env, parent, pts[k]));
    assert forall k | 0 <= k < |rows| :: rows[k] == PointRow(env, parent, pts[k]);
    rows
  }

  /** What every stored point satisfies: it is a sentence of its parent item, and it is short. */
  predicate RowOk(env: SentenceEnv, parent: string, r: SentenceRow) {
    r.id == SentenceId(env.sha1, parent, r.document) && r.meta.parentId == parent && Bounded(r)
  }

  predicate Bounded(r: SentenceRow) {
    0 < |r.document| <= MaxChars && |r.meta.tagFlags| <= 10 && |r.meta.keywordFlags| <= 10
  }

  /** The rows of a run of items, in order. */
  function ItemsRows(env: SentenceEnv, items: seq<SourceItem>, maxPoints: int): (rows: seq<SentenceRow>)
    ensures forall k | 0 <= k < |rows| :: exists j | 0 <= j < |items| :: RowOk(env, items[j].id, rows[k])
    ensures forall k | 0 <= k < |rows| :: Bounded(rows[k])
  {
    var per := PerItem(env, items, maxPoints);
    FlattenMembers(per);
    forall k | 0 <= k < |Flatten(per)| ensures exists j | 0 <= j < |items| :: RowOk(env, items[j].id, Flatten(per)[k]) {
      assert Flatten(per)[k] in Flatten(per);
      var j :| 0 <= j < |per| && Flatten(per)[k] in per[j];
    }
    Flatten(per)
  }

  function PerItem(env: SentenceEnv, items: seq<SourceItem>, maxPoints: int): (per: seq<seq<SentenceRow>>)
    ensures |per| == |items| && forall j | 0 <= j < |items| :: per[j] == ItemRows(env, items[j], maxPoints)
  {
    Map(items, RowsOf(env, maxPoints))
  }

  function RowsOf(env: SentenceEnv, maxPoints: int): SourceItem -> seq<SentenceRow> {
    item => ItemRows(env, item, maxPoints)
  }

  /** Reading the items in two runs plans the same rows as reading them in one. */
  lemma ItemsRowsConcat(env: SentenceEnv, a: seq<SourceItem>, b: seq<SourceItem>, maxPoints: int)
    ensures ItemsRows(env, a + b, maxPoints) == ItemsRows(env, a, maxPoints) + ItemsRows(env, b, maxPoints)
  {
    MapConcat(a, b, RowsOf(env, maxPoints));
    FlattenConcat(PerItem(env, a, maxPoints), PerItem(env, b, maxPoints));
  }

  /** Page size of the source collection reads. */
  const PageSize := 500

  /** `src.get(limit=500, offset=o)` on a collection holding `items`, in storage order. */
  function Window(items: seq<SourceItem>, o: nat): seq<SourceItem> {
    items[Min(o, |items|)..Min(o + PageSize, |items|)]
  }

  /**
   `cmd_make_episodic_sentences`: reads the raw collection page by page
   through `page(offset)` until `offset` reaches the count `total` or a
   page comes back empty, and plans one row per memory point. The rows
   are upserted unless it is a dry run. When the pages are the windows of
   a collection that holds `items` and `total` is its size, the rows are
   exactly those of all items, in order.
   */
  method MakeEpisodicSentences(env: SentenceEnv, page: nat -> seq<SourceItem>, total: nat, maxPoints: int,
                               dryRun: bool, items: seq<SourceItem>)
    returns (planned: seq<SentenceRow>, written: seq<SentenceRow>)
    ensures written == if dryRun then [] else planned
    ensures (forall o :: page(o) == Window(items, o)) && total == |items| ==> planned == ItemsRows(env, items, maxPoints)
    ensures forall k | 0 <= k < |planned| :: Bounded(planned[k])
  {
    ghost var exact := (forall o :: page(o) == Window(items, o)) && total == |items|;
    ghost var read: seq<SourceItem> := [];
    var offset := 0;
    planned := [];
    while offset < total
      invariant planned == ItemsRows(env, read, maxPoints)
      invariant exact ==> offset <= |items| && read == items[..offset]
      invariant forall k | 0 <= k < |planned| :: Bounded(planned[k])
      decreases total - offset
    {
      var batch := page(offset);
      if exact {
        assert batch == Window(items, offset);
        WindowStep(items, offset);
      }
      if |batch| == 0 {
        break;
      }
      var rows := ItemsRows(env, batch, maxPoints);
      ItemsRowsConcat(env, read, batch, maxPoints);
      planned := planned + rows;
      read := read + batch;
      offset := offset + |batch|;
    }
    if exact {
      assert offset == |items|;
      assert read == items;
    }
    written := if dryRun then [] else planned;
  }

  /** A page read below the count is not empty and extends the items read so far. */
  lemma WindowStep(items: seq<SourceItem>, offset: nat)
    requires offset < |items|
    ensures 0 < |Window(items, offset)| && offset + |Window(items, offset)| <= |items|
    ensures items[..offset + |Window(items, offset)|] == items[..offset] + Window(items, offset)
  {
  }
}

=== FILE: persona_subcommand.dfy ===
/**
 `subcommands/seed_orion_persona.py`: the stand-alone persona seeder. It
 reads the persona file with the same line filter as `orion_ctl.py`
 (`load_orion_persona` is `PersonaFileLines`), deletes every item whose
 metadata source is the persona file, and adds the file's lines under
 `stable_id("persona", line)`. Unlike the `seed-persona` command it has no
 dry run, and it deletes before it looks at the file.
 */
module PersonaSubcommand {
  import opened Wrappers
  import opened Seqs
  import opened Hashing
  import opened SeedCommon
  import OrionCtl

  /** `SOURCE_TAG`: only items from this source are replaced. */
  const SourceTag := "Orion_Data.txt"

  function StableIds(sha1: Sha1, docs: seq<string>): (ids: seq<string>)
    ensures |ids| == |docs| && forall i | 0 <= i < |docs| :: ids[i] == StableId(sha1, "persona", docs[i])
  {
    seq(|docs|, i requires 0 <= i < |docs| => StableId(sha1, "persona", docs[i]))
  }

  /** `{"type": "persona", "source": SOURCE_TAG}`. */
  function SourceRecords(docs: seq<string>): (recs: seq<Record>)
    ensures |recs| == |docs|
    ensures forall i | 0 <= i < |docs| :: recs[i] == Record(docs[i], Some(map["type" := "persona", "source" := SourceTag]))
  {
    seq(|docs|, i requires 0 <= i < |docs| => Record(docs[i], Some(map["type" := "persona", "source" := SourceTag])))
  }

  /**
   `main` on the persona collection and the persona file's content
   (`None` when missing). Items from the persona file are always deleted;
   with no lines that is all, otherwise the lines are added, and the add
   is refused when two lines share an id. The outcome is that of a non-dry
   `seed-persona`.
   */
  function Replace(col: Collection, sha1: Sha1, file: Option<string>): (r: Option<Collection>)
    ensures r.None? <==> HasDuplicates(StableIds(sha1, PersonaFileLines(file)))
    ensures r.Some? <==> OrionCtl.SeedPersona(col, sha1, file, false).Some?
    ensures r.Some? ==> r.value == OrionCtl.SeedPersona(col, sha1, file, false).value.col
  {
    var kept := col - SourceIds(col, SourceTag);
    var docs := PersonaFileLines(file);
    var ids := StableIds(sha1, docs);
    SameIds(sha1, docs);
    if |docs| == 0 then Some(kept)
    else Add(kept, ids, SourceRecords(docs))
  }

  /**
   What a replace leaves: items from other sources untouched, and besides
   them only the lines' ids, every one of them stored.
   */
  lemma ReplaceScope(col: Collection, sha1: Sha1, file: Option<string>)
    requires Replace(col, sha1, file).Some?
    ensures var r := Replace(col, sha1, file).value;
      forall id | id in col && !FromSource(col[id], SourceTag) :: id in r && r[id] == col[id]
    ensures var r := Replace(col, sha1, file).value;
      forall id | id in r :: (id in col && !FromSource(col[id], SourceTag)) || id in StableIds(sha1, PersonaFileLines(file))
    ensures var r := Replace(col, sha1, file).value; var docs := PersonaFileLines(file);
      forall i | 0 <= i < |docs| :: StableId(sha1, "persona", docs[i]) in r
  {
    SameIds(sha1, PersonaFileLines(file));
  }

  /** The subcommand's ids and records are those of `seed-persona`. */
  lemma SameIds(sha1: Sha1, docs: seq<string>)
    ensures StableIds(sha1, docs) == OrionCtl.PersonaIds(sha1, docs)
    ensures SourceRecords(docs) == OrionCtl.PersonaRecords(docs)
  {
  }

  /** Running the seeder again leaves the collection as the first run left it. */
  lemma ReplaceTwice(col: Collection, sha1: Sha1, file: Option<string>)
    requires Replace(col, sha1, file).Some?
    ensures Replace(Replace(col, sha1, file).value, sha1, file) == Replace(col, sha1, file)
  {
    OrionCtl.SeedPersonaTwice(col, sha1, file);
  }
}

=== FILE: policy_loader.dfy ===
/**
 The older crawler of `policy_loader.py` (`WebIngestor.crawl_and_ingest`).
 It shares the policy, the hard denylist, registrable-domain comparison,
 PDF detection, allowlist matching and link extraction with the newer one,
 but keeps URL fragments, counts every long page as stored (the summary is
 made and handed nowhere), has no cap on fetched pages and no injection
 test, and lets a user denylist pattern that is not a regular expression
 raise out of the crawl.

 Its denylist loop refuses every URL as soon as one entry starts with
 `*.`; `DenyEntryAsWritten` is that loop's test and `DenyEntry` the suffix
 wildcard the file's own `matches` helper implements. The crawl is written
 once over either test: `CrawlAndIngest` runs it with the loop's test, as
 the program does, and `CrawlAndIngestWildcard` with the suffix wildcard.
 */
module PolicyLoader {
  import opened Wrappers
  import opened Text
  import opened Seqs
  import opened WebCommon
  import opened Crawl
  import NetIngest

  // ------------------------------------------------------------ URL filter

  /**
   The test of one denylist entry as the loop writes it: an entry starting
   with `*.` or equal to the host denies, otherwise the entry is tried as
   a regular expression. `Some(b)` is the verdict, `None` a pattern that
   raised `re.error`.
   */
  function DenyEntryAsWritten(o: Oracles, d: string, host: string): (r: Option<bool>)
    ensures StartsWith(d, "*.") ==> r == Some(true)
  {
    if StartsWith(d, "*.") || d == host then Some(true) else o.fullmatch(d, host)
  }

  /** One denylist entry with `*.` read as a host-suffix wildcard (the `matches` helper), else as for the loop. */
  function DenyEntry(o: Oracles, d: string, host: string): (r: Option<bool>)
    ensures StartsWith(d, "*.") ==> r == Some(EndsWith(host, d[1..]))
    ensures !StartsWith(d, "*.") ==> r == DenyEntryAsWritten(o, d, host)
  {
    if StartsWith(d, "*.") then Some(EndsWith(host, d[1..])) else DenyEntryAsWritten(o, d, host)
  }

  /** The entry test the loop uses. */
  function EntryVerdict(o: Oracles, d: string, host: string, asWritten: bool): Option<bool> {
    if asWritten then DenyEntryAsWritten(o, d, host) else DenyEntry(o, d, host)
  }

  /**
   The denylist loop: `Some(true)` when an entry denies before any raises,
   `None` when an entry raises before any denies, `Some(false)` when every
   entry passes.
   */
  function DenyLoop(o: Oracles, deny: seq<string>, host: string, asWritten: bool): (r: Option<bool>)
    ensures r == Some(false) <==> forall k | 0 <= k < |deny| :: EntryVerdict(o, deny[k], host, asWritten) == Some(false)
    ensures r != Some(false) ==> exists k | 0 <= k < |deny| ::
      && EntryVerdict(o, deny[k], host, asWritten) == (if r.None? then None else Some(true))
      && forall m | 0 <= m < k :: EntryVerdict(o, deny[m], host, asWritten) == Some(false)
    decreases |deny|
  {
    if |deny| == 0 then Some(false)
    else
      var rest := DenyLoop(o, deny[1..], host, asWritten);
      assert forall k | 0 <= k < |deny| - 1 :: deny[1..][k] == deny[k + 1];
      match EntryVerdict(o, deny[0], host, asWritten)
      case None => None
      case Some(true) => Some(true)
      case Some(false) =>
        assert rest != Some(false) ==> exists k | 0 <= k < |deny| ::
          && EntryVerdict(o, deny[k], host, asWritten) == (if rest.None? then None else Some(true))
          && forall m | 0 <= m < k :: EntryVerdict(o, deny[m], host, asWritten) == Some(false) by {
          if rest != Some(false) {
            var k :| 0 <= k < |deny| - 1
              && EntryVerdict(o, deny[1..][k], host, asWritten) == (if rest.None? then None else Some(true))
              && forall m | 0 <= m < k :: EntryVerdict(o, deny[1..][m], host, asWritten) == Some(false);
            assert forall m | 1 <= m < k + 1 :: deny[m] == deny[1..][m - 1];
          }
        }
        rest
  }

  /**
   `url_allowed(url, policy, seed_url)`: the hard denylist, the denylist
   loop, a non-empty allowlist, the same-domain rule and the PDF rule, in
   that order; `None` when a denylist pattern raised.
   */
  function UrlAllowed(o: Oracles, policy: Policy, url: string, seed: string, asWritten: bool): (r: Option<bool>)
    ensures HardDenied(url) ==> r == Some(false)
    ensures r.None? <==> !HardDenied(url) && DenyLoop(o, policy.denylist, HostOf(o, url), asWritten).None?
    ensures r == Some(true) <==>
      && !HardDenied(url)
      && DenyLoop(o, policy.denylist, HostOf(o, url), asWritten) == Some(false)
      && AllowedByList(policy.allowlist, HostOf(o, url))
      && (policy.crawl.sameDomainOnly ==> SameRegDomain(o, url, seed))
      && (IsPdfUrl(url) ==> PdfsAllowed(policy))
  {
    var host := HostOf(o, url);
    if HardDenied(url) then Some(false)
    else match DenyLoop(o, policy.denylist, host, asWritten)
      case None => None
      case Some(true) => Some(false)
      case Some(false) =>
        if !AllowedByList(policy.allowlist, host) then Some(false)
        else if policy.crawl.sameDomainOnly && !SameRegDomain(o, url, seed) then Some(false)
        else if IsPdfUrl(url) && !PdfsAllowed(policy) then Some(false)
        else Some(true)
  }

  /**
   As written, a `*.` entry refuses every URL that reaches it, whatever
   its host: with the denylist `["*.gov"]` a Wikipedia article is refused,
   where the wildcard reading lets it through.
   */
  lemma StarEntryRefusesAnyHost(o: Oracles, policy: Policy, seed: string)
    requires policy.denylist == ["*.gov"] && policy.allowlist == [] && !policy.crawl.sameDomainOnly
    requires HostOf(o, "https://en.wikipedia.org/wiki/Dafny") == "en.wikipedia.org"
    ensures UrlAllowed(o, policy, "https://en.wikipedia.org/wiki/Dafny", seed, true) == Some(false)
    ensures UrlAllowed(o, policy, "https://en.wikipedia.org/wiki/Dafny", seed, false) == Some(true)
  {
    var u := "https://en.wikipedia.org/wiki/Dafny";
    WikipediaIsNotHardDenied();
    assert StartsWith("*.gov", "*.");
    assert !EndsWith("en.wikipedia.org", "*.gov"[1..]) by {
      assert "en.wikipedia.org"[|"en.wikipedia.org"| - 4..] != ".gov";
    }
    assert DenyLoop(o, ["*.gov"], "en.wikipedia.org", false) == Some(false) by {
      assert EntryVerdict(o, ["*.gov"][0], "en.wikipedia.org", false) == Some(false);
    }
    assert u[|u| - 1] == 'y' && Lower(u)[|u| - 1] == LowerChar('y') == 'y';
    assert Lower(u)[|u| - 4..][3] == 'y';
  }

  /** As written, a `*.` entry at the head of the denylist refuses every URL that is not hard-denied first. */
  lemma LeadingStarEntryRefusesAll(o: Oracles, policy: Policy, url: string, seed: string)
    requires |policy.denylist| > 0 && StartsWith(policy.denylist[0], "*.")
    ensures UrlAllowed(o, policy, url, seed, true) == Some(false)
  {
    assert EntryVerdict(o, policy.denylist[0], HostOf(o, url), true) == Some(true);
  }

  /** The same for every URL at once. */
  lemma LeadingStarRefusesEveryUrl(o: Oracles, policy: Policy, seed: string)
    requires |policy.denylist| > 0 && StartsWith(policy.denylist[0], "*.")
    ensures forall url :: UrlAllowed(o, policy, url, seed, true) == Some(false)
  {
    forall url ensures UrlAllowed(o, policy, url, seed, true) == Some(false) {
      LeadingStarEntryRefusesAll(o, policy, url, seed);
    }
  }

  /**
   Read as a wildcard, a lone `*.` entry never raises and refuses a URL
   exactly when its host ends with the entry's suffix (`*.gov` refuses
   `www.nasa.gov`, not `en.wikipedia.org`); other URLs go on to the
   allowlist, same-domain and PDF rules.
   */
  lemma StarEntryIsSuffixWildcard(o: Oracles, policy: Policy, url: string, seed: string)
    requires |policy.denylist| == 1 && StartsWith(policy.denylist[0], "*.") && !HardDenied(url)
    ensures EndsWith(HostOf(o, url), policy.denylist[0][1..]) ==> UrlAllowed(o, policy, url, seed, false) == Some(false)
    ensures !EndsWith(HostOf(o, url), policy.denylist[0][1..]) ==>
      UrlAllowed(o, policy, url, seed, false) == Some(
        && AllowedByList(policy.allowlist, HostOf(o, url))
        && (policy.crawl.sameDomainOnly ==> SameRegDomain(o, url, seed))
        && (IsPdfUrl(url) ==> PdfsAllowed(policy)))
  {
    var d, host := policy.denylist[0], HostOf(o, url);
    assert EntryVerdict(o, d, host, false) == Some(EndsWith(host, d[1..]));
    if !EndsWith(host, d[1..]) {
      assert DenyLoop(o, policy.denylist, host, false) == Some(false);
    }
  }

  /**
   With `*.` read as a wildcard, the older filter refuses and admits the
   same URLs as the newer crawler's, whenever the user patterns compile
   (a `*.` pattern never does: `*` has nothing to repeat). The two differ
   only in what an invalid pattern does: the older filter raises.
   */
  lemma WildcardFilterAgreesWithNewer(o: Oracles, policy: Policy, url: string, seed: string)
    requires forall k | 0 <= k < |policy.denylist| ::
      o.fullmatch(policy.denylist[k], HostOf(o, url)).None? <==> StartsWith(policy.denylist[k], "*.")
    ensures UrlAllowed(o, policy, url, seed, false) == Some(NetIngest.UrlAllowed(o, policy, url, seed))
  {
    var deny, host := policy.denylist, HostOf(o, url);
    forall k | 0 <= k < |deny|
      ensures EntryVerdict(o, deny[k], host, false).Some?
      ensures EntryVerdict(o, deny[k], host, false) == Some(true) <==> NetIngest.DenyMatch(o, deny[k], host)
    {
    }
    if !HardDenied(url) {
      var r := DenyLoop(o, deny, host, false);
      if r == Some(true) {
        var k :| 0 <= k < |deny| && EntryVerdict(o, deny[k], host, false) == Some(true);
        assert NetIngest.Denied(o, deny, host);
      } else {
        assert r == Some(false) by {
          if r.Some? {
            assert r == Some(r.value) && !r.value;
          }
        }
        forall k | 0 <= k < |deny| ensures !NetIngest.DenyMatch(o, deny[k], host) {
          assert EntryVerdict(o, deny[k], host, false) == Some(false);
        }
        assert !NetIngest.Denied(o, deny, host);
      }
    }
  }

  // ----------------------------------------------------------- the crawl

  /** The crawl's filter admits the URL. */
  predicate Admits(o: Oracles, policy: Policy, url: string, seed: string, asWritten: bool) {
    UrlAllowed(o, policy, url, seed, asWritten) == Some(true)
  }

  /** `self._extract_links(html, base=url, ...)`: fragments kept. */
  function PageLinks(env: Env, policy: Policy, s: Settings, base: string, html: string): seq<string> {
    ExtractLinks(env.o, env.hrefs(html), base, s.samePathPref, s.seed, PdfsAllowed(policy), false)
  }

  /** `self._summarize_canonical(text=text, source=url)` for a fetched page. */
  function PageSummary(env: Env, url: string, html: string): Summary {
    Summarize(env.sha256, env.today, env.readability(html), url)
  }

  /** The fetched page `parent` was long, lay above the depth cap and listed `url`, which the filter admits. */
  ghost predicate LinkedFrom(env: Env, policy: Policy, s: Settings, asWritten: bool, parent: FetchEvent, url: string,
                             depth: int) {
    && parent.html.Some?
    && LongEnough(env.readability(parent.html.value))
    && 0 <= parent.depth < s.maxDepth
    && depth == parent.depth + 1
    && url in PageLinks(env, policy, s, parent.url, parent.html.value)
    && Admits(env.o, policy, url, s.seed, asWritten)
  }

  /** Why the `i`-th fetch was made: the seed at depth 0, or a link of an earlier long page. */
  ghost predicate FetchJustified(env: Env, policy: Policy, s: Settings, asWritten: bool, fs: seq<FetchEvent>, i: nat)
    requires i < |fs|
  {
    var e := fs[i];
    && 0 <= e.depth <= s.maxDepth
    && Admits(env.o, policy, e.url, s.seed, asWritten)
    && (e.depth == 0 ==> e.url == s.seed)
    && (e.depth > 0 ==> e.from < i && LinkedFrom(env, policy, s, asWritten, fs[e.from], e.url, e.depth))
  }

  ghost predicate EntryJustified(env: Env, policy: Policy, s: Settings, asWritten: bool, fs: seq<FetchEvent>,
                                 q: seq<Entry>, i: nat)
    requires i < |q|
  {
    if i == 0 then q[0] == Entry(s.seed, 0, 0)
    else q[i].from < |fs| && LinkedFrom(env, policy, s, asWritten, fs[q[i].from], q[i].url, q[i].depth)
  }

  /** A fetch whose page came back with at least 400 characters of text. */
  ghost predicate LongPage(env: Env, fs: seq<FetchEvent>, i: nat)
    requires i < |fs|
  {
    fs[i].html.Some? && LongEnough(env.readability(fs[i].html.value))
  }

  /** A counted summary is that of a long page. */
  ghost predicate StoreJustified(env: Env, fs: seq<FetchEvent>, st: Stored) {
    && st.at < |fs|
    && LongPage(env, fs, st.at)
    && st.summary == PageSummary(env, fs[st.at].url, fs[st.at].html.value)
  }

  ghost predicate EntriesOk(env: Env, policy: Policy, s: Settings, asWritten: bool, fs: seq<FetchEvent>, q: seq<Entry>) {
    forall i | 0 <= i < |q| :: EntryJustified(env, policy, s, asWritten, fs, q, i)
  }

  ghost predicate FetchesOk(env: Env, policy: Policy, s: Settings, asWritten: bool, fs: seq<FetchEvent>) {
    DistinctFetches(fs) && forall i | 0 <= i < |fs| :: FetchJustified(env, policy, s, asWritten, fs, i)
  }

  /**
   Every counted summary is justified, one per page in fetch order, and
   every long page among the first `n` fetches was counted.
   */
  ghost predicate StoresOk(env: Env, fs: seq<FetchEvent>, stores: seq<Stored>, n: nat) {
    && (forall j | 0 <= j < |stores| :: StoreJustified(env, fs, stores[j]))
    && (forall i, j | 0 <= i < j < |stores| :: stores[i].at < stores[j].at)
    && (forall i | 0 <= i < n && i < |fs| :: LongPage(env, fs, i) ==> i in CountedAt(stores))
  }

  /** What holds between iterations, with the long pages among the first `n` fetches counted. */
  ghost predicate CrawlOkUpTo(env: Env, policy: Policy, s: Settings, asWritten: bool, failBreaker: int, st: CrawlState,
                              n: nat) {
    && QueueOk(s.seed, st.queue, st.head, st.visited, st.enqueued)
    && EntriesOk(env, policy, s, asWritten, st.fetches, st.queue)
    && FetchesOk(env, policy, s, asWritten, st.fetches) && FetchedUrls(st.fetches) <= st.visited
    && StoresOk(env, st.fetches, st.stores, n)
    && (forall j | 0 <= j < |st.stores| :: st.stores[j].at < |st.fetches|)
    && BreakerHeld(st.fetches, failBreaker)
  }

  ghost predicate CrawlOk(env: Env, policy: Policy, s: Settings, asWritten: bool, failBreaker: int, st: CrawlState) {
    CrawlOkUpTo(env, policy, s, asWritten, failBreaker, st, |st.fetches|)
  }

  lemma CrawlStart(env: Env, policy: Policy, s: Settings, asWritten: bool, failBreaker: int)
    ensures var st := CrawlState([Entry(s.seed, 0, 0)], 0, {}, {s.seed}, [], []);
      CrawlOk(env, policy, s, asWritten, failBreaker, st) && Progress(env, policy, s, asWritten, st, 0, 0)
  {
    QueueStart(s.seed);
    assert EntryJustified(env, policy, s, asWritten, [], [Entry(s.seed, 0, 0)], 0);
  }

  lemma EntryDepth(env: Env, policy: Policy, s: Settings, asWritten: bool, fs: seq<FetchEvent>, q: seq<Entry>, i: nat)
    requires EntriesOk(env, policy, s, asWritten, fs, q) && i < |q|
    ensures 0 <= q[i].depth
  {
    assert EntryJustified(env, policy, s, asWritten, fs, q, i);
  }

  /** Taking the next entry off the queue. */
  lemma CrawlVisit(env: Env, policy: Policy, s: Settings, asWritten: bool, failBreaker: int, st: CrawlState)
    requires CrawlOk(env, policy, s, asWritten, failBreaker, st) && st.head < |st.queue|
    ensures var e := st.queue[st.head];
      && 0 <= e.depth && e.url !in st.visited && e.url !in FetchedUrls(st.fetches)
      && CrawlOk(env, policy, s, asWritten, failBreaker, st.(head := st.head + 1, visited := st.visited + {e.url}))
  {
    EntryDepth(env, policy, s, asWritten, st.fetches, st.queue, st.head);
    VisitNext(s.seed, st.queue, st.head, st.visited, st.enqueued);
  }

  lemma FetchKeepsFetches(env: Env, policy: Policy, s: Settings, asWritten: bool, q: seq<Entry>, k: nat,
                          fs: seq<FetchEvent>, html: Option<string>)
    requires k < |q| && EntriesOk(env, policy, s, asWritten, fs, q)
    requires forall i | 0 <= i < |fs| :: FetchJustified(env, policy, s, asWritten, fs, i)
    requires q[k].depth <= s.maxDepth && Admits(env.o, policy, q[k].url, s.seed, asWritten)
    ensures var fs' := fs + [FetchEvent(q[k].url, q[k].depth, q[k].from, html)];
      forall i | 0 <= i < |fs'| :: FetchJustified(env, policy, s, asWritten, fs', i)
  {
    var x := FetchEvent(q[k].url, q[k].depth, q[k].from, html);
    var fs' := fs + [x];
    forall i | 0 <= i < |fs'| ensures FetchJustified(env, policy, s, asWritten, fs', i) {
      if i < |fs| {
        OldFetchJustified(env, policy, s, asWritten, fs, x, i);
      } else {
        NewFetchJustified(env, policy, s, asWritten, q, k, fs, html);
      }
    }
  }

  lemma OldFetchJustified(env: Env, policy: Policy, s: Settings, asWritten: bool, fs: seq<FetchEvent>, x: FetchEvent,
                          i: nat)
    requires i < |fs| && FetchJustified(env, policy, s, asWritten, fs, i)
    ensures FetchJustified(env, policy, s, asWritten, fs + [x], i)
  {
    var fs' := fs + [x];
    assert fs'[i] == fs[i];
    if fs[i].depth > 0 { assert fs'[fs[i].from] == fs[fs[i].from]; }
  }

  lemma NewFetchJustified(env: Env, policy: Policy, s: Settings, asWritten: bool, q: seq<Entry>, k: nat,
                          fs: seq<FetchEvent>, html: Option<string>)
    requires k < |q| && EntriesOk(env, policy, s, asWritten, fs, q)
    requires q[k].depth <= s.maxDepth && Admits(env.o, policy, q[k].url, s.seed, asWritten)
    ensures FetchJustified(env, policy, s, asWritten, fs + [FetchEvent(q[k].url, q[k].depth, q[k].from, html)], |fs|)
  {
    var fs' := fs + [FetchEvent(q[k].url, q[k].depth, q[k].from, html)];
    assert EntryJustified(env, policy, s, asWritten, fs, q, k);
    if k > 0 { assert fs'[q[k].from] == fs[q[k].from]; }
  }

  lemma FetchKeepsEntries(env: Env, policy: Policy, s: Settings, asWritten: bool, q: seq<Entry>, fs: seq<FetchEvent>,
                          x: FetchEvent)
    requires EntriesOk(env, policy, s, asWritten, fs, q)
    ensures EntriesOk(env, policy, s, asWritten, fs + [x], q)
  {
    var fs' := fs + [x];
    assert forall i | 0 <= i < |fs| :: fs'[i] == fs[i];
    forall i | 0 <= i < |q| ensures EntryJustified(env, policy, s, asWritten, fs', q, i) {
      assert EntryJustified(env, policy, s, asWritten, fs, q, i);
    }
  }

  /** Logging a fetch keeps the counted summaries; a fetch that failed needs no summary. */
  lemma FetchKeepsStores(env: Env, fs: seq<FetchEvent>, stores: seq<Stored>, x: FetchEvent)
    requires StoresOk(env, fs, stores, |fs|)
    ensures StoresOk(env, fs + [x], stores, |fs|)
    ensures x.html.None? ==> StoresOk(env, fs + [x], stores, |fs| + 1)
  {
    var fs' := fs + [x];
    assert forall i | 0 <= i < |fs| :: fs'[i] == fs[i];
    forall j | 0 <= j < |stores| ensures StoreJustified(env, fs', stores[j]) {
      assert StoreJustified(env, fs, stores[j]);
    }
    forall i | 0 <= i < |fs| && LongPage(env, fs', i) ensures i in CountedAt(stores) {
      assert LongPage(env, fs, i);
    }
  }

  /** Logging the fetch of a visited entry that the filter admits within the depth cap. */
  lemma CrawlFetch(env: Env, policy: Policy, s: Settings, asWritten: bool, failBreaker: int, st: CrawlState, k: nat,
                   html: Option<string>)
    requires CrawlOk(env, policy, s, asWritten, failBreaker, st) && k < |st.queue|
    requires st.queue[k].url in st.visited && st.queue[k].url !in FetchedUrls(st.fetches)
    requires st.queue[k].depth <= s.maxDepth && Admits(env.o, policy, st.queue[k].url, s.seed, asWritten)
    requires TrailingFailures(st.fetches) < Max(failBreaker, 1)
    ensures var e := st.queue[k];
      var fs := st.fetches + [FetchEvent(e.url, e.depth, e.from, html)];
      && CrawlOkUpTo(env, policy, s, asWritten, failBreaker, st.(fetches := fs), |st.fetches|)
      && (html.None? ==> CrawlOk(env, policy, s, asWritten, failBreaker, st.(fetches := fs)))
      && (forall j | 0 <= j < |st.stores| :: st.stores[j].at < |fs| - 1)
      && TrailingFailures(fs) == if html.Some? then 0 else TrailingFailures(st.fetches) + 1
  {
    var e := st.queue[k];
    var x := FetchEvent(e.url, e.depth, e.from, html);
    FetchLogGrows(st.fetches, x);
    FetchKeepsFetches(env, policy, s, asWritten, st.queue, k, st.fetches, html);
    FetchKeepsEntries(env, policy, s, asWritten, st.queue, st.fetches, x);
    FetchKeepsStores(env, st.fetches, st.stores, x);
    CountersStep(st.fetches, x);
    BreakerStep(st.fetches, x, failBreaker);
  }

  /** Counting the page fetched last. */
  lemma StoreNext(env: Env, fs: seq<FetchEvent>, stores: seq<Stored>, st: Stored)
    requires 0 < |fs| && StoresOk(env, fs, stores, |fs| - 1)
    requires forall j | 0 <= j < |stores| :: stores[j].at < |fs| - 1
    requires st.at == |fs| - 1 && StoreJustified(env, fs, st)
    ensures StoresOk(env, fs, stores + [st], |fs|)
  {
    var t := stores + [st];
    assert forall j | 0 <= j < |stores| :: t[j] == stores[j];
    CountedAtAppend(stores, st);
  }

  /** A short last page needs no summary. */
  lemma ShortPageNeedsNone(env: Env, fs: seq<FetchEvent>, stores: seq<Stored>)
    requires 0 < |fs| && StoresOk(env, fs, stores, |fs| - 1) && !LongPage(env, fs, |fs| - 1)
    ensures StoresOk(env, fs, stores, |fs|)
  {
  }

  lemma EntryKept(env: Env, policy: Policy, s: Settings, asWritten: bool, fs: seq<FetchEvent>, q: seq<Entry>,
                  q': seq<Entry>, i: nat)
    requires EntriesOk(env, policy, s, asWritten, fs, q) && i < |q| <= |q'| && q'[i] == q[i]
    ensures EntryJustified(env, policy, s, asWritten, fs, q', i)
  {
    assert EntryJustified(env, policy, s, asWritten, fs, q, i);
  }

  /** Queueing the links of the page fetched last, one level deeper. */
  lemma EnqueueNext(env: Env, policy: Policy, s: Settings, asWritten: bool, fs: seq<FetchEvent>, q: seq<Entry>,
                    q': seq<Entry>, links: seq<string>)
    requires EntriesOk(env, policy, s, asWritten, fs, q) && 0 < |q| && 0 < |fs|
    requires |q| <= |q'| && q'[..|q|] == q
    requires var p := fs[|fs| - 1];
      && p.html.Some? && LongEnough(env.readability(p.html.value)) && 0 <= p.depth < s.maxDepth
      && links == PageLinks(env, policy, s, p.url, p.html.value)
    requires forall i | |q| <= i < |q'| ::
      && q'[i].url in links
      && q'[i].depth == fs[|fs| - 1].depth + 1 && q'[i].from == |fs| - 1
      && Admits(env.o, policy, q'[i].url, s.seed, asWritten)
    ensures EntriesOk(env, policy, s, asWritten, fs, q')
  {
    forall i | 0 <= i < |q'| ensures EntryJustified(env, policy, s, asWritten, fs, q', i) {
      if i < |q| {
        assert q'[i] == q'[..|q|][i] == q[i];
        EntryKept(env, policy, s, asWritten, fs, q, q', i);
      } else {
        NewEntryLinked(env, policy, s, asWritten, fs, q', i, links);
      }
    }
  }

  lemma NewEntryLinked(env: Env, policy: Policy, s: Settings, asWritten: bool, fs: seq<FetchEvent>, q: seq<Entry>,
                       i: nat, links: seq<string>)
    requires 0 < i < |q| && 0 < |fs|
    requires var p := fs[|fs| - 1];
      && p.html.Some? && LongEnough(env.readability(p.html.value)) && 0 <= p.depth < s.maxDepth
      && links == PageLinks(env, policy, s, p.url, p.html.value)
    requires q[i].url in links && q[i].depth == fs[|fs| - 1].depth + 1 && q[i].from == |fs| - 1
    requires Admits(env.o, policy, q[i].url, s.seed, asWritten)
    ensures EntryJustified(env, policy, s, asWritten, fs, q, i)
  {
    var p := fs[q[i].from];
    assert p == fs[|fs| - 1];
    assert LinkedFrom(env, policy, s, asWritten, p, q[i].url, q[i].depth);
  }

  // ------------------------------------------------------------- progress

  /** The `i`-th fetch is a long page above the depth cap, whose links are followed. */
  ghost predicate Expands(env: Env, s: Settings, fs: seq<FetchEvent>, i: nat)
    requires i < |fs|
  {
    LongPage(env, fs, i) && 0 <= fs[i].depth < s.maxDepth
  }

  /** The links of the page of the `i`-th fetch. */
  function LinksOf(env: Env, policy: Policy, s: Settings, fs: seq<FetchEvent>, i: nat): seq<string>
    requires i < |fs| && fs[i].html.Some?
  {
    PageLinks(env, policy, s, fs[i].url, fs[i].html.value)
  }

  /** Of the first `n` fetches, every admitted link of an expanded page was queued. */
  ghost predicate LinksDone(env: Env, policy: Policy, s: Settings, asWritten: bool, fs: seq<FetchEvent>,
                            enqueued: set<string>, n: nat) {
    forall i, l | 0 <= i < n && i < |fs| && Expands(env, s, fs, i)
      && l in LinksOf(env, policy, s, fs, i) && Admits(env.o, policy, l, s.seed, asWritten) :: l in enqueued
  }

  /** Of the first `v` queue entries, every one within the depth cap that the filter admits was fetched. */
  ghost predicate EntriesDone(env: Env, policy: Policy, s: Settings, asWritten: bool, q: seq<Entry>,
                              fs: seq<FetchEvent>, v: nat) {
    forall j | 0 <= j < v && j < |q| ::
      q[j].depth <= s.maxDepth && Admits(env.o, policy, q[j].url, s.seed, asWritten) ==> q[j].url in FetchedUrls(fs)
  }

  /** The work done so far, over the first `n` fetches and the first `v` queue entries. */
  ghost predicate Progress(env: Env, policy: Policy, s: Settings, asWritten: bool, st: CrawlState, n: nat, v: nat) {
    && LinksDone(env, policy, s, asWritten, st.fetches, st.enqueued, n)
    && EntriesDone(env, policy, s, asWritten, st.queue, st.fetches, v)
  }

  /**
   Nothing the crawl would fetch is left: the seed was fetched if the
   filter admits it and the depth cap is not negative, and so was every
   admitted link of every expanded page.
   */
  ghost predicate Exhaustive(env: Env, policy: Policy, s: Settings, asWritten: bool, fs: seq<FetchEvent>) {
    && (0 <= s.maxDepth && Admits(env.o, policy, s.seed, s.seed, asWritten) ==> s.seed in FetchedUrls(fs))
    && forall i, l | 0 <= i < |fs| && Expands(env, s, fs, i)
         && l in LinksOf(env, policy, s, fs, i) && Admits(env.o, policy, l, s.seed, asWritten) :: l in FetchedUrls(fs)
  }

  /** Logging the fetch of entry `v` settles it; a fetch that failed owes no links. */
  lemma ProgressFetch(env: Env, policy: Policy, s: Settings, asWritten: bool, st: CrawlState, v: nat, x: FetchEvent)
    requires Progress(env, policy, s, asWritten, st, |st.fetches|, v) && v < |st.queue|
    requires x.url == st.queue[v].url
    ensures var st' := st.(fetches := st.fetches + [x]);
      && Progress(env, policy, s, asWritten, st', |st.fetches|, v + 1)
      && (x.html.None? ==> Progress(env, policy, s, asWritten, st', |st.fetches| + 1, v + 1))
  {
    var fs := st.fetches + [x];
    LinksDoneExtend(env, policy, s, asWritten, st.fetches, st.enqueued, x);
    FetchedGrows(st.fetches, x);
    assert st.queue[v].url in FetchedUrls(fs);
  }

  lemma LinksDoneExtend(env: Env, policy: Policy, s: Settings, asWritten: bool, fs: seq<FetchEvent>,
                        enqueued: set<string>, x: FetchEvent)
    requires LinksDone(env, policy, s, asWritten, fs, enqueued, |fs|)
    ensures LinksDone(env, policy, s, asWritten, fs + [x], enqueued, |fs|)
    ensures x.html.None? ==> LinksDone(env, policy, s, asWritten, fs + [x], enqueued, |fs| + 1)
  {
    var t := fs + [x];
    forall i, l | 0 <= i < |fs| && Expands(env, s, t, i)
      && l in LinksOf(env, policy, s, t, i) && Admits(env.o, policy, l, s.seed, asWritten)
      ensures l in enqueued
    {
      assert t[i] == fs[i];
      assert Expands(env, s, fs, i) && l in LinksOf(env, policy, s, fs, i);
    }
    assert t[|fs|] == x;
  }

  /** Processing the page fetched last, with its admitted links queued when it expands. */
  lemma ProgressPage(env: Env, policy: Policy, s: Settings, asWritten: bool, st: CrawlState, st': CrawlState, v: nat)
    requires 0 < |st.fetches| && Progress(env, policy, s, asWritten, st, |st.fetches| - 1, v)
    requires v <= |st.queue| <= |st'.queue| && st'.queue[..|st.queue|] == st.queue
    requires st'.fetches == st.fetches && st.enqueued <= st'.enqueued
    requires Expands(env, s, st.fetches, |st.fetches| - 1) ==>
      forall l | l in LinksOf(env, policy, s, st.fetches, |st.fetches| - 1)
        && Admits(env.o, policy, l, s.seed, asWritten) :: l in st'.enqueued
    ensures Progress(env, policy, s, asWritten, st', |st.fetches|, v)
  {
    LinksDoneStep(env, policy, s, asWritten, st.fetches, st.enqueued, st'.enqueued);
    EntriesDoneKept(env, policy, s, asWritten, st.queue, st'.queue, st.fetches, v);
  }

  lemma LinksDoneStep(env: Env, policy: Policy, s: Settings, asWritten: bool, fs: seq<FetchEvent>,
                      enqueued: set<string>, enqueued': set<string>)
    requires 0 < |fs| && LinksDone(env, policy, s, asWritten, fs, enqueued, |fs| - 1) && enqueued <= enqueued'
    requires Expands(env, s, fs, |fs| - 1) ==>
      forall l | l in LinksOf(env, policy, s, fs, |fs| - 1) && Admits(env.o, policy, l, s.seed, asWritten) ::
        l in enqueued'
    ensures LinksDone(env, policy, s, asWritten, fs, enqueued', |fs|)
  {
    forall i, l | 0 <= i < |fs| && Expands(env, s, fs, i)
      && l in LinksOf(env, policy, s, fs, i) && Admits(env.o, policy, l, s.seed, asWritten)
      ensures l in enqueued'
    {
      if i < |fs| - 1 {
        assert l in enqueued;
      }
    }
  }

  lemma EntriesDoneKept(env: Env, policy: Policy, s: Settings, asWritten: bool, q: seq<Entry>, q': seq<Entry>,
                        fs: seq<FetchEvent>, v: nat)
    requires EntriesDone(env, policy, s, asWritten, q, fs, v) && v <= |q| <= |q'| && q'[..|q|] == q
    ensures EntriesDone(env, policy, s, asWritten, q', fs, v)
  {
    forall j | 0 <= j < v ensures q'[j] == q[j] {
      assert q'[j] == q'[..|q|][j];
    }
  }

  /** When the queue has run empty, nothing the crawl would fetch is left. */
  lemma ProgressDone(env: Env, policy: Policy, s: Settings, asWritten: bool, failBreaker: int, st: CrawlState)
    requires CrawlOk(env, policy, s, asWritten, failBreaker, st)
    requires Progress(env, policy, s, asWritten, st, |st.fetches|, st.head) && st.head == |st.queue|
    ensures Exhaustive(env, policy, s, asWritten, st.fetches)
  {
    var fs, q := st.fetches, st.queue;
    assert q[0] == Entry(s.seed, 0, 0);
    forall i, l | 0 <= i < |fs| && Expands(env, s, fs, i)
      && l in LinksOf(env, policy, s, fs, i) && Admits(env.o, policy, l, s.seed, asWritten)
      ensures l in FetchedUrls(fs)
    {
      assert l in UrlSet(q);
      var j :| 0 <= j < |q| && q[j].url == l;
      assert EntryJustified(env, policy, s, asWritten, fs, q, j);
    }
  }

  /** The first fetch, if any, was of a URL the filter admits. */
  lemma FirstFetchAdmitted(env: Env, policy: Policy, s: Settings, asWritten: bool, fs: seq<FetchEvent>)
    requires FetchesOk(env, policy, s, asWritten, fs)
    ensures |fs| > 0 ==> Admits(env.o, policy, fs[0].url, s.seed, asWritten)
  {
    if |fs| > 0 {
      assert FetchJustified(env, policy, s, asWritten, fs, 0);
    }
  }

  /** The first counted summary, if any, is of a fetch in the log. */
  lemma FirstStoreFetched(env: Env, fs: seq<FetchEvent>, stores: seq<Stored>, n: nat)
    requires StoresOk(env, fs, stores, n)
    ensures |stores| > 0 ==> stores[0].at < |fs|
  {
    if |stores| > 0 {
      assert StoreJustified(env, fs, stores[0]);
    }
  }

  /** Every queued link past the seed came from a page already fetched. */
  lemma LinkNeedsFetch(env: Env, policy: Policy, s: Settings, asWritten: bool, failBreaker: int, st: CrawlState)
    requires CrawlOk(env, policy, s, asWritten, failBreaker, st)
    ensures |st.queue| > 1 ==> st.queue[1].from < |st.fetches|
  {
    if |st.queue| > 1 {
      assert EntryJustified(env, policy, s, asWritten, st.fetches, st.queue, 1);
    }
  }

  // ------------------------------------------------------------ the loop

  /**
   The link loop of `crawl_and_ingest`: every link neither visited nor
   queued is run through the filter and queued at `depth` when admitted;
   a pattern that raises ends the loop (and the crawl).
   */
  method EnqueueLinks(o: Oracles, policy: Policy, seed: string, asWritten: bool, queue: seq<Entry>,
                      enqueued: set<string>, visited: set<string>, links: seq<string>, depth: int, from: nat)
    returns (queue': seq<Entry>, enqueued': set<string>, raised: bool)
    requires enqueued == UrlSet(queue) && DistinctUrls(queue)
    ensures enqueued' == UrlSet(queue') && DistinctUrls(queue')
    ensures |queue| <= |queue'| && queue'[..|queue|] == queue
    ensures forall i | |queue| <= i < |queue'| ::
      && queue'[i].url in links && queue'[i].url !in visited
      && queue'[i].depth == depth && queue'[i].from == from
      && Admits(o, policy, queue'[i].url, seed, asWritten)
    ensures raised ==> exists l | l in links && l !in visited :: UrlAllowed(o, policy, l, seed, asWritten).None?
    ensures !raised ==> forall l | l in links && l !in visited && Admits(o, policy, l, seed, asWritten) :: l in enqueued'
  {
    queue', enqueued' := queue, enqueued;
    raised := false;
    for k := 0 to |links|
      invariant enqueued' == UrlSet(queue') && DistinctUrls(queue')
      invariant |queue| <= |queue'| && queue'[..|queue|] == queue
      invariant forall i | |queue| <= i < |queue'| ::
        && queue'[i].url in links[..k] && queue'[i].url !in visited
        && queue'[i].depth == depth && queue'[i].from == from
        && Admits(o, policy, queue'[i].url, seed, asWritten)
      invariant forall l | l in links[..k] && l !in visited && Admits(o, policy, l, seed, asWritten) :: l in enqueued'
    {
      var link := links[k];
      assert links[..k + 1] == links[..k] + [link];
      if link !in visited && link !in enqueued' {
        var verdict := UrlAllowed(o, policy, link, seed, asWritten);
        if verdict.None? {
          raised := true;
          return;
        }
        if verdict == Some(true) {
          UrlSetAppend(queue', Entry(link, depth, from));
          queue' := queue' + [Entry(link, depth, from)];
          enqueued' := enqueued' + {link};
        }
      }
    }
    assert links[..|links|] == links;
  }

  /**
   What `crawl_and_ingest` does with a page it fetched: nothing more when
   its text is short; otherwise the page is counted with its summary and,
   above the depth cap, its admitted links that are neither visited nor
   queued are queued one level deeper. `raised` when a denylist pattern
   raised in the filter.
   */
  method ProcessPage(env: Env, policy: Policy, s: Settings, asWritten: bool, failBreaker: int, st: CrawlState, v: nat)
    returns (st': CrawlState, raised: bool)
    requires 0 < |st.fetches| && st.fetches[|st.fetches| - 1].html.Some?
    requires CrawlOkUpTo(env, policy, s, asWritten, failBreaker, st, |st.fetches| - 1)
    requires 0 <= st.fetches[|st.fetches| - 1].depth <= s.maxDepth
    requires forall j | 0 <= j < |st.stores| :: st.stores[j].at < |st.fetches| - 1
    requires Progress(env, policy, s, asWritten, st, |st.fetches| - 1, v) && v <= |st.queue|
    ensures !raised ==> CrawlOk(env, policy, s, asWritten, failBreaker, st')
    ensures !raised ==> Progress(env, policy, s, asWritten, st', |st.fetches|, v)
    ensures st'.head == st.head && st'.visited == st.visited && st'.fetches == st.fetches
    ensures var fi := |st.fetches| - 1; var page := st.fetches[fi];
      st'.stores == st.stores + if LongPage(env, st.fetches, fi)
                                then [Stored(fi, PageSummary(env, page.url, page.html.value))] else []
    ensures !raised && Expands(env, s, st.fetches, |st.fetches| - 1) ==>
      forall l | l in LinksOf(env, policy, s, st.fetches, |st.fetches| - 1) && l !in st.visited
        && Admits(env.o, policy, l, s.seed, asWritten) :: l in st'.enqueued
    ensures !Expands(env, s, st.fetches, |st.fetches| - 1) ==>
      !raised && st'.queue == st.queue && st'.enqueued == st.enqueued
    ensures raised ==> exists l | l in LinksOf(env, policy, s, st.fetches, |st.fetches| - 1) ::
      l !in st.visited && UrlAllowed(env.o, policy, l, s.seed, asWritten).None?
  {
    st', raised := st, false;
    var fetches := st.fetches;
    var fi := |fetches| - 1;
    var page := fetches[fi];
    var text := env.readability(page.html.value);
    if !LongEnough(text) {
      ShortPageNeedsNone(env, fetches, st.stores);
      ProgressPage(env, policy, s, asWritten, st, st', v);
      return;
    }
    var summary := Summarize(env.sha256, env.today, text, page.url);
    StoreNext(env, fetches, st.stores, Stored(fi, summary));
    st' := st'.(stores := st.stores + [Stored(fi, summary)]);
    if page.depth < s.maxDepth {
      var links := PageLinks(env, policy, s, page.url, page.html.value);
      var queue', enqueued';
      queue', enqueued', raised :=
        EnqueueLinks(env.o, policy, s.seed, asWritten, st.queue, st.enqueued, st.visited, links, page.depth + 1, fi);
      if raised {
        return;
      }
      QueueGrows(s.seed, st.queue, queue', st.head, st.visited, st.enqueued, enqueued');
      EnqueueNext(env, policy, s, asWritten, fetches, st.queue, queue', links);
      st' := st'.(queue := queue', enqueued := enqueued');
      VisitedQueued(s.seed, st.queue, st.head, st.visited, st.enqueued);
      UrlSetGrows(st.queue, queue');
    }
    ProgressPage(env, policy, s, asWritten, st, st', v);
  }

  /** How one iteration ended; `Halted` when a denylist pattern raised. */
  datatype Visit = Skipped | Failed | Fetched | Halted

  /** Fetching an admitted entry already marked visited, and processing the page if one came back. */
  method FetchEntry(env: Env, policy: Policy, s: Settings, asWritten: bool, failBreaker: int, st: CrawlState, k: nat)
    returns (st': CrawlState, visit: Visit)
    requires CrawlOk(env, policy, s, asWritten, failBreaker, st) && k < |st.queue|
    requires st.queue[k].url in st.visited && st.queue[k].url !in FetchedUrls(st.fetches)
    requires 0 <= st.queue[k].depth <= s.maxDepth && Admits(env.o, policy, st.queue[k].url, s.seed, asWritten)
    requires TrailingFailures(st.fetches) < Max(failBreaker, 1)
    requires Progress(env, policy, s, asWritten, st, |st.fetches|, k)
    ensures visit != Skipped
    ensures visit != Halted ==> CrawlOk(env, policy, s, asWritten, failBreaker, st')
    ensures visit != Halted ==> Progress(env, policy, s, asWritten, st', |st'.fetches|, k + 1)
    ensures st'.head == st.head && st'.visited == st.visited
    ensures |st'.fetches| == |st.fetches| + 1 && st'.fetches[|st.fetches|].url == st.queue[k].url
    ensures visit == Failed <==> st'.fetches[|st.fetches|].html.None?
    ensures visit == Failed ==> st'.queue == st.queue && st'.stores == st.stores
    ensures visit == Failed ==> TrailingFailures(st'.fetches) == TrailingFailures(st.fetches) + 1
    ensures visit != Failed ==> TrailingFailures(st'.fetches) == 0
    ensures visit != Failed ==>
      st'.stores == st.stores + if LongPage(env, st'.fetches, |st.fetches|)
        then [Stored(|st.fetches|, PageSummary(env, st.queue[k].url, st'.fetches[|st.fetches|].html.value))] else []
    ensures visit != Failed && !LongPage(env, st'.fetches, |st.fetches|) ==> st'.queue == st.queue
    ensures visit == Halted ==> exists u :: UrlAllowed(env.o, policy, u, s.seed, asWritten).None?
  {
    var e := st.queue[k];
    var html := FetchPage(env.attempt, e.url, policy.fetch.retries);
    var x := FetchEvent(e.url, e.depth, e.from, html);
    CrawlFetch(env, policy, s, asWritten, failBreaker, st, k, html);
    ProgressFetch(env, policy, s, asWritten, st, k, x);
    st' := st.(fetches := st.fetches + [x]);
    if html.None? {
      return st', Failed;
    }
    var raised;
    st', raised := ProcessPage(env, policy, s, asWritten, failBreaker, st', k + 1);
    visit := if raised then Halted else Fetched;
  }

  /**
   One iteration past the loop's budget checks: the next entry is taken off
   the queue and marked visited; unless it lies past the depth cap or the
   filter refuses it, it is fetched, and a page that came back is processed.
   */
  method CrawlStep(env: Env, policy: Policy, s: Settings, asWritten: bool, failBreaker: int, st: CrawlState)
    returns (st': CrawlState, visit: Visit)
    requires CrawlOk(env, policy, s, asWritten, failBreaker, st) && st.head < |st.queue|
    requires Progress(env, policy, s, asWritten, st, |st.fetches|, st.head)
    requires TrailingFailures(st.fetches) < Max(failBreaker, 1)
    ensures visit != Halted ==> CrawlOk(env, policy, s, asWritten, failBreaker, st')
    ensures visit != Halted ==> Progress(env, policy, s, asWritten, st', |st'.fetches|, st'.head)
    ensures st'.head == st.head + 1 && st'.visited == st.visited + {st.queue[st.head].url}
    ensures st.queue[st.head].url !in st.visited
    ensures visit == Skipped <==>
      st.queue[st.head].depth > s.maxDepth || UrlAllowed(env.o, policy, st.queue[st.head].url, s.seed, asWritten) == Some(false)
    ensures visit == Skipped ==> st'.fetches == st.fetches
    ensures visit == Skipped || visit == Failed ==> st'.queue == st.queue && st'.stores == st.stores
    ensures visit == Failed ==> TrailingFailures(st'.fetches) == TrailingFailures(st.fetches) + 1
    ensures visit == Fetched ==> TrailingFailures(st'.fetches) == 0
    ensures visit == Fetched ==> |st'.stores| == |st.stores| + 1 || (st'.stores == st.stores && st'.queue == st.queue)
    ensures visit == Halted ==> exists u :: UrlAllowed(env.o, policy, u, s.seed, asWritten).None?
  {
    var e := st.queue[st.head];
    // The source's `url in visited` test never succeeds: a URL is enqueued at most once.
    CrawlVisit(env, policy, s, asWritten, failBreaker, st);
    st' := st.(head := st.head + 1, visited := st.visited + {e.url});
    if e.depth > s.maxDepth {
      return st', Skipped;
    }
    var verdict := UrlAllowed(env.o, policy, e.url, s.seed, asWritten);
    if verdict.None? {
      return st', Halted;
    }
    if verdict == Some(false) {
      return st', Skipped;
    }
    st', visit := FetchEntry(env, policy, s, asWritten, failBreaker, st', st.head);
  }

  /** The status dictionary `crawl_and_ingest` returns, or the `re.error` it lets through. */
  datatype Report =
    | Disabled
    | BadSeed
    | Raised
    | Done(visited: nat, stored: nat, maxDepth: int)

  /**
   What a run of `crawl_and_ingest(seed_url, topic, depth_override,
   pages_cap_override, same_path_preferred)` with the ingestor's
   `fail_breaker` promises, the filter's denylist test chosen by
   `asWritten`. Nothing is fetched when the internet is off or the seed
   does not normalise; the crawl is cut short only by a pattern that
   raises. Otherwise it fetches each URL at most once, only admitted URLs
   within the depth cap reached through links of long pages, and counts
   exactly the fetched pages with at least 400 characters of text, at most
   `max_pages` of them; with nothing fetched only the seed was visited.
   `exit` says why it stopped: with the queue run empty nothing it would
   fetch is left; the other exits are the runtime budget, the page cap and
   the breaker.
   */
  ghost predicate CrawlReported(env: Env, policy: Policy, failBreaker: int, url: string, depthOverride: Option<int>,
                                pagesOverride: Option<int>, samePath: Option<bool>, asWritten: bool,
                                report: Report, log: Log, exit: Exit) {
    && (!policy.toggles.internetEnabled ==> report == Disabled)
    && (policy.toggles.internetEnabled && SeedOf(env.o, url, false).None? ==> report == BadSeed)
    && (report.Disabled? || report.BadSeed? ==> log == Log([], []))
    && (report.Done? || report.Raised? <==> policy.toggles.internetEnabled && SeedOf(env.o, url, false).Some?)
    && (report.Raised? && SeedOf(env.o, url, false).Some? ==>
          exists u :: UrlAllowed(env.o, policy, u, SeedOf(env.o, url, false).value, asWritten).None?)
    && (report.Done? && SeedOf(env.o, url, false).Some? ==>
          var s := SettingsFor(policy, SeedOf(env.o, url, false).value, depthOverride, pagesOverride, samePath);
          && report.maxDepth == s.maxDepth
          && report.stored == |log.stores| <= Max(s.maxPages, 0)
          && FetchesOk(env, policy, s, asWritten, log.fetches)
          && BreakerHeld(log.fetches, failBreaker)
          && StoresOk(env, log.fetches, log.stores, |log.fetches|)
          && (log.fetches == [] ==> report.visited <= 1)
          && (exit == Exhausted ==> Exhaustive(env, policy, s, asWritten, log.fetches))
          && (exit == OutOfTime ==> env.timeUp(report.visited))
          && (exit == PageCap ==> report.stored >= s.maxPages)
          && (exit == Breaker ==> TrailingFailures(log.fetches) >= Max(failBreaker, 1)))
  }

  /**
   The loop of `crawl_and_ingest` from the seed, over the filter
   `asWritten` selects; `raised` when a denylist pattern raised.
   */
  method CrawlLoop(env: Env, policy: Policy, s: Settings, asWritten: bool, failBreaker: int)
    returns (st: CrawlState, exit: Exit, raised: bool)
    ensures raised ==> exists u :: UrlAllowed(env.o, policy, u, s.seed, asWritten).None?
    ensures !raised ==>
      && CrawlOk(env, policy, s, asWritten, failBreaker, st)
      && |st.stores| <= Max(s.maxPages, 0)
      && (st.fetches == [] ==> |st.visited| <= 1)
      && (exit == Exhausted ==> Exhaustive(env, policy, s, asWritten, st.fetches))
      && (exit == OutOfTime ==> env.timeUp(|st.visited|))
      && (exit == PageCap ==> |st.stores| >= s.maxPages)
      && (exit == Breaker ==> TrailingFailures(st.fetches) >= Max(failBreaker, 1))
  {
    exit, raised := Exhausted, false;
    st := CrawlState([Entry(s.seed, 0, 0)], 0, {}, {s.seed}, [], []);
    var failures, stored := 0, 0;
    var iter := 0;
    CrawlStart(env, policy, s, asWritten, failBreaker);

    while st.head < |st.queue|
      invariant CrawlOk(env, policy, s, asWritten, failBreaker, st)
      invariant Progress(env, policy, s, asWritten, st, |st.fetches|, st.head)
      invariant stored == |st.stores| <= Max(s.maxPages, 0)
      invariant failures == TrailingFailures(st.fetches) < Max(failBreaker, 1)
      invariant iter == st.head == |st.visited|
      decreases Max(s.maxPages, 0) - stored, |st.queue| - st.head
    {
      if env.timeUp(iter) {
        exit := OutOfTime;
        break;
      }
      if stored >= s.maxPages {
        exit := PageCap;
        break;
      }
      var visit;
      st, visit := CrawlStep(env, policy, s, asWritten, failBreaker, st);
      iter := iter + 1;
      match visit
      case Halted =>
        raised := true;
        return;
      case Skipped =>
      case Failed =>
        failures := failures + 1;
        if failures >= failBreaker {
          exit := Breaker;
          break;
        }
      case Fetched =>
        failures := 0;
        stored := |st.stores|;
    }
    if exit == Exhausted {
      ProgressDone(env, policy, s, asWritten, failBreaker, st);
    }
    LinkNeedsFetch(env, policy, s, asWritten, failBreaker, st);
  }

  /** `crawl_and_ingest` over the filter `asWritten` selects. */
  method RunCrawl(env: Env, policy: Policy, failBreaker: int, url: string, depthOverride: Option<int>,
                  pagesOverride: Option<int>, samePath: Option<bool>, asWritten: bool)
    returns (report: Report, log: Log, exit: Exit)
    ensures CrawlReported(env, policy, failBreaker, url, depthOverride, pagesOverride, samePath, asWritten,
                          report, log, exit)
  {
    exit := Exhausted;
    if !policy.toggles.internetEnabled {
      return Disabled, Log([], []), exit;
    }
    var seedOpt := SeedOf(env.o, url, false);
    if seedOpt.None? {
      return BadSeed, Log([], []), exit;
    }
    var s := SettingsFor(policy, seedOpt.value, depthOverride, pagesOverride, samePath);
    var st, raised;
    st, exit, raised := CrawlLoop(env, policy, s, asWritten, failBreaker);
    report := if raised then Raised else Done(|st.visited|, |st.stores|, s.maxDepth);
    log := Log(st.fetches, st.stores);
  }

  /**
   `crawl_and_ingest` as the program runs it. Its denylist loop refuses
   every URL once the first entry starts with `*.`, so with such a
   denylist the crawl fetches and counts nothing and visits at most the
   seed.
   */
  method CrawlAndIngest(env: Env, policy: Policy, failBreaker: int, url: string, depthOverride: Option<int>,
                        pagesOverride: Option<int>, samePath: Option<bool>)
    returns (report: Report, log: Log, exit: Exit)
    ensures CrawlReported(env, policy, failBreaker, url, depthOverride, pagesOverride, samePath, true, report, log, exit)
    ensures |policy.denylist| > 0 && StartsWith(policy.denylist[0], "*.") ==>
      && !report.Raised? && log == Log([], [])
      && (report.Done? ==> report.stored == 0 && report.visited <= 1)
  {
    report, log, exit := RunCrawl(env, policy, failBreaker, url, depthOverride, pagesOverride, samePath, true);
    if |policy.denylist| > 0 && StartsWith(policy.denylist[0], "*.") && SeedOf(env.o, url, false).Some? {
      var s := SettingsFor(policy, SeedOf(env.o, url, false).value, depthOverride, pagesOverride, samePath);
      LeadingStarRefusesEveryUrl(env.o, policy, s.seed);
      if report.Done? {
        FirstFetchAdmitted(env, policy, s, true, log.fetches);
        FirstStoreFetched(env, log.fetches, log.stores, |log.fetches|);
      }
    }
  }

  /**
   The crawl with `*.` denylist entries read as host-suffix wildcards, as
   the file's `matches` helper and its comment intend.
   */
  method CrawlAndIngestWildcard(env: Env, policy: Policy, failBreaker: int, url: string, depthOverride: Option<int>,
                                pagesOverride: Option<int>, samePath: Option<bool>)
    returns (report: Report, log: Log, exit: Exit)
    ensures CrawlReported(env, policy, failBreaker, url, depthOverride, pagesOverride, samePath, false, report, log, exit)
  {
    report, log, exit := RunCrawl(env, policy, failBreaker, url, depthOverride, pagesOverride, samePath, false);
  }
}

=== FILE: retrieval.dfy ===
/**
 Prefer-sentenced retrieval, shared by `orion_memory.py` and
 `orion_ltm_integration.py`: query the sentenced tier with an importance
 filter, flatten Chroma's per-query result matrices into hits, top up from
 the raw tier when there are too few, and sort by (query, distance).

 The vector store is not modelled: its two queries are function
 parameters (`Collections`), so whatever the store returns for a given
 query is taken as given.
 */
module Retrieval {
  import opened Wrappers
  import opened Seqs
  import opened Sorting

  /** A metadata value as Chroma stores it. */
  datatype MetaValue = MStr(s: string) | MInt(i: int) | MReal(r: real) | MBool(b: bool)

  type Meta = map<string, MetaValue>

  /** One flattened hit: `{"id", "document", "metadata", "distance", "query_index", "rank"}`. */
  datatype Hit = Hit(
    id: string,
    document: Option<string>,
    metadata: Option<Meta>,
    distance: Option<real>,
    queryIndex: nat,
    rank: nat)

  /**
   Chroma's query result: one row per query text. A column the caller did
   not `include` is `None`.
   */
  datatype QueryResult = QueryResult(
    ids: seq<seq<string>>,
    documents: Option<seq<seq<Option<string>>>>,
    metadatas: Option<seq<seq<Option<Meta>>>>,
    distances: Option<seq<seq<real>>>)

  /** Python truthiness of an optional column: present and not `[]`. */
  predicate Present<X>(col: Option<seq<seq<X>>>) {
    col.Some? && |col.value| > 0
  }

  /** A present column has a cell for every id (what `docs[i][j]` needs). */
  predicate Covers<X>(col: Option<seq<seq<X>>>, ids: seq<seq<string>>) {
    Present(col) ==>
      |ids| <= |col.value| && forall q | 0 <= q < |ids| :: |ids[q]| <= |col.value[q]|
  }

  predicate Aligned(res: QueryResult) {
    Covers(res.documents, res.ids) && Covers(res.metadatas, res.ids) && Covers(res.distances, res.ids)
  }

  /** The hit for id `ids[q][r]`: each field is the matching cell, or `None` when its column is absent. */
  function HitAt(res: QueryResult, q: nat, r: nat): Hit
    requires Aligned(res) && q < |res.ids| && r < |res.ids[q]|
  {
    Hit(res.ids[q][r],
        if Present(res.documents) then res.documents.value[q][r] else None,
        if Present(res.metadatas) then res.metadatas.value[q][r] else None,
        if Present(res.distances) then Some(res.distances.value[q][r]) else None,
        q, r)
  }

  /** `(q, r)` names a cell of the id matrix. */
  predicate ValidCell(res: QueryResult, q: nat, r: nat) {
    q < |res.ids| && r < |res.ids[q]|
  }

  /** Hit `a` comes from an earlier cell than hit `b`, in row-major order. */
  predicate RowMajorBefore(a: Hit, b: Hit) {
    a.queryIndex < b.queryIndex || (a.queryIndex == b.queryIndex && a.rank < b.rank)
  }

  /** Number of ids in rows `q..`. */
  function CellsFrom(ids: seq<seq<string>>, q: nat): nat
    requires q <= |ids|
    decreases |ids| - q
  {
    if q == |ids| then 0 else |ids[q]| + CellsFrom(ids, q + 1)
  }

  /** A hit that is exactly the cell it claims to come from. */
  predicate FaithfulHit(res: QueryResult, h: Hit)
    requires Aligned(res)
  {
    ValidCell(res, h.queryIndex, h.rank) && h == HitAt(res, h.queryIndex, h.rank)
  }

  function RowHits(res: QueryResult, q: nat): (row: seq<Hit>)
    requires Aligned(res) && q < |res.ids|
    ensures |row| == |res.ids[q]|
    ensures forall r | 0 <= r < |row| :: row[r] == HitAt(res, q, r)
  {
    seq(|res.ids[q]|, r requires 0 <= r < |res.ids[q]| => HitAt(res, q, r))
  }

  /** The hits of rows `q..`, row by row. */
  function FlattenResultFrom(res: QueryResult, q: nat): (hits: seq<Hit>)
    requires Aligned(res) && q <= |res.ids|
    ensures |hits| == CellsFrom(res.ids, q)
    ensures forall i | 0 <= i < |hits| :: q <= hits[i].queryIndex && FaithfulHit(res, hits[i])
    ensures forall i, j | 0 <= i < j < |hits| :: RowMajorBefore(hits[i], hits[j])
    decreases |res.ids| - q
  {
    if q == |res.ids| then []
    else
      var row, rest := RowHits(res, q), FlattenResultFrom(res, q + 1);
      assert forall i | 0 <= i < |row| :: row[i].queryIndex == q && row[i].rank == i;
      row + rest
  }

  /**
   `_flatten_query(res)`: one hit per id, in row-major order, each carrying
   the cells at its own `(query_index, rank)`.
   */
  function FlattenResult(res: QueryResult): (hits: seq<Hit>)
    requires Aligned(res)
    ensures |hits| == CellsFrom(res.ids, 0)
    ensures forall i | 0 <= i < |hits| :: FaithfulHit(res, hits[i])
    ensures forall i, j | 0 <= i < j < |hits| :: RowMajorBefore(hits[i], hits[j])
  {
    FlattenResultFrom(res, 0)
  }

  /** Every cell of the id matrix appears among the flattened hits. */
  lemma {:induction false} FlattenResultFromComplete(res: QueryResult, q0: nat, q: nat, r: nat)
    requires Aligned(res) && q0 <= q && ValidCell(res, q, r)
    ensures HitAt(res, q, r) in FlattenResultFrom(res, q0)
    decreases q - q0
  {
    if q0 < q {
      FlattenResultFromComplete(res, q0 + 1, q, r);
    } else {
      assert RowHits(res, q)[r] == HitAt(res, q, r);
    }
  }

  lemma FlattenResultComplete(res: QueryResult, q: nat, r: nat)
    requires Aligned(res) && ValidCell(res, q, r)
    ensures HitAt(res, q, r) in FlattenResult(res)
  {
    FlattenResultFromComplete(res, 0, q, r);
  }

  // ------------------------------------------------------------- top-up

  /** `{h["id"] for h in hits}`. */
  function Ids(hits: seq<Hit>): set<string> {
    set i | 0 <= i < |hits| :: hits[i].id
  }

  /** `[r for r in pool if r["id"] not in seen]`. */
  function Unseen(pool: seq<Hit>, seen: set<string>): (r: seq<Hit>)
    ensures |r| <= |pool|
    ensures forall i | 0 <= i < |r| :: r[i].id !in seen && r[i] in pool
    ensures forall i | 0 <= i < |pool| :: pool[i].id !in seen ==> pool[i] in r
    ensures IsSubseq(r, pool)
    decreases |pool|
  {
    if |pool| == 0 then []
    else
      var p', x := pool[..|pool| - 1], pool[|pool| - 1];
      var r := Unseen(p', seen);
      assert pool == p' + [x];
      SubseqAppend(r, p', x);
      if x.id in seen then r else r + [x]
  }

  /** `max(0, n_results - len(hits))`. */
  function Need(n: int, have: nat): nat {
    if n - have > 0 then n - have else 0
  }

  /** `pool[:need]`: the raw hits that top up `sent`. */
  function TopUp(sent: seq<Hit>, raw: seq<Hit>, n: int): (added: seq<Hit>)
    ensures |added| == Min(Need(n, |sent|), |Unseen(raw, Ids(sent))|)
    ensures |sent| + |added| <= Max(n, |sent|)
    ensures added == Unseen(raw, Ids(sent))[..|added|]
    ensures forall i | 0 <= i < |added| :: added[i].id !in Ids(sent)
    ensures IsSubseq(added, raw)
  {
    var pool := Unseen(raw, Ids(sent));
    var added := pool[..Min(Need(n, |sent|), |pool|)];
    SubseqPrefix(pool, |added|);
    SubseqTrans(added, pool, raw);
    added
  }

  // ------------------------------------------------------------- merging

  /** The vector store's two queries: the sentenced tier (with an importance floor) and the raw tier. */
  datatype Collections = Collections(
    sentQuery: (seq<string>, int, real) -> QueryResult,
    rawQuery: (seq<string>, int) -> QueryResult)

  datatype Merged = Merged(hits: seq<Hit>, consultedRaw: bool)

  /** `(query_index, distance if not None else 9e9)`. */
  function SortKey(h: Hit): Key {
    Key(h.queryIndex, h.distance.GetOr(9000000000.0))
  }

  /** The sentenced query's hits. */
  function SentHits(db: Collections, queries: seq<string>, n: int, threshold: real): seq<Hit>
    requires Aligned(db.sentQuery(queries, n, threshold))
  {
    FlattenResult(db.sentQuery(queries, n, threshold))
  }

  /** The raw tier is asked exactly when falling back is allowed and hits are missing. */
  predicate WantsRaw(db: Collections, queries: seq<string>, n: int, threshold: real, fallback: bool)
    requires Aligned(db.sentQuery(queries, n, threshold))
  {
    fallback && Need(n, |SentHits(db, queries, n, threshold)|) > 0
  }

  /** What the store must return for the queries actually issued. */
  predicate WellShaped(db: Collections, queries: seq<string>, n: int, threshold: real, fallback: bool) {
    Aligned(db.sentQuery(queries, n, threshold)) &&
    (WantsRaw(db, queries, n, threshold, fallback) ==> Aligned(db.rawQuery(queries, n * 2)))
  }

  /** The hits before sorting: the sentenced ones, then the top-up (if the raw tier was asked). */
  function Unsorted(db: Collections, queries: seq<string>, n: int, threshold: real, fallback: bool): seq<Hit>
    requires WellShaped(db, queries, n, threshold, fallback)
  {
    var sent := SentHits(db, queries, n, threshold);
    if WantsRaw(db, queries, n, threshold, fallback)
    then sent + TopUp(sent, FlattenResult(db.rawQuery(queries, n * 2)), n)
    else sent
  }

  /**
   The merge step of `prefer_sentenced` / `_prefer_sentenced`: the raw
   tier is consulted only when allowed and needed, and the result is the
   sentenced hits plus the top-up, stably sorted by (query, distance).
   */
  function Merge(db: Collections, queries: seq<string>, n: int, threshold: real, fallback: bool): (m: Merged)
    requires WellShaped(db, queries, n, threshold, fallback)
    ensures m.consultedRaw <==> fallback && |SentHits(db, queries, n, threshold)| < n
    ensures multiset(m.hits) == multiset(Unsorted(db, queries, n, threshold, fallback))
    ensures SortedBy(m.hits, SortKey)
    ensures forall k :: WithKey(m.hits, SortKey, k) == WithKey(Unsorted(db, queries, n, threshold, fallback), SortKey, k)
  {
    var all := Unsorted(db, queries, n, threshold, fallback);
    var sorted := StableSort(all, SortKey);
    forall k ensures WithKey(sorted, SortKey, k) == WithKey(all, SortKey, k) {
      StableSortIsStable(all, SortKey, k);
    }
    Merged(sorted, WantsRaw(db, queries, n, threshold, fallback))
  }

  /** Every sentenced hit survives the merge, and every other hit is a raw hit with a new id. */
  lemma MergeKeepsSentenced(db: Collections, queries: seq<string>, n: int, threshold: real, fallback: bool)
    requires WellShaped(db, queries, n, threshold, fallback)
    ensures var m := Merge(db, queries, n, threshold, fallback);
      var sent := SentHits(db, queries, n, threshold);
      (forall i | 0 <= i < |sent| :: sent[i] in m.hits) &&
      (forall h | h in m.hits && h !in sent :: m.consultedRaw && h.id !in Ids(sent)) &&
      |m.hits| <= Max(n, |sent|)
  {
    var m := Merge(db, queries, n, threshold, fallback);
    var sent := SentHits(db, queries, n, threshold);
    var all := Unsorted(db, queries, n, threshold, fallback);
    forall i | 0 <= i < |sent| ensures sent[i] in m.hits {
      assert all[i] == sent[i];
      assert sent[i] in multiset(all);
    }
    forall h | h in m.hits && h !in sent ensures m.consultedRaw && h.id !in Ids(sent) {
      assert h in multiset(all);
      if m.consultedRaw {
        var added := TopUp(sent, FlattenResult(db.rawQuery(queries, n * 2)), n);
        assert all == sent + added;
        assert h in added;
      }
    }
    assert |m.hits| == |multiset(m.hits)| == |all|;
  }
}

=== FILE: seed_common.dfy ===
/**
 What the seeding commands share: the persona-file line filter, the
 transcript turn records read from chat logs and `long_term_memory.json`,
 the id of a raw episodic turn, and a Chroma collection seen as a map from
 id to record with the `add` and source-scoped delete the commands use.
 */
module SeedCommon {
  import opened Wrappers
  import opened Text
  import opened Seqs
  import opened Hashing

  // ------------------------------------------------------------ persona files

  /**
   One line of the persona file after the filter: blank lines, `#`
   comments and `[...]` section headers are skipped, one leading `-` is
   removed, and what is left is kept when longer than ten characters.
   */
  function PersonaCandidate(line: string): (r: Option<string>)
    ensures r.Some? ==> |r.value| > 10 && Stripped(r.value)
    ensures AllSpace(line) ==> r.None?
    ensures StartsWith(Strip(line), "#") ==> r.None?
    ensures StartsWith(Strip(line), "[") && EndsWith(Strip(line), "]") ==> r.None?
  {
    var s := Strip(line);
    if s == "" || StartsWith(s, "#") then None
    else if StartsWith(s, "[") && EndsWith(s, "]") then None
    else
      var t := if StartsWith(s, "-") then Strip(s[1..]) else s;
      if |t| > 10 then Some(t) else None
  }

  /** A long enough stripped line that is no comment, header or bullet is kept as it is. */
  lemma PlainLineKept(text: string)
    requires Stripped(text) && |text| > 10
    requires text[0] != '#' && text[0] != '[' && text[0] != '-'
    ensures PersonaCandidate(text) == Some(text)
  {
  }

  /** `- text` keeps `text`, and only the first `-` goes: `- - text` keeps `- text`. */
  lemma BulletLineKept(text: string)
    requires Stripped(text) && |text| > 10
    ensures PersonaCandidate("- " + text) == Some(text)
  {
    var line := "- " + text;
    assert Stripped(line);
    assert line[1..] == " " + text;
    assert LStrip(" " + text) == LStrip(text) by { assert (" " + text)[1..] == text; }
  }

  /** `[f(x) for x in s]` keeping only the present results, in order. */
  function Kept<T, U>(s: seq<T>, f: T -> Option<U>): (r: seq<U>)
    ensures |r| <= |s|
    ensures forall y | y in r :: exists i | 0 <= i < |s| :: f(s[i]) == Some(y)
    ensures forall i | 0 <= i < |s| && f(s[i]).Some? :: f(s[i]).value in r
    decreases |s|
  {
    if |s| == 0 then []
    else
      var pre := s[..|s| - 1];
      var r := Kept(pre, f);
      assert forall i | 0 <= i < |pre| :: s[i] == pre[i];
      match f(s[|s| - 1])
      case Some(y) => r + [y]
      case None => r
  }

  /**
   `persona_lines_from_file` (and `load_orion_persona` of the subcommand,
   which is the same filter): the kept lines of the file without repeats,
   each where it first occurs; nothing when the file is missing.
   */
  function PersonaFileLines(file: Option<string>): (out: seq<string>)
    ensures file.None? ==> out == []
    ensures forall i | 0 <= i < |out| :: |out[i]| > 10 && Stripped(out[i])
    ensures Distinct(out)
    ensures file.Some? ==>
      var lines := SplitLines(file.value);
      forall x :: x in out <==> exists i | 0 <= i < |lines| :: PersonaCandidate(lines[i]) == Some(x)
    ensures file.Some? ==>
      var kept := Kept(SplitLines(file.value), PersonaCandidate);
      IsSubseq(out, kept) && forall j | 0 <= j < |out| :: IsFirstWithKey(kept, out[j], Id)
  {
    if file.None? then []
    else
      PersonaLinesFacts(SplitLines(file.value));
      Dedup(Kept(SplitLines(file.value), PersonaCandidate), Id)
  }

  lemma PersonaLinesFacts(lines: seq<string>)
    ensures var out := Dedup(Kept(lines, PersonaCandidate), Id);
      && (forall i | 0 <= i < |out| :: |out[i]| > 10 && Stripped(out[i]))
      && Distinct(out)
      && forall x :: x in out <==> exists i | 0 <= i < |lines| :: PersonaCandidate(lines[i]) == Some(x)
  {
    var kept := Kept(lines, PersonaCandidate);
    var out := Dedup(kept, Id);
    DedupById(kept);
    forall i | 0 <= i < |out| ensures |out[i]| > 10 && Stripped(out[i]) {
      assert out[i] in kept;
      var j :| 0 <= j < |lines| && PersonaCandidate(lines[j]) == Some(out[i]);
    }
  }

  // ------------------------------------------------------------- collections

  /** A metadata dictionary with string values. */
  type Meta = map<string, string>

  /** A stored document and its metadata (`None` when it has none). */
  datatype Record = Record(document: string, meta: Option<Meta>)

  /** A Chroma collection: records by id. */
  type Collection = map<string, Record>

  /** One entry of an `add` batch: an id and the record stored under it. */
  datatype Row = Row(id: string, record: Record)

  /** The `ids=` list of a batch, in order. */
  function RowIds(rows: seq<Row>): (ids: seq<string>)
    ensures |ids| == |rows| && forall k | 0 <= k < |rows| :: ids[k] == rows[k].id
  {
    seq(|rows|, k requires 0 <= k < |rows| => rows[k].id)
  }

  /** The `documents=`/`metadatas=` lists of a batch, paired, in order. */
  function RowRecords(rows: seq<Row>): (recs: seq<Record>)
    ensures |recs| == |rows| && forall k | 0 <= k < |rows| :: recs[k] == rows[k].record
  {
    seq(|rows|, k requires 0 <= k < |rows| => rows[k].record)
  }

  /** `isinstance(m, dict) and m.get("source") == src`. */
  predicate FromSource(r: Record, src: string) {
    r.meta.Some? && "source" in r.meta.value && r.meta.value["source"] == src
  }

  /** The ids a source-scoped delete removes. */
  function SourceIds(col: Collection, src: string): set<string> {
    set id | id in col && FromSource(col[id], src)
  }

  predicate HasDuplicates(ids: seq<string>) {
    exists i, j | 0 <= i < j < |ids| :: ids[i] == ids[j]
  }

  /** Inserting a batch of distinct ids; an id already present keeps its record. */
  function InsertAbsent(col: Collection, ids: seq<string>, recs: seq<Record>): (r: Collection)
    requires |ids| == |recs| && !HasDuplicates(ids)
    ensures r.Keys == col.Keys + (set i | 0 <= i < |ids| :: ids[i])
    ensures forall k | k in col :: r[k] == col[k]
    ensures forall i | 0 <= i < |ids| && ids[i] !in col :: r[ids[i]] == recs[i]
    decreases |ids|
  {
    if |ids| == 0 then col
    else
      var c := if ids[0] in col then col else col[ids[0] := recs[0]];
      assert !HasDuplicates(ids[1..]) by {
        forall i, j | 0 <= i < j < |ids| - 1 ensures ids[1..][i] != ids[1..][j] { assert ids[i + 1] != ids[j + 1]; }
      }
      assert forall i | 1 <= i < |ids| :: ids[i] != ids[0] && ids[i] == ids[1..][i - 1] && recs[i] == recs[1..][i - 1];
      var all, rest := set i | 0 <= i < |ids| :: ids[i], set i | 0 <= i < |ids| - 1 :: ids[1..][i];
      assert all == {ids[0]} + rest by {
        forall x | x in all ensures x in {ids[0]} + rest {
          var i :| 0 <= i < |ids| && ids[i] == x;
          if i > 0 { assert ids[1..][i - 1] == x; }
        }
      }
      InsertAbsent(c, ids[1..], recs[1..])
  }

  /**
   `collection.add(ids=..., documents=..., metadatas=...)`: a batch that
   repeats an id is refused; otherwise every new id is stored with its
   record and an id already stored keeps its old record.
   */
  function Add(col: Collection, ids: seq<string>, recs: seq<Record>): (r: Option<Collection>)
    requires |ids| == |recs|
    ensures r.None? <==> HasDuplicates(ids)
    ensures r.Some? ==> r.value.Keys == col.Keys + (set i | 0 <= i < |ids| :: ids[i])
    ensures r.Some? ==> forall k | k in col :: r.value[k] == col[k]
    ensures r.Some? ==> forall i | 0 <= i < |ids| && ids[i] !in col :: r.value[ids[i]] == recs[i]
  {
    if HasDuplicates(ids) then None else Some(InsertAbsent(col, ids, recs))
  }

  /** Adding the same batch again changes nothing. */
  lemma AddTwice(col: Collection, ids: seq<string>, recs: seq<Record>)
    requires |ids| == |recs| && Add(col, ids, recs).Some?
    ensures Add(Add(col, ids, recs).value, ids, recs) == Add(col, ids, recs)
  {
    var c := Add(col, ids, recs).value;
    var c' := Add(c, ids, recs).value;
    assert c'.Keys == c.Keys;
    assert forall k | k in c :: c'[k] == c[k];
    assert c' == c;
  }

  // --------------------------------------------------------------- transcripts

  /**
   One turn of a chat transcript or of `long_term_memory.json`: the keys
   the seeders read, each `None` when missing.
   */
  datatype Turn = Turn(role: Option<string>, speaker: Option<string>, content: Option<string>, text: Option<string>,
                       timestamp: Option<string>, time: Option<string>, importance: Option<string>,
                       tags: Option<seq<string>>)

  /**
   A chat transcript file: its stem and its list of turns (the `messages`
   list of an object, or the document itself when it is a list); `None`
   when it did not parse or holds no list.
   */
  datatype ChatFile = ChatFile(stem: string, turns: Option<seq<Turn>>)

  /** `(t.get("role") or t.get("speaker") or "unknown").lower()`. */
  function TurnRole(t: Turn): (r: string)
    ensures NoUpper(r)
  {
    LowerHasNoUpper(OrElse(t.role, OrElse(t.speaker, "unknown")));
    Lower(OrElse(t.role, OrElse(t.speaker, "unknown")))
  }

  /** `(t.get("content") or t.get("text") or "").strip()`. */
  function TurnContent(t: Turn): (r: string)
    ensures Stripped(r)
  {
    Strip(OrElse(t.content, OrElse(t.text, "")))
  }

  /** `t.get("timestamp") or t.get("time") or fallback`. */
  function TurnWhen(t: Turn, fallback: string): string {
    OrElse(t.timestamp, OrElse(t.time, fallback))
  }

  /** The stored document of a turn, `"[role at when]: content"`. */
  function TurnDocument(role: string, when: string, content: string): string {
    "[" + role + " at " + when + "]: " + content
  }

  /** The metadata of an episodic item of the seeding scripts, with the importance and the ", "-joined tags. */
  function ItemMeta(role: string, when: string, session: string, importance: string, tags: seq<string>): Meta {
    map["type" := "episodic", "role" := role, "timestamp" := when, "session_id" := session,
        "importance" := importance, "tags" := Join(tags, ", ")]
  }

  /**
   The id of the `i`-th turn of a session, `episodic_id(f"{sid}|{i:06d}|{role}|{text}|{when}")`
   (the `make_id` of the merging seeder builds the same string).
   */
  function TurnId(sha1: Sha1, session: string, i: nat, role: string, content: string, when: string): (id: string)
    ensures IsTag(id, "episodic_", 16)
    ensures id == EpisodicIdOfKey(sha1, session + "|" + Pad6(i) + "|" + role + "|" + content + "|" + when)
  {
    EpisodicIdOfKey(sha1, session + "|" + Pad6(i) + "|" + role + "|" + content + "|" + when)
  }

  /**
   Two turns of one session at different indices hash different keys,
   whatever their roles, texts and times: the zero-padded index is all
   digits and ends at the next `|`.
   */
  lemma TurnKeysDiffer(session: string, i: nat, j: nat, rest1: string, rest2: string)
    requires i != j
    ensures session + "|" + Pad6(i) + "|" + rest1 != session + "|" + Pad6(j) + "|" + rest2
  {
    var head, pi, pj := session + "|", Pad6(i), Pad6(j);
    var k1, k2 := session + "|" + pi + "|" + rest1, session + "|" + pj + "|" + rest2;
    FieldAt(head, pi, rest1);
    FieldAt(head, pj, rest2);
    // Unequal lengths put a `|` of one key against a digit of the other.
    if k1 == k2 && |pi| == |pj| {
      Pad6Injective(i, j);
    }
  }

  /** Where a field and the `|` after it sit in `head + field + "|" + rest`. */
  lemma FieldAt(head: string, field: string, rest: string)
    ensures var k := head + field + "|" + rest;
      && k[|head|..|head| + |field|] == field && k[|head| + |field|] == '|'
      && forall m | 0 <= m < |field| :: k[|head| + m] == field[m]
  {
  }
}

=== FILE: seed_episodic_memory.dfy ===
/**
 `seed_episodic_memory.py`, the older episodic seeder: every turn with
 content of the chat transcripts and of `long_term_memory.json` becomes an
 item whose id ends in a running counter, and the collection is rebuilt
 from scratch with all of them.
 */
module SeedEpisodicMemory {
  import opened Wrappers
  import opened Text
  import opened Seqs
  import opened Hashing
  import opened SeedCommon

  /** The digits at the end of `s`. */
  function TrailingDigits(s: string): string
    decreases |s|
  {
    if |s| == 0 || !IsDigit(s[|s| - 1]) then "" else TrailingDigits(s[..|s| - 1]) + [s[|s| - 1]]
  }

  /** After an underscore, a run of digits is exactly the trailing digits. */
  lemma {:induction false} TrailingDigitsOf(p: string, d: string)
    requires AllDigits(d)
    ensures TrailingDigits(p + "_" + d) == d
    decreases |d|
  {
    var s := p + "_" + d;
    if |d| == 0 {
      assert s == p + "_";
    } else {
      var d' := d[..|d| - 1];
      assert s[..|s| - 1] == p + "_" + d';
      TrailingDigitsOf(p, d');
      assert d == d' + [d[|d| - 1]];
    }
  }

  /** `make_id`: `f"episodic_{session_id}_{sha12(role|content|when)}_{counter}"`. */
  function MakeId(sha1: Sha1, session: string, role: string, content: string, when: string, counter: nat): string {
    "episodic_" + session + "_" + Sha12(sha1, role + "|" + content + "|" + when) + "_" + NatToString(counter)
  }

  /** The counter can be read back off the end of an id. */
  lemma MakeIdCounter(sha1: Sha1, session: string, role: string, content: string, when: string, counter: nat)
    ensures TrailingDigits(MakeId(sha1, session, role, content, when, counter)) == NatToString(counter)
  {
    TrailingDigitsOf("episodic_" + session + "_" + Sha12(sha1, role + "|" + content + "|" + when), NatToString(counter));
  }

  /** One call of `push`: a turn, its session, and the timestamp used when it has none. */
  datatype Entry = Entry(session: string, fallback: string, turn: Turn)

  /** One pushed item: its id, document and metadata. */
  datatype Item = Item(id: string, doc: string, meta: Meta)

  /**
   What `push` leaves behind: the items, in the order pushed (the source
   keeps their ids, documents and metadata in three parallel lists), and
   `counter`, the next id suffix.
   */
  datatype Loaded = Loaded(items: seq<Item>, counter: nat)

  predicate HasText(e: Entry) { TurnContent(e.turn) != "" }

  function Role(e: Entry): string { TurnRole(e.turn) }
  function When(e: Entry): string { TurnWhen(e.turn, e.fallback) }

  /** The stored document of an entry. */
  function DocOf(e: Entry): string { TurnDocument(Role(e), When(e), TurnContent(e.turn)) }

  /** `t.get("importance", "normal")` and `t.get("tags")`. */
  function MetaOf(e: Entry): Meta {
    ItemMeta(Role(e), When(e), e.session, e.turn.importance.GetOr("normal"), e.turn.tags.GetOr([]))
  }

  /** The item of an entry pushed when the counter was `k`. */
  function ItemFor(sha1: Sha1, e: Entry, k: nat): Item {
    Item(MakeId(sha1, e.session, Role(e), TurnContent(e.turn), When(e), k), DocOf(e), MetaOf(e))
  }

  /**
   The `push` calls of `load_all_episodic`, in order: an entry without
   content changes nothing, not even the counter; any other entry appends
   its item under the current counter, which then goes up by one.
   */
  function Load(sha1: Sha1, entries: seq<Entry>): Loaded {
    var items := Numbered(entries, HasText, (e, k) => ItemFor(sha1, e, k));
    Loaded(items, |items|)
  }

  /**
   What a load holds: as many items as the counter says, the `k`-th being
   the item of the `k`-th entry with content, with counter `k`.
   */
  predicate LoadedAs(sha1: Sha1, kept: seq<Entry>, r: Loaded) {
    && |r.items| == r.counter == |kept|
    && forall k | 0 <= k < |kept| :: r.items[k] == ItemFor(sha1, kept[k], k)
  }

  /** A load holds one item per entry with content, in order; entries without content leave no trace. */
  lemma LoadShape(sha1: Sha1, entries: seq<Entry>)
    ensures LoadedAs(sha1, Filter(entries, HasText), Load(sha1, entries))
  {
    NumberedShape(entries, HasText, (e, k) => ItemFor(sha1, e, k));
  }

  /** The ids of a load, in order. */
  function Ids(l: Loaded): (ids: seq<string>)
    ensures |ids| == |l.items| && forall k | 0 <= k < |l.items| :: ids[k] == l.items[k].id
  {
    seq(|l.items|, k requires 0 <= k < |l.items| => l.items[k].id)
  }

  /** All ids of a load differ, because their counters do. */
  lemma LoadedIdsDistinct(sha1: Sha1, entries: seq<Entry>)
    ensures !HasDuplicates(Ids(Load(sha1, entries)))
  {
    LoadShape(sha1, entries);
    var kept := Filter(entries, HasText);
    var ids := Ids(Load(sha1, entries));
    forall i, j | 0 <= i < j < |ids| ensures ids[i] != ids[j] {
      MakeIdCounter(sha1, kept[i].session, Role(kept[i]), TurnContent(kept[i].turn), When(kept[i]), i);
      MakeIdCounter(sha1, kept[j].session, Role(kept[j]), TurnContent(kept[j].turn), When(kept[j]), j);
      if ids[i] == ids[j] {
        assert NatToString(i) == TrailingDigits(ids[i]) == TrailingDigits(ids[j]) == NatToString(j);
        NatToStringInjective(i, j);
      }
    }
  }

  /** The turns of one transcript, whose stem is its session and fallback timestamp. */
  function FileEntries(f: ChatFile): seq<Entry> {
    if f.turns.None? then []
    else seq(|f.turns.value|, i requires 0 <= i < |f.turns.value| => Entry(f.stem, f.stem, f.turns.value[i]))
  }

  /** The transcripts in file-name order, then `long_term_memory.json`. */
  function Entries(files: seq<ChatFile>, ltm: Option<seq<Turn>>): seq<Entry> {
    Flatten(seq(|files|, j requires 0 <= j < |files| => FileEntries(files[j]))) +
      if ltm.None? then []
      else seq(|ltm.value|, i requires 0 <= i < |ltm.value| => Entry("long_term_memory", "n/a", ltm.value[i]))
  }

  /** The records of a load's items. */
  function ItemRecords(l: Loaded): (recs: seq<Record>)
    ensures |recs| == |l.items| && forall k | 0 <= k < |l.items| :: recs[k] == Record(l.items[k].doc, Some(l.items[k].meta))
  {
    seq(|l.items|, k requires 0 <= k < |l.items| => Record(l.items[k].doc, Some(l.items[k].meta)))
  }

  /**
   `main`: with nothing loaded the collection is left alone; otherwise it
   is dropped and created again holding exactly the loaded items, as many
   as were loaded.
   */
  function Reseed(col: Collection, sha1: Sha1, files: seq<ChatFile>, ltm: Option<seq<Turn>>): (r: Collection)
    ensures var l := Load(sha1, Entries(files, ltm));
      && (l.items == [] ==> r == col)
      && (l.items != [] ==> |r| == |l.items| && Rebuilt(l, r))
  {
    var l := Load(sha1, Entries(files, ltm));
    LoadedIdsDistinct(sha1, Entries(files, ltm));
    if l.items == [] then col else Rebuild(l)
  }

  /** The fresh collection holding the loaded items. */
  function Rebuild(l: Loaded): (r: Collection)
    requires !HasDuplicates(Ids(l))
    ensures |r| == |l.items| && Rebuilt(l, r)
  {
    var r := InsertAbsent(map[], Ids(l), ItemRecords(l));
    RebuiltFacts(l, r);
    r
  }

  /** The collection holds exactly the loaded ids, each with its document and metadata. */
  predicate Rebuilt(l: Loaded, r: Collection) {
    && r.Keys == Elements(Ids(l))
    && forall k | 0 <= k < |l.items| :: l.items[k].id in r && r[l.items[k].id] == Record(l.items[k].doc, Some(l.items[k].meta))
  }

  lemma RebuiltFacts(l: Loaded, r: Collection)
    requires !HasDuplicates(Ids(l))
    requires r == InsertAbsent(map[], Ids(l), ItemRecords(l))
    ensures |r| == |l.items| && Rebuilt(l, r)
  {
    RebuiltKeys(l, r);
    RebuiltValues(l, r);
  }

  lemma RebuiltKeys(l: Loaded, r: Collection)
    requires !HasDuplicates(Ids(l))
    requires r == InsertAbsent(map[], Ids(l), ItemRecords(l))
    ensures r.Keys == Elements(Ids(l)) && |r| == |l.items|
  {
    var ids := Ids(l);
    assert r.Keys == Elements(ids);
    assert Distinct(ids);
    ElementsCard(ids);
  }

  lemma RebuiltValues(l: Loaded, r: Collection)
    requires !HasDuplicates(Ids(l))
    requires r == InsertAbsent(map[], Ids(l), ItemRecords(l))
    ensures forall k | 0 <= k < |l.items| :: l.items[k].id in r && r[l.items[k].id] == Record(l.items[k].doc, Some(l.items[k].meta))
  {
    var ids, recs := Ids(l), ItemRecords(l);
    forall k | 0 <= k < |l.items| ensures l.items[k].id in r && r[l.items[k].id] == Record(l.items[k].doc, Some(l.items[k].meta)) {
      assert ids[k] == l.items[k].id && recs[k] == Record(l.items[k].doc, Some(l.items[k].meta));
    }
  }
}

=== FILE: seed_orion_persona.dfy ===
/**
 `seed_orion_persona.py`, the older persona seeder: it cuts the persona
 file into seven marked sections, keeps the statement lines of each, and
 rebuilds the persona collection from scratch with positional ids
 `persona_0`, `persona_1`, ...
 */
module SeedOrionPersona {
  import opened Wrappers
  import opened Text
  import opened Seqs
  import opened SeedCommon

  const PersonaHeader := "Obtained from persona_header.txt:"
  const IdentityMarker := "[IDENTITY]"
  const BehaviorMarker := "[BEHAVIORAL CORE]"
  const RelationshipMarker := "[RELATIONSHIP WITH JOHN]"
  const ToneMarker := "[TONE AND VOICE]"
  const MetaNotesMarker := "[META-NOTES]"
  const MemoryHeader := "Obtained from memory_header.txt:"
  const JsonHeader := "Obtained from orion_perseverance_of_vision.json:"

  /**
   `content.split(start)[1].split(end)[0].strip()` when `start` occurs in
   `content`, else "". The piece after the first `start` runs to the next
   `start`, and to the first `end` within it; without an end marker it is
   only cut at the next `start`.
   */
  function Section(content: string, start: string, end: Option<string>): (r: string)
    ensures !Contains(content, start) ==> r == ""
    ensures Stripped(r)
  {
    if !Contains(content, start) then ""
    else
      var piece := Before(After(content, start), start);
      Strip(if end.Some? then Before(piece, end.value) else piece)
  }

  /** A marked section is the stripped text between its start marker and its end marker. */
  lemma SectionBetween(pre: string, start: string, body: string, end: string, post: string)
    requires NoSepIn(pre, start) && NoSepIn(body, end)
    requires !Contains(body + end + post, start)
    ensures Section(pre + start + body + end + post, start, Some(end)) == Strip(body)
  {
    var rest := body + end + post;
    assert pre + start + body + end + post == pre + start + rest;
    SplitAtFirst(pre, start, rest);
    SplitAtFirst(body, end, post);
  }

  /** A section without end marker is the stripped rest of the text when its marker occurs once. */
  lemma SectionToEnd(pre: string, start: string, rest: string)
    requires NoSepIn(pre, start) && !Contains(rest, start)
    ensures Section(pre + start + rest, start, None) == Strip(rest)
  {
    SplitAtFirst(pre, start, rest);
  }

  /** The start and end markers of the `sections` dictionary, in its insertion order. */
  const Starts: seq<string> :=
    [PersonaHeader, IdentityMarker, BehaviorMarker, RelationshipMarker, ToneMarker, MemoryHeader, JsonHeader]
  const Ends: seq<Option<string>> :=
    [None, Some(BehaviorMarker), Some(RelationshipMarker), Some(ToneMarker), Some(MetaNotesMarker),
     Some(PersonaHeader), Some(MemoryHeader)]

  /** The seven section texts. */
  function Sections(content: string): (ss: seq<string>)
    ensures |ss| == |Starts| && forall k | 0 <= k < |ss| :: Stripped(ss[k])
  {
    seq(|Starts|, k requires 0 <= k < |Starts| => Section(content, Starts[k], Ends[k]))
  }

  /** Lines of the persona JSON's dialogue examples, which are not statements. */
  predicate Excluded(s: string) {
    StartsWith(s, "[\"John\",") || StartsWith(s, "[\"Orion\",") || StartsWith(s, "\"example_dialogue\"")
  }

  /**
   One section line: stripped, one leading `-` removed and stripped again,
   and kept when non-empty and not an excluded dialogue line.
   */
  function Statement(line: string): (r: Option<string>)
    ensures r.Some? ==> r.value != "" && Stripped(r.value) && !Excluded(r.value)
    ensures AllSpace(line) ==> r.None?
    ensures Excluded(Strip(line)) && !StartsWith(Strip(line), "-") ==> r.None?
  {
    var s := Strip(line);
    var t := if StartsWith(s, "-") then Strip(s[1..]) else s;
    if t != "" && !Excluded(t) then Some(t) else None
  }

  /** A bullet line `- text` states `text`. */
  lemma BulletStatement(text: string)
    requires Stripped(text) && text != "" && !Excluded(text)
    ensures Statement("- " + text) == Some(text)
  {
    var line := "- " + text;
    assert Stripped(line);
    assert line[1..] == " " + text;
    assert LStrip(" " + text) == LStrip(text) by { assert (" " + text)[1..] == text; }
  }

  /** The lines of every section, section by section. */
  function SectionLines(content: string): seq<string> {
    var ss := Sections(content);
    Flatten(seq(|ss|, k requires 0 <= k < |ss| => SplitLines(ss[k])))
  }

  predicate Long(s: string) { |s| > 10 }

  /** The statement lines of every section, in order, repeats included. */
  function Candidates(content: string): seq<string> {
    Kept(SectionLines(content), Statement)
  }

  /**
   `load_orion_persona`: nothing for a missing file; otherwise the
   statements longer than ten characters without repeats, each where it
   first occurs.
   */
  function LoadPersona(file: Option<string>): (out: seq<string>)
    ensures file.None? ==> out == []
    ensures forall i | 0 <= i < |out| :: Long(out[i]) && Stripped(out[i]) && !Excluded(out[i])
    ensures Distinct(out)
    ensures file.Some? ==> forall x :: x in out <==> x in Candidates(file.value) && Long(x)
    ensures file.Some? ==>
      var long := Filter(Candidates(file.value), Long);
      IsSubseq(out, long) && forall j | 0 <= j < |out| :: IsFirstWithKey(long, out[j], Id)
  {
    if file.None? then []
    else
      CandidatesShape(file.value);
      LoadFacts(Candidates(file.value));
      Dedup(Filter(Candidates(file.value), Long), Id)
  }

  lemma LoadFacts(cands: seq<string>)
    requires forall i | 0 <= i < |cands| :: Stripped(cands[i]) && !Excluded(cands[i])
    ensures var out := Dedup(Filter(cands, Long), Id);
      && (forall i | 0 <= i < |out| :: Long(out[i]) && Stripped(out[i]) && !Excluded(out[i]))
      && Distinct(out)
      && forall x :: x in out <==> x in cands && Long(x)
  {
    var long := Filter(cands, Long);
    var out := Dedup(long, Id);
    DedupById(long);
    forall x | x in cands && Long(x) ensures x in out {
      var i :| 0 <= i < |cands| && cands[i] == x;
    }
  }

  /** The candidates of a file: stripped, non-excluded statements. */
  lemma CandidatesShape(content: string)
    ensures forall i | 0 <= i < |Candidates(content)| ::
      Stripped(Candidates(content)[i]) && !Excluded(Candidates(content)[i])
  {
    var c := Candidates(content);
    forall i | 0 <= i < |c| ensures Stripped(c[i]) && !Excluded(c[i]) {
      assert c[i] in c;
    }
  }

  /** `f"persona_{i}"`. */
  function PositionId(i: nat): string {
    "persona_" + NatToString(i)
  }

  /** Positional ids never repeat. */
  lemma PositionIdsDiffer(i: nat, j: nat)
    requires i != j
    ensures PositionId(i) != PositionId(j)
  {
    if PositionId(i) == PositionId(j) {
      assert NatToString(i) == PositionId(i)[8..] == PositionId(j)[8..] == NatToString(j);
      NatToStringInjective(i, j);
    }
  }

  function PositionIds(n: nat): (ids: seq<string>)
    ensures |ids| == n && forall i | 0 <= i < n :: ids[i] == PositionId(i)
    ensures !HasDuplicates(ids)
  {
    var ids := seq(n, i requires 0 <= i < n => PositionId(i));
    forall i, j | 0 <= i < j < n ensures ids[i] != ids[j] { PositionIdsDiffer(i, j); }
    ids
  }

  /** `{"type": "persona", "source": "Orion_Data.txt"}`. */
  function StatementRecord(doc: string): Record {
    Record(doc, Some(map["type" := "persona", "source" := "Orion_Data.txt"]))
  }

  function StatementRecords(docs: seq<string>): (recs: seq<Record>)
    ensures |recs| == |docs| && forall i | 0 <= i < |docs| :: recs[i] == StatementRecord(docs[i])
  {
    seq(|docs|, i requires 0 <= i < |docs| => StatementRecord(docs[i]))
  }

  /**
   `main`: the collection is dropped and created empty before the file is
   read, so it ends up empty when there are no statements; otherwise it
   holds exactly the `i`-th statement under `persona_i`.
   */
  function Reseed(file: Option<string>): (col: Collection)
    ensures var docs := LoadPersona(file);
      && |col| == |docs|
      && (forall id :: id in col <==> exists i | 0 <= i < |docs| :: id == PositionId(i))
      && forall i | 0 <= i < |docs| :: col[PositionId(i)] == StatementRecord(docs[i])
  {
    var docs := LoadPersona(file);
    var col := InsertAbsent(map[], PositionIds(|docs|), StatementRecords(docs));
    ReseedSize(docs, col);
    ReseedContents(docs, col);
    col
  }

  lemma ReseedSize(docs: seq<string>, col: Collection)
    requires col == InsertAbsent(map[], PositionIds(|docs|), StatementRecords(docs))
    ensures |col| == |docs|
  {
    var ids := PositionIds(|docs|);
    assert col.Keys == Elements(ids);
    ElementsCard(ids);
  }

  lemma ReseedContents(docs: seq<string>, col: Collection)
    requires col == InsertAbsent(map[], PositionIds(|docs|), StatementRecords(docs))
    ensures forall id :: id in col <==> exists i | 0 <= i < |docs| :: id == PositionId(i)
    ensures forall i | 0 <= i < |docs| :: col[PositionId(i)] == StatementRecord(docs[i])
  {
    var ids := PositionIds(|docs|);
    assert forall i | 0 <= i < |docs| :: ids[i] == PositionId(i);
  }
}

=== FILE: seqs.dfy ===
/**
 Order-preserving sequence operations used throughout the program: list
 comprehensions with a condition (`[x for x in s if p(x)]`), counting, and
 the "seen-set" de-duplication idiom (`if k not in seen: seen.add(k);
 out.append(x)`, also spelled `list(dict.fromkeys(s))`).
 */
module Seqs {

  /** `a` is obtained from `b` by deleting elements (order preserved). */
  ghost predicate IsSubseq<T>(a: seq<T>, b: seq<T>)
    decreases |b|
  {
    |a| == 0 ||
    (|b| > 0 &&
     (IsSubseq(a, b[..|b| - 1]) ||
      (a[|a| - 1] == b[|b| - 1] && IsSubseq(a[..|a| - 1], b[..|b| - 1]))))
  }

  lemma {:induction false} SubseqElements<T>(a: seq<T>, b: seq<T>)
    requires IsSubseq(a, b)
    ensures |a| <= |b|
    ensures forall x | x in a :: x in b
    decreases |b|
  {
    if |a| > 0 {
      if IsSubseq(a, b[..|b| - 1]) {
        SubseqElements(a, b[..|b| - 1]);
      } else {
        SubseqElements(a[..|a| - 1], b[..|b| - 1]);
        assert a == a[..|a| - 1] + [a[|a| - 1]];
        assert b == b[..|b| - 1] + [b[|b| - 1]];
      }
    }
  }

  lemma {:induction false} SubseqAppend<T>(a: seq<T>, b: seq<T>, x: T)
    requires IsSubseq(a, b)
    ensures IsSubseq(a, b + [x])
    ensures IsSubseq(a + [x], b + [x])
  {
    assert (b + [x])[..|b|] == b;
    assert (a + [x])[..|a|] == a;
  }

  lemma {:induction false} SubseqRefl<T>(a: seq<T>)
    ensures IsSubseq(a, a)
    decreases |a|
  {
    if |a| > 0 {
      SubseqRefl(a[..|a| - 1]);
    }
  }

  lemma {:induction false} SubseqTrans<T>(a: seq<T>, b: seq<T>, c: seq<T>)
    requires IsSubseq(a, b) && IsSubseq(b, c)
    ensures IsSubseq(a, c)
    decreases |c|
  {
    if |a| == 0 {
    } else if IsSubseq(b, c[..|c| - 1]) {
      SubseqTrans(a, b, c[..|c| - 1]);
    } else {
      // b's last element is c's last element
      var b', c' := b[..|b| - 1], c[..|c| - 1];
      if IsSubseq(a, b') {
        SubseqTrans(a, b', c');
      } else {
        SubseqTrans(a[..|a| - 1], b', c');
      }
    }
  }

  lemma {:induction false} SubseqPrefix<T>(a: seq<T>, n: nat)
    requires n <= |a|
    ensures IsSubseq(a[..n], a)
    decreases |a|
  {
    if n == |a| {
      assert a[..n] == a;
      SubseqRefl(a);
    } else {
      SubseqPrefix(a[..|a| - 1], n);
      assert a[..|a| - 1][..n] == a[..n];
    }
  }

  /** Python's `min(a, b)`. */
  function Min(a: int, b: int): int { if a <= b then a else b }

  /** Python's `max(a, b)`. */
  function Max(a: int, b: int): int { if a >= b then a else b }

  /** Python's `s[:n]`: a negative `n` counts from the end. */
  function Take<T>(s: seq<T>, n: int): (r: seq<T>)
    ensures |r| <= |s| && r == s[..|r|]
    ensures n >= 0 ==> |r| == Min(n, |s|)
    ensures n < 0 ==> |r| == Max(0, |s| + n)
  {
    if n >= 0 then s[..Min(n, |s|)] else s[..Max(0, |s| + n)]
  }

  /** `[f(x) for x in s]`. */
  function Map<T, U>(s: seq<T>, f: T -> U): (r: seq<U>)
    ensures |r| == |s| && forall i | 0 <= i < |s| :: r[i] == f(s[i])
  {
    seq(|s|, i requires 0 <= i < |s| => f(s[i]))
  }

  /** Mapping a non-empty sequence maps its head, then the rest. */
  lemma MapCons<T, U>(s: seq<T>, f: T -> U)
    requires |s| > 0
    ensures Map(s, f) == [f(s[0])] + Map(s[1..], f)
  {
    var a, b := Map(s, f), [f(s[0])] + Map(s[1..], f);
    forall i | 0 <= i < |a| ensures a[i] == b[i] {
      if i > 0 { assert s[1..][i - 1] == s[i]; }
    }
  }

  /** A sequence is its prefix followed by the rest. */
  lemma TakeDrop<T>(s: seq<T>, i: nat)
    requires i <= |s|
    ensures s[..i] + s[i..] == s
  {
  }

  lemma MapConcat<T, U>(a: seq<T>, b: seq<T>, f: T -> U)
    ensures Map(a + b, f) == Map(a, f) + Map(b, f)
  {
    assert forall i | 0 <= i < |a| :: (a + b)[i] == a[i];
    assert forall i | 0 <= i < |b| :: (a + b)[|a| + i] == b[i];
  }

  // ------------------------------------------------------------- filtering

  /** `[x for x in s if p(x)]`. */
  function Filter<T>(s: seq<T>, p: T -> bool): (r: seq<T>)
    ensures |r| <= |s|
    ensures forall i | 0 <= i < |r| :: p(r[i])
    ensures forall i | 0 <= i < |r| :: r[i] in s
    ensures forall i | 0 <= i < |s| :: p(s[i]) ==> s[i] in r
    ensures IsSubseq(r, s)
    decreases |s|
  {
    if |s| == 0 then []
    else
      var r := Filter(s[..|s| - 1], p);
      var x := s[|s| - 1];
      assert s == s[..|s| - 1] + [x];
      SubseqAppend(r, s[..|s| - 1], x);
      if p(x) then r + [x] else r
  }

  lemma FilterAppend<T>(s: seq<T>, x: T, p: T -> bool)
    ensures Filter(s + [x], p) == if p(x) then Filter(s, p) + [x] else Filter(s, p)
  {
    assert (s + [x])[..|s|] == s;
  }

  lemma {:induction false} FilterConcat<T>(a: seq<T>, b: seq<T>, p: T -> bool)
    ensures Filter(a + b, p) == Filter(a, p) + Filter(b, p)
    decreases |b|
  {
    if |b| == 0 {
      assert a + b == a;
    } else {
      var b' := b[..|b| - 1];
      var x := b[|b| - 1];
      assert a + b == (a + b') + [x];
      assert b == b' + [x];
      FilterConcat(a, b', p);
      FilterAppend(a + b', x, p);
      FilterAppend(b', x, p);
    }
  }

  /**
   A loop that appends `mk(x, n)` for every `x` passing `p`, where `n`
   counts the elements appended before.
   */
  function Numbered<T, U>(s: seq<T>, p: T -> bool, mk: (T, nat) -> U): seq<U>
    decreases |s|
  {
    if |s| == 0 then []
    else
      var r := Numbered(s[..|s| - 1], p, mk);
      if p(s[|s| - 1]) then r + [mk(s[|s| - 1], |r|)] else r
  }

  /** The `k`-th appended element is made from the `k`-th element passing `p`, with number `k`. */
  lemma {:induction false} NumberedShape<T, U>(s: seq<T>, p: T -> bool, mk: (T, nat) -> U)
    ensures |Numbered(s, p, mk)| == |Filter(s, p)|
    ensures forall k | 0 <= k < |Filter(s, p)| :: Numbered(s, p, mk)[k] == mk(Filter(s, p)[k], k)
    decreases |s|
  {
    if |s| > 0 {
      var pre, x := s[..|s| - 1], s[|s| - 1];
      var r, f := Numbered(pre, p, mk), Filter(pre, p);
      assert s == pre + [x];
      NumberedShape(pre, p, mk);
      FilterAppend(pre, x, p);
      if p(x) {
        assert Filter(s, p) == f + [x];
        assert Numbered(s, p, mk) == r + [mk(x, |r|)];
        forall k | 0 <= k < |f| + 1 ensures (r + [mk(x, |r|)])[k] == mk((f + [x])[k], k) {
          if k < |f| { assert (f + [x])[k] == f[k]; }
        }
      } else {
        assert Filter(s, p) == f;
      }
    }
  }

  /** Number of elements satisfying `p`. */
  function Count<T>(s: seq<T>, p: T -> bool): nat
  {
    |Filter(s, p)|
  }

  // --------------------------------------------------------- de-duplication

  /** The keys occurring in `s`. */
  function KeySet<T, K(==)>(s: seq<T>, key: T -> K): set<K> {
    set i | 0 <= i < |s| :: key(s[i])
  }

  lemma KeySetAppend<T, K>(s: seq<T>, x: T, key: T -> K)
    ensures KeySet(s + [x], key) == KeySet(s, key) + {key(x)}
  {
    var t := s + [x];
    forall k | k in KeySet(t, key) ensures k in KeySet(s, key) + {key(x)} {
      var i :| 0 <= i < |t| && key(t[i]) == k;
      if i < |s| { assert t[i] == s[i]; }
    }
    forall k | k in KeySet(s, key) ensures k in KeySet(t, key) {
      var i :| 0 <= i < |s| && key(s[i]) == k;
      assert t[i] == s[i];
    }
    assert t[|s|] == x;
  }

  /** No two elements share a key. */
  ghost predicate DistinctKeys<T, K>(s: seq<T>, key: T -> K) {
    forall i, j | 0 <= i < j < |s| :: key(s[i]) != key(s[j])
  }

  /** `x` occurs in `s`, and no element before that occurrence has `x`'s key. */
  ghost predicate IsFirstWithKey<T, K>(s: seq<T>, x: T, key: T -> K) {
    exists i | 0 <= i < |s| :: s[i] == x && forall j | 0 <= j < i :: key(s[j]) != key(x)
  }

  /**
   The seen-set loop: walk `s` left to right, keep an element iff its key
   has not been kept before.
   */
  function Dedup<T, K(==)>(s: seq<T>, key: T -> K): (r: seq<T>)
    ensures DistinctKeys(r, key)
    ensures KeySet(r, key) == KeySet(s, key)
    ensures IsSubseq(r, s)
    ensures forall j | 0 <= j < |r| :: IsFirstWithKey(s, r[j], key)
    decreases |s|
  {
    if |s| == 0 then []
    else
      var s' := s[..|s| - 1];
      var x := s[|s| - 1];
      var r := Dedup(s', key);
      assert s == s' + [x];
      KeySetAppend(s', x, key);
      SubseqAppend(r, s', x);
      assert forall j | 0 <= j < |r| :: IsFirstWithKey(s, r[j], key) by {
        forall j | 0 <= j < |r| ensures IsFirstWithKey(s, r[j], key) {
          var i :| 0 <= i < |s'| && s'[i] == r[j] && forall m | 0 <= m < i :: key(s'[m]) != key(r[j]);
          assert s[i] == r[j];
        }
      }
      if key(x) in KeySet(r, key) then r
      else
        KeySetAppend(r, x, key);
        assert forall m | 0 <= m < |s'| :: key(s[m]) in KeySet(s', key);
        assert IsFirstWithKey(s, x, key) by {
          assert s[|s| - 1] == x;
        }
        r + [x]
  }

  lemma DedupAppend<T, K>(s: seq<T>, x: T, key: T -> K)
    ensures Dedup(s + [x], key) ==
      if key(x) in KeySet(s, key) then Dedup(s, key) else Dedup(s, key) + [x]
  {
    assert (s + [x])[..|s|] == s;
  }

  /** One step of a seen-set loop. */
  lemma DedupPrefixStep<T, K>(s: seq<T>, i: nat, key: T -> K)
    requires i < |s|
    ensures var d := Dedup(s[..i], key);
      Dedup(s[..i + 1], key) == if key(s[i]) in KeySet(d, key) then d else d + [s[i]]
  {
    assert s[..i + 1] == s[..i] + [s[i]];
    DedupAppend(s[..i], s[i], key);
  }

  /** One step of a seen-set loop that skips the elements failing `p`. */
  lemma DedupFilterStep<T, K>(s: seq<T>, i: nat, p: T -> bool, key: T -> K)
    requires i < |s|
    ensures var d := Dedup(Filter(s[..i], p), key);
      Dedup(Filter(s[..i + 1], p), key) == if p(s[i]) && key(s[i]) !in KeySet(d, key) then d + [s[i]] else d
  {
    var f, x := Filter(s[..i], p), s[i];
    assert s[..i + 1] == s[..i] + [x];
    FilterAppend(s[..i], x, p);
    if p(x) {
      DedupAppend(f, x, key);
    }
  }

  /** A sequence whose keys are already distinct is left unchanged. */
  lemma {:induction false} DedupOfDistinct<T, K>(s: seq<T>, key: T -> K)
    requires DistinctKeys(s, key)
    ensures Dedup(s, key) == s
    decreases |s|
  {
    if |s| > 0 {
      var s' := s[..|s| - 1];
      var x := s[|s| - 1];
      assert s == s' + [x];
      DedupOfDistinct(s', key);
      assert key(x) !in KeySet(s', key);
      DedupAppend(s', x, key);
    }
  }

  /** De-duplicating twice is the same as de-duplicating once. */
  lemma DedupIdempotent<T, K>(s: seq<T>, key: T -> K)
    ensures Dedup(Dedup(s, key), key) == Dedup(s, key)
  {
    DedupOfDistinct(Dedup(s, key), key);
  }

  /** Identity key: de-duplication by value, as with `list(dict.fromkeys(s))`. */
  function Id<T>(x: T): T { x }

  ghost predicate Distinct<T>(s: seq<T>) {
    forall i, j | 0 <= i < j < |s| :: s[i] != s[j]
  }

  lemma DistinctKeysId<T>(s: seq<T>)
    ensures DistinctKeys(s, Id) <==> Distinct(s)
  {
  }

  lemma {:induction false} DistinctOccursOnce<T>(s: seq<T>, x: T)
    requires Distinct(s)
    ensures multiset(s)[x] <= 1
    decreases |s|
  {
    if |s| > 0 {
      assert s == [s[0]] + s[1..];
      DistinctOccursOnce(s[1..], x);
      if s[0] == x {
        assert x !in s[1..];
      }
    }
  }

  /** A prefix of a de-duplication keeps its facts: first of their keys, keys distinct. */
  lemma DedupPrefix<T, K>(s: seq<T>, key: T -> K, m: nat)
    requires m <= |Dedup(s, key)|
    ensures var p := Dedup(s, key)[..m];
      && DistinctKeys(p, key)
      && forall i | 0 <= i < m :: IsFirstWithKey(s, p[i], key)
  {
    var d := Dedup(s, key);
    var p := d[..m];
    assert forall i | 0 <= i < m :: p[i] == d[i];
  }

  /** The same for the de-duplication of a filter, whose elements all pass it. */
  lemma DedupFilterPrefix<T, K>(s: seq<T>, p: T -> bool, key: T -> K, m: nat)
    requires m <= |Dedup(Filter(s, p), key)|
    ensures var q := Dedup(Filter(s, p), key)[..m];
      && DistinctKeys(q, key)
      && forall i | 0 <= i < m :: p(q[i]) && IsFirstWithKey(Filter(s, p), q[i], key)
  {
    var f := Filter(s, p);
    var q := Dedup(f, key)[..m];
    DedupPrefix(f, key, m);
    forall i | 0 <= i < m ensures p(q[i]) {
      var j :| 0 <= j < |f| && f[j] == q[i] && forall l | 0 <= l < j :: key(f[l]) != key(q[i]);
    }
  }

  lemma DedupById<T>(s: seq<T>)
    ensures Distinct(Dedup(s, Id))
    ensures forall x :: x in Dedup(s, Id) <==> x in s
  {
    DistinctKeysId(Dedup(s, Id));
    KeySetId(Dedup(s, Id), s);
  }

  /** With the identity key, equal key sets mean equal element sets. */
  lemma KeySetId<T>(a: seq<T>, b: seq<T>)
    requires KeySet(a, Id) == KeySet(b, Id)
    ensures forall x :: x in a <==> x in b
  {
    forall x ensures x in a <==> x in b {
      if x in a {
        var i :| 0 <= i < |a| && a[i] == x;
        assert Id(a[i]) in KeySet(a, Id);
      }
      if x in b {
        var i :| 0 <= i < |b| && b[i] == x;
        assert Id(b[i]) in KeySet(b, Id);
      }
    }
  }

  /** A permutation has the same elements. */
  lemma SameElements<T>(a: seq<T>, b: seq<T>)
    requires multiset(a) == multiset(b)
    ensures forall x :: x in a <==> x in b
  {
    forall x ensures x in a <==> x in b {
      assert x in a <==> x in multiset(a);
    }
  }

  /** A rearrangement of a duplicate-free sequence is duplicate-free. */
  lemma DistinctPermutation<T>(a: seq<T>, b: seq<T>)
    requires Distinct(a) && multiset(a) == multiset(b)
    ensures Distinct(b)
  {
    forall i, j | 0 <= i < j < |b| ensures b[i] != b[j] {
      var x := b[i];
      DistinctOccursOnce(a, x);
      assert b == b[..j] + b[j..];
      assert b[..j][i] == x;
      assert multiset(b[..j])[x] >= 1;
      assert multiset(b[j..])[x] == 0;
      assert b[j..][0] == b[j];
    }
  }

  /** The elements of a sequence, as a set. */
  function Elements<T>(s: seq<T>): set<T> {
    set i | 0 <= i < |s| :: s[i]
  }

  /** A sequence has at least as many positions as elements, and exactly as many when it is duplicate-free. */
  lemma {:induction false} ElementsCard<T>(s: seq<T>)
    ensures |Elements(s)| <= |s|
    ensures Distinct(s) ==> |Elements(s)| == |s|
    decreases |s|
  {
    if |s| > 0 {
      var pre := s[..|s| - 1];
      ElementsCard(pre);
      assert Elements(s) == Elements(pre) + {s[|s| - 1]} by {
        forall x | x in Elements(s) ensures x in Elements(pre) + {s[|s| - 1]} {
          var i :| 0 <= i < |s| && s[i] == x;
          if i < |s| - 1 { assert pre[i] == x; }
        }
        forall x | x in Elements(pre) ensures x in Elements(s) {
          var i :| 0 <= i < |pre| && pre[i] == x;
          assert s[i] == x;
        }
      }
      if Distinct(s) {
        assert Distinct(pre);
        assert s[|s| - 1] !in Elements(pre);
      }
    }
  }

  /** A duplicate-free sequence drawn from a set is no longer than the set. */
  lemma DistinctWithin<T>(s: seq<T>, S: set<T>)
    requires Distinct(s) && forall i | 0 <= i < |s| :: s[i] in S
    ensures |s| <= |S|
  {
    ElementsCard(s);
    assert Elements(s) <= S;
    SubsetCard(Elements(s), S);
  }

  lemma {:induction false} SubsetCard<T>(a: set<T>, b: set<T>)
    requires a <= b
    ensures |a| <= |b|
    decreases |a|
  {
    if a != {} {
      var x :| x in a;
      SubsetCard(a - {x}, b - {x});
    }
  }

  /** The concatenation of a list of lists, `[x for s in ss for x in s]`. */
  function Flatten<T>(ss: seq<seq<T>>): seq<T> {
    if |ss| == 0 then [] else Flatten(ss[..|ss| - 1]) + ss[|ss| - 1]
  }

  /** An element of the flattened list is an element of one of the lists, and every such element is there. */
  lemma {:induction false} FlattenMembers<T>(ss: seq<seq<T>>)
    ensures forall j, k | 0 <= j < |ss| && 0 <= k < |ss[j]| :: ss[j][k] in Flatten(ss)
    ensures forall x | x in Flatten(ss) :: exists j | 0 <= j < |ss| :: x in ss[j]
    decreases |ss|
  {
    if |ss| > 0 {
      var n := |ss| - 1;
      FlattenMembers(ss[..n]);
      assert forall j | 0 <= j < n :: ss[..n][j] == ss[j];
      assert Flatten(ss) == Flatten(ss[..n]) + ss[n];
    }
  }

  /** Flattening distributes over concatenation of the outer list. */
  lemma {:induction false} FlattenConcat<T>(a: seq<seq<T>>, b: seq<seq<T>>)
    ensures Flatten(a + b) == Flatten(a) + Flatten(b)
    decreases |b|
  {
    if |b| == 0 {
      assert a + b == a;
    } else {
      var n := |b| - 1;
      var ab := a + b;
      assert ab[..|ab| - 1] == a + b[..n];
      calc {
        Flatten(ab);
        Flatten(ab[..|ab| - 1]) + ab[|ab| - 1];
        Flatten(a + b[..n]) + b[n];
        { FlattenConcat(a, b[..n]); }
        Flatten(a) + Flatten(b[..n]) + b[n];
        Flatten(a) + Flatten(b);
      }
    }
  }
}

=== FILE: sorting.dfy ===
/**
 Python's `list.sort(key=...)` / `sorted(..., key=...)`: a stable sort on
 a key compared lexicographically as a pair, which covers both sort keys
 of the program, `(query_index, distance)` and a word's negated count.
 */
module Sorting {
  /** A sort key `(major, minor)`, compared as a Python tuple. */
  datatype Key = Key(major: int, minor: real)

  predicate KeyLe(a: Key, b: Key) {
    a.major < b.major || (a.major == b.major && a.minor <= b.minor)
  }

  predicate KeyLt(a: Key, b: Key) {
    a.major < b.major || (a.major == b.major && a.minor < b.minor)
  }

  predicate SortedBy<T>(s: seq<T>, key: T -> Key) {
    forall i, j | 0 <= i < j < |s| :: KeyLe(key(s[i]), key(s[j]))
  }

  /** The elements of `s` whose key is `k`, in their order in `s`. */
  function WithKey<T>(s: seq<T>, key: T -> Key, k: Key): seq<T>
    decreases |s|
  {
    if |s| == 0 then []
    else WithKey(s[..|s| - 1], key, k) + (if key(s[|s| - 1]) == k then [s[|s| - 1]] else [])
  }

  lemma WithKeyAppend<T>(s: seq<T>, x: T, key: T -> Key, k: Key)
    ensures WithKey(s + [x], key, k) == WithKey(s, key, k) + WithKey([x], key, k)
  {
    assert (s + [x])[..|s|] == s;
    assert [x][..0] == [];
  }

  lemma WithKeyOne<T>(x: T, key: T -> Key, k: Key)
    ensures WithKey([x], key, k) == if key(x) == k then [x] else []
  {
    assert [x][..0] == [];
  }

  /** Insert `x` after every element whose key is not greater than its own. */
  function Insert<T>(r: seq<T>, x: T, key: T -> Key): (out: seq<T>)
    ensures |out| == |r| + 1
    ensures multiset(out) == multiset(r) + multiset{x}
    decreases |r|
  {
    if |r| == 0 then [x]
    else
      var last := r[|r| - 1];
      var r' := r[..|r| - 1];
      assert r == r' + [last];
      if KeyLt(key(x), key(last)) then Insert(r', x, key) + [last] else r + [x]
  }

  lemma {:induction false} InsertSorted<T>(r: seq<T>, x: T, key: T -> Key)
    requires SortedBy(r, key)
    ensures SortedBy(Insert(r, x, key), key)
    decreases |r|
  {
    if |r| > 0 {
      var last := r[|r| - 1];
      var r' := r[..|r| - 1];
      assert r == r' + [last];
      if KeyLt(key(x), key(last)) {
        InsertSorted(r', x, key);
        var o := Insert(r', x, key);
        forall i | 0 <= i < |o| ensures KeyLe(key(o[i]), key(last)) {
          assert o[i] in multiset(r') + multiset{x};
          if o[i] in multiset(r') {
            var j :| 0 <= j < |r'| && r'[j] == o[i];
            assert r[j] == r'[j];
          }
        }
      } else {
        assert forall i | 0 <= i < |r| :: KeyLe(key(r[i]), key(last));
      }
    }
  }

  /** A stable sort: insertion sort, each new element placed after its equals. */
  function StableSort<T>(s: seq<T>, key: T -> Key): (r: seq<T>)
    ensures |r| == |s|
    ensures multiset(r) == multiset(s)
    ensures SortedBy(r, key)
    decreases |s|
  {
    if |s| == 0 then []
    else
      assert s == s[..|s| - 1] + [s[|s| - 1]];
      InsertSorted(StableSort(s[..|s| - 1], key), s[|s| - 1], key);
      Insert(StableSort(s[..|s| - 1], key), s[|s| - 1], key)
  }

  lemma {:induction false} InsertWithKey<T>(r: seq<T>, x: T, key: T -> Key, k: Key)
    ensures WithKey(Insert(r, x, key), key, k) == WithKey(r, key, k) + WithKey([x], key, k)
    decreases |r|
  {
    if |r| == 0 {
      assert WithKey(r, key, k) == [];
    } else {
      var last := r[|r| - 1];
      var r' := r[..|r| - 1];
      WithKeyLast(r, key, k);
      if KeyLt(key(x), key(last)) {
        InsertWithKey(r', x, key, k);
        WithKeyAppend(Insert(r', x, key), last, key, k);
        WithKeyDisjoint(WithKey(r', key, k), x, last, key, k);
      } else {
        WithKeyAppend(r, x, key, k);
      }
    }
  }

  /** The last element's contribution comes last. */
  lemma WithKeyLast<T>(r: seq<T>, key: T -> Key, k: Key)
    requires |r| > 0
    ensures WithKey(r, key, k) == WithKey(r[..|r| - 1], key, k) + WithKey([r[|r| - 1]], key, k)
  {
    WithKeyOne(r[|r| - 1], key, k);
  }

  /** Two elements with different keys cannot both have key `k`, so their order does not matter. */
  lemma WithKeyDisjoint<T>(a: seq<T>, x: T, y: T, key: T -> Key, k: Key)
    requires KeyLt(key(x), key(y))
    ensures a + WithKey([x], key, k) + WithKey([y], key, k) == a + WithKey([y], key, k) + WithKey([x], key, k)
  {
    WithKeyOne(x, key, k);
    WithKeyOne(y, key, k);
  }

  lemma {:induction false} WithKeyConcat<T>(a: seq<T>, b: seq<T>, key: T -> Key, k: Key)
    ensures WithKey(a + b, key, k) == WithKey(a, key, k) + WithKey(b, key, k)
    decreases |b|
  {
    if |b| == 0 {
      assert a + b == a;
    } else {
      var b', x := b[..|b| - 1], b[|b| - 1];
      assert a + b == (a + b') + [x];
      assert b == b' + [x];
      WithKeyConcat(a, b', key, k);
      WithKeyAppend(a + b', x, key, k);
      WithKeyAppend(b', x, key, k);
    }
  }

  /** Stability: elements with equal keys keep their relative order. */
  lemma {:induction false} StableSortIsStable<T>(s: seq<T>, key: T -> Key, k: Key)
    ensures WithKey(StableSort(s, key), key, k) == WithKey(s, key, k)
    decreases |s|
  {
    if |s| > 0 {
      var s' := s[..|s| - 1];
      var x := s[|s| - 1];
      assert s == s' + [x];
      StableSortIsStable(s', key, k);
      InsertWithKey(StableSort(s', key), x, key, k);
      WithKeyAppend(s', x, key, k);
    }
  }
}

=== FILE: text.dfy ===
/**
 Text primitives shared by every component: Python's `str.isspace`,
 `strip`, `lower` (ASCII part), `startswith`/`endswith`, `in`,
 `split(sep)`, `sep.join`, `splitlines`, `re.sub(r"\s+", " ", ...)` and
 decimal rendering of naturals.
 */
module Text {
  import Seqs

  /** Python's `str.isspace()` (which is also what `\s` and `strip()` use). */
  predicate IsSpace(c: char) {
    c == ' ' || c == '\t' || c == '\n' || c == '\r' || c == '\U{b}' || c == '\U{c}'
    || ('\U{1c}' <= c <= '\U{1f}') || c == '\U{85}' || c == '\U{a0}' || c == '\U{1680}'
    || ('\U{2000}' <= c <= '\U{200a}') || c == '\U{2028}' || c == '\U{2029}'
    || c == '\U{202f}' || c == '\U{205f}' || c == '\U{3000}'
  }

  /** The line boundaries of Python's `str.splitlines()`. */
  predicate IsLineBreak(c: char) {
    c == '\n' || c == '\r' || c == '\U{b}' || c == '\U{c}' || c == '\U{1c}' || c == '\U{1d}'
    || c == '\U{1e}' || c == '\U{85}' || c == '\U{2028}' || c == '\U{2029}'
  }

  predicate IsAsciiUpper(c: char) { 'A' <= c <= 'Z' }
  predicate IsAsciiLower(c: char) { 'a' <= c <= 'z' }
  predicate IsAsciiLetter(c: char) { IsAsciiUpper(c) || IsAsciiLower(c) }
  predicate IsDigit(c: char) { '0' <= c <= '9' }

  /** Regex `\w` over the modelled (ASCII) alphabet. */
  predicate IsWordChar(c: char) { IsAsciiLetter(c) || IsDigit(c) || c == '_' }

  function LowerChar(c: char): char {
    if IsAsciiUpper(c) then (c as int + 32) as char else c
  }

  /** `str.lower()` on the ASCII range. */
  function Lower(s: string): (r: string)
    ensures |r| == |s|
    ensures forall i | 0 <= i < |s| :: r[i] == LowerChar(s[i])
  {
    seq(|s|, i requires 0 <= i < |s| => LowerChar(s[i]))
  }

  predicate NoUpper(s: string) {
    forall i | 0 <= i < |s| :: !IsAsciiUpper(s[i])
  }

  lemma LowerHasNoUpper(s: string)
    ensures NoUpper(Lower(s))
  {
  }

  predicate StartsWith(s: string, prefix: string) {
    |prefix| <= |s| && s[..|prefix|] == prefix
  }

  predicate EndsWith(s: string, suffix: string) {
    |suffix| <= |s| && s[|s| - |suffix|..] == suffix
  }

  predicate OccursAt(s: string, sub: string, i: nat) {
    i + |sub| <= |s| && s[i..i + |sub|] == sub
  }

  /** Python's `sub in s`. */
  predicate Contains(s: string, sub: string) {
    exists i | 0 <= i <= |s| - |sub| :: OccursAt(s, sub, i)
  }

  /** Index of the first occurrence of `sub` in `s` (Python's `s.find(sub)`). */
  function Find(s: string, sub: string): (i: nat)
    requires Contains(s, sub)
    ensures OccursAt(s, sub, i)
    ensures forall j | 0 <= j < i :: !OccursAt(s, sub, j)
    decreases |s|
  {
    if OccursAt(s, sub, 0) then 0
    else
      assert 0 < |s| && Contains(s[1..], sub) by {
        var k :| 0 <= k <= |s| - |sub| && OccursAt(s, sub, k);
        OccursShift(s, sub, k);
      }
      var j := Find(s[1..], sub);
      assert forall m | 1 <= m <= j :: !OccursAt(s, sub, m) by {
        forall m | 1 <= m <= j ensures !OccursAt(s, sub, m) { OccursShift(s, sub, m); }
      }
      1 + j
  }

  lemma OccursShift(s: string, sub: string, m: nat)
    requires 1 <= m && 0 < |s|
    ensures OccursAt(s, sub, m) == OccursAt(s[1..], sub, m - 1)
  {
    if m + |sub| <= |s| {
      var a, b := s[m..m + |sub|], s[1..][m - 1..m - 1 + |sub|];
      forall k | 0 <= k < |sub| ensures a[k] == b[k] { assert a[k] == s[m + k] == b[k]; }
      assert a == b;
    }
  }

  /** `s.split(sep)[0]`: the text before the first `sep`, or all of `s` when there is none. */
  function Before(s: string, sep: string): (r: string)
    ensures StartsWith(s, r)
    ensures !Contains(s, sep) ==> r == s
    ensures Contains(s, sep) ==> OccursAt(s, sep, |r|) && forall j | 0 <= j < |r| :: !OccursAt(s, sep, j)
  {
    if Contains(s, sep) then s[..Find(s, sep)] else s
  }

  /** `s.split(sep, 1)[1]`: the text after the first `sep`. */
  function After(s: string, sep: string): (r: string)
    requires Contains(s, sep)
    ensures |r| + |sep| <= |s| && EndsWith(s, r)
    ensures OccursAt(s, sep, |s| - |r| - |sep|)
    ensures forall j | 0 <= j < |s| - |r| - |sep| :: !OccursAt(s, sep, j)
  {
    s[Find(s, sep) + |sep|..]
  }

  /** No `sep` starts inside `a`, not even one running on past its end into a following `sep`. */
  predicate NoSepIn(a: string, sep: string) {
    forall i | 0 <= i < |a| :: !OccursAt(a + sep, sep, i)
  }

  /** Splitting at the first separator gives back the two sides. */
  lemma SplitAtFirst(a: string, sep: string, b: string)
    requires NoSepIn(a, sep)
    ensures Contains(a + sep + b, sep)
    ensures Before(a + sep + b, sep) == a && After(a + sep + b, sep) == b
  {
    var s := a + sep + b;
    assert OccursAt(s, sep, |a|) by { assert s[|a|..|a| + |sep|] == sep; }
    forall i | 0 <= i < |a| ensures !OccursAt(s, sep, i) {
      assert !OccursAt(a + sep, sep, i);
      assert i + |sep| <= |a + sep|;
      assert (a + sep)[i..i + |sep|] == s[i..i + |sep|];
    }
    assert Find(s, sep) == |a|;
  }

  // ---------------------------------------------------------------- strip

  predicate NoLeadingSpace(s: string) { |s| == 0 || !IsSpace(s[0]) }
  predicate NoTrailingSpace(s: string) { |s| == 0 || !IsSpace(s[|s| - 1]) }
  predicate Stripped(s: string) { NoLeadingSpace(s) && NoTrailingSpace(s) }
  predicate AllSpace(s: string) { forall i | 0 <= i < |s| :: IsSpace(s[i]) }

  /** `str.lstrip()`: drops exactly the leading whitespace. */
  function LStrip(s: string): (r: string)
    ensures |r| <= |s| && r == s[|s| - |r|..]
    ensures AllSpace(s[..|s| - |r|])
    ensures NoLeadingSpace(r)
    decreases |s|
  {
    if |s| > 0 && IsSpace(s[0]) then LStrip(s[1..]) else s
  }

  /** Left-stripping a text that ends in a visible character keeps that last character. */
  lemma LStripKeepsLast(s: string)
    requires |s| > 0 && !IsSpace(s[|s| - 1])
    ensures LStrip(s) != "" && LStrip(s)[|LStrip(s)| - 1] == s[|s| - 1]
  {
    var r := LStrip(s);
    if r != "" {
      assert r[|r| - 1] == s[|s| - |r|..][|r| - 1];
    }
  }

  /** `str.rstrip()`: drops exactly the trailing whitespace. */
  function RStrip(s: string): (r: string)
    ensures |r| <= |s| && r == s[..|r|]
    ensures AllSpace(s[|r|..])
    ensures NoTrailingSpace(r)
    decreases |s|
  {
    if |s| > 0 && IsSpace(s[|s| - 1]) then RStrip(s[..|s| - 1]) else s
  }

  /** `str.strip()`. */
  function Strip(s: string): (r: string)
    ensures Stripped(r)
    ensures |r| <= |s|
    ensures r == "" <==> AllSpace(s)
    ensures Stripped(s) ==> r == s
  {
    var l := LStrip(s);
    StripEmptyIffBlank(s, l);
    StripKeepsStripped(s, l);
    assert |RStrip(l)| > 0 ==> RStrip(l)[0] == l[0];
    RStrip(l)
  }

  lemma StripEmptyIffBlank(s: string, l: string)
    requires l == LStrip(s)
    ensures RStrip(l) == "" <==> AllSpace(s)
  {
    if RStrip(l) == "" {
      assert s[..|s|] == s;
    }
  }

  lemma StripKeepsStripped(s: string, l: string)
    requires l == LStrip(s)
    ensures Stripped(s) ==> RStrip(l) == s
  {
  }

  /** `not s.strip()`: the text is empty or whitespace only. */
  predicate IsBlank(s: string) { AllSpace(s) }

  // ----------------------------------------------------- whitespace collapse

  /** The characters of a text other than whitespace. */
  function Visible(s: string): string
  {
    if |s| == 0 then "" else (if IsSpace(s[0]) then "" else [s[0]]) + Visible(s[1..])
  }

  lemma {:induction false} VisibleConcat(a: string, b: string)
    ensures Visible(a + b) == Visible(a) + Visible(b)
    decreases |a|
  {
    if |a| > 0 {
      var h := if IsSpace(a[0]) then "" else [a[0]];
      assert (a + b)[0] == a[0];
      assert (a + b)[1..] == a[1..] + b;
      VisibleConcat(a[1..], b);
      assert Visible(a + b) == h + Visible(a[1..] + b);
      assert Visible(a) == h + Visible(a[1..]);
    } else {
      assert a + b == b;
    }
  }

  lemma {:induction false} VisibleOfSpace(a: string)
    requires AllSpace(a)
    ensures Visible(a) == ""
    decreases |a|
  {
    if |a| > 0 {
      VisibleOfSpace(a[1..]);
    }
  }

  /** Dropping leading whitespace keeps the visible characters. */
  lemma {:induction false} LStripKeepsVisible(s: string)
    ensures Visible(LStrip(s)) == Visible(s)
    decreases |s|
  {
    if |s| > 0 && IsSpace(s[0]) {
      LStripKeepsVisible(s[1..]);
    }
  }

  /**
   `re.sub(r"\s+", " ", s)`: every maximal whitespace run becomes one
   space. The result keeps the visible characters in order, holds no
   whitespace but `' '`, never two whitespace characters in a row, and
   starts with whitespace exactly when `s` does.
   */
  function CollapseSpaces(s: string): (r: string)
    ensures |r| <= |s|
    ensures |s| > 0 ==> |r| > 0 && (IsSpace(r[0]) <==> IsSpace(s[0]))
    ensures Visible(r) == Visible(s)
    ensures forall i | 0 <= i < |r| :: IsSpace(r[i]) ==> r[i] == ' '
    ensures forall i | 0 <= i < |r| - 1 :: !(IsSpace(r[i]) && IsSpace(r[i + 1]))
    decreases |s|
  {
    if |s| == 0 then ""
    else if IsSpace(s[0]) then
      var l := LStrip(s);
      var rest := CollapseSpaces(l);
      LStripKeepsVisible(s);
      assert |l| > 0 ==> !IsSpace(l[0]);
      VisibleConcat(" ", rest);
      " " + rest
    else
      var rest := CollapseSpaces(s[1..]);
      VisibleConcat([s[0]], rest);
      [s[0]] + rest
  }

  /** Text already in collapsed form (no whitespace but single spaces) is left as it is. */
  lemma {:induction false} CollapsedIsFixed(s: string)
    requires forall i | 0 <= i < |s| :: IsSpace(s[i]) ==> s[i] == ' '
    requires forall i | 0 <= i < |s| - 1 :: !(IsSpace(s[i]) && IsSpace(s[i + 1]))
    ensures CollapseSpaces(s) == s
    decreases |s|
  {
    if |s| > 0 {
      CollapsedIsFixed(s[1..]);
      if IsSpace(s[0]) {
        assert LStrip(s) == s[1..] by {
          if |s| > 1 { assert !IsSpace(s[1]); }
          assert LStrip(s) == LStrip(s[1..]);
        }
      }
      assert s == [s[0]] + s[1..];
    }
  }

  /** Collapsing twice is collapsing once. */
  lemma CollapseSpacesIdempotent(s: string)
    ensures CollapseSpaces(CollapseSpaces(s)) == CollapseSpaces(s)
  {
    CollapsedIsFixed(CollapseSpaces(s));
  }

  // ------------------------------------------------------------ split / join

  predicate HasChar(s: string, c: char) { exists i | 0 <= i < |s| :: s[i] == c }

  function IndexOfChar(s: string, c: char): (i: nat)
    requires HasChar(s, c)
    ensures i < |s| && s[i] == c
    ensures forall j | 0 <= j < i :: s[j] != c
    decreases |s|
  {
    if s[0] == c then 0 else 1 + IndexOfChar(s[1..], c)
  }

  /** `sep.join(parts)`. */
  function Join(parts: seq<string>, sep: string): string
  {
    if |parts| == 0 then ""
    else if |parts| == 1 then parts[0]
    else parts[0] + sep + Join(parts[1..], sep)
  }

  /** `s.split(c)` for a one-character separator. */
  function Split(s: string, c: char): (parts: seq<string>)
    ensures |parts| >= 1
    decreases |s|
  {
    if !HasChar(s, c) then [s]
    else
      var i := IndexOfChar(s, c);
      [s[..i]] + Split(s[i + 1..], c)
  }

  /** No part holds the separator. */
  lemma {:induction false} SplitPartsFree(s: string, c: char)
    ensures forall i | 0 <= i < |Split(s, c)| :: !HasChar(Split(s, c)[i], c)
    decreases |s|
  {
    if HasChar(s, c) {
      var i := IndexOfChar(s, c);
      SplitPartsFree(s[i + 1..], c);
      assert Split(s, c) == [s[..i]] + Split(s[i + 1..], c);
      assert !HasChar(s[..i], c);
    }
  }

  /** Joining the parts with the separator gives the string back. */
  lemma {:induction false} SplitJoins(s: string, c: char)
    ensures Join(Split(s, c), [c]) == s
    decreases |s|
  {
    if HasChar(s, c) {
      var i := IndexOfChar(s, c);
      var rest := Split(s[i + 1..], c);
      SplitJoins(s[i + 1..], c);
      assert Split(s, c) == [s[..i]] + rest;
      assert ([s[..i]] + rest)[1..] == rest;
      assert s == s[..i] + [c] + s[i + 1..];
    }
  }

  /** A character absent from the string is absent from every part. */
  lemma {:induction false} SplitPartsFreeOf(s: string, c: char, d: char)
    requires !HasChar(s, d)
    ensures forall i | 0 <= i < |Split(s, c)| :: !HasChar(Split(s, c)[i], d)
    decreases |s|
  {
    if HasChar(s, c) {
      var i := IndexOfChar(s, c);
      var t := s[i + 1..];
      forall k | 0 <= k < |t| ensures t[k] != d { assert t[k] == s[i + 1 + k]; }
      SplitPartsFreeOf(t, c, d);
      assert Split(s, c) == [s[..i]] + Split(s[i + 1..], c);
      assert forall k | 0 <= k < i :: s[..i][k] == s[k];
    }
  }

  /** The first `c` of `a + [c] + b`, when `a` holds none, is at `|a|`. */
  lemma IndexAfterFree(a: string, c: char, b: string)
    requires !HasChar(a, c)
    ensures HasChar(a + [c] + b, c) && IndexOfChar(a + [c] + b, c) == |a|
  {
    var s := a + [c] + b;
    assert s[|a|] == c;
    assert forall j | 0 <= j < |a| :: s[j] == a[j];
  }

  /** Splitting the join of non-empty, separator-free parts gives the parts back. */
  lemma {:induction false} JoinSplits(parts: seq<string>, c: char)
    requires |parts| >= 1
    requires forall i | 0 <= i < |parts| :: !HasChar(parts[i], c)
    ensures Split(Join(parts, [c]), c) == parts
    decreases |parts|
  {
    if |parts| > 1 {
      var rest := Join(parts[1..], [c]);
      JoinSplits(parts[1..], c);
      IndexAfterFree(parts[0], c, rest);
      var s := parts[0] + [c] + rest;
      assert Join(parts, [c]) == s;
      assert s[..|parts[0]|] == parts[0];
      assert s[|parts[0]| + 1..] == rest;
      assert parts == [parts[0]] + parts[1..];
    }
  }

  /** `a + b + c` starts with `a` and ends with `c`. */
  lemma Affixes(a: string, b: string, c: string)
    ensures StartsWith(a + b + c, a) && EndsWith(a + b + c, c)
  {
    assert (a + b + c)[..|a|] == a;
    assert (a + b + c)[|a + b + c| - |c|..] == c;
  }

  /** Parts and a separator free of `c` join into a string free of `c`. */
  lemma {:induction false} JoinFree(parts: seq<string>, sep: string, c: char)
    requires forall i | 0 <= i < |parts| :: !HasChar(parts[i], c)
    requires !HasChar(sep, c)
    ensures !HasChar(Join(parts, sep), c)
    decreases |parts|
  {
    if |parts| > 1 {
      JoinFree(parts[1..], sep, c);
      var a, b := parts[0] + sep, Join(parts[1..], sep);
      forall k | 0 <= k < |a + b| ensures (a + b)[k] != c {
        if k < |parts[0]| { assert (a + b)[k] == parts[0][k]; }
        else if k < |a| { assert (a + b)[k] == sep[k - |parts[0]|]; }
        else { assert (a + b)[k] == b[k - |a|]; }
      }
    }
  }

  // ------------------------------------------------------------- splitlines

  predicate HasLineBreak(s: string) { exists i | 0 <= i < |s| :: IsLineBreak(s[i]) }

  function FirstLineBreak(s: string): (i: nat)
    requires HasLineBreak(s)
    ensures i < |s| && IsLineBreak(s[i])
    ensures forall j | 0 <= j < i :: !IsLineBreak(s[j])
    decreases |s|
  {
    if IsLineBreak(s[0]) then 0 else 1 + FirstLineBreak(s[1..])
  }

  /** `str.splitlines()`: `\r\n` counts as one boundary and no empty last line is produced. */
  function SplitLines(s: string): (lines: seq<string>)
    ensures forall k | 0 <= k < |lines| :: !HasLineBreak(lines[k])
    ensures |s| == 0 <==> |lines| == 0
    ensures s != "" && !HasLineBreak(s) ==> lines == [s]
    decreases |s|
  {
    if |s| == 0 then []
    else if !HasLineBreak(s) then [s]
    else
      var i := FirstLineBreak(s);
      var skip := if s[i] == '\r' && i + 1 < |s| && s[i + 1] == '\n' then 2 else 1;
      [s[..i]] + SplitLines(s[i + skip..])
  }

  /** The first boundary of `a + [c] + b`, when `a` holds none, is at `|a|`. */
  lemma FirstBreakAfterLine(a: string, c: char, b: string)
    requires !HasLineBreak(a) && IsLineBreak(c)
    ensures HasLineBreak(a + [c] + b) && FirstLineBreak(a + [c] + b) == |a|
  {
    var s := a + [c] + b;
    assert s[|a|] == c;
    assert forall j | 0 <= j < |a| :: s[j] == a[j];
  }

  /**
   A line ended by a single-character boundary (anything but the `\r` of a
   `\r\n` pair) is the first line, and the lines after it are those of the
   rest.
   */
  lemma SplitLinesAtBreak(a: string, c: char, b: string)
    requires !HasLineBreak(a) && IsLineBreak(c)
    requires !(c == '\r' && |b| > 0 && b[0] == '\n')
    ensures SplitLines(a + [c] + b) == [a] + SplitLines(b)
  {
    var s := a + [c] + b;
    FirstBreakAfterLine(a, c, b);
    assert s[..|a|] == a;
    assert s[|a| + 1..] == b;
  }

  /** `\r\n` ends a line as one boundary. */
  lemma SplitLinesAtCrLf(a: string, b: string)
    requires !HasLineBreak(a)
    ensures SplitLines(a + "\r\n" + b) == [a] + SplitLines(b)
  {
    var s := a + "\r\n" + b;
    assert s == a + ['\r'] + (['\n'] + b);
    FirstBreakAfterLine(a, '\r', ['\n'] + b);
    assert s[|a| + 1] == '\n';
    assert s[..|a|] == a;
    assert s[|a| + 2..] == b;
  }

  // ---------------------------------------------------------------- decimal

  function DigitChar(d: nat): char
    requires d < 10
  {
    ('0' as int + d) as char
  }

  predicate AllDigits(s: string) { forall i | 0 <= i < |s| :: IsDigit(s[i]) }

  /** `str(n)` for a natural number. */
  function NatToString(n: nat): (s: string)
    ensures |s| >= 1 && AllDigits(s)
    ensures n < 10 <==> |s| == 1
    ensures n > 0 ==> s[0] != '0'
    decreases n
  {
    if n < 10 then [DigitChar(n)] else NatToString(n / 10) + [DigitChar(n % 10)]
  }

  /** Different numbers render differently, so a decimal counter is a unique tag. */
  lemma {:induction false} NatToStringInjective(a: nat, b: nat)
    requires NatToString(a) == NatToString(b)
    ensures a == b
    decreases a
  {
    var sa, sb := NatToString(a), NatToString(b);
    if a < 10 || b < 10 {
      assert |sa| == 1 && |sb| == 1;
      assert a < 10 && b < 10;
      assert sa[0] == DigitChar(a) && sb[0] == DigitChar(b);
    } else {
      assert sa[|sa| - 1] == DigitChar(a % 10);
      assert sb[|sb| - 1] == DigitChar(b % 10);
      assert a % 10 == b % 10;
      assert NatToString(a / 10) == sa[..|sa| - 1];
      assert NatToString(b / 10) == sb[..|sb| - 1];
      NatToStringInjective(a / 10, b / 10);
    }
  }

  /**
   Python's `f"{i:06d}"` for a natural: the decimal digits of `n` behind
   as many zeros as bring the string to six characters (none when `n`
   already has six or more digits).
   */
  function Pad6(n: nat): (s: string)
    ensures |s| == Seqs.Max(6, |NatToString(n)|)
    ensures AllDigits(s)
    ensures s[|s| - |NatToString(n)|..] == NatToString(n)
    ensures forall i | 0 <= i < |s| - |NatToString(n)| :: s[i] == '0'
  {
    var d := NatToString(n);
    if |d| >= 6 then d else seq(6 - |d|, _ => '0') + d
  }

  /** Different numbers pad differently, so `f"{i:06d}"` tells turns apart. */
  lemma Pad6Injective(a: nat, b: nat)
    requires Pad6(a) == Pad6(b)
    ensures a == b
  {
    var da, db, p := NatToString(a), NatToString(b), Pad6(a);
    if |da| == |db| {
      assert da == p[|p| - |da|..] == db;
      NatToStringInjective(a, b);
    } else if |da| < |db| {
      PaddedLengthsDiffer(a, b);
    } else {
      PaddedLengthsDiffer(b, a);
    }
  }

  /** Two numbers of different lengths pad to different strings. */
  lemma PaddedLengthsDiffer(a: nat, b: nat)
    requires |NatToString(a)| < |NatToString(b)|
    ensures Pad6(a) != Pad6(b)
  {
    var da, db := NatToString(a), NatToString(b);
    var pa, pb := Pad6(a), Pad6(b);
    if |pa| == |pb| {
      // Both are six long; at the first digit of `b`, `a` is still padding.
      var i := |pb| - |db|;
      assert b > 0;
      assert pb[i] == db[0] != '0';
      assert i < |pa| - |da| && pa[i] == '0';
    }
  }
}

=== FILE: turn_store.dfy ===
/**
 Recording one chat turn in long-term memory (`add_turn` in
 `auto_memory.py`, `_add_turn` in `orion_ltm_integration.py`): the raw turn
 is upserted into the raw episodic tier under a content-derived id, and
 its one or two memory points into the sentenced tier, each under an id
 derived from the raw id and the point's text.

 The two collections are maps from id to record; `upsert` overwrites. The
 clock and the UTC formatting (`%Y-%m-%dT%H:%M:%SZ`) are parameters.
 */
module TurnStore {
  import opened Wrappers
  import opened Text
  import opened Seqs
  import opened Hashing
  import opened MemorySentencer

  /** A raw turn: its document plus the metadata `{"type": "episodic", role, timestamp, session_id}`. */
  datatype RawRecord = RawRecord(document: string, kind: string, role: string, timestamp: string, sessionId: string)

  /**
   A memory point as stored: the condensed text as document, the point's
   fields as metadata, plus `type`, `parent_id` and `source`.
   */
  datatype SentRecord = SentRecord(document: string, kind: string, parentId: string, point: Point, source: string)

  datatype Store = Store(raw: map<string, RawRecord>, sent: map<string, SentRecord>)

  /** `{"raw_id": ..., "sentenced_ids": [...]}`. */
  datatype TurnResult = TurnResult(rawId: Option<string>, sentencedIds: seq<string>)

  datatype Outcome = Outcome(store: Store, result: TurnResult)

  /** `time.time()` and the UTC formatter. */
  datatype Clock = Clock(now: real, formatUtc: real -> string)

  const RawKind := "episodic"
  const SentKind := "episodic_sentence"
  const SentSource := "sentencer:v1"
  const MaxPointsPerTurn := 2

  // ------------------------------------------------------------- upsert

  /** `upsert(ids=ks, ...)`: later entries of the batch win. */
  function UpsertAll<V>(m: map<string, V>, ks: seq<string>, vs: seq<V>): (r: map<string, V>)
    requires |ks| == |vs|
    ensures r.Keys == m.Keys + set i | 0 <= i < |ks| :: ks[i]
    ensures forall k | k in m && k !in ks :: r[k] == m[k]
    ensures |ks| > 0 ==> r[ks[|ks| - 1]] == vs[|vs| - 1]
    decreases |ks|
  {
    if |ks| == 0 then m
    else
      var n := |ks| - 1;
      var r := UpsertAll(m, ks[..n], vs[..n]);
      assert forall i | 0 <= i < |ks| :: ks[i] in ks[..n] || ks[i] == ks[n];
      r[ks[n] := vs[n]]
  }

  /** A batch upsert lays the batch over the old map. */
  lemma {:induction false} UpsertAllIsOverlay<V>(m: map<string, V>, ks: seq<string>, vs: seq<V>)
    requires |ks| == |vs|
    ensures UpsertAll(m, ks, vs) == m + UpsertAll(map[], ks, vs)
    decreases |ks|
  {
    if |ks| > 0 {
      var n := |ks| - 1;
      UpsertAllIsOverlay(m, ks[..n], vs[..n]);
    }
  }

  /** Upserting the same batch twice is the same as upserting it once. */
  lemma UpsertAllIdempotent<V>(m: map<string, V>, ks: seq<string>, vs: seq<V>)
    requires |ks| == |vs|
    ensures UpsertAll(UpsertAll(m, ks, vs), ks, vs) == UpsertAll(m, ks, vs)
  {
    var b := UpsertAll(map[], ks, vs);
    UpsertAllIsOverlay(m, ks, vs);
    UpsertAllIsOverlay(m + b, ks, vs);
    assert (m + b) + b == m + b;
  }

  // ------------------------------------------------------------- one turn

  /** `timestamp or time.time()`: a missing or zero timestamp means now. */
  function TurnTime(timestamp: Option<real>, now: real): real {
    if timestamp.Some? && timestamp.value != 0.0 then timestamp.value else now
  }

  /** `f"[{role} at {when}]: {text}"`. */
  function RawDocument(role: string, when: string, text: string): string {
    "[" + role + " at " + when + "]: " + text
  }

  function SentenceIds(sha1: Sha1, rawId: string, pts: seq<Point>): (ids: seq<string>)
    ensures |ids| == |pts|
    ensures forall i | 0 <= i < |ids| :: ids[i] == SentenceId(sha1, rawId, pts[i].text)
  {
    seq(|pts|, i requires 0 <= i < |pts| => SentenceId(sha1, rawId, pts[i].text))
  }

  function SentRecords(rawId: string, pts: seq<Point>): (recs: seq<SentRecord>)
    ensures |recs| == |pts|
    ensures forall i | 0 <= i < |recs| :: recs[i] == SentRecord(pts[i].text, SentKind, rawId, pts[i], SentSource)
  {
    seq(|pts|, i requires 0 <= i < |pts| => SentRecord(pts[i].text, SentKind, rawId, pts[i], SentSource))
  }

  /** The points a non-blank turn produces. */
  function TurnPoints(text: string, role: string, sessionId: string, when: string, rule: PronounRule): seq<Point> {
    MakeMemoryPoints(text, role, sessionId, when, MaxPointsPerTurn, rule)
  }

  /**
   `add_turn(role, text, session_id=..., timestamp=...)`: a blank turn
   stores nothing and yields no raw id; any other turn is stored by
   `Stored` at the turn's formatted time.
   */
  function AddTurn(store: Store, sha1: Sha1, clock: Clock, role: string, text: string, sessionId: string,
                   timestamp: Option<real>, rule: PronounRule): (out: Outcome)
    ensures out.result.rawId.None? <==> IsBlank(text)
    ensures IsBlank(text) ==> out.store == store && out.result.sentencedIds == []
  {
    if IsBlank(text) then Outcome(store, TurnResult(None, []))
    else Stored(store, sha1, role, text, sessionId, clock.formatUtc(TurnTime(timestamp, clock.now)), rule)
  }

  /** The stores of a non-blank turn recorded at `when`. */
  function Stored(store: Store, sha1: Sha1, role: string, text: string, sessionId: string, when: string,
                  rule: PronounRule): (out: Outcome)
    ensures out.result.rawId.Some?
  {
    var rawId := EpisodicId(sha1, sessionId, role, text, when);
    var pts := TurnPoints(text, role, sessionId, when, rule);
    var sids := SentenceIds(sha1, rawId, pts);
    Outcome(Store(store.raw[rawId := RawRecord(RawDocument(role, when, text), RawKind, role, when, sessionId)],
                  UpsertAll(store.sent, sids, SentRecords(rawId, pts))),
            TurnResult(Some(rawId), sids))
  }

  /**
   A non-blank turn: the raw record is stored under
   `_episodic_id(session_id, role, text, when)`, and each point under
   `_sentence_id(raw_id, point_text)` with `parent_id` pointing back at the
   raw record.
   */
  lemma AddTurnStores(store: Store, sha1: Sha1, clock: Clock, role: string, text: string, sessionId: string,
                      timestamp: Option<real>, rule: PronounRule)
    requires !IsBlank(text)
    ensures var out := AddTurn(store, sha1, clock, role, text, sessionId, timestamp, rule);
      var when := clock.formatUtc(TurnTime(timestamp, clock.now));
      var rawId := EpisodicId(sha1, sessionId, role, text, when);
      var pts := TurnPoints(text, role, sessionId, when, rule);
      && out.result.rawId == Some(rawId)
      && out.store.raw == store.raw[rawId := RawRecord(RawDocument(role, when, text), RawKind, role, when, sessionId)]
      && |out.result.sentencedIds| == |pts| <= MaxPointsPerTurn
      && (forall i | 0 <= i < |pts| ::
            var sid := out.result.sentencedIds[i];
            IsTag(sid, "sent_", 16) && sid == SentenceId(sha1, rawId, pts[i].text) && sid in out.store.sent)
      && (forall k | k in out.store.sent && k !in store.sent :: out.store.sent[k].parentId == rawId)
  {
    var when := clock.formatUtc(TurnTime(timestamp, clock.now));
    var rawId := EpisodicId(sha1, sessionId, role, text, when);
    var pts := TurnPoints(text, role, sessionId, when, rule);
    SentBatch(store.sent, sha1, rawId, pts);
  }

  /** The sentenced records of one turn: tagged ids, all stored, all pointing at the raw record. */
  lemma SentBatch(sent: map<string, SentRecord>, sha1: Sha1, rawId: string, pts: seq<Point>)
    ensures var sids := SentenceIds(sha1, rawId, pts); var r := UpsertAll(sent, sids, SentRecords(rawId, pts));
      && (forall i | 0 <= i < |pts| :: IsTag(sids[i], "sent_", 16) && sids[i] in r)
      && forall k | k in r && k !in sent :: r[k].parentId == rawId
  {
    var sids, recs := SentenceIds(sha1, rawId, pts), SentRecords(rawId, pts);
    var r := UpsertAll(sent, sids, recs);
    forall i | 0 <= i < |pts| ensures IsTag(sids[i], "sent_", 16) && sids[i] in r {
      assert sids[i] in set j | 0 <= j < |sids| :: sids[j];
    }
    UpsertAllIsOverlay(sent, sids, recs);
    NewRecordsPointAt(sids, recs, rawId);
  }

  /** Only the sentence ids just stored are touched; with none, the sentenced tier is unchanged. */
  lemma AddTurnScope(store: Store, sha1: Sha1, clock: Clock, role: string, text: string, sessionId: string,
                     timestamp: Option<real>, rule: PronounRule)
    ensures var out := AddTurn(store, sha1, clock, role, text, sessionId, timestamp, rule);
      && out.store.sent.Keys == store.sent.Keys + (set i | 0 <= i < |out.result.sentencedIds| :: out.result.sentencedIds[i])
      && (forall k | k in store.sent && k !in out.result.sentencedIds :: out.store.sent[k] == store.sent[k])
      && (out.result.sentencedIds == [] ==> out.store.sent == store.sent)
  {
  }

  /** Every record of a batch built for one raw turn points back at it. */
  lemma {:induction false} NewRecordsPointAt(ks: seq<string>, recs: seq<SentRecord>, rawId: string)
    requires |ks| == |recs|
    requires forall i | 0 <= i < |recs| :: recs[i].parentId == rawId
    ensures forall k | k in UpsertAll(map[], ks, recs) :: UpsertAll(map[], ks, recs)[k].parentId == rawId
    decreases |ks|
  {
    if |ks| > 0 {
      var n := |ks| - 1;
      NewRecordsPointAt(ks[..n], recs[..n], rawId);
    }
  }

  /**
   Recording the same turn twice, with an explicit timestamp, changes
   nothing the second time (whatever the clock says): ids are derived from
   content and time, and upsert overwrites.
   */
  lemma AddTurnIdempotent(store: Store, sha1: Sha1, c1: Clock, c2: Clock, role: string, text: string,
                          sessionId: string, t: real, rule: PronounRule)
    requires t != 0.0 && c1.formatUtc == c2.formatUtc
    ensures var first := AddTurn(store, sha1, c1, role, text, sessionId, Some(t), rule);
      AddTurn(first.store, sha1, c2, role, text, sessionId, Some(t), rule) == first
  {
    if !IsBlank(text) {
      var when := c1.formatUtc(t);
      assert c2.formatUtc(TurnTime(Some(t), c2.now)) == when;
      StoredIdempotent(store, sha1, role, text, sessionId, when, rule);
    }
  }

  lemma StoredIdempotent(store: Store, sha1: Sha1, role: string, text: string, sessionId: string, when: string,
                         rule: PronounRule)
    ensures var first := Stored(store, sha1, role, text, sessionId, when, rule);
      Stored(first.store, sha1, role, text, sessionId, when, rule) == first
  {
    var rawId := EpisodicId(sha1, sessionId, role, text, when);
    var rec := RawRecord(RawDocument(role, when, text), RawKind, role, when, sessionId);
    var pts := TurnPoints(text, role, sessionId, when, rule);
    var sids, recs := SentenceIds(sha1, rawId, pts), SentRecords(rawId, pts);
    UpsertAllIdempotent(store.sent, sids, recs);
    assert store.raw[rawId := rec][rawId := rec] == store.raw[rawId := rec];
  }

  /**
   The two copies of the turn recorder (the sentencer module's pronoun
   pattern and the inlined one) store the same records.
   */
  lemma AddTurnRuleIndependent(store: Store, sha1: Sha1, clock: Clock, role: string, text: string,
                               sessionId: string, timestamp: Option<real>)
    ensures AddTurn(store, sha1, clock, role, text, sessionId, timestamp, Anchored)
         == AddTurn(store, sha1, clock, role, text, sessionId, timestamp, WordBounded)
  {
    var when := clock.formatUtc(TurnTime(timestamp, clock.now));
    InlinedCopyAgrees(text, role, sessionId, when, MaxPointsPerTurn);
  }
}

=== FILE: web_common.dfy ===
/**
 What the two web crawlers (`subcommands/orion_net_ingest.py` and the
 older `policy_loader.py`) have in common: the crawl policy, the code-level
 hard denylist, registrable-domain comparison, PDF detection, allowlist
 matching, URL normalisation, link extraction, fetching with retries and
 the canonical summary of a page.

 URL joining, parsing and unparsing, regular-expression matching of
 user-supplied patterns, HTTP and HTML parsing are not modelled: they are
 the fields of `Oracles` and the crawlers' environments.
 */
module WebCommon {
  import opened Wrappers
  import opened Text
  import opened Seqs
  import opened Hashing

  // ------------------------------------------------------------- policy

  datatype Toggles = Toggles(internetEnabled: bool, storeWebToLtm: bool, allowPdfs: bool, quarantineMode: bool)

  datatype FetchPolicy = FetchPolicy(retries: int)

  datatype CrawlPolicy = CrawlPolicy(
    maxDepth: int, maxPages: int, sameDomainOnly: bool, samePathPreferred: bool, followPdfLinks: bool)

  /** The policy fields the crawlers read; `sources.denylist` / `sources.allowlist` default to `[]`. */
  datatype Policy = Policy(toggles: Toggles, fetch: FetchPolicy, crawl: CrawlPolicy,
                           denylist: seq<string>, allowlist: seq<string>)

  /** The dataclass defaults. */
  const DefaultToggles := Toggles(true, true, false, false)
  const DefaultFetch := FetchPolicy(1)
  const DefaultCrawl := CrawlPolicy(1, 10, true, true, false)

  /** PDFs may be followed when either switch allows it. */
  predicate PdfsAllowed(policy: Policy) {
    policy.toggles.allowPdfs || policy.crawl.followPdfLinks
  }

  /** `min(ceiling, override if override is not None else default)`. */
  function Clamp(ceiling: int, override: Option<int>, default: int): (r: int)
    ensures r <= ceiling
    ensures r == ceiling || r == override.GetOr(default)
    ensures override.GetOr(default) <= ceiling ==> r == override.GetOr(default)
  {
    Min(ceiling, override.GetOr(default))
  }

  const DepthCeiling := 5
  const PageCeiling := 100
  const MinText := 400
  const ExcerptLen := 2000

  // ------------------------------------------------------------- URLs

  /**
   `urlparse(u)`: the scheme, `hostname or ""`, the path, every other
   component lumped together, and the fragment.
   */
  datatype UrlParts = UrlParts(scheme: string, host: string, path: string, rest: string, fragment: string)

  datatype Oracles = Oracles(
    join: (string, string) -> Option<string>,   // urljoin(base, url); None when it raises
    parse: string -> Option<UrlParts>,          // urlparse; None when it raises
    unparse: UrlParts -> string,                // urlunparse
    fullmatch: (string, string) -> Option<bool>) // re.fullmatch(pattern, s) is not None; None on re.error

  /** `urlunparse` inverts `urlparse` on the parts it produced. */
  ghost predicate RoundTrips(o: Oracles) {
    forall p :: o.parse(o.unparse(p)) == Some(p)
  }

  predicate IsWebScheme(scheme: string) { scheme == "http" || scheme == "https" }

  /** `urlparse(urljoin(base, url))`, or `None` when either raises. */
  function Resolve(o: Oracles, url: string, base: string): Option<UrlParts> {
    match o.join(base, url)
    case None => None
    case Some(u) => o.parse(u)
  }

  /**
   `_normalize(url, base)` (`dropFragment`) and `normalize(url, base)`:
   resolve against `base`, refuse anything but http(s), and unparse,
   without the fragment in the newer crawler.
   */
  function Normalize(o: Oracles, url: string, base: string, dropFragment: bool): (r: Option<string>)
    ensures r.Some? <==> Resolve(o, url, base).Some? && IsWebScheme(Resolve(o, url, base).value.scheme)
  {
    match Resolve(o, url, base)
    case None => None
    case Some(p) =>
      if !IsWebScheme(p.scheme) then None
      else Some(o.unparse(if dropFragment then p.(fragment := "") else p))
  }

  /**
   When unparsing inverts parsing, a normalised URL parses back to an
   http(s) URL with the resolved host and path, and with no fragment exactly
   when `dropFragment` (otherwise with the resolved one).
   */
  lemma NormalizeParsesBack(o: Oracles, url: string, base: string, dropFragment: bool)
    requires RoundTrips(o)
    requires Normalize(o, url, base, dropFragment).Some?
    ensures var p := o.parse(Normalize(o, url, base, dropFragment).value);
      var q := Resolve(o, url, base).value;
      && p.Some? && IsWebScheme(p.value.scheme)
      && p.value.host == q.host && p.value.path == q.path
      && p.value.fragment == (if dropFragment then "" else q.fragment)
  {
    var q := Resolve(o, url, base).value;
    assert o.parse(o.unparse(if dropFragment then q.(fragment := "") else q))
        == Some(if dropFragment then q.(fragment := "") else q);
  }

  /** `urlparse(u).hostname or ""`, `""` when parsing raises. */
  function HostOf(o: Oracles, u: string): string {
    match o.parse(u)
    case None => ""
    case Some(p) => p.host
  }

  /** `urlparse(u).path`, `""` when parsing raises. */
  function PathOf(o: Oracles, u: string): string {
    match o.parse(u)
    case None => ""
    case Some(p) => p.path
  }

  /** `host.split(".")[-2:]`: the last two labels, or all of them if fewer. */
  function LastTwoLabels(host: string): (labels: seq<string>)
    ensures 1 <= |labels| <= 2 && |labels| <= |Split(host, '.')|
    ensures labels == Split(host, '.')[|Split(host, '.')| - |labels|..]
  {
    var parts := Split(host, '.');
    if |parts| >= 2 then parts[|parts| - 2..] else parts
  }

  /** `same_reg_domain(a, b)` / `_same_reg_domain(a, b)`: same last two host labels; `False` if parsing raises. */
  function SameRegDomain(o: Oracles, a: string, b: string): (r: bool)
    ensures r ==> o.parse(a).Some? && o.parse(b).Some?
    ensures r <==> o.parse(a).Some? && o.parse(b).Some? && LastTwoLabels(HostOf(o, a)) == LastTwoLabels(HostOf(o, b))
  {
    match (o.parse(a), o.parse(b))
    case (Some(pa), Some(pb)) => LastTwoLabels(pa.host) == LastTwoLabels(pb.host)
    case _ => false
  }

  /** Same registrable domain is an equivalence on the URLs that parse. */
  lemma SameRegDomainIsEquivalence(o: Oracles, a: string, b: string, c: string)
    ensures o.parse(a).Some? ==> SameRegDomain(o, a, a)
    ensures SameRegDomain(o, a, b) ==> SameRegDomain(o, b, a)
    ensures SameRegDomain(o, a, b) && SameRegDomain(o, b, c) ==> SameRegDomain(o, a, c)
  {
  }

  /** Splitting at a separator splits each side of it. */
  lemma {:induction false} SplitConcat(s: string, t: string, c: char)
    ensures Split(s + [c] + t, c) == Split(s, c) + Split(t, c)
    decreases |s|
  {
    if HasChar(s, c) {
      var i := IndexOfChar(s, c);
      SplitConcat(s[i + 1..], t, c);
      SplitConcatStep(s, t, c, i);
    } else {
      SplitConcatLast(s, t, c);
    }
  }

  /** The inductive step of `SplitConcat`: `s` has its first separator at `i`. */
  lemma SplitConcatStep(s: string, t: string, c: char, i: nat)
    requires i < |s| && s[i] == c && forall j | 0 <= j < i :: s[j] != c
    requires Split(s[i + 1..] + [c] + t, c) == Split(s[i + 1..], c) + Split(t, c)
    ensures Split(s + [c] + t, c) == Split(s, c) + Split(t, c)
  {
    var st := s + [c] + t;
    var a, rest := s[..i], s[i + 1..] + [c] + t;
    var r, u := Split(s[i + 1..], c), Split(t, c);
    assert Split(st, c) == [a] + Split(rest, c) by {
      DropOfConcat(s, [c] + t, i + 1);
      ConcatAssoc(s, [c], t);
      ConcatAssoc(s[i + 1..], [c], t);
      assert st[i + 1..] == rest;
      assert forall j | 0 <= j <= i :: st[j] == s[j];
      assert st[..i] == a;
      SplitAtFirst(st, c, i);
    }
    assert Split(s, c) == [a] + r by {
      SplitAtFirst(s, c, i);
    }
    ConcatAssoc([a], r, u);
  }

  lemma ConcatAssoc<T>(a: seq<T>, b: seq<T>, c: seq<T>)
    ensures a + (b + c) == (a + b) + c
  {
  }

  lemma DropOfConcat(s: string, x: string, k: nat)
    requires k <= |s|
    ensures (s + x)[k..] == s[k..] + x
  {
  }

  /** The base case of `SplitConcat`: `s` has no separator. */
  lemma SplitConcatLast(s: string, t: string, c: char)
    requires !HasChar(s, c)
    ensures Split(s + [c] + t, c) == Split(s, c) + Split(t, c)
  {
    var st := s + [c] + t;
    assert forall j | 0 <= j < |s| :: st[j] == s[j];
    SplitAtFirst(st, c, |s|);
    assert st[..|s|] == s;
    assert st[|s| + 1..] == t;
  }

  /** `Split` cuts at the first separator. */
  lemma SplitAtFirst(s: string, c: char, i: nat)
    requires i < |s| && s[i] == c && forall j | 0 <= j < i :: s[j] != c
    ensures Split(s, c) == [s[..i]] + Split(s[i + 1..], c)
  {
    IndexOfCharIsFirst(s, c, i);
  }

  lemma IndexOfCharIsFirst(s: string, c: char, i: nat)
    requires i < |s| && s[i] == c && forall j | 0 <= j < i :: s[j] != c
    ensures HasChar(s, c) && IndexOfChar(s, c) == i
  {
  }

  lemma TwoLabels(name: string, tld: string)
    requires !HasChar(name, '.') && !HasChar(tld, '.')
    ensures Split(name + "." + tld, '.') == [name, tld]
    ensures LastTwoLabels(name + "." + tld) == [name, tld]
  {
    assert name + "." + tld == name + ['.'] + tld;
    SplitConcat(name, tld, '.');
  }

  lemma SubdomainLabels(sub: string, name: string, tld: string)
    requires !HasChar(name, '.') && !HasChar(tld, '.')
    ensures LastTwoLabels(sub + "." + name + "." + tld) == [name, tld]
  {
    var d := name + "." + tld;
    TwoLabels(name, tld);
    assert sub + "." + name + "." + tld == sub + ['.'] + d;
    SplitConcat(sub, d, '.');
    var parts := Split(sub, '.') + [name, tld];
    assert parts[|parts| - 2..] == [name, tld];
  }

  /** Any sub-domain of a two-label domain shares its registrable domain: `en.wikipedia.org` and `wikipedia.org`. */
  lemma SubdomainSharesRegDomain(o: Oracles, a: string, b: string, sub: string, name: string, tld: string)
    requires !HasChar(name, '.') && !HasChar(tld, '.')
    requires o.parse(a).Some? && HostOf(o, a) == sub + "." + name + "." + tld
    requires o.parse(b).Some? && HostOf(o, b) == name + "." + tld
    ensures SameRegDomain(o, a, b)
  {
    TwoLabels(name, tld);
    SubdomainLabels(sub, name, tld);
  }

  /** `url.lower().endswith(".pdf")`. */
  predicate IsPdfUrl(url: string) {
    EndsWith(Lower(url), ".pdf")
  }

  lemma PdfTestIgnoresCase(url: string)
    ensures IsPdfUrl(url) <==> IsPdfUrl(Lower(url))
  {
    LowerIdempotent(url);
  }

  lemma LowerIdempotent(s: string)
    ensures Lower(Lower(s)) == Lower(s)
  {
  }

  // --------------------------------------------------- the hard denylist

  /** `re.fullmatch(r".*://.*\.captcha\..*", url)`: `.` does not match a newline. */
  predicate CaptchaUrl(url: string) {
    !HasChar(url, '\n') &&
    exists i, j | 0 <= i && i + 3 <= j <= |url| :: OccursAt(url, "://", i) && OccursAt(url, ".captcha.", j)
  }

  /** `re.fullmatch(r".*://pastebin\.com/.*", url)`. */
  predicate PastebinUrl(url: string) {
    !HasChar(url, '\n') && Contains(url, "://pastebin.com/")
  }

  /** `DENYLIST_HARD`: refused whatever the policy says. */
  predicate HardDenied(url: string) {
    CaptchaUrl(url) || PastebinUrl(url)
  }

  lemma PastebinIsHardDenied()
    ensures HardDenied("https://pastebin.com/raw/x")
  {
    var u, m := "https://pastebin.com/raw/x", "://pastebin.com/";
    assert u == "https" + m + "raw/x";
    assert u[5..5 + |m|] == m;
    assert OccursAt(u, m, 5);
  }

  lemma CaptchaIsHardDenied()
    ensures HardDenied("http://www.captcha.net/")
  {
    assert OccursAt("http://www.captcha.net/", "://", 4);
    assert OccursAt("http://www.captcha.net/", ".captcha.", 10);
  }

  lemma WikipediaIsNotHardDenied()
    ensures !HardDenied("https://en.wikipedia.org/wiki/Dafny")
  {
    var u := "https://en.wikipedia.org/wiki/Dafny";
    NoPastebinIn(u);
    NoCaptchaIn(u);
  }

  /** The sample article does not end in `.pdf`. */
  lemma WikipediaIsNotPdf()
    ensures !IsPdfUrl("https://en.wikipedia.org/wiki/Dafny")
  {
    var u := "https://en.wikipedia.org/wiki/Dafny";
    assert Lower(u)[|u| - 1] == LowerChar('y') == 'y';
    assert Lower(u)[|u| - 4..][3] == 'y';
  }

  /** A language edition's host is admitted by the `wikipedia.org` entry. */
  lemma WikipediaHostAllowed()
    ensures AllowedByList(["wikipedia.org"], "en.wikipedia.org")
  {
    assert "en.wikipedia.org" == "en" + ".wikipedia.org";
    assert AllowMatch(["wikipedia.org"][0], "en.wikipedia.org");
  }

  /** No `://` in `u` is followed by a `p`, so `u` holds no `://pastebin.com/`. */
  lemma NoPastebinIn(u: string)
    requires forall i | 0 <= i < |u| - 3 :: u[i] == ':' ==> u[i + 3] != 'p'
    ensures forall i | 0 <= i <= |u| :: !OccursAt(u, "://pastebin.com/", i)
  {
    forall i | 0 <= i <= |u| ensures !OccursAt(u, "://pastebin.com/", i) {
      OccursAtChar(u, "://pastebin.com/", i, 0);
      OccursAtChar(u, "://pastebin.com/", i, 3);
    }
  }

  /** No `.` in `u` is followed by a `c`, so `u` holds no `.captcha.`. */
  lemma NoCaptchaIn(u: string)
    requires forall j | 0 <= j < |u| - 1 :: u[j] == '.' ==> u[j + 1] != 'c'
    ensures forall i | 0 <= i <= |u| :: !OccursAt(u, ".captcha.", i)
  {
    forall i | 0 <= i <= |u| ensures !OccursAt(u, ".captcha.", i) {
      OccursAtChar(u, ".captcha.", i, 0);
      OccursAtChar(u, ".captcha.", i, 1);
    }
  }

  /** An occurrence of `sub` at `i` fixes the character at `i + k`. */
  lemma OccursAtChar(s: string, sub: string, i: nat, k: nat)
    requires k < |sub|
    ensures OccursAt(s, sub, i) ==> s[i + k] == sub[k]
  {
    if OccursAt(s, sub, i) {
      assert s[i..i + |sub|][k] == s[i + k];
    }
  }

  // ------------------------------------------------------ allowlist

  /** One allowlist entry admits `host`: a `*.` suffix, the exact host, or any Wikipedia sub-domain. */
  predicate AllowMatch(a: string, host: string) {
    (StartsWith(a, "*.") && EndsWith(host, a[1..]))
    || a == host
    || (a == "wikipedia.org" && EndsWith(host, ".wikipedia.org"))
  }

  /** A non-empty allowlist admits only hosts some entry matches. */
  predicate AllowedByList(allow: seq<string>, host: string) {
    |allow| == 0 || exists k | 0 <= k < |allow| :: AllowMatch(allow[k], host)
  }

  // --------------------------------------------------------------- links

  /** `urlparse(seed).path.rstrip("/")`. */
  function TrimSlashes(s: string): (r: string)
    ensures |r| <= |s| && r == s[..|r|]
    ensures |r| == 0 || r[|r| - 1] != '/'
    ensures forall i | |r| <= i < |s| :: s[i] == '/'
    decreases |s|
  {
    if |s| > 0 && s[|s| - 1] == '/' then TrimSlashes(s[..|s| - 1]) else s
  }

  /** The path every link must extend under the same-path preference. */
  function BasePath(o: Oracles, seed: string): string {
    TrimSlashes(PathOf(o, seed))
  }

  /** The filters `_extract_links` applies to one normalised href. */
  predicate KeepLink(o: Oracles, u: string, samePathPref: bool, seed: string, pdfOk: bool) {
    u != "" && (pdfOk || !IsPdfUrl(u)) && (!samePathPref || StartsWith(PathOf(o, u), BasePath(o, seed)))
  }

  /** The list `out` of `_extract_links`, before de-duplication. */
  function LinkCandidates(o: Oracles, hrefs: seq<string>, base: string, samePathPref: bool, seed: string,
                          pdfOk: bool, dropFragment: bool): (out: seq<string>)
    ensures forall i | 0 <= i < |out| ::
      KeepLink(o, out[i], samePathPref, seed, pdfOk) &&
      exists k | 0 <= k < |hrefs| :: Normalize(o, hrefs[k], base, dropFragment) == Some(out[i])
    ensures forall k | 0 <= k < |hrefs| ::
      var u := Normalize(o, hrefs[k], base, dropFragment);
      u.Some? && KeepLink(o, u.value, samePathPref, seed, pdfOk) ==> u.value in out
    decreases |hrefs|
  {
    if |hrefs| == 0 then []
    else
      var init := hrefs[..|hrefs| - 1];
      var out := LinkCandidates(o, init, base, samePathPref, seed, pdfOk, dropFragment);
      assert forall k | 0 <= k < |init| :: init[k] == hrefs[k];
      var u := Normalize(o, hrefs[|hrefs| - 1], base, dropFragment);
      if u.Some? && KeepLink(o, u.value, samePathPref, seed, pdfOk) then out + [u.value] else out
  }

  /**
   `_extract_links(html, base, same_path_pref, seed, ...)` given the
   page's hrefs: the kept links, each once, in first-occurrence order.
   */
  function ExtractLinks(o: Oracles, hrefs: seq<string>, base: string, samePathPref: bool, seed: string,
                        pdfOk: bool, dropFragment: bool): (links: seq<string>)
    ensures Distinct(links)
    ensures forall i | 0 <= i < |links| :: KeepLink(o, links[i], samePathPref, seed, pdfOk)
  {
    var out := LinkCandidates(o, hrefs, base, samePathPref, seed, pdfOk, dropFragment);
    DistinctKeysId(Dedup(out, Id));
    SubseqElements(Dedup(out, Id), out);
    Dedup(out, Id)
  }

  /**
   The extracted links are the kept candidates in first-occurrence order,
   none missing and none repeated.
   */
  lemma ExtractLinksOrder(o: Oracles, hrefs: seq<string>, base: string, samePathPref: bool, seed: string,
                          pdfOk: bool, dropFragment: bool)
    ensures var links := ExtractLinks(o, hrefs, base, samePathPref, seed, pdfOk, dropFragment);
      var out := LinkCandidates(o, hrefs, base, samePathPref, seed, pdfOk, dropFragment);
      && IsSubseq(links, out)
      && (forall i | 0 <= i < |out| :: out[i] in links)
      && (forall i | 0 <= i < |links| :: IsFirstWithKey(out, links[i], Id))
  {
    var out := LinkCandidates(o, hrefs, base, samePathPref, seed, pdfOk, dropFragment);
    var links := ExtractLinks(o, hrefs, base, samePathPref, seed, pdfOk, dropFragment);
    forall i | 0 <= i < |out| ensures out[i] in links {
      assert Id(out[i]) in KeySet(out, Id);
    }
  }

  /** Under the same-path preference every link lies under the seed's path. */
  lemma SamePathLinks(o: Oracles, hrefs: seq<string>, base: string, seed: string, pdfOk: bool, dropFragment: bool)
    ensures forall l | l in ExtractLinks(o, hrefs, base, true, seed, pdfOk, dropFragment) ::
      StartsWith(PathOf(o, l), BasePath(o, seed))
  {
  }

  // ------------------------------------------------------------- fetch

  /** An HTTP response: the status and the body. */
  datatype Response = Response(status: int, body: string)

  /** `r.status_code == 200 and r.content`; `None` is a `RequestException`. */
  predicate Succeeded(r: Option<Response>) {
    r.Some? && r.value.status == 200 && r.value.body != ""
  }

  /** `max(1, retries + 1)`. */
  function Tries(retries: int): (n: nat)
    ensures n >= 1
  {
    Max(1, retries + 1)
  }

  function FetchFrom(attempt: (string, nat) -> Option<Response>, url: string, k: nat, tries: nat): (r: Option<string>)
    ensures r.Some? <==> exists j | k <= j < tries :: Succeeded(attempt(url, j))
    ensures r.Some? ==> exists j | k <= j < tries ::
      Succeeded(attempt(url, j)) && r.value == attempt(url, j).value.body &&
      forall m | k <= m < j :: !Succeeded(attempt(url, m))
    decreases tries - k
  {
    if k >= tries then None
    else if Succeeded(attempt(url, k)) then Some(attempt(url, k).value.body)
    else FetchFrom(attempt, url, k + 1, tries)
  }

  /**
   `_fetch(url)` / `fetch(url)`: up to `max(1, retries + 1)` attempts; the
   body of the first successful one, `None` if none succeeds.
   */
  function FetchPage(attempt: (string, nat) -> Option<Response>, url: string, retries: int): (r: Option<string>)
    ensures r.Some? <==> exists j | 0 <= j < Tries(retries) :: Succeeded(attempt(url, j))
    ensures r.Some? ==> r.value != ""
  {
    FetchFrom(attempt, url, 0, Tries(retries))
  }

  // ----------------------------------------------------------- summary

  datatype Summary = Summary(
    facts: seq<string>, claims: seq<string>, quotes: seq<string>,
    date: string, source: string, whySaved: string, hash: string, rawExcerpt: string)

  /**
   `_summarize_canonical(text, source)`: empty fact lists, the first 2000
   characters as excerpt, and the first 12 hex digits of
   `sha256(source + excerpt)` as hash.
   */
  function Summarize(sha256: Sha256, date: string, text: string, source: string): (s: Summary)
    ensures |s.rawExcerpt| == Min(|text|, ExcerptLen) && StartsWith(text, s.rawExcerpt)
    ensures |s.hash| == 12 && IsHex(s.hash) && s.hash == sha256(source + s.rawExcerpt)[..12]
    ensures s.source == source && s.date == date && s.whySaved == "Web research ingest"
    ensures s.facts == [] && s.claims == [] && s.quotes == []
  {
    var excerpt := text[..Min(|text|, ExcerptLen)];
    Summary([], [], [], date, source, "Web research ingest", HexPrefix(sha256(source + excerpt), 12), excerpt)
  }

  /** Only the first 2000 characters of a page matter to its summary. */
  lemma SummaryDependsOnExcerpt(sha256: Sha256, date: string, t1: string, t2: string, source: string)
    requires t1[..Min(|t1|, ExcerptLen)] == t2[..Min(|t2|, ExcerptLen)]
    ensures Summarize(sha256, date, t1, source) == Summarize(sha256, date, t2, source)
  {
  }

  /** `not text or len(text) < 400` fails this. */
  predicate LongEnough(text: string) {
    text != "" && |text| >= MinText
  }
}

=== FILE: wrappers.dfy ===
/** Optional values, standing in for Python's `None`. */
module Wrappers {

  datatype Option<+T> = None | Some(value: T) {

    /** The value, or `default` when absent (Python's `x if x is not None else default`). */
    function GetOr(default: T): T {
      match this
      case Some(v) => v
      case None => default
    }
  }

  /** Python truthiness of an optional string: present and not empty. */
  predicate Truthy(x: Option<string>) { x.Some? && x.value != "" }

  /** `x or fallback` for an optional string. */
  function OrElse(x: Option<string>, fallback: string): (r: string)
    ensures Truthy(x) ==> r == x.value
    ensures !Truthy(x) ==> r == fallback
  {
    if Truthy(x) then x.value else fallback
  }
}
